=== FILE: README.md ===
# PrettyBom BOM processor in Dafny

PrettyBom reads a bill of materials (BOM) exported from a CAD tool. The
BOM is a list of parts. Each part is a row of named columns: a position
number such as `1-2-3`, a quantity, a part number and a name. The program
first validates the list: every quantity must be a digit string, and every
position must use one non-digit delimiter. It then derives facts about
each part:
- its parent and child positions;
- the number of sets and the total quantity to order;
- whether the part is production, fastener, purchased or junk;
- its type, its parent assembly and its file type.

Finally it orders the parts as a tree, with every assembly followed by its
sub-BOM.

The model follows the program's module structure:
- `Wrappers`: `Result`/`Option` and the Python exceptions the code raises, as an `Error` datatype.
- `Text`: the string primitives the code uses. This covers `isdigit`, `strip`, `split`, `join`, `upper`, `\d+` runs, and `int()` on digit strings.
- `Config`: the processor's settings. These are the column names, the position delimiter, the keyword settings, the normalized columns, the main assembly name and sets, and the fastener library.
- `Parts`: a part is its raw columns plus the sixteen derived attributes the constructor resets.
- `PositionDelimiter` and `Validator`: the part-list validator and its error messages.
- `Normalize` and `Keywords`: string normalisation and keyword-list cleaning.
- `Hierarchy`, `Quantity` and `Classify`: the pure content of the per-part functions in `functions/processor.py`.
- `ProcessorFunctions`: those functions as stages over the processor's part list, their director, and `create_bom_tree_list`.
- `ProcessorMethods`: the method-based processor in `models/bom_processor_methods.py`.
- `Lifecycle`: the processor's lifecycle. This covers initialisation, the `part_modifier` decorator, finishing and undoing.
- `Sorting`, `Tree`, `TreeList` and `Collection`: the key-based sorts, the in-place tree ordering loop, and the parts collection's orderings.
- `Boms` and `LegacyBoms`: the BOM and BOM-manager objects of the current and legacy code. Python object identity is modelled as an `Obj` with an id.
- `Legacy`: the processing and validation of the older single-module code in `models.py`.
- `Exporter`: picking the first imported file.

## Model

| member | source | states |
|---|---|---|
| PositionDelimiter.GetPositionDelimiter | web_app/functions/part_list_validator.py:37-48 | the result is no delimiter exactly when the string is all digits; it is a ValueError exactly when the string holds two distinct non-digit characters; otherwise it is the one non-digit character the string uses |
| PositionDelimiter.GetNumberDelimiter | web_app/functions/functions.py:18-22 | the result is exactly the set of non-digit characters of the stripped string |
| PositionDelimiter.IsPositionDelimiterUnique | web_app/functions/part_list_validator.py:10-27 | a part passes exactly when its position agrees with the delimiter established so far and, when it has to match an established delimiter, that delimiter is below code point 256 (the `is` test holds only for CPython's shared one-character strings); once established the delimiter never changes, and it is adopted from the first delimited position that passes |
| PositionDelimiter.EnDashRejectedAgain | web_app/functions/part_list_validator.py:18 | an en dash is adopted from the first part and rejected on the next part that uses it, while a hyphen is accepted again |
| PositionDelimiter.IsQuantityANumber | web_app/functions/part_list_validator.py:30-34 | true exactly when the quantity text is non-empty and every character is a digit |
| Validator.ValidateQuantities | web_app/models/processor_validator.py:28-37 | fails with AttributeError exactly when some part lacks the quantity column; otherwise the invalid list is exactly the parts, in list order, whose quantity is not a digit string, and a message is appended only when that list is non-empty |
| Validator.ValidatePositions | web_app/models/processor_validator.py:28-37 | fails exactly when some part lacks the position column; otherwise the invalid list is exactly the parts, in list order, whose position disagrees with the delimiter established by the parts before it, where agreeing with an established delimiter at or above code point 256 is impossible (the `is` comparison) |
| Validator.FinishValidation | web_app/models/processor_validator.py:39-41 | validation succeeds exactly when both invalid lists are empty |
| Validator.Run | web_app/models/processor_validator.py:48-51 | fails exactly when some part lacks the quantity or the position column; otherwise validation succeeds exactly when both invalid lists are empty |
| Validator.RunNoShortCircuit | web_app/models/processor_validator.py:48-51 | a failing quantity check does not stop the position check: both invalid lists are computed over the whole part list |
| Validator.FreshRunReportsZero | web_app/functions/part_list_validator.py:51-59 | on a fresh validator every message reports zero invalid parts, whatever the part list holds |
| Validator.StaleCountWitness | web_app/functions/part_list_validator.py:51-59 | one part with quantity "x" fails validation, yet the message says 0 invalid parts |
| Validator.RunCorrected | web_app/models/processor_validator.py:48-51 | with the count taken after the scan, each message reports the length of its invalid list |
| Validator.RunCorrectedAgrees | web_app/models/processor_validator.py:48-51 | the corrected run gives the same invalid lists and success flag as the run as written; only the counts in the messages differ |
| Normalize.NormalizeShape | web_app/functions/functions.py:11-15 | the normalised string has no leading or trailing blank and no two blanks in a row; every word starts with an upper-case letter and continues in lower case |
| Normalize.NormalizeIdempotent | web_app/functions/functions.py:11-15 | normalising an already normalised string gives it back unchanged |
| Normalize.NormalizeFixed | web_app/functions/functions.py:11-15 | a string already in normal form is a fixed point of normalisation |
| Normalize.NormalizedCapitalizes | web_app/functions/functions.py:11-15 | normalising a text that starts with a lower-case letter starts it with the upper-case letter |
| Normalize.LegacyNormalizeShape | web_app/functions.py:4-7 | the module's normaliser (shadowed by the package of the same name, so no import reaches it) leaves only words and single blanks between them, keeps every letter of the input, and never makes the string longer |
| Normalize.RetitledIsCurrent | web_app/models.py:601-606 | the older `_normalize_name`, which title-cases the package's `normalize_string` once more, gives exactly what `normalize_string` gives, already in normal form |
| Normalize.NormalizedIdempotent | web_app/models.py:601-606 | either column normalisation is idempotent |
| Keywords.CleanMembers | web_app/functions/functions.py:25-32 | a word is in the cleaned list exactly when some non-empty entry strips to it |
| Keywords.BlankEntrySurvives | web_app/functions/functions.py:25-32 | an entry of only blanks is kept and becomes the empty keyword |
| Keywords.CleanSetting | web_app/functions/processor.py:147-152 | a string setting is split on commas and then cleaned; a list setting is cleaned as it is; any other value raises TypeError |
| Keywords.CreateKeywordList | web_app/functions/functions.py:25-32 | a falsy setting gives no list; a truthy setting that is neither a string nor a list raises ValueError; otherwise the result is the cleaned list |
| Keywords.EmptyKeywordMatches | web_app/functions/processor.py:153-155 | once the empty keyword is in the list, every part number matches it |
| Parts.NewPart | web_app/models/part.py:6-29 | a new part has all sixteen derived attributes unset (None); every other column reads back as the keyword argument gave it |
| Parts.NewPartKeepsColumns | web_app/models/part.py:6-29 | for a column given once and not named like a derived attribute, getattr on the new part returns the value given |
| Parts.Column | web_app/models/part.py:6-29 | reading a column either fails with AttributeError or returns a value the part holds under that name |
| Parts.Columns | web_app/models/part.py:6-29 | reading a column of a list succeeds exactly when it succeeds for every part, and returns the values in list order |
| Parts.SetColumn | web_app/models/part.py:6-29 | setattr replaces exactly the value of the named column and leaves the order, names and other values unchanged |
| Parts.Vars | web_app/models/part.py:6-29 | vars(part) lists the raw column values first, in order, followed by one entry per derived attribute |
| Parts.TypeAttr | web_app/models/part.py:6-29 | the `type` attribute reads as a string exactly when a type is set; a type written by the classification reads as its name |
| Parts.NamedType | web_app/models/part.py:6-29 | the type a part's `type` text names; for a type written by the classification it is that type |
| Parts.TypeOfNameInverse | web_app/models/part.py:6-29 | reading back the name of a type gives the type |
| Parts.CapitalNamesNoType | web_app/models/part.py:6-29 | no type is named by a text starting with a capital letter |
| Hierarchy.ParentIds | web_app/functions/processor.py:40-48 | the parent ids are the proper segment prefixes of the position, shortest first; with no delimiter set, a position of more than one word raises AttributeError |
| Hierarchy.ParentIdIsPrefix | web_app/functions/processor.py:40-48 | every parent id is a proper prefix of the position and ends just before a delimiter |
| Hierarchy.ParentIdsOfParent | web_app/functions/processor.py:40-48 | the parent ids of the last parent are the part's own parent ids without the last one |
| Hierarchy.ParentIdsExample | web_app/functions/processor.py:40-48 | position 1-1-1 with delimiter '-' has the parent ids 1 and 1-1 |
| Hierarchy.ChildIds | web_app/functions/processor.py:71-84 | the child ids are, in list order, the positions with exactly one more segment whose leading segments equal the part's own |
| Hierarchy.ChildIdsExact | web_app/functions/processor.py:71-84 | a position is a child id exactly when it appears in the list and has the part's segments followed by one more |
| Hierarchy.ChildLastParent | web_app/functions/processor.py:71-84 | when one position extends another by one segment, the other is the last of its parent ids |
| Hierarchy.ParentById | web_app/functions/processor.py:62-68 | the result is the first part in list order with the given position; with none, the lookup raises IndexError |
| Quantity.Sets | web_app/functions/processor.py:99-112 | with no parent ids or an empty list, sets is the main assembly's sets; with parent ids not yet computed on a non-empty list, it raises TypeError |
| Quantity.SetsIsAncestorProduct | web_app/functions/processor.py:99-112 | when positions are unique, sets is the main assembly's sets times the product of the quantities of the part's ancestors |
| Quantity.SetsChain | web_app/functions/processor.py:99-112 | adding one more parent id multiplies sets by the quantity of the part at that id |
| Quantity.SetsCongruent | web_app/functions/processor.py:99-112 | lists whose parts have the same positions and quantities give the same sets |
| Quantity.SetsAgree | web_app/functions/processor.py:99-112 | sets depends only on the values the position and quantity readers return, not on how they read them |
| Quantity.ToOrder | web_app/functions/processor.py:115-122 | the total to order is the part's quantity times its sets; a non-integer quantity raises ValueError |
| Classify.GetType | web_app/functions/processor.py:125-140 | the type is junk, else production, else fastener, else purchased, in that priority; it is None when no flag is set |
| Classify.TypeTotalAfterPurchased | web_app/functions/processor.py:125-140 | once the purchased flag is set as the code sets it, every part gets a type |
| Classify.IsProductionNumber | web_app/functions/processor.py:143-158 | a part is production exactly when the cleaned keyword list is non-empty and some keyword occurs in the part number |
| Classify.IsFastener | web_app/functions/processor.py:161-174 | a part in whose values no library standard occurs is not a fastener; a fastener has a value naming a standard that also holds one of that standard's listed sizes |
| Classify.FastenerIff | web_app/functions/processor.py:161-174 | when standard f is the first library standard found in the values and value i is the last one naming it, the part is a fastener exactly when value i holds one of f's listed sizes |
| Classify.FirstFragmentDecides | web_app/functions/processor.py:161-174 | only the first matching library standard decides; later standards are never consulted |
| Classify.IsPurchased | web_app/functions/processor.py:177-183 | a part is purchased exactly when it is neither production nor a fastener |
| Classify.IsJunkByKeywords | web_app/functions/processor.py:186-201 | junk by keywords exactly when some keyword occurs in the part number, or in the name when the number is empty |
| Classify.IsJunkByEmptyFields | web_app/functions/processor.py:204-217 | junk by empty fields exactly when the field list is non-empty and every listed field is empty |
| Classify.IsJunkByNesting | web_app/functions/processor.py:220-231 | junk by nesting exactly when the policy is on, the part has a parent, and that parent is not production |
| Classify.IsJunk | web_app/functions/processor.py:234-240 | a part is junk exactly when at least one of the three junk flags is set |
| Classify.GetFileType | web_app/functions/processor.py:87-96 | the file type is assembly exactly when the part has children and is production, otherwise part; before the child ids are computed it raises TypeError |
| Classify.AssemblyNotJunk | web_app/functions/processor.py:87-96 | an assembly is never junk, a fastener or purchased |
| ProcessorFunctions.NormalizeStage | web_app/functions/processor.py:16-24 | without a list of columns to normalise it raises TypeError; otherwise every listed column the part has is normalised, including the text the parent assembly, the type and the file type read as, and nothing else changes |
| ProcessorFunctions.NormalizeColumn | web_app/functions/processor.py:16-24 | one listed column: a raw column is normalised in place, a missing one is skipped; a derived attribute that reads as a string gets its normalised text, and any other derived value raises TypeError |
| ProcessorFunctions.NormalizedDerived | web_app/functions/processor.py:16-24 | the derived attributes after normalising a list of columns: only the parent assembly, type and file type texts change, each normalised once when listed |
| ProcessorFunctions.NormalizeColumnsMeaning | web_app/functions/processor.py:16-24 | normalising the columns one after another gives each listed column normalised exactly once, however often it is listed |
| ProcessorFunctions.NormalizedTypeUnreadable | web_app/functions/processor.py:16-24 | listing `type` title-cases the name of a set type, so the type then reads as no known type and its sort key raises ValueError |
| ProcessorFunctions.ParentAssemblyStage | web_app/functions/processor.py:27-37 | a top-level part gets the main assembly name; any other part gets the part number of the first initial-list part at its last parent id; nothing else changes |
| ProcessorFunctions.ParentIdsStage | web_app/functions/processor.py:40-48 | succeeds exactly when the position can be read and, with no delimiter set, is a single word; writes the proper prefixes of the position and nothing else |
| ProcessorFunctions.ChildIdsStage | web_app/functions/processor.py:71-84 | succeeds exactly when the initial list exists and every position can be read; writes exactly the initial-list positions one segment below the part, and nothing else |
| ProcessorFunctions.FileTypeStage | web_app/functions/processor.py:87-96 | raises TypeError before the child ids are written; otherwise writes assembly exactly when the part has children and its type reads as "production", and nothing else |
| ProcessorFunctions.SetsStage | web_app/functions/processor.py:99-112 | raises TypeError without an initial list; otherwise succeeds exactly when the ancestor product can be computed, writes it and nothing else, and gives a part without parents the main assembly's sets |
| ProcessorFunctions.ToOrderStage | web_app/functions/processor.py:115-122 | succeeds exactly when the quantity is an integer and sets are written; then writes the quantity times the sets and nothing else |
| ProcessorFunctions.TypeStage | web_app/functions/processor.py:125-140 | writes junk if junk, else production if production, and no type at all when no flag is set; nothing else changes |
| ProcessorFunctions.ProductionStage | web_app/functions/processor.py:143-158 | succeeds exactly when the production test does, and writes its answer and nothing else |
| ProcessorFunctions.FastenerStage | web_app/functions/processor.py:161-174 | always writes a fastener flag and nothing else; the flag is true only when some library standard occurs in one of the part's values |
| ProcessorFunctions.PurchasedStage | web_app/functions/processor.py:177-183 | writes purchased as neither production nor fastener, and nothing else |
| ProcessorFunctions.JunkByKeywordsStage | web_app/functions/processor.py:186-201 | a malformed keyword setting raises TypeError; otherwise writes true exactly when some cleaned keyword occurs in the part number, or in the name when the number is empty; nothing else changes |
| ProcessorFunctions.JunkByEmptyFieldsStage | web_app/functions/processor.py:204-217 | a malformed field setting raises TypeError; otherwise writes true exactly when the cleaned field list is non-empty and every listed field is empty; nothing else changes |
| ProcessorFunctions.JunkByNestingStage | web_app/functions/processor.py:220-231 | with the policy off or for a top-level part writes false; otherwise writes the negation of the production test on the first initial-list part at the last parent id, without writing to the initial list |
| ProcessorFunctions.NestingWritesSnapshot | web_app/functions/processor.py:227-228 | as written, the nesting stage overwrites the parent's production flag inside the initial list |
| ProcessorFunctions.JunkStage | web_app/functions/processor.py:234-240 | writes junk as the disjunction of the three junk flags |
| ProcessorFunctions.Director | web_app/models/processor_director.py:28-45 | the initial list is the BOM's parts before the run; a failed run leaves the BOM's parts unchanged, a successful one sets them to the processed list, and undoing afterwards restores the parts the run started from |
| ProcessorFunctions.DirectorOutcome | web_app/models/processor_director.py:28-45 | a successful run keeps the number of parts, and each output part carries the parent ids, child ids, sets, order total, production flag and file type the stage definitions give for its input part |
| ProcessorFunctions.DirectorAsWritten | web_app/models/processor_director.py:28-45 | as written, the director fails with AttributeError on every processor |
| ProcessorFunctions.GetSubBom | web_app/functions/processor.py:243-260 | succeeds exactly when every part's position, parent ids, type key and number can be read; the result is exactly the parts one level below the part, in sub-BOM key order |
| ProcessorFunctions.SubBomOf | web_app/functions/processor.py:243-260 | a list part is in the sub-BOM exactly when it is one level below the part; the sub-BOM is sorted by descending type rank and number |
| ProcessorFunctions.CreateBomTreeList | web_app/functions/processor.py:263-280 | succeeds exactly when every part's position, parent ids, type key and number can be read; the result lists the parts in the tree order, the corrected one where the program's loop would not end (see Findings) |
| ProcessorFunctions.ViewsConsistent | web_app/functions/processor.py:263-280 | when every part's parent ids are the prefixes of its position, the generations and children the loop reads form a consistent tree |
| ProcessorFunctions.TreeListHoldsEachPartOnce | web_app/functions/processor.py:263-280 | with consistent parent ids, distinct positions, every part placed under its parent and depth at most 20, the tree list holds every part exactly once |
| ProcessorMethods.GetPartPosition | web_app/models/bom_processor_methods.py:51-55 | an unset column name raises the not-set error; otherwise the position column is read, and a missing column raises AttributeError |
| ProcessorMethods.GetPartNumber | web_app/models/bom_processor_methods.py:57-61 | an unset column name raises the not-set error; otherwise the part-number column is read |
| ProcessorMethods.GetPartQuantity | web_app/models/bom_processor_methods.py:63-71 | an unset column name raises the not-set error and a missing column AttributeError; otherwise the result is the integer int() reads, and text int() rejects raises the quantity-not-digit error |
| ProcessorMethods.GetPartName | web_app/models/bom_processor_methods.py:73-77 | an unset column name raises the not-set error; otherwise the name column is read |
| ProcessorMethods.AccessorsAgree | web_app/models/bom_processor_methods.py:51-77 | the position and quantity accessors return what the function-based code reads, with the quantity error standing for ValueError |
| ProcessorMethods.PosDelimiter | web_app/models/bom_processor_methods.py:37-49 | an all-digit position keeps the current delimiter; otherwise the check passes exactly when the position agrees with it, else raises the delimiter-not-unique error; a set delimiter is kept, an unset one adopts the position's own |
| ProcessorMethods.PosDelimiterAgreesWithValidator | web_app/models/bom_processor_methods.py:37-49 | on the raw position, as the part-list validator reads it: whenever the validator's check passes, the processor's (which strips the position first) passes too, and records the same delimiter exactly unless nothing was recorded, the stripped position is all digits and the raw one is not (the validator then adopts a padding blank); on an unpadded position the processor passes where the validator fails exactly when the position agrees with a delimiter already recorded at or above code point 256, which the validator's `is` comparison rejects; on a padded position exactly when the stripped position agrees with the recorded delimiter and the raw one does not, the validator passing a padded position only when all its separators are whitespace |
| ProcessorMethods.PaddedPositionRejected | web_app/functions/part_list_validator.py:17-18 | with '.' recorded, the validator rejects "1.1 " (the trailing blank is a second separator) while the processor accepts it and keeps '.' |
| ProcessorMethods.PaddedBlankAdopted | web_app/functions/part_list_validator.py:17-22 | with nothing recorded, the validator adopts the blank of " 12" as the delimiter while the processor records none |
| PositionDelimiter.PaddedValidatorAgrees | web_app/functions/part_list_validator.py:17-22 | on a position with surrounding whitespace the `is` test never decides: the validator accepts it exactly when it agrees with the established delimiter, since the only delimiter it can have is a whitespace character, a shared object |
| PositionDelimiter.StrippedAgrees | web_app/functions/functions.py:18-22 | a position that agrees with a delimiter still agrees once stripped, and keeps its delimiter unless the stripped text has none |
| ProcessorMethods.PosDelimiterStable | web_app/models/bom_processor_methods.py:37-49 | checking the same position again with the delimiter just established gives the same answer |
| ProcessorMethods.GetPosDelimiter | web_app/models/bom_processor_methods.py:37-49 | a position that cannot be read propagates its error; otherwise the result is the delimiter check on that position |
| ProcessorMethods.PositionSplit | web_app/models/bom_processor_methods.py:79-81 | succeeds exactly when the position can be read and agrees with the delimiter; the segments are the position split on its own delimiter |
| ProcessorMethods.PositionSplitStable | web_app/models/bom_processor_methods.py:79-81 | splitting again with the delimiter just established gives the same result |
| ProcessorMethods.ParentOf | web_app/models/bom_processor_methods.py:83-94 | succeeds exactly when every position can be read and the last parent id is among them; the result is the first part at that position |
| ProcessorMethods.ParentOfAgrees | web_app/models/bom_processor_methods.py:83-94 | the method lookup agrees with the function-based get_parent |
| ProcessorMethods.SetParentStep | web_app/models/bom_processor_methods.py:96-103 | succeeds exactly when the position can be read and agrees with the delimiter; writes the proper prefixes of the position and nothing else, and a set delimiter stays set |
| ProcessorMethods.SetParentPass | web_app/models/bom_processor_methods.py:96-103 | after a successful pass every part's parent ids are the prefixes of its position and every position fits the delimiter established |
| ProcessorMethods.SetParentAssemblyStep | web_app/models/bom_processor_methods.py:105-114 | a top-level part gets the main assembly name; any other part gets the part number of its parent; nothing else changes |
| ProcessorMethods.SetChildStep | web_app/models/bom_processor_methods.py:116-128 | writes exactly the positions one segment below the part, and nothing else; every position fits the delimiter |
| ProcessorMethods.SetChildStuck | web_app/models/bom_processor_methods.py:116-128 | the delimiter left when the child step raises: the one the part's own position split records, which a later split cannot replace |
| ProcessorMethods.SetChildKeepsFirstDelimiter | web_app/models/bom_processor_methods.py:116-128 | when no delimiter was recorded and the first part's position uses one, set_child ends with that delimiter recorded, even when a later part raises |
| ProcessorMethods.ChildScanAgrees | web_app/models/bom_processor_methods.py:116-128 | the child scan picks the same children as the function-based get_child_ids |
| ProcessorMethods.OwnChildrenExact | web_app/models/bom_processor_methods.py:116-128 | a position is listed as a child exactly when it extends the part's split by one segment |
| ProcessorMethods.SetSetsStep | web_app/models/bom_processor_methods.py:130-141 | succeeds exactly when the ancestor product can be computed, writes it and nothing else, and gives a part without parents the main assembly's sets |
| ProcessorMethods.SetSetsPass | web_app/models/bom_processor_methods.py:130-141 | after the pass over the list every part's sets is its ancestor product |
| ProcessorMethods.SetSetsIsAncestorProduct | web_app/models/bom_processor_methods.py:130-141 | with unique positions, the method's sets equal the main assembly's sets times the ancestors' quantities |
| ProcessorMethods.SetsAgreeWithFunctions | web_app/models/bom_processor_methods.py:130-141 | the method's sets equal the function-based get_sets |
| ProcessorMethods.SetToOrderStep | web_app/models/bom_processor_methods.py:143-149 | succeeds exactly when the quantity is an integer and sets are written; then writes the quantity times the sets |
| ProcessorMethods.SetIsProductionStep | web_app/models/bom_processor_methods.py:175-188 | succeeds exactly when the production test does, and writes its answer and nothing else |
| ProcessorMethods.ProductionTestAgrees | web_app/models/bom_processor_methods.py:175-188 | the method's production test agrees with the function-based is_production |
| ProcessorMethods.SetIsJunkByKeywordsStep | web_app/models/bom_processor_methods.py:211-222 | a malformed keyword setting raises TypeError; otherwise writes true exactly when some cleaned keyword occurs in the part number, or in the name when the number is empty |
| ProcessorMethods.JunkByKeywordsAgrees | web_app/models/bom_processor_methods.py:211-222 | the method's junk-by-keywords test agrees with the function-based one |
| ProcessorMethods.SetIsJunkByNestingStep | web_app/models/bom_processor_methods.py:237-246 | with the policy off or for a top-level part writes false; otherwise writes whether the parent is not production |
| ProcessorMethods.JunkByNestingAgrees | web_app/models/bom_processor_methods.py:237-246 | when the list's production flags were set by the production test, the method's nesting test agrees with the function-based stage |
| ProcessorMethods.MethodStep | web_app/models/bom_processor_methods.py:151-262 | only the position-reading steps may establish the delimiter, a set delimiter never changes, and only the normalising step changes raw columns |
| ProcessorMethods.RunMethod | web_app/models/bom_processor_methods.py:151-262 | success means no error; only the processed list and the success flag change, and the list keeps its length; without a processed list it raises TypeError |
| ProcessorMethods.GetSubBom | web_app/models/bom_processor_methods.py:264-274 | the sub-BOM holds exactly the list parts one level below the part, sorted by the sub-BOM key |
| ProcessorMethods.SetTreeSorting | web_app/models/bom_processor_methods.py:276-290 | on success the processed list is reordered into the tree order (the corrected one where the program's loop would not end) and nothing else changes; on failure the list is left as it was and the delimiter is the one the position splits recorded before the exception |
| ProcessorMethods.SplitsReached | web_app/models/bom_processor_methods.py:37-49 | the delimiter recorded when the position splits stop, at the end or at an exception: the splits' own delimiter when all succeed, a recorded delimiter never replaced, and the first part's delimiter kept |
| ProcessorMethods.TreeSortingIsPreOrder | web_app/models/bom_processor_methods.py:276-290 | the tree order is the pre-order walk of the forest the positions define, cut at generation 20; every listed part is a root or a child of a listed part |
| ProcessorMethods.TreeSortingHoldsEachPartOnce | web_app/models/bom_processor_methods.py:276-290 | with distinct positions, every part placed under its parent and depth at most 20, the sorted list holds every part exactly once |
| ProcessorMethods.TreeViewsConsistent | web_app/models/bom_processor_methods.py:276-290 | when parent ids come from the parts' own positions, the generations and children the loop reads form a consistent tree |
| ProcessorMethods.TreeOrderAgrees | web_app/models/bom_processor_methods.py:276-290 | the method-based and the function-based tree lists are the same |
| Lifecycle.NewProcessor | web_app/models/bom_processor.py:13-26 | a new processor holds the BOM's parts, no initial or processed list, and success false; its settings are unset except set_junk_for_purchased_nests true and reverse_bom_sorting false |
| Lifecycle.RunInitialization | web_app/models/bom_processor.py:46-49 | the initial and the processed list both become copies of the BOM's parts; nothing else changes |
| Lifecycle.SetAttributesFromKwargs | web_app/models/bom_processor.py:51-54 | only the processor's settings change |
| Lifecycle.SetAttributesExactly | web_app/models/bom_processor.py:51-54 | exactly the named attributes are set, each to the last value given; the others keep their values and none is removed |
| Lifecycle.FinishProcessing | web_app/models/bom_processor.py:56-59 | after a successful run the BOM's parts become the processed list; otherwise nothing changes |
| Lifecycle.UndoProcessing | web_app/models/bom_processor.py:61-63 | the BOM's parts become the initial list; nothing else changes |
| Lifecycle.PrepareAndFinish | web_app/functions/processor_director.py:9-15 | the result is the steps' result on the initialised processor, and finishing is applied only when it is a success |
| Lifecycle.CommitOnlyOnSuccess | web_app/functions/processor_director.py:9-15 | for steps that leave the BOM's list alone, the BOM's parts change only when the run succeeded, and then to the processed list |
| Lifecycle.UndoRestores | web_app/models/bom_processor.py:61-63 | for steps that keep the initial list, undoing after a run restores the BOM's parts the run started from |
| Lifecycle.PartModifier | web_app/models/bom_processor_methods.py:18-28 | success means no error; without a processed list it raises TypeError; only the processed list and the success flag change, and the list keeps its length |
| Lifecycle.PartModifierRelates | web_app/functions/functions.py:35-45 | every output part is the step's result on the input part at the same index |
| Lifecycle.PartModifierKeeps | web_app/functions/functions.py:35-45 | the state threaded through the steps, including the state a raising step leaves, only changes in ways each step allows, and after a successful pass every part fits the final state |
| Lifecycle.PartModifierReadsRaw | web_app/functions/functions.py:35-45 | when every step keeps raw columns and relates its input to its output, the pass relates every input part to its output part |
| Sorting.TypeSorter | web_app/functions/functions.py:48-50 | the key of a type is the list of indices of its letters in "pfjabcdeghiklmnoqrstuvwxyz"; a part without a type raises TypeError |
| Sorting.TypeKeyHeads | web_app/functions/functions.py:48-50 | production's key starts 0,17, purchased's 0,20, fastener's 1 and junk's 2 |
| Sorting.TypeKeyOrder | web_app/functions/functions.py:48-50 | the keys order the types as production, purchased, fastener, junk, and distinct types have distinct keys |
| Sorting.TypeKey | web_app/functions/functions.py:48-50 | the key of a part's type text: for a type not yet renamed, the key of its name; no type raises TypeError; a text starting with a capital letter raises ValueError |
| Sorting.Sort | web_app/functions/functions.py:53-56 | the result is a permutation of the input |
| Sorting.SortSorted | web_app/functions/functions.py:53-56 | the result is ordered by the key, ascending or descending as asked |
| Sorting.SortStable | web_app/functions/functions.py:53-56 | parts with equal keys keep their input order |
| Collection.Len | web_app/models/parts_collection.py:20-21 | the length is the number of parts held; a collection without a list raises TypeError |
| Collection.AddPart | web_app/models/parts_collection.py:23-27 | the part is appended at the end and the earlier parts are unchanged; a collection without a list starts one |
| Collection.AddPartGrows | web_app/models/parts_collection.py:23-27 | adding a part increases the length by one |
| Collection.Next | web_app/models/parts_collection.py:39-45 | next returns the part at the cursor and advances it; at the end it raises StopIteration |
| Collection.YieldsRest | web_app/models/parts_collection.py:39-45 | iterating from a cursor yields exactly the parts from the cursor to the end |
| Collection.DefaultOrder | web_app/models/parts_collection.py:53-56 | the default order is the order the parts were added |
| Collection.DefaultIteration | web_app/models/parts_collection.py:63-70 | iterating yields the parts in the default order |
| Collection.PartNumberOrder | web_app/models/parts_collection.py:73-80 | a permutation of the parts sorted by part number; a collection without a list raises TypeError, and one holding a part without a `number` attribute raises AttributeError |
| Collection.PartNumberOrderStable | web_app/models/parts_collection.py:73-80 | parts with the same number keep their added order |
| Collection.SortByTypeAndNumber | web_app/functions/functions.py:53-56 | succeeds exactly when every part has a type and a `number` attribute, giving a permutation sorted descending by type key and number; otherwise the first part whose key fails decides the exception: TypeError for a missing type, AttributeError for a missing number |
| Collection.SortByTypeAndNumberStable | web_app/functions/functions.py:53-56 | equal keys keep their input order |
| Collection.TreeOrder | web_app/models/parts_collection.py:83-100 | with the generation read from each part's position: a top-level part without a number raises AttributeError; otherwise it fails exactly when a part the loop expands (generation 1 to 19) has no child list or a child without a type or number, with that part's exception, and otherwise gives the walk of the generation passes, the corrected one where the program's loop would not end |
| Collection.TreeOrderIsPreOrder | web_app/models/parts_collection.py:83-100 | the in-place insertion loop gives the pre-order walk |
| Collection.TreeOrderSound | web_app/models/parts_collection.py:83-100 | every part in the tree order is a top-level part or a descendant of one |
| Collection.TreeOrderListsTop | web_app/models/parts_collection.py:83-100 | every top-level part is in the tree order |
| Collection.TreeOrderListsChildren | web_app/models/parts_collection.py:83-100 | every child of a listed part within the depth bound is listed |
| Collection.TreeOrderOnce | web_app/models/parts_collection.py:83-100 | with consistent parent ids, each part is listed at most once |
| Collection.TreeOrderDepth | web_app/models/parts_collection.py:83-100 | no listed part is deeper than the last generation |
| Collection.TreeOrderChildren | web_app/models/parts_collection.py:83-100 | the children inserted after a part end up sorted by type key and number, are a permutation of its child list, and keep the input order among equal keys |
| Collection.TopMembers | web_app/models/parts_collection.py:83-100 | the roots are exactly the top-level parts of the list, with their multiplicity |
| Collection.TreeRoots | web_app/models/parts_collection.py:88-91 | succeeds exactly when every top-level part has a `number` attribute, else AttributeError; the roots are the top-level parts with their multiplicity, sorted by number |
| Collection.FirstKeyError | web_app/functions/functions.py:47-56 | no error exactly when every part has a type and a number; otherwise the error of the first part whose key fails, every earlier key being computable |
| Collection.ExpandError | web_app/models/parts_collection.py:97 | no error exactly when the part can be expanded; a missing child list gives TypeError, otherwise the first child whose key fails decides |
| Collection.TreeOrderAsWritten | web_app/models/parts_collection.py:88-99 | as written, the iteration succeeds (with an empty list) exactly when no part is top-level, and raises AttributeError otherwise |
| Collection.TreeOrderFinding | web_app/models/parts_collection.py:95 | one numbered top-level part with an empty child list: the corrected iterator succeeds and the one as written raises AttributeError |
| Tree.PassInPlace | web_app/models.py:621-633 | whenever the in-place loop for one generation ends (no part of that generation with children met a second time), it gives the same list as the functional pass |
| Tree.TreeInPlace | web_app/functions/processor.py:263-280 | whenever every generation's loop ends, the generation loop gives the same list as the functional passes |
| Tree.StepAtFirst | web_app/functions/processor.py:277-278 | the loop body inserts a part's reversed children right after the cursor when the part occurs there first or has no children |
| Tree.RepeatMovesAhead | web_app/functions/processor.py:277-278 | a repeated part of the generation with children, at or after the cursor, is found again at or after the next cursor, still preceded by its first occurrence |
| Tree.PassNeverEnds | web_app/functions/processor.py:271-278 | with such a repeat ahead of the cursor, after any number of iterations the cursor is still inside the list, so the loop never ends |
| Tree.NotHaltsNeverEnds | web_app/functions/processor.py:271-278 | when `Halts` fails, the pass started at the head of the list never ends, so together with `Tree.PassInPlace` a pass ends exactly when `Halts` holds |
| Tree.SharedChildNeverEnds | web_app/functions/processor.py:271-278 | roots A and B sharing child C, which has child D: the first pass lists C twice and the second pass never ends |
| Tree.NoDupsHalts | web_app/functions/processor.py:271-278 | when the passes list no part twice, every pass ends |
| Tree.TreeIsPreOrder | web_app/functions/processor.py:263-280 | the passes over generations 1 to 19 give the pre-order walk, truncated at the last generation |
| Tree.TreeListSound | web_app/functions/processor.py:263-280 | every listed node is a root or a child of a listed node |
| Tree.TreeListComplete | web_app/functions/processor.py:263-280 | every child of a listed node shallower than the last generation is listed |
| Tree.TreeListDepth | web_app/functions/processor.py:263-280 | no listed node is deeper than the last generation |
| Tree.TreeListNoDups | web_app/functions/processor.py:263-280 | when each node has at most one parent, no node is listed twice |
| TreeList.OrderIsPreOrder | web_app/functions/processor.py:263-280 | the tree list of a part list is its pre-order walk |
| TreeList.OrderPermutation | web_app/functions/processor.py:263-280 | with consistent positions of bounded depth, the tree list is a permutation of the parts reachable from the roots |
| TreeList.ChildrenOrder | web_app/functions/processor.py:243-260 | the children of a part come in sub-BOM order |
| TreeList.RootsOrder | web_app/functions/processor.py:266-268 | the roots come in part-number order |
| TreeList.OrderInPlace | web_app/functions/processor.py:263-280 | whenever every pass ends, the in-place loop over the part list gives the functional order |
| TreeList.OrderHalts | web_app/functions/processor.py:263-280 | with distinct positions every pass of the loop ends |
| Boms.CreatePart | web_app/models/bom.py:59-62 | a new part with a fresh id is appended; the other parts are unchanged |
| Boms.DeletePart | web_app/models/bom.py:29-33 | afterwards no part has that identity, every other part is kept and nothing is added; a missing part raises ValueError |
| Boms.DeletePartAt | web_app/models/bom.py:29-33 | deletion removes the part at its index and keeps the rest in order |
| Boms.CreateThenDeletePart | web_app/models/bom.py:29-33 | creating a part and then deleting it restores the part list |
| Boms.DeleteAllParts | web_app/models/bom.py:35-36 | the part list becomes empty |
| Boms.ProcessPartList | web_app/models/bom.py:64-82 | the processor is recorded; the parts become the processed list exactly when the run finished and are unchanged otherwise; a ValueError becomes a message, other errors propagate |
| Boms.UndoAfterProcessing | web_app/models/bom.py:84-85 | when the run started from the BOM's parts, undoing restores their values, whether or not the run succeeded |
| Boms.SetMainAssemblySets | web_app/models/bom.py:91-97 | accepted exactly when int() accepts the text, and then the sets become its value; otherwise it raises ValueError |
| Boms.IntStrRoundTrip | web_app/models/bom.py:91-97 | `int(str(n)) == n` for every integer, so setting the sets from any integer written in decimal stores that integer |
| Boms.MainAssemblySetsAccepts | web_app/models/bom.py:91-97 | "1" and " 1 " are accepted as 1 |
| Boms.MainAssemblySetsRejects | web_app/models/bom.py:91-97 | "1." and "lorem" raise ValueError |
| Boms.DeleteBom | web_app/models/bom_manager.py:41-46 | afterwards no BOM has that identity and every other BOM is kept; a missing BOM raises the not-found error |
| Boms.DeleteBomAt | web_app/models/bom_manager.py:41-46 | removes the BOM at its index and keeps the rest in order |
| Boms.CreateBom | web_app/models/bom_manager.py:62-66 | a new BOM with the given name and sets and a fresh id is appended |
| Boms.CreateBomAsWritten | web_app/models/bom_manager.py:62-66 | as written, creation always raises TypeError and the manager is unchanged |
| Boms.CreateBomFinding | web_app/models/bom_manager.py:62-66 | for the same inputs, the call as written fails while the corrected call appends a BOM |
| Boms.ResetBom | web_app/models/bom_manager.py:68-75 | the BOM is replaced at its index by a fresh empty one with a new identity; a missing BOM raises the not-found error |
| LegacyBoms.NewLegacyBom | web_app/models.py:158-167 | a new BOM has no parts, the given settings and a fresh processing state |
| LegacyBoms.CreatePart | web_app/models.py:169-172 | a new part with a fresh id is appended |
| LegacyBoms.DeletePart | web_app/models.py:120-124 | a held part is removed; a missing part leaves the list unchanged |
| LegacyBoms.DeletePartAt | web_app/models.py:120-124 | deletion removes the part at its index and keeps the rest in order |
| LegacyBoms.DeleteAllParts | web_app/models.py:126-127 | the part list becomes empty |
| LegacyBoms.ProcessPartList | web_app/models.py:175-181 | a successful run sets the parts to the processed list; after a rejected or failed run the part list holds the same values as before; only errors other than ValueError propagate |
| LegacyBoms.UndoAfterProcessing | web_app/models.py:183-184 | when every part is valid, undoing after processing restores the parts the run started from |
| LegacyBoms.RejectedListKept | web_app/models.py:175-181 | a list with an invalid part leaves the parts and the processing state unchanged |
| LegacyBoms.CreateBom | web_app/models.py:53-56 | a new BOM with a fresh id is appended |
| LegacyBoms.DeleteBom | web_app/models.py:37-41 | a held BOM is removed; a missing one leaves the list unchanged |
| LegacyBoms.CreateThenDeleteBom | web_app/models.py:37-41 | creating a BOM and then deleting it restores the list |
| LegacyBoms.ResetBom | web_app/models.py:58-64 | a held BOM is replaced at its index by a fresh default one; for a missing BOM nothing changes and no BOM is returned |
| Legacy.ExtraKeysFacts | web_app/models.py:440-455 | for a fresh part, the legacy key pass writes the derived facts the stage definitions give, with '.' as the delimiter |
| Legacy.ExtraKeysReadsRaw | web_app/models.py:440-455 | the legacy key pass depends only on the parts' raw columns |
| Legacy.ProcessParts | web_app/models.py:404-408 | succeeds exactly when every part can be processed, and then holds each part's result at its index |
| Legacy.ProcessPartFacts | web_app/models.py:404-408 | a processed part carries the derived facts of the key pass, then has its listed columns normalised |
| Legacy.NormalizeName | web_app/models.py:601-606 | the listed columns are normalised by `normalize_string` title-cased once more, which strips and title-cases like the processor functions; nothing else changes |
| Legacy.DigitColumnValid | web_app/models.py:654-662 | a column is valid exactly when it matches the dotted-number pattern; a missing column raises AttributeError |
| Legacy.DigitSegmentsDotNumber | web_app/models.py:654-662 | requiring every dot-separated segment to be a non-empty digit string is the same as the dotted-number pattern |
| Legacy.IsPartListValid | web_app/models.py:641-651 | the invalid position and quantity indices are exactly, in increasing order, the parts whose column does not match the pattern; a missing column raises |
| Legacy.ValidatePartList | web_app/models.py:413-437 | passes exactly when every part is valid; a rejection reports, per failing column, the list size and the number of failing parts |
| Legacy.QuantityCheckExamples | web_app/models.py:413-437 | "1.5" and "12" match the pattern; "", "1.", "1..2" and "-1" do not |
| Legacy.RunProcessing | web_app/models.py:399-411 | a rejection leaves the processing state unchanged and has an invalid part; success means every given part is valid, the given list becomes the initial list, and the processed list is the tree list of the processed parts, the corrected one where the program's loop would not end |
| Legacy.RunProcessingAsWritten | web_app/models.py:399-411 | as written, a run is rejected only when a part of the previous run's initial list is invalid |
| Legacy.FirstRunSkipsValidation | web_app/models.py:399-403 | on a fresh processor the run is never rejected as invalid, whatever parts are given |
| Legacy.StaleValidationWitness | web_app/models.py:399-403 | a first run on a part with position "A" is accepted as written and rejected by the corrected run |
| Exporter.FirstImportedFile | web_app/functions/part_list_exporter.py:9-13 | no name when none of the sources is a file import; otherwise the name of the first file import |
| Exporter.FirstImportedFileExamples | web_app/functions/part_list_exporter.py:9-13 | examples: the first of two file imports is chosen, an "xlsx file" source counts, and lists without one give no name |

## Left out

- Reading and writing CSV and xlsx files, the Flask views and forms, and the diagnostic prints are I/O and are not modelled.
- The fastener table of standards and sizes is data, not logic. It is a parameter (`Settings.library`) instead of the program's asset file.
- Character classes (`\w`, `\s`, `isdigit`, `upper`, `title`) are modelled on ASCII only. Python's Unicode tables are not modelled.
- `int()` also accepts underscores between digits and Unicode digits and whitespace. The model's `PyInt` accepts an ASCII digit string with an optional leading `+` or `-`, padded with ASCII whitespace only.
- `copy.deepcopy` of parts is modelled as copying a value. `Obj` ids model the identity of BOMs and of the parts a BOM holds. The identity of lists is not modelled: a BOM's part list and the processor's snapshot and processed lists are separate values, even where the program shares one list object between them.
- Boms.DeleteAllParts: `clear()` empties the list object in place, so after processing or undoing it also empties the processor's processed or initial list that the BOM shares; the model only empties the BOM's own list, so a later undo brings the snapshot back where the program gives an empty list.
- LegacyBoms.DeleteAllParts: as for `Boms.DeleteAllParts`, clearing after an undo also empties the processor's initial list in the program, and the model does not follow that.
- Boms.UndoAfterProcessing: holds for one run followed by undo; a `delete_all_parts` in between would, in the program, also empty the shared snapshot, which the model does not follow.
- LegacyBoms.UndoAfterProcessing: the same restriction as `Boms.UndoAfterProcessing`.
- LegacyBoms.ProcessPartList: the program processes the BOM's own part objects in place and the processed list holds those same objects, while the model gives the processed parts new ids, so deleting a part held before the run no longer finds it. A ValueError raised after validation (a quantity such as "1.5" passes the dotted-number check and then fails `int()`) leaves the earlier parts already processed in the program; the model keeps the part list's values unchanged after any failed run. `LegacyBoms.Settle` has the same two gaps.
- The tree-list functions read every part's position, parent ids, type key and number before the loop. When one of those reads fails, the model reports that failure first, so it may report a different error than the program would reach later.
- ProcessorFunctions.CreateBomTreeList: the program reads a type and a number only for the parts it sorts into a sub-BOM, a number only for the roots, and a position only for parts whose depth matches the generation. The model requires all of them of every part, so it fails on a root without a type where the program succeeds.
- ProcessorFunctions.GetSubBom: the same eager reads as `ProcessorFunctions.CreateBomTreeList`; the program reads type and number only for the parts one level below.
- ProcessorMethods.SetTreeSorting: the same eager reads of type key and number as `ProcessorFunctions.CreateBomTreeList`.
- ProcessorFunctions.CreateBomTreeList: when two parts share a position and their shared child has children, the program's loop never ends (see Findings); the model returns the corrected tree list instead. `TreeList.OrderHalts` proves the loop ends when positions are distinct, and `Tree.PassInPlace` ends exactly under `Tree.Halts`.
- ProcessorMethods.SetTreeSorting: the same endless loop on shared positions as `ProcessorFunctions.CreateBomTreeList`; the model sorts with the corrected tree list.
- Legacy.RunProcessing: the same endless loop in `_create_bom_tree_list`; the model's processed list is the corrected tree list.
- Collection.TreeOrder: the same endless loop in `TreeOrderIterator`; the model gives the corrected walk.
- PositionDelimiter.IsPositionDelimiterUnique: the `is` comparison is modelled as CPython behaves, sharing one-character strings below code point 256 only; other Python implementations are not modelled.
- Collection.TreeOrder: the corrected iterator takes each part's generation as a given segment count instead of splitting its position, so a position that cannot be read is not modelled.
- The processor's delimiter is an optional single character. An empty or multi-character delimiter set by hand is not modelled.
- The import wiring of `models/bom.py`, which names a class the package does not export, is not modelled. The BOM takes the processor's run as a parameter instead.
- Lifecycle.SetAttributesFromKwargs: only the string, integer and boolean settings are modelled, not attributes of arbitrary Python type.
- Boms.ProcessPartList: the processor's run is a parameter, so the contract relates the BOM to whatever that run returns.
- LegacyBoms.DeletePart: the legacy code prints a message for a missing part instead of raising, and the model leaves the list unchanged.
- LegacyBoms.ResetBom: the legacy code prints a message for a missing BOM, and the model returns None.
- The part-list importer and exporter classes (`models/part_list_importer.py`, `models/part_list_exporter.py`) only do file I/O and are not modelled.

## Findings

| source | as written | input that shows it | evidently intended | confidence | as-written member | corrected member |
|---|---|---|---|---|---|---|
| web_app/models/processor_validator.py:48-51 | the error message is built before validate_with fills the invalid list, so its count is always that of the empty list | one part with quantity "x": validation fails and the message says "Found 0 invalid parts." | the message reports how many parts failed | not executed | Validator.StaleCountWitness | Validator.RunCorrected |
| web_app/models/processor_director.py:31-45 | every stage is applied with processor.update_parts_with, which no processor class defines | any processor: the first stage raises AttributeError | apply each stage to every part, as the part_modifier decorator does | not executed | ProcessorFunctions.DirectorAsWritten | ProcessorFunctions.Director |
| web_app/functions/processor.py:227-228 | the nesting check calls is_production on the parent object inside initial_part_list, which writes the parent's is_production there | parent "1" and child "1-1" with the nesting policy on: the snapshot's part "1" gains is_production | test the parent without changing the snapshot | not executed | ProcessorFunctions.NestingWritesSnapshot | ProcessorFunctions.JunkByNestingStage |
| web_app/models/bom_manager.py:62-66 | create_bom passes positional arguments to a constructor that takes keyword arguments only | any call raises TypeError | pass name and sets by keyword | not executed | Boms.CreateBomAsWritten | Boms.CreateBom |
| web_app/models/parts_collection.py:95 | the generation of a part is computed with part.get_pos_delimiter(), which no part class defines | a collection with one top-level part: iterating the tree order raises AttributeError | split the position on the processor's delimiter | not executed | Collection.TreeOrderAsWritten | Collection.TreeOrder |
| web_app/functions/processor.py:277-278 | each child is inserted at `bom_tree_list.index(part) + 1`, after the part's first occurrence; when two parts share a position, their shared child is listed twice, and at its second occurrence its own children go in before the cursor, moving it one step ahead again | parts A "1", B "1", C "1-1", D "1-1-1": generation 1 gives A, C, B, C, and generation 2 never ends | insert the children after the occurrence being expanded | not executed | Tree.SharedChildNeverEnds | TreeList.OrderIsPreOrder |
| web_app/models.py:399-403 | validate_part_list checks self.initial_part_list before run_processing assigns the new list to it | the first run on a part with position "A" validates an empty list and accepts it | validate the list being processed | not executed | Legacy.StaleValidationWitness | Legacy.RunProcessing |

=== FILE: bom.dfy ===
/** The Bill of Materials and its manager: `DefaultBom` of
    web_app/models/bom.py and `DefaultBomManager` of
    web_app/models/bom_manager.py, with the identity-list operations they
    share with the older classes of web_app/models.py.

    Parts and BOMs define no `__eq__`, so `x in xs` and `item is not x`
    compare identities.  Each object therefore carries an identity number,
    and a container hands out numbers above every one it has handed out
    before, as a fresh Python object is distinct from every live one.
 */
module Boms {
  import opened Wrappers
  import opened Text
  import opened Parts

  // ---- objects compared by identity ---------------------------------------

  /** An object with its identity. */
  datatype Obj<T> = Obj(id: nat, value: T)

  /** `x in xs` for objects compared by identity. */
  predicate Holds<T>(xs: seq<Obj<T>>, id: nat) {
    exists k :: 0 <= k < |xs| && xs[k].id == id
  }

  /** Every identity in the list lies below `next`. */
  predicate Below<T>(xs: seq<Obj<T>>, next: nat) {
    forall k :: 0 <= k < |xs| ==> xs[k].id < next
  }

  /** No object occurs twice. */
  predicate UniqueIds<T>(xs: seq<Obj<T>>) {
    forall a, b :: 0 <= a < b < |xs| ==> xs[a].id != xs[b].id
  }

  /** The values of the objects, in order. */
  function Values<T>(xs: seq<Obj<T>>): (r: seq<T>)
    ensures |r| == |xs| && forall k :: 0 <= k < |xs| ==> r[k] == xs[k].value
  {
    if |xs| == 0 then [] else [xs[0].value] + Values(xs[1..])
  }

  /** `[item for item in xs if item is not x]`: every object other than `x`,
      and nothing else. */
  function Without<T>(xs: seq<Obj<T>>, id: nat): (r: seq<Obj<T>>)
    ensures forall k :: 0 <= k < |r| ==> r[k] in xs && r[k].id != id
    ensures forall k :: 0 <= k < |xs| && xs[k].id != id ==> xs[k] in r
    ensures |r| <= |xs|
    decreases |xs|
  {
    if |xs| == 0 then []
    else
      var rest := Without(xs[1..], id);
      assert forall k :: 1 <= k < |xs| ==> xs[k] == xs[1..][k - 1];
      (if xs[0].id == id then [] else [xs[0]]) + rest
  }

  /** The comprehension works element by element, so it keeps the order of
      the objects it keeps. */
  lemma {:induction false} WithoutAppend<T>(xs: seq<Obj<T>>, ys: seq<Obj<T>>, id: nat)
    ensures Without(xs + ys, id) == Without(xs, id) + Without(ys, id)
    decreases |xs|
  {
    if |xs| > 0 {
      var head := if xs[0].id == id then [] else [xs[0]];
      assert (xs + ys)[0] == xs[0];
      assert (xs + ys)[1..] == xs[1..] + ys;
      assert Without(xs + ys, id) == head + Without(xs[1..] + ys, id);
      WithoutAppend(xs[1..], ys, id);
      assert Without(xs, id) == head + Without(xs[1..], id);
    } else {
      assert xs + ys == ys;
    }
  }

  /** Removing an object that is not there changes nothing. */
  lemma {:induction false} WithoutAbsent<T>(xs: seq<Obj<T>>, id: nat)
    requires !Holds(xs, id)
    ensures Without(xs, id) == xs
    decreases |xs|
  {
    if |xs| > 0 {
      assert !Holds(xs[1..], id) by {
        forall k | 0 <= k < |xs[1..]| ensures xs[1..][k].id != id {
          assert xs[1..][k] == xs[k + 1];
        }
      }
      WithoutAbsent(xs[1..], id);
      assert xs[0].id != id;
      assert [xs[0]] + xs[1..] == xs;
    }
  }

  /** Removing the only occurrence of an object between two stretches that
      do not hold it leaves the two stretches. */
  lemma WithoutMiddle<T>(a: seq<Obj<T>>, x: Obj<T>, c: seq<Obj<T>>)
    requires !Holds(a, x.id) && !Holds(c, x.id)
    ensures Without(a + [x] + c, x.id) == a + c
  {
    var id := x.id;
    var none: seq<Obj<T>> := [];
    assert Without([x], id) == none by {
      assert [x][1..] == none;
      assert Without(none, id) == none;
    }
    WithoutAbsent(a, id);
    WithoutAbsent(c, id);
    WithoutAppend(a, [x], id);
    assert Without(a + [x], id) == a;
    WithoutAppend(a + [x], c, id);
  }

  /** In a list without repeated objects, removing the one at index `k`
      leaves the objects before it and after it, in order. */
  lemma WithoutAt<T>(xs: seq<Obj<T>>, k: nat)
    requires k < |xs| && UniqueIds(xs)
    ensures Without(xs, xs[k].id) == xs[..k] + xs[k + 1..]
  {
    var a, c := xs[..k], xs[k + 1..];
    assert xs == a + [xs[k]] + c;
    assert !Holds(a, xs[k].id) by {
      forall j | 0 <= j < |a| ensures a[j].id != xs[k].id {
        assert a[j] == xs[j];
      }
    }
    assert !Holds(c, xs[k].id) by {
      forall j | 0 <= j < |c| ensures c[j].id != xs[k].id {
        assert c[j] == xs[k + 1 + j];
      }
    }
    WithoutMiddle(a, xs[k], c);
  }

  /** `[item if item is not x else y for item in xs]`: `x` replaced by `y`
      wherever it stands, every other entry as it was. */
  function Replaced<T>(xs: seq<Obj<T>>, id: nat, y: Obj<T>): (r: seq<Obj<T>>)
    ensures |r| == |xs|
    ensures forall k :: 0 <= k < |xs| ==> r[k] == (if xs[k].id == id then y else xs[k])
    decreases |xs|
  {
    if |xs| == 0 then []
    else [if xs[0].id == id then y else xs[0]] + Replaced(xs[1..], id, y)
  }

  /** `xs.append(x)` with `x` a new object, whose identity is `next`. */
  function Added<T>(xs: seq<Obj<T>>, next: nat, v: T): (r: seq<Obj<T>>)
    ensures |r| == |xs| + 1 && r[..|xs|] == xs && r[|xs|] == Obj(next, v)
    ensures Below(xs, next) ==> Below(r, next + 1) && !Holds(xs, next)
    ensures UniqueIds(xs) && Below(xs, next) ==> UniqueIds(r)
  {
    xs + [Obj(next, v)]
  }

  /** Removing an object that was just added gives back the list before. */
  lemma AddedThenWithout<T>(xs: seq<Obj<T>>, next: nat, v: T)
    requires Below(xs, next)
    ensures Without(Added(xs, next, v), next) == xs
  {
    var r := Added(xs, next, v);
    assert r == xs + [Obj(next, v)];
    WithoutAppend(xs, [Obj(next, v)], next);
    WithoutAbsent(xs, next);
    assert [Obj(next, v)][1..] == [];
  }

  // ---- DefaultBom ---------------------------------------------------------

  /** The processor `process_part_list` creates, as the run leaves it: its
      snapshot of the BOM's list and its processed list. */
  datatype Snapshots = Snapshots(initial: seq<Obj<Part>>, processed: seq<Obj<Part>>)

  /** How the processor's run ended: normally, or by an exception. */
  datatype Ending = Finished | Raised(error: Error)

  /** A `DefaultBom`.  The column roles, keywords and flags it passes to its
      processor are not read by anything modelled here. */
  datatype Bom = Bom(
    parts: seq<Obj<Part>>,          // part_list
    nextPart: nat,                  // the identity create_part hands out next
    mainAssemblyName: string,       // main_assembly_name
    mainAssemblySets: int,          // _main_assembly_sets
    processor: Option<Snapshots>)   // bom_processor

  /** `DefaultBom(main_assembly_name=name, main_assembly_sets=sets)`: no
      parts and no processor; the constructor stores the sets as given. */
  function NewBom(name: string, sets: int): (b: Bom)
    ensures b.parts == [] && b.processor.None?
    ensures b.mainAssemblyName == name && b.mainAssemblySets == sets
  {
    Bom([], 0, name, sets, None)
  }

  /** `get_part_count`. */
  function PartCount(b: Bom): nat {
    |b.parts|
  }

  /** `create_part(**kwargs)`: a new part is appended and returned; the
      parts already there are unchanged. */
  function CreatePart(b: Bom, kwargs: seq<(string, string)>): (r: (Bom, Obj<Part>))
    ensures PartCount(r.0) == PartCount(b) + 1
    ensures r.0.parts[..|b.parts|] == b.parts && r.0.parts[|b.parts|] == r.1
    ensures r.1.value == NewPart(kwargs) && r.1.value.derived == Unset
    ensures Below(b.parts, b.nextPart) ==> !Holds(b.parts, r.1.id) && Below(r.0.parts, r.0.nextPart)
    ensures r.0.(parts := b.parts, nextPart := b.nextPart) == b
  {
    var part := NewPart(kwargs);
    (b.(parts := Added(b.parts, b.nextPart, part), nextPart := b.nextPart + 1), Obj(b.nextPart, part))
  }

  /** `delete_part(part)`: ValueError when the part is not in the list;
      otherwise every other part stays, and nothing else changes. */
  function DeletePart(b: Bom, id: nat): (r: Result<Bom>)
    ensures r.Err? <==> !Holds(b.parts, id)
    ensures r.Err? ==> r.error == ValueError
    ensures r.Ok? ==> !Holds(r.value.parts, id)
    ensures r.Ok? ==> (forall k :: 0 <= k < |r.value.parts| ==> r.value.parts[k] in b.parts) &&
                      (forall k :: 0 <= k < |b.parts| && b.parts[k].id != id ==> b.parts[k] in r.value.parts)
    ensures r.Ok? ==> r.value.(parts := b.parts) == b
  {
    if !Holds(b.parts, id) then Err(ValueError)
    else
      var r := Without(b.parts, id);
      assert !Holds(r, id) by {
        forall k | 0 <= k < |r| ensures r[k].id != id {
        }
      }
      Ok(b.(parts := r))
  }

  /** Deleting the part at index `k` of a list without repeats removes it
      and nothing else: the count drops by one and the order is kept. */
  lemma DeletePartAt(b: Bom, k: nat)
    requires k < |b.parts| && UniqueIds(b.parts)
    ensures DeletePart(b, b.parts[k].id) == Ok(b.(parts := b.parts[..k] + b.parts[k + 1..]))
    ensures PartCount(DeletePart(b, b.parts[k].id).value) == PartCount(b) - 1
  {
    WithoutAt(b.parts, k);
  }

  /** A part just created can be deleted again, which gives back the list
      the BOM had before. */
  lemma CreateThenDeletePart(b: Bom, kwargs: seq<(string, string)>)
    requires Below(b.parts, b.nextPart)
    ensures var (b', part) := CreatePart(b, kwargs);
            DeletePart(b', part.id) == Ok(b'.(parts := b.parts))
  {
    var (b', part) := CreatePart(b, kwargs);
    AddedThenWithout(b.parts, b.nextPart, part.value);
    assert Holds(b'.parts, part.id) by {
      assert b'.parts[|b.parts|].id == part.id;
    }
  }

  /** `delete_all_parts`: the list is emptied, nothing else changes. */
  function DeleteAllParts(b: Bom): (r: Bom)
    ensures PartCount(r) == 0
    ensures r.(parts := b.parts) == b
  {
    b.(parts := [])
  }

  /** `process_part_list`, with the run of the processor it creates given as
      `run` (the state it leaves the processor in) and `ending`.  The new
      processor replaces the old one before the run, whatever the run does;
      a finished run installs the processed list; a ValueError is returned
      and leaves the part list as it was; any other exception propagates,
      leaving the part list as it was too. */
  function ProcessPartList(b: Bom, run: Snapshots, ending: Ending): (r: (Bom, Result<Option<Error>>))
    ensures r.0.processor == Some(run)
    ensures r.0.parts == (if ending.Finished? then run.processed else b.parts)
    ensures r.0.(parts := b.parts, processor := b.processor) == b
    ensures r.1 == Ok(None) <==> ending.Finished?
    ensures r.1 == Ok(Some(ValueError)) <==> ending == Raised(ValueError)
    ensures r.1.Err? <==> ending.Raised? && ending.error != ValueError
    ensures r.1.Err? ==> r.1.error == ending.error
  {
    var b' := b.(processor := Some(run));
    match ending
    case Finished => (b'.(parts := run.processed), Ok(None))
    case Raised(ValueError) => (b', Ok(Some(ValueError)))
    case Raised(e) => (b', Err(e))
  }

  /** `undo_processing`: the part list becomes the processor's snapshot;
      before any processing there is no processor, and reading
      `None.initial_part_list` raises AttributeError. */
  function UndoProcessing(b: Bom): (r: Result<Bom>)
    ensures r.Err? <==> b.processor.None?
    ensures r.Err? ==> r.error == AttributeError
    ensures r.Ok? ==> r.value == b.(parts := b.processor.value.initial)
  {
    match b.processor
    case None => Err(AttributeError)
    case Some(snapshots) => Ok(b.(parts := snapshots.initial))
  }

  /** A processor snapshots the part list it is given (as copies: new
      objects with the same contents), so undoing a processing brings back
      the parts the BOM had before it, whether the run finished or not. */
  lemma UndoAfterProcessing(b: Bom, run: Snapshots, ending: Ending)
    requires Values(run.initial) == Values(b.parts)
    ensures var u := UndoProcessing(ProcessPartList(b, run, ending).0);
            u.Ok? && Values(u.value.parts) == Values(b.parts)
  {
  }

  /** The `main_assembly_sets` setter: `int(value)` is stored; a value
      `int` rejects raises ValueError and leaves the stored value alone. */
  function SetMainAssemblySets(b: Bom, value: string): (r: Result<Bom>)
    ensures r.Err? <==> PyInt(value).Err?
    ensures r.Err? ==> r.error == ValueError
    ensures r.Ok? ==> r.value == b.(mainAssemblySets := PyInt(value).value)
    ensures IsDigits(value) ==> r == Ok(b.(mainAssemblySets := DigitsValue(value)))
  {
    var n :- PyInt(value);
    Ok(b.(mainAssemblySets := n))
  }

  /** `' 1 '.strip()` is `'1'`. */
  lemma StripPaddedOne()
    ensures Strip(" 1 ") == "1"
  {
    var t := " 1 ";
    var u := t[1..];
    assert u == "1 " && IsSpace(t[0]);
    assert TrimLeft(t, IsSpace) == TrimLeft(u, IsSpace);
    assert !IsSpace(u[0]) && TrimLeft(u, IsSpace) == u;
    var v := u[..1];
    assert v == "1" && IsSpace(u[1]);
    assert TrimRight(u, IsSpace) == TrimRight(v, IsSpace);
    assert !IsSpace(v[0]) && TrimRight(v, IsSpace) == v;
  }

  /** A string that neither starts nor ends with whitespace is its own strip. */
  lemma StripUnpadded(t: string)
    requires |t| > 0 && !IsSpace(t[0]) && !IsSpace(t[|t| - 1])
    ensures Strip(t) == t
  {
    assert TrimLeft(t, IsSpace) == t;
    assert TrimRight(t, IsSpace) == t;
  }

  /** `int` accepts a value whose strip is a digit string. */
  lemma PyIntStripped(t: string, u: string)
    requires Strip(t) == u && IsDigits(u)
    ensures PyInt(t) == Ok(DigitsValue(u))
  {
  }

  /** `str(n)` is a digit string for a natural number. */
  lemma {:induction false} DigitsAreDigits(n: nat)
    ensures IsDigits(Digits(n))
    ensures DigitsValue(Digits(n)) == n
    decreases n
  {
    var d := Digits(n);
    if n < 10 {
      assert d[..0] == "";
    } else {
      DigitsAreDigits(n / 10);
      assert d[..|d| - 1] == Digits(n / 10);
      assert d[|d| - 1] == DigitChar(n % 10);
    }
  }

  /** `int(str(n)) == n`: the setter stores back any integer written out
      in decimal. */
  lemma IntStrRoundTrip(b: Bom, n: int)
    ensures PyInt(IntStr(n)) == Ok(n)
    ensures SetMainAssemblySets(b, IntStr(n)) == Ok(b.(mainAssemblySets := n))
  {
    if n >= 0 {
      DigitsAreDigits(n);
    } else {
      var t := IntStr(n);
      var ds := Digits(-n);
      DigitsAreDigits(-n);
      assert t == "-" + ds && t[1..] == ds;
      assert !IsSpace(t[|t| - 1]) by {
        assert t[|t| - 1] == ds[|ds| - 1];
      }
      StripUnpadded(t);
    }
  }

  /** `'1'` and `' 1 '` both set 1. */
  lemma MainAssemblySetsAccepts(b: Bom)
    ensures SetMainAssemblySets(b, "1") == Ok(b.(mainAssemblySets := 1))
    ensures SetMainAssemblySets(b, " 1 ") == Ok(b.(mainAssemblySets := 1))
  {
    PyIntOne();
  }

  /** `int('1')` and `int(' 1 ')` are 1. */
  lemma PyIntOne()
    ensures PyInt("1") == Ok(1) && PyInt(" 1 ") == Ok(1)
  {
    var one := "1";
    assert IsDigits(one) && DigitsValue(one) == 1 by {
      assert one[..0] == "";
    }
    StripUnpadded(one);
    PyIntStripped(one, one);
    StripPaddedOne();
    PyIntStripped(" 1 ", one);
  }

  /** `int` rejects a value that, once stripped, neither starts with a sign
      nor consists of digits. */
  lemma PyIntRejects(t: string)
    requires |t| > 0 && !IsSpace(t[0]) && !IsSpace(t[|t| - 1])
    requires t[0] != '+' && t[0] != '-' && !IsDigits(t)
    ensures PyInt(t) == Err(ValueError)
  {
    StripUnpadded(t);
  }

  /** `'1.'` and `'lorem'` are rejected. */
  lemma MainAssemblySetsRejects(b: Bom)
    ensures SetMainAssemblySets(b, "1.") == Err(ValueError)
    ensures SetMainAssemblySets(b, "lorem") == Err(ValueError)
  {
    assert !IsDigits("1.") by { assert !IsDigit("1."[1]); }
    PyIntRejects("1.");
    assert !IsDigits("lorem") by { assert !IsDigit("lorem"[0]); }
    PyIntRejects("lorem");
  }

  // ---- DefaultBomManager ---------------------------------------------------

  /** A `DefaultBomManager`. */
  datatype Manager = Manager(
    boms: seq<Obj<Bom>>,   // bom_list
    nextBom: nat)          // the identity the next BOM gets

  /** A manager as constructed: no BOMs. */
  const NewManager := Manager([], 0)

  /** `len(manager)` and `get_bom_count()`. */
  function BomCount(m: Manager): nat {
    |m.boms|
  }

  /** `create_bom(main_assembly_name, main_assembly_sets)` as written: it
      passes both arguments positionally to `DefaultBom`, whose constructor
      takes keyword arguments only, so the call raises TypeError before
      anything is appended. */
  function CreateBomAsWritten(m: Manager, name: string, sets: int): (r: (Manager, Result<Obj<Bom>>))
    ensures r.1 == Err(TypeError)
    ensures r.0 == m
  {
    (m, Err(TypeError))
  }

  /** `create_bom` passing its arguments by keyword: the new BOM, with that
      name and those sets, is appended and returned. */
  function CreateBom(m: Manager, name: string, sets: int): (r: (Manager, Obj<Bom>))
    ensures BomCount(r.0) == BomCount(m) + 1 && Holds(r.0.boms, r.1.id)
    ensures r.0.boms[..|m.boms|] == m.boms && r.0.boms[|m.boms|] == r.1
    ensures r.1.value == NewBom(name, sets)
    ensures Below(m.boms, m.nextBom) ==> !Holds(m.boms, r.1.id) && Below(r.0.boms, r.0.nextBom)
  {
    var bom := Obj(m.nextBom, NewBom(name, sets));
    var boms := Added(m.boms, m.nextBom, bom.value);
    assert boms[|m.boms|] == bom;
    (Manager(boms, m.nextBom + 1), bom)
  }

  /** As written no BOM can be created; with keyword arguments every call
      adds one. */
  lemma CreateBomFinding(m: Manager, name: string, sets: int)
    ensures CreateBomAsWritten(m, name, sets).1.Err?
    ensures BomCount(CreateBomAsWritten(m, name, sets).0) == BomCount(m)
    ensures BomCount(CreateBom(m, name, sets).0) == BomCount(m) + 1
  {
  }

  /** `delete_bom(bom)`: ObjectNotFound when the BOM is not in the list;
      otherwise every other BOM stays. */
  function DeleteBom(m: Manager, id: nat): (r: Result<Manager>)
    ensures r.Err? <==> !Holds(m.boms, id)
    ensures r.Err? ==> r.error == ObjectNotFound
    ensures r.Ok? ==> !Holds(r.value.boms, id)
    ensures r.Ok? ==> (forall k :: 0 <= k < |r.value.boms| ==> r.value.boms[k] in m.boms) &&
                      (forall k :: 0 <= k < |m.boms| && m.boms[k].id != id ==> m.boms[k] in r.value.boms)
    ensures r.Ok? ==> r.value.nextBom == m.nextBom
  {
    if !Holds(m.boms, id) then Err(ObjectNotFound)
    else
      var r := Without(m.boms, id);
      assert !Holds(r, id) by {
        forall k | 0 <= k < |r| ensures r[k].id != id {
        }
      }
      Ok(m.(boms := r))
  }

  /** Deleting the BOM at index `k` of a list without repeats removes it and
      nothing else. */
  lemma DeleteBomAt(m: Manager, k: nat)
    requires k < |m.boms| && UniqueIds(m.boms)
    ensures DeleteBom(m, m.boms[k].id) == Ok(m.(boms := m.boms[..k] + m.boms[k + 1..]))
    ensures BomCount(DeleteBom(m, m.boms[k].id).value) == BomCount(m) - 1
  {
    WithoutAt(m.boms, k);
  }

  /** `reset_bom(bom)`: ObjectNotFound when the BOM is not in the list;
      otherwise a new default BOM takes its place, at the same index, every
      other entry unchanged, and is returned. */
  function ResetBom(m: Manager, id: nat): (r: Result<(Manager, Obj<Bom>)>)
    ensures r.Err? <==> !Holds(m.boms, id)
    ensures r.Err? ==> r.error == ObjectNotFound
    ensures r.Ok? ==> var (m', clean) := r.value;
                      && |m'.boms| == |m.boms|
                      && clean.value == NewBom("", 0)
                      && (forall k :: 0 <= k < |m.boms| && m.boms[k].id != id ==> m'.boms[k] == m.boms[k])
                      && (forall k :: 0 <= k < |m.boms| && m.boms[k].id == id ==> m'.boms[k] == clean)
                      && Holds(m'.boms, clean.id)
                      && (Below(m.boms, m.nextBom) ==>
                            !Holds(m.boms, clean.id) && !Holds(m'.boms, id) && Below(m'.boms, m'.nextBom))
  {
    if !Holds(m.boms, id) then Err(ObjectNotFound)
    else
      var clean := Obj(m.nextBom, NewBom("", 0));
      var boms := Replaced(m.boms, id, clean);
      assert Holds(boms, clean.id) by {
        var k :| 0 <= k < |m.boms| && m.boms[k].id == id;
        assert boms[k] == clean;
      }
      Ok((Manager(boms, m.nextBom + 1), clean))
  }
}

=== FILE: classify.dfy ===
/** Part classification (`is_production`, `is_fastener`, `is_purchased`, the
    three junk flags, `is_junk`, `get_type` and `get_file_type` in
    web_app/functions/processor.py; the same rules in
    web_app/models/bom_processor_methods.py and web_app/models.py).

    The rules here work on the values a stage has already read from the part;
    reading those values (and the errors reading can raise) belongs to each
    generation's stage.
 */
module Classify {
  import opened Wrappers
  import opened Text
  import opened Keywords
  import opened Parts

  /** Python truthiness of an optional flag: None and False are falsy. */
  predicate IsSet(b: Option<bool>) {
    b == Some(true)
  }

  /** `is_production` on a part number: some cleaned keyword occurs in it
      (with no keywords, nothing is production). */
  function IsProductionNumber(keywords: seq<string>, number: string): (r: bool)
    ensures r ==> |keywords| > 0
    ensures r <==> exists k :: 0 <= k < |keywords| && Contains(number, keywords[k])
  {
    AnyIn(keywords, number)
  }

  /** `is_purchased`: neither production nor fastener. */
  function IsPurchased(isProduction: Option<bool>, isFastener: Option<bool>): (r: bool)
    ensures r <==> !IsSet(isProduction) && !IsSet(isFastener)
  {
    !IsSet(isProduction) && !IsSet(isFastener)
  }

  /** `is_junk_by_keywords`: keywords are matched against the part number, or
      against the name when the number is empty. */
  function IsJunkByKeywords(keywords: seq<string>, number: string, name: string): (r: bool)
    ensures number != "" ==> (r <==> IsProductionNumber(keywords, number))
    ensures number == "" ==> (r <==> IsProductionNumber(keywords, name))
  {
    AnyIn(keywords, if number != "" then number else name)
  }

  /** `is_junk_by_empty_fields` once the listed fields have been read: true iff
      some field is listed and none of them is truthy. */
  function IsJunkByEmptyFields(fieldValues: seq<Value>): (r: bool)
    ensures r <==> |fieldValues| > 0 && forall k :: 0 <= k < |fieldValues| ==> !Parts.Truthy(fieldValues[k])
  {
    |fieldValues| > 0 && forall k :: 0 <= k < |fieldValues| ==> !Parts.Truthy(fieldValues[k])
  }

  /** `is_junk_by_purchased_part_nesting` once the immediate parent's production
      test is known: the policy is on, the part has a parent, and that parent
      is not production. */
  function IsJunkByNesting(policy: bool, parentIds: Option<seq<string>>, parentIsProduction: bool): (r: bool)
    ensures r ==> policy && parentIds.Some? && |parentIds.value| > 0
    ensures policy && parentIds.Some? && |parentIds.value| > 0 ==> (r <==> !parentIsProduction)
  {
    policy && parentIds.Some? && |parentIds.value| > 0 && !parentIsProduction
  }

  /** `is_junk`: any of the three junk flags. */
  function IsJunk(byKeywords: Option<bool>, byEmptyFields: Option<bool>, byNesting: Option<bool>): (r: bool)
    ensures r <==> IsSet(byKeywords) || IsSet(byEmptyFields) || IsSet(byNesting)
  {
    IsSet(byKeywords) || IsSet(byEmptyFields) || IsSet(byNesting)
  }

  /** `get_type`: junk before production before fastener before purchased;
      None when no flag is set. */
  function GetType(d: Derived): (r: Option<PartType>)
    ensures r == Some(Junk) <==> IsSet(d.isJunk)
    ensures r == Some(Production) <==> !IsSet(d.isJunk) && IsSet(d.isProduction)
    ensures r == Some(Fastener) <==> !IsSet(d.isJunk) && !IsSet(d.isProduction) && IsSet(d.isFastener)
    ensures r == Some(Purchased) <==>
              !IsSet(d.isJunk) && !IsSet(d.isProduction) && !IsSet(d.isFastener) && IsSet(d.isPurchased)
  {
    if IsSet(d.isJunk) then Some(Junk)
    else if IsSet(d.isProduction) then Some(Production)
    else if IsSet(d.isFastener) then Some(Fastener)
    else if IsSet(d.isPurchased) then Some(Purchased)
    else None
  }

  /** Once `is_purchased` has been computed from the production and fastener
      flags, every part gets a type. */
  lemma TypeTotalAfterPurchased(d: Derived)
    requires d.isPurchased == Some(IsPurchased(d.isProduction, d.isFastener))
    ensures GetType(d).Some?
  {
  }

  /** `get_file_type`: an assembly iff it has children and is production;
      `len(None)` raises TypeError when the child list was never computed. */
  function GetFileType(child: Option<seq<string>>, t: Option<PartType>): (r: Result<FileType>)
    ensures r.Err? <==> child.None?
    ensures r.Err? ==> r.error == TypeError
    ensures r == Ok(AssemblyFile) <==> child.Some? && |child.value| > 0 && t == Some(Production)
  {
    match child
    case None => Err(TypeError)
    case Some(c) => Ok(if |c| > 0 && t == Some(Production) then AssemblyFile else PartFile)
  }

  /** Every assembly is a production part, never junk: junk takes priority. */
  lemma AssemblyNotJunk(d: Derived)
    requires GetFileType(d.child, GetType(d)) == Ok(AssemblyFile)
    ensures !IsSet(d.isJunk) && IsSet(d.isProduction)
  {
  }

  // ---- fasteners -------------------------------------------------------

  /** Some attribute text contains `fragment`. */
  predicate OccursIn(names: seq<string>, fragment: string) {
    exists i :: 0 <= i < |names| && Contains(names[i], fragment)
  }

  /** The first library fragment, in library order, occurring in some name:
      the first key of the dictionary comprehension `norm_in_name`. */
  function FirstFragment(library: seq<(string, seq<int>)>, names: seq<string>): (r: Option<nat>)
    ensures r.None? <==> forall f :: 0 <= f < |library| ==> !OccursIn(names, library[f].0)
    ensures r.Some? ==> r.value < |library| && OccursIn(names, library[r.value].0)
    ensures r.Some? ==> forall f :: 0 <= f < r.value ==> !OccursIn(names, library[f].0)
    decreases |library|
  {
    if |library| == 0 then None
    else if OccursIn(names, library[0].0) then Some(0)
    else match FirstFragment(library[1..], names)
      case None =>
        assert forall f :: 0 <= f < |library| ==> !OccursIn(names, library[f].0) by {
          forall f | 0 < f < |library| ensures !OccursIn(names, library[f].0) {
            assert library[f] == library[1..][f - 1];
          }
        }
        None
      case Some(f) =>
        assert forall g :: 0 <= g < f + 1 ==> !OccursIn(names, library[g].0) by {
          forall g | 0 < g < f + 1 ensures !OccursIn(names, library[g].0) {
            assert library[g] == library[1..][g - 1];
          }
        }
        Some(f + 1)
  }

  /** The last name containing `fragment`: the value the comprehension keeps
      for that key, later names overwriting earlier ones. */
  function LastContaining(names: seq<string>, fragment: string): (r: Option<nat>)
    ensures r.None? <==> !OccursIn(names, fragment)
    ensures r.Some? ==> r.value < |names| && Contains(names[r.value], fragment)
    ensures r.Some? ==> forall i :: r.value < i < |names| ==> !Contains(names[i], fragment)
    decreases |names|
  {
    if |names| == 0 then None
    else if Contains(names[|names| - 1], fragment) then Some(|names| - 1)
    else
      var r := LastContaining(names[..|names| - 1], fragment);
      assert forall i :: 0 <= i < |names| - 1 ==> names[..|names| - 1][i] == names[i];
      r
  }

  /** `[int(num) for num in re.findall(r'\d+', name)]`. */
  function Numbers(name: string): (r: seq<nat>)
    ensures |r| == |DigitRuns(name)|
  {
    var runs := DigitRuns(name);
    seq(|runs|, k requires 0 <= k < |runs| => DigitsValue(runs[k]))
  }

  /** `is_fastener` over the textual attribute values of the part (`str(value)`
      for each value of `vars(part)`, in attribute order): the values are
      upper-cased, the first library fragment found picks the last value
      containing it, and the part is a fastener iff one of that fragment's
      allowed codes is a number written in that value. */
  function IsFastener(values: seq<string>, library: seq<(string, seq<int>)>): (r: bool)
    ensures !r <== forall f :: 0 <= f < |library| ==> !OccursIn(UpperAll(values), library[f].0)
    ensures r ==> exists f, i ::
                    && 0 <= f < |library| && 0 <= i < |values|
                    && Contains(UpperStr(values[i]), library[f].0)
                    && exists x :: x in library[f].1 && x in Numbers(UpperStr(values[i]))
  {
    var names := UpperAll(values);
    match FirstFragment(library, names)
    case None => false
    case Some(f) =>
      match LastContaining(names, library[f].0)
      case None => false
      case Some(i) => exists x :: x in library[f].1 && x in Numbers(names[i])
  }

  /** The upper-cased values. */
  function UpperAll(values: seq<string>): (r: seq<string>)
    ensures |r| == |values|
    ensures forall i :: 0 <= i < |values| ==> r[i] == UpperStr(values[i])
  {
    seq(|values|, i requires 0 <= i < |values| => UpperStr(values[i]))
  }

  /** An earlier library fragment shadows a later one: when the first fragment
      found has no allowed code in its value, a later fragment whose code does
      appear cannot make the part a fastener. */
  lemma FirstFragmentDecides(values: seq<string>, library: seq<(string, seq<int>)>, f: nat)
    requires f < |library| && OccursIn(UpperAll(values), library[f].0)
    requires forall g :: 0 <= g < f ==> !OccursIn(UpperAll(values), library[g].0)
    requires forall i :: 0 <= i < |values| && Contains(UpperStr(values[i]), library[f].0) ==>
               forall x :: x in library[f].1 ==> x !in Numbers(UpperStr(values[i]))
    ensures !IsFastener(values, library)
  {
    var names := UpperAll(values);
    var first := FirstFragment(library, names);
    assert first == Some(f);
  }

  /** The fastener test decided: with `f` the first library fragment found
      in some value and `i` the last value containing it, the part is a
      fastener exactly when one of `f`'s allowed codes is a number written in
      value `i`. */
  lemma FastenerIff(values: seq<string>, library: seq<(string, seq<int>)>, f: nat, i: nat)
    requires f < |library| && OccursIn(UpperAll(values), library[f].0)
    requires forall g :: 0 <= g < f ==> !OccursIn(UpperAll(values), library[g].0)
    requires i < |values| && Contains(UpperStr(values[i]), library[f].0)
    requires forall j :: i < j < |values| ==> !Contains(UpperStr(values[j]), library[f].0)
    ensures IsFastener(values, library) <==> exists x :: x in library[f].1 && x in Numbers(UpperStr(values[i]))
  {
    var names := UpperAll(values);
    assert FirstFragment(library, names) == Some(f);
    var last := LastContaining(names, library[f].0);
    assert last == Some(i);
  }
}

=== FILE: collection.dfy ===
/** The parts collection and its iterators (web_app/models/parts_collection.py),
    with `sort_by_type_and_number` (web_app/functions/functions.py).

    The collection holds references to part objects.  Objects live on a heap
    (`seq<Item>`) and a reference is an index into it, which stands for
    Python's object identity: `list.index` finds the first occurrence of the
    very object.  An iterator recomputes its iteration list on every
    `__next__`; the list is a pure function of the collection and the heap.

    The iterators read `part.number`, an attribute a part object has only
    when its imported BOM has a column named exactly `number`; reading it
    from any other part raises AttributeError.
 */
module Collection {
  import opened Wrappers
  import opened Parts
  import opened Sorting
  import opened Tree
  import TreeList

  /** What the iterators read from a part object: its `number` attribute
      (None when it has none), its parent-id list (empty or None makes it
      top-level), its type, the segment count of its position and its list of
      child objects. */
  datatype Item = Item(number: Option<string>, parent: Option<seq<string>>, partType: Option<PartType>,
                       generation: nat, child: Option<seq<nat>>)

  /** `PartsCollection`: the stored list of part references, or None. */
  datatype PartsCollection = PartsCollection(items: Option<seq<nat>>)

  /** Every reference, in the collection and in child lists, names an object. */
  predicate WellFormed(heap: seq<Item>, c: PartsCollection) {
    && (c.items.Some? ==> forall i :: 0 <= i < |c.items.value| ==> c.items.value[i] < |heap|)
    && ChildrenInHeap(heap)
  }

  /** Every child list names objects of the heap. */
  predicate ChildrenInHeap(heap: seq<Item>) {
    forall x, i :: 0 <= x < |heap| && heap[x].child.Some? && 0 <= i < |heap[x].child.value| ==>
      heap[x].child.value[i] < |heap|
  }

  /** `len(collection)`: `len(None)` raises TypeError. */
  function Len(c: PartsCollection): (r: Result<nat>)
    ensures r.Ok? <==> c.items.Some?
    ensures r.Err? ==> r.error == TypeError
    ensures r.Ok? ==> r.value == |c.items.value|
  {
    match c.items
    case None => Err(TypeError)
    case Some(xs) => Ok(|xs|)
  }

  /** `add_part`: a missing list becomes an empty one, then the part is
      appended; earlier elements stay as they were. */
  function AddPart(c: PartsCollection, x: nat): (r: PartsCollection)
    ensures r.items.Some? && |r.items.value| > 0 && r.items.value[|r.items.value| - 1] == x
    ensures r.items.value[..|r.items.value| - 1] == c.items.GetOr([])
  {
    var xs := c.items.GetOr([]);
    assert (xs + [x])[..|xs|] == xs;
    PartsCollection(Some(xs + [x]))
  }

  /** After `add_part` the length is one more (counting a missing list as
      empty) and the collection iterates as before, then the new part. */
  lemma AddPartGrows(c: PartsCollection, x: nat)
    ensures Len(AddPart(c, x)) == Ok(|c.items.GetOr([])| + 1)
    ensures DefaultOrder(AddPart(c, x)) == DefaultOrder(c) + [x]
  {
    var r := AddPart(c, x).items.value;
    assert r == r[..|r| - 1] + [x];
  }

  // ---- iteration ------------------------------------------------------------

  /** `__next__`: the element at the iterator's position and the next
      position; past the end the IndexError becomes StopIteration, and an
      exception computing the iteration list propagates. */
  function Next(list: Result<seq<nat>>, position: nat): (r: Result<(nat, nat)>)
    ensures list.Err? ==> r == Err(list.error)
    ensures list.Ok? && position >= |list.value| ==> r == Err(StopIteration)
    ensures r.Ok? ==> r.value.1 == position + 1 && position < |list.value| && r.value.0 == list.value[position]
  {
    var xs :- list;
    if position < |xs| then Ok((xs[position], position + 1)) else Err(StopIteration)
  }

  /** What a `for` loop over the iterator receives from `position` on:
      `__next__` until StopIteration. */
  function Yields(list: seq<nat>, position: nat): seq<nat>
    decreases |list| - position
  {
    match Next(Ok(list), position)
    case Err(_) => []
    case Ok((x, position')) => [x] + Yields(list, position')
  }

  /** Iterating from a position yields the rest of the iteration list, in
      order, each element once. */
  lemma {:induction false} YieldsRest(list: seq<nat>, position: nat)
    requires position <= |list|
    ensures Yields(list, position) == list[position..]
    decreases |list| - position
  {
    if position < |list| {
      YieldsRest(list, position + 1);
      assert list[position..] == [list[position]] + list[position + 1..];
    }
  }

  // ---- the iteration orders ------------------------------------------------------

  /** `DefaultOrderIterator`: the stored list; a missing or empty list
      iterates as empty. */
  function DefaultOrder(c: PartsCollection): (r: seq<nat>)
    ensures c.items.Some? ==> r == c.items.value
    ensures c.items.None? ==> r == []
  {
    c.items.GetOr([])
  }

  /** Iterating a collection yields its parts in stored order. */
  lemma DefaultIteration(c: PartsCollection)
    ensures Yields(DefaultOrder(c), 0) == c.items.GetOr([])
  {
    YieldsRest(DefaultOrder(c), 0);
  }

  /** The object has a `number` attribute. */
  predicate HasNumber(heap: seq<Item>, x: nat) {
    x < |heap| && heap[x].number.Some?
  }

  /** Every object of the list has a `number` attribute. */
  predicate AllNumbered(heap: seq<Item>, xs: seq<nat>) {
    forall i :: 0 <= i < |xs| ==> HasNumber(heap, xs[i])
  }

  /** The key `part.number` (read only where the attribute exists). */
  function NumberKey(heap: seq<Item>): nat -> Key {
    (x: nat) => if HasNumber(heap, x) then Key([], Codes(heap[x].number.value)) else Key([], [])
  }

  /** The key `(type_sorter(part), part.number)` (read only where both exist). */
  function TypeNumberKey(heap: seq<Item>): nat -> Key {
    (x: nat) => if HasNumber(heap, x) && heap[x].partType.Some?
                then Key(TypeSorter(heap[x].partType).value, Codes(heap[x].number.value))
                else Key([], [])
  }

  /** `PartNumberOrderIterator`: the stored list sorted ascending by number;
      `sorted(None)` raises TypeError, and a part without a `number`
      attribute raises AttributeError while the keys are computed. */
  function PartNumberOrder(heap: seq<Item>, c: PartsCollection): (r: Result<seq<nat>>)
    ensures r.Ok? <==> c.items.Some? && AllNumbered(heap, c.items.value)
    ensures c.items.None? ==> r == Err(TypeError)
    ensures c.items.Some? && r.Err? ==> r.error == AttributeError
    ensures r.Ok? ==> Sorted(r.value, NumberKey(heap), false) && multiset(r.value) == multiset(c.items.value)
  {
    match c.items
    case None => Err(TypeError)
    case Some(xs) =>
      if !AllNumbered(heap, xs) then Err(AttributeError)
      else
        SortSorted(xs, NumberKey(heap), false);
        Ok(Sort(xs, NumberKey(heap), false))
  }

  /** The sort is stable: parts with equal numbers keep their stored order. */
  lemma PartNumberOrderStable(heap: seq<Item>, c: PartsCollection, k: Key)
    requires c.items.Some? && AllNumbered(heap, c.items.value)
    ensures WithKey(PartNumberOrder(heap, c).value, NumberKey(heap), k) == WithKey(c.items.value, NumberKey(heap), k)
  {
    SortStable(c.items.value, NumberKey(heap), false, k);
  }

  /** Computing the sort key `(type_sorter(part), part.number)` of one
      object: `type_sorter` raises TypeError on a missing type first, then a
      missing `number` raises AttributeError. */
  function KeyError(heap: seq<Item>, x: nat): (r: Option<Error>)
    requires x < |heap|
    ensures r.None? <==> heap[x].partType.Some? && heap[x].number.Some?
  {
    if heap[x].partType.None? then Some(TypeError)
    else if heap[x].number.None? then Some(AttributeError)
    else None
  }

  /** `sorted` computes the keys in list order, so the first object whose
      key cannot be computed decides the exception. */
  function FirstKeyError(heap: seq<Item>, xs: seq<nat>): (r: Option<Error>)
    requires forall i :: 0 <= i < |xs| ==> xs[i] < |heap|
    ensures r.None? <==> forall i :: 0 <= i < |xs| ==> KeyError(heap, xs[i]).None?
    ensures r.Some? ==> exists i :: 0 <= i < |xs| && KeyError(heap, xs[i]) == r &&
                                    forall j :: 0 <= j < i ==> KeyError(heap, xs[j]).None?
    decreases |xs|
  {
    if |xs| == 0 then None
    else if KeyError(heap, xs[0]).Some? then KeyError(heap, xs[0])
    else
      var r := FirstKeyError(heap, xs[1..]);
      assert forall i :: 1 <= i < |xs| ==> xs[i] == xs[1..][i - 1];
      assert r.Some? ==> exists i :: 0 <= i < |xs| && KeyError(heap, xs[i]) == r &&
                                     forall j :: 0 <= j < i ==> KeyError(heap, xs[j]).None? by {
        if r.Some? {
          var i :| 0 <= i < |xs[1..]| && KeyError(heap, xs[1..][i]) == r &&
                   forall j :: 0 <= j < i ==> KeyError(heap, xs[1..][j]).None?;
          assert KeyError(heap, xs[i + 1]) == r;
        }
      }
      r
  }

  /** `sort_by_type_and_number`: descending by (type key, number); the first
      part whose type or number is missing decides the exception. */
  function SortByTypeAndNumber(heap: seq<Item>, xs: seq<nat>): (r: Result<seq<nat>>)
    requires forall i :: 0 <= i < |xs| ==> xs[i] < |heap|
    ensures r.Ok? <==> forall i :: 0 <= i < |xs| ==> heap[xs[i]].partType.Some? && heap[xs[i]].number.Some?
    ensures r.Err? ==> exists i :: 0 <= i < |xs| && KeyError(heap, xs[i]) == Some(r.error) &&
                                   forall j :: 0 <= j < i ==> KeyError(heap, xs[j]).None?
    ensures r.Ok? ==> Sorted(r.value, TypeNumberKey(heap), true) && multiset(r.value) == multiset(xs)
  {
    match FirstKeyError(heap, xs)
    case Some(e) => Err(e)
    case None =>
      SortSorted(xs, TypeNumberKey(heap), true);
      Ok(Sort(xs, TypeNumberKey(heap), true))
  }

  /** Parts with equal (type, number) keep their list order. */
  lemma SortByTypeAndNumberStable(heap: seq<Item>, xs: seq<nat>, k: Key)
    requires forall i :: 0 <= i < |xs| ==> xs[i] < |heap|
    requires SortByTypeAndNumber(heap, xs).Ok?
    ensures WithKey(SortByTypeAndNumber(heap, xs).value, TypeNumberKey(heap), k) == WithKey(xs, TypeNumberKey(heap), k)
  {
    SortStable(xs, TypeNumberKey(heap), true, k);
  }

  /** A part object whose `parent` is falsy: None or empty. */
  predicate IsTop(heap: seq<Item>, x: nat) {
    x < |heap| && (heap[x].parent.None? || |heap[x].parent.value| == 0)
  }

  /** `[part for part in xs if not part.parent]`. */
  function TopMembers(heap: seq<Item>, xs: seq<nat>): (r: seq<nat>)
    ensures forall v :: multiset(r)[v] == if IsTop(heap, v) then multiset(xs)[v] else 0
    decreases |xs|
  {
    if |xs| == 0 then []
    else
      assert xs == [xs[0]] + xs[1..];
      (if IsTop(heap, xs[0]) then [xs[0]] else []) + TopMembers(heap, xs[1..])
  }

  /** A part object the loop may expand: its child list exists and every
      child has a type and a number. */
  predicate Expandable(heap: seq<Item>, x: nat) {
    && x < |heap| && heap[x].child.Some?
    && forall i :: 0 <= i < |heap[x].child.value| ==>
         heap[x].child.value[i] < |heap| && heap[heap[x].child.value[i]].partType.Some? &&
         heap[heap[x].child.value[i]].number.Some?
  }

  /** The exception expanding an object raises: `sorted(None)` raises
      TypeError, otherwise the first child whose key cannot be computed
      decides. */
  function ExpandError(heap: seq<Item>, x: nat): (r: Option<Error>)
    requires x < |heap| && (heap[x].child.Some? ==> forall i :: 0 <= i < |heap[x].child.value| ==> heap[x].child.value[i] < |heap|)
    ensures r.None? <==> Expandable(heap, x)
    ensures heap[x].child.None? ==> r == Some(TypeError)
    ensures heap[x].child.Some? ==> r == FirstKeyError(heap, heap[x].child.value)
  {
    match heap[x].child
    case None => Some(TypeError)
    case Some(xs) => FirstKeyError(heap, xs)
  }

  /** The forest the generation passes walk: generations as the objects
      report them, children as `sort_by_type_and_number` orders them. */
  function ForestOf(heap: seq<Item>): Forest {
    Forest((x: nat) => if x < |heap| then heap[x].generation else 0,
           (x: nat) => if Expandable(heap, x) then Sort(heap[x].child.value, TypeNumberKey(heap), true) else [])
  }

  /** The top-level parts sorted ascending by number; a top-level part
      without a `number` attribute raises AttributeError. */
  function TreeRoots(heap: seq<Item>, c: PartsCollection): (r: Result<seq<nat>>)
    ensures r.Ok? <==> forall i :: 0 <= i < |DefaultOrder(c)| && IsTop(heap, DefaultOrder(c)[i]) ==> HasNumber(heap, DefaultOrder(c)[i])
    ensures r.Err? ==> r.error == AttributeError
    ensures r.Ok? ==> Sorted(r.value, NumberKey(heap), false)
    ensures r.Ok? ==> forall v :: multiset(r.value)[v] == if IsTop(heap, v) then multiset(DefaultOrder(c))[v] else 0
  {
    var m := TopMembers(heap, DefaultOrder(c));
    TopMembersNumbered(heap, DefaultOrder(c), m);
    if !AllNumbered(heap, m) then Err(AttributeError)
    else
      SortSorted(m, NumberKey(heap), false);
      Ok(Sort(m, NumberKey(heap), false))
  }

  /** The top-level members all have numbers exactly when every top-level
      part of the list has one. */
  lemma TopMembersNumbered(heap: seq<Item>, xs: seq<nat>, m: seq<nat>)
    requires m == TopMembers(heap, xs)
    ensures AllNumbered(heap, m) <==> forall i :: 0 <= i < |xs| && IsTop(heap, xs[i]) ==> HasNumber(heap, xs[i])
  {
    forall i | 0 <= i < |m| ensures m[i] in multiset(xs) && IsTop(heap, m[i]) {
      assert m[i] in multiset(m);
    }
    forall i | 0 <= i < |xs| && IsTop(heap, xs[i]) ensures xs[i] in m {
      assert xs[i] in multiset(xs);
      assert multiset(m)[xs[i]] > 0;
    }
  }

  /** The list the generation passes build from the roots. */
  function Walk(heap: seq<Item>, c: PartsCollection): seq<nat>
    requires TreeRoots(heap, c).Ok?
  {
    Passes(ForestOf(heap), TreeRoots(heap, c).value, 1)
  }

  /** A listed object the loop expands: of a generation from 1 to 19. */
  predicate Expanded(heap: seq<Item>, y: nat) {
    1 <= ForestOf(heap).gen(y) < LastGeneration
  }

  /** The walk only holds objects of the heap. */
  lemma WalkBounded(heap: seq<Item>, c: PartsCollection)
    requires WellFormed(heap, c) && TreeRoots(heap, c).Ok?
    ensures forall i :: 0 <= i < |Walk(heap, c)| ==> Walk(heap, c)[i] < |heap|
  {
    var f := ForestOf(heap);
    var roots := TreeRoots(heap, c).value;
    forall x: nat, i | 0 <= i < |f.kids(x)| ensures f.kids(x)[i] < |heap| {
      KidIsChild(heap, x, i);
    }
    forall i | 0 <= i < |roots| ensures roots[i] < |heap| {
      assert multiset(roots)[roots[i]] > 0;
    }
    PassesBounded(f, roots, 1, |heap|);
  }

  /** The exception of the first object of generation `g` in `list` that
      cannot be expanded, if any. */
  function FailureAt(heap: seq<Item>, list: seq<nat>, g: nat): (r: Option<Error>)
    requires ChildrenInHeap(heap)
    requires forall i :: 0 <= i < |list| ==> list[i] < |heap|
    ensures r.None? <==> forall i :: 0 <= i < |list| && ForestOf(heap).gen(list[i]) == g ==> Expandable(heap, list[i])
    ensures r.Some? ==> exists i :: 0 <= i < |list| && ForestOf(heap).gen(list[i]) == g && ExpandError(heap, list[i]) == r
    decreases |list|
  {
    if |list| == 0 then None
    else if ForestOf(heap).gen(list[0]) == g && !Expandable(heap, list[0]) then ExpandError(heap, list[0])
    else
      assert forall i :: 1 <= i < |list| ==> list[i] == list[1..][i - 1];
      var r := FailureAt(heap, list[1..], g);
      assert r.Some? ==> exists i :: 0 <= i < |list| && ForestOf(heap).gen(list[i]) == g && ExpandError(heap, list[i]) == r by {
        if r.Some? {
          var i :| 0 <= i < |list[1..]| && ForestOf(heap).gen(list[1..][i]) == g && ExpandError(heap, list[1..][i]) == r;
          assert list[i + 1] == list[1..][i];
        }
      }
      r
  }

  /** The first failing expansion the passes reach: the lowest generation
      from `g` on that has one, and the first such object in list order. */
  function FirstFailure(heap: seq<Item>, list: seq<nat>, g: nat): (r: Option<Error>)
    requires ChildrenInHeap(heap)
    requires forall i :: 0 <= i < |list| ==> list[i] < |heap|
    ensures r.None? <==> forall i :: 0 <= i < |list| && g <= ForestOf(heap).gen(list[i]) < LastGeneration ==> Expandable(heap, list[i])
    ensures r.Some? ==> exists i :: 0 <= i < |list| && g <= ForestOf(heap).gen(list[i]) < LastGeneration &&
                                    ExpandError(heap, list[i]) == r
    decreases LastGeneration - g
  {
    if g >= LastGeneration then None
    else match FailureAt(heap, list, g)
      case Some(e) => Some(e)
      case None => FirstFailure(heap, list, g + 1)
  }

  /** `TreeOrderIterator`, with the generation of each part read as the
      segment count of its position: the top-level parts by number, each
      followed by its child objects, passes 1 to 19.  Sorting the roots
      raises AttributeError on a missing number; expanding a part raises
      what `sort_by_type_and_number` raises on its child list. */
  function TreeOrder(heap: seq<Item>, c: PartsCollection): (r: Result<seq<nat>>)
    requires WellFormed(heap, c)
    ensures TreeRoots(heap, c).Err? ==> r == Err(AttributeError)
    ensures TreeRoots(heap, c).Ok? ==>
              (r.Ok? <==> forall i :: 0 <= i < |Walk(heap, c)| && Expanded(heap, Walk(heap, c)[i]) ==> Expandable(heap, Walk(heap, c)[i]))
    ensures r.Ok? ==> TreeRoots(heap, c).Ok? && r.value == Walk(heap, c)
    ensures r.Err? && TreeRoots(heap, c).Ok? ==>
              exists i :: 0 <= i < |Walk(heap, c)| && Expanded(heap, Walk(heap, c)[i]) &&
                          ExpandError(heap, Walk(heap, c)[i]) == Some(r.error)
  {
    var roots :- TreeRoots(heap, c);
    var list := Walk(heap, c);
    WalkBounded(heap, c);
    match FirstFailure(heap, list, 1)
    case Some(e) => Err(e)
    case None => Ok(list)
  }

  /** `TreeOrderIterator` as written: the first pass computes the generation
      of the first root as `len(part.position.split(part.get_pos_delimiter()))`,
      and no part class defines `get_pos_delimiter`, so any top-level part
      makes the iteration raise AttributeError (sorting the roots by number
      may raise it first); without one the tree list is empty. */
  function TreeOrderAsWritten(heap: seq<Item>, c: PartsCollection): (r: Result<seq<nat>>)
    ensures r.Ok? <==> forall i :: 0 <= i < |DefaultOrder(c)| ==> !IsTop(heap, DefaultOrder(c)[i])
    ensures r.Ok? ==> r.value == []
    ensures r.Err? ==> r.error == AttributeError
  {
    var m := TopMembers(heap, DefaultOrder(c));
    TopMembersEmpty(heap, DefaultOrder(c));
    if |m| == 0 then Ok([]) else Err(AttributeError)
  }

  /** There are no top-level members exactly when no part is top-level. */
  lemma TopMembersEmpty(heap: seq<Item>, xs: seq<nat>)
    ensures |TopMembers(heap, xs)| == 0 <==> forall i :: 0 <= i < |xs| ==> !IsTop(heap, xs[i])
  {
    var m := TopMembers(heap, xs);
    if |m| > 0 {
      assert m[0] in multiset(m);
    }
    forall i | 0 <= i < |xs| && IsTop(heap, xs[i]) ensures |m| > 0 {
      assert xs[i] in multiset(xs);
      assert multiset(m)[xs[i]] > 0;
    }
  }

  /** A collection holding one numbered top-level part with an empty child
      list: the corrected iterator succeeds, the iterator as written raises
      AttributeError. */
  lemma TreeOrderFinding()
    ensures var heap := [Item(Some("a"), None, None, 1, Some([]))];
            var c := PartsCollection(Some([0]));
            && TreeOrder(heap, c).Ok?
            && TreeOrderAsWritten(heap, c) == Err(AttributeError)
  {
    var heap := [Item(Some("a"), None, None, 1, Some([]))];
    var c := PartsCollection(Some([0]));
    assert IsTop(heap, DefaultOrder(c)[0]);
    assert TreeRoots(heap, c).Ok?;
    assert Expandable(heap, 0);
    WalkBounded(heap, c);
  }

  /** Every child object is one generation below its parent object. */
  ghost predicate ChildGenerations(heap: seq<Item>) {
    Valid(ForestOf(heap))
  }

  /** The children of an expanded part follow it in ascending (type, number)
      order, equal keys in reverse list order: `sort_by_type_and_number`
      sorts descending, stably, and inserting each at `index(part) + 1`
      reverses the list. */
  lemma TreeOrderChildren(heap: seq<Item>, x: nat, k: Key)
    requires Expandable(heap, x)
    ensures Sorted(Reverse(ForestOf(heap).kids(x)), TypeNumberKey(heap), false)
    ensures multiset(Reverse(ForestOf(heap).kids(x))) == multiset(heap[x].child.value)
    ensures WithKey(Reverse(ForestOf(heap).kids(x)), TypeNumberKey(heap), k) ==
            Reverse(WithKey(heap[x].child.value, TypeNumberKey(heap), k))
  {
    var xs := heap[x].child.value;
    var r := Sort(xs, TypeNumberKey(heap), true);
    SortSorted(xs, TypeNumberKey(heap), true);
    ReverseSorted(r, TypeNumberKey(heap), true);
    ReverseMultiset(r);
    ReverseWithKey(r, TypeNumberKey(heap), k);
    SortStable(xs, TypeNumberKey(heap), true, k);
  }

  /** The tree list is the pre-order flattening of the top-level parts'
      subtrees, cut below generation 20. */
  lemma TreeOrderIsPreOrder(heap: seq<Item>, c: PartsCollection)
    requires WellFormed(heap, c) && ChildGenerations(heap) && TreeOrder(heap, c).Ok?
    requires TopGenerations(heap, c, 1, false)
    ensures TreeOrder(heap, c).value == Subtrees(ForestOf(heap), TreeRoots(heap, c).value, LastGeneration)
  {
    var roots := TreeRoots(heap, c).value;
    RootGenerations(heap, c, 1, false);
    TreeIsPreOrder(ForestOf(heap), roots);
  }

  /** Top-level parts have a generation of at least 1. */
  predicate TopGenerations(heap: seq<Item>, c: PartsCollection, least: nat, exact: bool) {
    forall i :: 0 <= i < |DefaultOrder(c)| && IsTop(heap, DefaultOrder(c)[i]) ==>
      if exact then heap[DefaultOrder(c)[i]].generation == least else heap[DefaultOrder(c)[i]].generation >= least
  }

  lemma RootGenerations(heap: seq<Item>, c: PartsCollection, least: nat, exact: bool)
    requires WellFormed(heap, c) && TopGenerations(heap, c, least, exact) && TreeRoots(heap, c).Ok?
    ensures forall j :: 0 <= j < |TreeRoots(heap, c).value| ==>
              if exact then ForestOf(heap).gen(TreeRoots(heap, c).value[j]) == least else ForestOf(heap).gen(TreeRoots(heap, c).value[j]) >= least
  {
    var roots := TreeRoots(heap, c).value;
    forall j | 0 <= j < |roots|
      ensures if exact then ForestOf(heap).gen(roots[j]) == least else ForestOf(heap).gen(roots[j]) >= least
    {
      assert multiset(roots)[roots[j]] > 0;
      assert roots[j] in DefaultOrder(c);
    }
  }

  /** Every listed part is a top-level part of the collection or a child of
      a listed part of a generation below 20. */
  lemma TreeOrderSound(heap: seq<Item>, c: PartsCollection, y: nat)
    requires WellFormed(heap, c) && ChildGenerations(heap) && TreeOrder(heap, c).Ok?
    requires TopGenerations(heap, c, 1, false)
    requires y in TreeOrder(heap, c).value
    ensures (IsTop(heap, y) && y in DefaultOrder(c)) ||
            exists p: nat, j :: Expandable(heap, p) && 0 <= j < |heap[p].child.value| && heap[p].child.value[j] == y &&
                                ForestOf(heap).gen(p) < LastGeneration && p in TreeOrder(heap, c).value
  {
    var f := ForestOf(heap);
    var roots := TreeRoots(heap, c).value;
    RootGenerations(heap, c, 1, false);
    TreeListSound(f, roots, y);
    if y in roots {
      assert y in multiset(roots);
    } else {
      var p: nat, j: int :| 0 <= j < |f.kids(p)| && f.kids(p)[j] == y && f.gen(p) < LastGeneration && p in Passes(f, roots, 1);
      KidIsChild(heap, p, j);
    }
  }

  /** A child in the forest is an entry of the part's own child list. */
  lemma KidIsChild(heap: seq<Item>, p: nat, j: nat)
    requires j < |ForestOf(heap).kids(p)|
    ensures Expandable(heap, p)
    ensures exists j' :: 0 <= j' < |heap[p].child.value| && heap[p].child.value[j'] == ForestOf(heap).kids(p)[j]
  {
    var xs := heap[p].child.value;
    var y := ForestOf(heap).kids(p)[j];
    assert y in multiset(Sort(xs, TypeNumberKey(heap), true));
    assert y in xs;
  }

  /** Every top-level part of the collection is listed. */
  lemma TreeOrderListsTop(heap: seq<Item>, c: PartsCollection, y: nat)
    requires WellFormed(heap, c) && ChildGenerations(heap) && TreeOrder(heap, c).Ok?
    requires TopGenerations(heap, c, 1, false)
    requires IsTop(heap, y) && y in DefaultOrder(c)
    ensures y in TreeOrder(heap, c).value
  {
    var roots := TreeRoots(heap, c).value;
    RootGenerations(heap, c, 1, false);
    assert multiset(roots)[y] > 0;
    var j :| 0 <= j < |roots| && roots[j] == y;
    TreeListComplete(ForestOf(heap), roots, y, 0);
  }

  /** Every child of a listed part below generation 20 is listed. */
  lemma TreeOrderListsChildren(heap: seq<Item>, c: PartsCollection, x: nat, i: nat)
    requires WellFormed(heap, c) && ChildGenerations(heap) && TreeOrder(heap, c).Ok?
    requires TopGenerations(heap, c, 1, false)
    requires Expandable(heap, x) && i < |heap[x].child.value| && ForestOf(heap).gen(x) < LastGeneration
    requires x in TreeOrder(heap, c).value
    ensures heap[x].child.value[i] in TreeOrder(heap, c).value
  {
    var roots := TreeRoots(heap, c).value;
    RootGenerations(heap, c, 1, false);
    var xs := heap[x].child.value;
    var kids := Sort(xs, TypeNumberKey(heap), true);
    assert xs[i] in multiset(kids);
    var k :| 0 <= k < |kids| && kids[k] == xs[i];
    TreeListComplete(ForestOf(heap), roots, x, k);
  }

  /** With each object in at most one child list, at most once, no object
      both top-level and a child, a duplicate-free collection and top-level
      parts of generation 1, the tree list holds each part at most once. */
  lemma TreeOrderOnce(heap: seq<Item>, c: PartsCollection)
    requires WellFormed(heap, c) && ChildGenerations(heap) && UniqueParents(ForestOf(heap)) && TreeOrder(heap, c).Ok?
    requires NoDups(DefaultOrder(c))
    requires TopGenerations(heap, c, 1, true)
    ensures NoDups(TreeOrder(heap, c).value)
  {
    var roots := TreeRoots(heap, c).value;
    TreeList.NoDupsCount(DefaultOrder(c));
    TreeList.NoDupsCount(roots);
    RootGenerations(heap, c, 1, true);
    TreeListNoDups(ForestOf(heap), roots);
  }

  /** With top-level parts of generation 1, every listed part is of a
      generation from 1 to 20: deeper parts never appear. */
  lemma TreeOrderDepth(heap: seq<Item>, c: PartsCollection, y: nat)
    requires WellFormed(heap, c) && ChildGenerations(heap) && TreeOrder(heap, c).Ok?
    requires TopGenerations(heap, c, 1, true)
    requires y in TreeOrder(heap, c).value
    ensures 1 <= ForestOf(heap).gen(y) <= LastGeneration
  {
    var roots := TreeRoots(heap, c).value;
    RootGenerations(heap, c, 1, true);
    TreeListDepth(ForestOf(heap), roots, y);
  }
}

=== FILE: config.dfy ===
/** The configuration a processing run reads: the processor's attributes
    (web_app/models/bom_processor.py) together with the column roles and the
    main assembly of its BOM (web_app/models/bom.py), and the fastener library
    (`standard_fasteners`, which is not part of this model and is taken as a
    parameter).
 */
module Config {
  import opened Wrappers
  import opened Keywords

  datatype Settings = Settings(
    positionColumn: string,                 // part_position_column
    quantityColumn: string,                 // part_quantity_column
    numberColumn: string,                   // part_number_column
    nameColumn: string,                     // part_name_column
    delimiter: Option<char>,                // part_position_delimiter
    productionKeywords: Setting,            // production_part_keywords
    junkKeywords: Setting,                  // junk_part_keywords
    emptyFields: Setting,                   // junk_part_empty_fields
    junkForPurchasedNests: bool,            // set_junk_for_purchased_nests
    normalizedColumns: Option<seq<string>>, // normalized_columns
    mainAssemblyName: string,               // bom.main_assembly_name
    mainAssemblySets: int,                  // bom.main_assembly_sets
    library: seq<(string, seq<int>)>)       // standard_fasteners, in its order
}

=== FILE: delimiter.dfy ===
/** Position-delimiter detection (web_app/functions/part_list_validator.py and
    `get_number_delimiter` in web_app/functions/functions.py).

    A position such as "1-7" is made of digit segments joined by one non-digit
    delimiter.  Within one string at most one distinct non-digit character may
    appear; across a collection every part must use the first delimiter found.
 */
module PositionDelimiter {
  import opened Wrappers
  import opened Text

  /** The distinct non-digit characters of `s`. */
  function NonDigits(s: string): set<char> {
    set i | 0 <= i < |s| && !IsDigit(s[i]) :: s[i]
  }

  /** Two different non-digit characters occur in `s`. */
  predicate Ambiguous(s: string) {
    exists i, j :: 0 <= i < |s| && 0 <= j < |s| && !IsDigit(s[i]) && !IsDigit(s[j]) && s[i] != s[j]
  }

  /** The first non-digit character of `s`. */
  function FirstNonDigit(s: string): (c: char)
    requires !AllDigits(s)
    ensures c in s && !IsDigit(c)
    decreases |s|
  {
    if !IsDigit(s[0]) then s[0] else FirstNonDigit(s[1..])
  }

  lemma NonDigitsCardinality(s: string)
    ensures AllDigits(s) <==> NonDigits(s) == {}
    ensures Ambiguous(s) <==> |NonDigits(s)| > 1
  {
    var n := NonDigits(s);
    if Ambiguous(s) {
      var i, j :| 0 <= i < |s| && 0 <= j < |s| && !IsDigit(s[i]) && !IsDigit(s[j]) && s[i] != s[j];
      assert {s[i], s[j]} <= n;
      assert |{s[i], s[j]}| == 2;
      SubsetCardinality({s[i], s[j]}, n);
    } else if n != {} {
      var c :| c in n;
      assert n == {c} by {
        forall x | x in n ensures x == c {
        }
      }
    }
    if !AllDigits(s) {
      var i :| 0 <= i < |s| && !IsDigit(s[i]);
      assert s[i] in n;
    }
  }

  lemma SubsetCardinality(a: set<char>, b: set<char>)
    requires a <= b
    ensures |a| <= |b|
  {
    assert b == a + (b - a);
  }

  /** `get_position_delimiter`: None for an all-digit string (including the empty
      string), the single non-digit character however often it repeats, and
      ValueError when two different non-digit characters occur. */
  function GetPositionDelimiter(s: string): (r: Result<Option<char>>)
    ensures r == Ok(None) <==> AllDigits(s)
    ensures r == Err(ValueError) <==> Ambiguous(s)
    ensures r.Err? ==> r == Err(ValueError)
    ensures r.Ok? && r.value.Some? ==>
              && r.value.value in s
              && forall i :: 0 <= i < |s| && !IsDigit(s[i]) ==> s[i] == r.value.value
  {
    NonDigitsCardinality(s);
    var candidates := NonDigits(s);
    if |candidates| > 1 then Err(ValueError)
    else if candidates == {} then Ok(None)
    else
      var c := FirstNonDigit(s);
      assert c in candidates;
      assert forall i :: 0 <= i < |s| && !IsDigit(s[i]) ==> s[i] == c by {
        forall i | 0 <= i < |s| && !IsDigit(s[i]) ensures s[i] == c {
          assert s[i] in candidates;
        }
      }
      Ok(Some(c))
  }

  /** `get_number_delimiter`: the distinct non-digit characters of the stripped
      string (a list without duplicates in the source, a set here). */
  function GetNumberDelimiter(s: string): (r: set<char>)
    ensures r == {} <==> AllDigits(Strip(s))
    ensures forall c :: c in r <==> c in Strip(s) && !IsDigit(c)
  {
    NonDigitsCardinality(Strip(s));
    NonDigits(Strip(s))
  }

  /** The outcome of `is_position_delimiter_unique` on one part: whether the part
      passes, and the collection-wide delimiter afterwards. */
  datatype Check = Check(ok: bool, established: Option<char>)

  /** `is_position_delimiter_unique`: a position without delimiter passes; one
      whose delimiter is the established one passes; when none is
      established yet, the position's delimiter becomes the established one;
      a different or ambiguous delimiter fails and changes nothing.  The
      source compares the two delimiters with `is`, object identity: both are
      one-character strings taken out of a position, and CPython shares one
      object per character only below code point 256, so an equal delimiter
      beyond Latin-1 (an en dash, say) is a different object and fails. */
  function IsPositionDelimiterUnique(established: Option<char>, position: string): (r: Check)
    ensures r.ok <==> ValidatorAgrees(established, position)
    ensures established.Some? ==> r.established == established
    ensures established.None? && r.ok && !AllDigits(position) ==>
              r.established == Some(FirstNonDigit(position))
    ensures !r.ok || AllDigits(position) ==> r.established == established
  {
    match GetPositionDelimiter(position)
    case Err(_) => Check(false, established)
    case Ok(None) => Check(true, established)
    case Ok(Some(c)) =>
      if established == Some(c) && Interned(c) then Check(true, established)
      else if established.None? then Check(true, Some(c))
      else Check(false, established)
  }

  /** CPython keeps a single shared object for each one-character string
      below code point 256; any other one-character string cut out of a
      position is a new object each time. */
  predicate Interned(c: char) {
    c as int < 256
  }

  /** What `is_position_delimiter_unique` accepts: the position agrees with
      the established delimiter, and when it must match an established one,
      that delimiter is a shared (Latin-1) object. */
  predicate ValidatorAgrees(established: Option<char>, position: string) {
    && PositionAgrees(established, position)
    && (established.Some? && !AllDigits(position) ==> Interned(established.value))
  }

  /** An en dash delimiter is adopted from the first part and then rejected
      on the next part that uses it, while a hyphen is accepted again. */
  lemma EnDashRejectedAgain()
    ensures IsPositionDelimiterUnique(None, "1\U{2013}1") == Check(true, Some('\U{2013}'))
    ensures !IsPositionDelimiterUnique(Some('\U{2013}'), "1\U{2013}2").ok
    ensures IsPositionDelimiterUnique(Some('-'), "1-2") == Check(true, Some('-'))
  {
    assert "1\U{2013}1"[1] == '\U{2013}';
    assert "1\U{2013}2"[1] == '\U{2013}';
    assert "1-2"[1] == '-';
  }

  /** "1.1 " is rejected after '.', since the blank is a second separator,
      while "1.1" agrees with '.'. */
  lemma DotPaddedRejected()
    ensures !IsPositionDelimiterUnique(Some('.'), "1.1 ").ok
    ensures PositionAgrees(Some('.'), "1.1") && FirstNonDigit("1.1") == '.'
  {
    assert "1.1 "[1] == '.' && "1.1 "[3] == ' ';
    var t := "1.1";
    assert t[0] == '1' && t[1] == '.' && t[2] == '1';
    assert t[1..] == ".1";
  }

  /** The blank in front of " 12" becomes the delimiter when none is
      established, while "12" has none. */
  lemma BlankPaddingAdopted()
    ensures IsPositionDelimiterUnique(None, " 12") == Check(true, Some(' '))
    ensures AllDigits("12")
  {
    var u := " 12";
    assert u[0] == ' ' && u[1] == '1' && u[2] == '2';
  }

  /** A position is acceptable next to an established delimiter: it is
      unambiguous and any delimiter it has is the established one (or none is
      established yet). */
  predicate PositionAgrees(established: Option<char>, position: string) {
    && !Ambiguous(position)
    && (established.Some? && !AllDigits(position) ==> FirstNonDigit(position) == established.value)
  }

  /** A stretch of an unambiguous string is unambiguous. */
  lemma SliceUnambiguous(s: string, a: nat, b: nat)
    requires a <= b <= |s|
    ensures !Ambiguous(s) ==> !Ambiguous(s[a..b])
  {
    var t := s[a..b];
    if Ambiguous(t) {
      var i, j :| 0 <= i < |t| && 0 <= j < |t| && !IsDigit(t[i]) && !IsDigit(t[j]) && t[i] != t[j];
      assert s[a + i] == t[i] && s[a + j] == t[j];
    }
  }

  /** A stretch of an unambiguous string that has a delimiter has the
      string's own delimiter. */
  lemma SliceDelimiter(s: string, a: nat, b: nat)
    requires a <= b <= |s|
    ensures !Ambiguous(s) && !AllDigits(s[a..b]) ==> !AllDigits(s) && FirstNonDigit(s[a..b]) == FirstNonDigit(s)
  {
    var t := s[a..b];
    if !Ambiguous(s) && !AllDigits(t) {
      var k :| 0 <= k < |t| && t[k] == FirstNonDigit(t);
      assert s[a + k] == t[k];
      var m :| 0 <= m < |s| && s[m] == FirstNonDigit(s);
    }
  }

  /** Stripping an agreeing position keeps it agreeing, and keeps its
      delimiter unless the stripped text has none. */
  lemma StrippedAgrees(established: Option<char>, position: string)
    ensures PositionAgrees(established, position) ==> PositionAgrees(established, Strip(position))
    ensures PositionAgrees(established, position) && !AllDigits(Strip(position)) ==>
              FirstNonDigit(Strip(position)) == FirstNonDigit(position)
  {
    var a, b := StripSlice(position);
    SliceUnambiguous(position, a, b);
    SliceDelimiter(position, a, b);
  }

  /** A position with surrounding whitespace has a non-digit, and when it is
      unambiguous that one non-digit is a whitespace character. */
  lemma PaddedDelimiterIsBlank(position: string)
    ensures Strip(position) != position ==> !AllDigits(position)
    ensures Strip(position) != position && !Ambiguous(position) ==>
              forall i :: 0 <= i < |position| && !IsDigit(position[i]) ==> IsSpace(position[i])
  {
    var a, b := StripSlice(position);
    if Strip(position) != position {
      assert a > 0 || b < |position|;
      var k := if a > 0 then 0 else |position| - 1;
      assert IsSpace(position[k]);
      if !Ambiguous(position) {
        forall i | 0 <= i < |position| && !IsDigit(position[i]) ensures IsSpace(position[i]) {
          assert position[i] == position[k];
        }
      }
    }
  }

  /** On a position with surrounding whitespace the `is` test never decides:
      the only delimiter such a position can agree on is a whitespace
      character, and those are shared objects. */
  lemma PaddedValidatorAgrees(established: Option<char>, position: string)
    ensures Strip(position) != position ==>
              (ValidatorAgrees(established, position) <==> PositionAgrees(established, position))
  {
    PaddedDelimiterIsBlank(position);
    if Strip(position) != position && PositionAgrees(established, position) && established.Some? {
      var c := FirstNonDigit(position);
      var m :| 0 <= m < |position| && position[m] == c;
      assert IsSpace(c);
    }
  }

  /** `is_quantity_a_number`: `str(quantity).isdigit()`, so signs, decimal
      points, blanks and the empty string are rejected. */
  function IsQuantityANumber(quantity: string): (r: bool)
    ensures r <==> |quantity| > 0 && forall i :: 0 <= i < |quantity| ==> '0' <= quantity[i] <= '9'
  {
    IsDigits(quantity)
  }
}

=== FILE: exporter.dfy ===
/** `get_first_imported_file` of web_app/functions/part_list_exporter.py:
    the name of the first import source of a BOM whose type mentions a
    file.  It only reads the sources.
 */
module Exporter {
  import opened Wrappers
  import opened Text

  /** One entry of `imported_bom_sources`: its `'type'` and `'name'`. */
  datatype Source = Source(kind: string, name: string)

  /** `'file' in source['type']`: substring containment, not equality. */
  predicate IsFileImport(src: Source) {
    Contains(src.kind, "file")
  }

  /** `[source for source in sources if 'file' in source['type']]`: the file
      imports, in list order. */
  function FileImports(sources: seq<Source>): (r: seq<Source>)
    ensures forall k :: 0 <= k < |r| ==> IsFileImport(r[k]) && r[k] in sources
    ensures forall k :: 0 <= k < |sources| && IsFileImport(sources[k]) ==> sources[k] in r
    ensures |r| > 0 ==> exists k :: 0 <= k < |sources| && sources[k] == r[0] &&
                                     forall j :: 0 <= j < k ==> !IsFileImport(sources[j])
    decreases |sources|
  {
    if |sources| == 0 then []
    else
      var rest := FileImports(sources[1..]);
      assert forall k :: 1 <= k < |sources| ==> sources[k] == sources[1..][k - 1];
      if IsFileImport(sources[0]) then [sources[0]] + rest
      else
        assert |rest| > 0 ==> exists k :: 1 <= k < |sources| && sources[k] == rest[0] &&
                                          forall j :: 0 <= j < k ==> !IsFileImport(sources[j]) by {
          if |rest| > 0 {
            var k :| 0 <= k < |sources[1..]| && sources[1..][k] == rest[0] &&
                     forall j :: 0 <= j < k ==> !IsFileImport(sources[1..][j]);
            assert sources[k + 1] == rest[0];
            forall j | 0 <= j < k + 1 ensures !IsFileImport(sources[j]) {
              if j > 0 { assert sources[j] == sources[1..][j - 1]; }
            }
          }
        }
        rest
  }

  /** `get_first_imported_file`: None when no source is a file import;
      otherwise the name of the first one in list order. */
  function FirstImportedFile(sources: seq<Source>): (r: Option<string>)
    ensures r.None? <==> forall k :: 0 <= k < |sources| ==> !IsFileImport(sources[k])
    ensures r.Some? ==> exists k :: 0 <= k < |sources| && IsFileImport(sources[k]) && sources[k].name == r.value &&
                                    forall j :: 0 <= j < k ==> !IsFileImport(sources[j])
  {
    var files := FileImports(sources);
    if |files| > 0 then Some(files[0].name) else None
  }

  /** The first file import wins over later ones, a type that merely
      contains `file` counts, and other types are skipped. */
  lemma FirstImportedFileExamples()
    ensures FirstImportedFile([Source("file", "a.csv"), Source("file", "b.csv")]) == Some("a.csv")
    ensures FirstImportedFile([Source("manual", "m"), Source("xlsx file", "b.xlsx")]) == Some("b.xlsx")
    ensures FirstImportedFile([Source("manual", "m")]) == None
    ensures FirstImportedFile([]) == None
  {
    assert IsFileImport(Source("file", "a.csv")) by {
      assert "file" <= "file";
    }
    assert IsFileImport(Source("xlsx file", "b.xlsx")) by {
      var t := "xlsx file";
      assert "file" <= t[5..];
      assert t[1..][1..][1..][1..][1..] == t[5..];
    }
    assert !IsFileImport(Source("manual", "m")) by {
      NotContainsFile("manual");
    }
  }

  /** A string that holds no `'f'` does not contain `file`. */
  lemma {:induction false} NotContainsFile(s: string)
    requires forall i :: 0 <= i < |s| ==> s[i] != 'f'
    ensures !Contains(s, "file")
    decreases |s|
  {
    if |s| > 0 {
      assert !("file" <= s) by { assert s[0] != "file"[0]; }
      assert forall i :: 0 <= i < |s[1..]| ==> s[1..][i] == s[i + 1];
      NotContainsFile(s[1..]);
    }
  }
}

=== FILE: hierarchy.dfy ===
/** Position hierarchy (`get_parent_ids`, `get_child_ids`, `get_parent_by_id` in
    web_app/functions/processor.py; the same formulas recur in
    web_app/models/bom_processor_methods.py and, with '.' fixed, in
    web_app/models.py).

    A position such as "1-7-2" splits on its delimiter into segments.  Its
    parent ids are the joins of its proper leading segment runs, shortest
    first; its children are the positions with exactly one more segment whose
    leading segments are its own.  A missing delimiter (None) makes Python's
    `split` split on whitespace, and `None.join` raise AttributeError.
 */
module Hierarchy {
  import opened Wrappers
  import opened Text

  /** The joins of the proper leading runs of `segs`: `d.join(segs[:n+1])` for
      n in `range(len(segs) - 1)`. */
  function Prefixes(segs: seq<string>, d: char): (r: seq<string>)
    ensures |r| == if |segs| == 0 then 0 else |segs| - 1
    ensures forall n :: 0 <= n < |r| ==> r[n] == Join(segs[..n + 1], d)
  {
    seq(if |segs| == 0 then 0 else |segs| - 1, n requires 0 <= n < |segs| - 1 => Join(segs[..n + 1], d))
  }

  /** `get_parent_ids`: the parent ids of `position` under delimiter `delim`.
      A position of at most one segment has none; with no delimiter and
      several whitespace-separated words the join raises AttributeError. */
  function ParentIds(position: string, delim: Option<char>): (r: Result<seq<string>>)
    ensures r.Err? <==> delim.None? && |WsSplit(position)| > 1
    ensures r.Err? ==> r.error == AttributeError
    ensures r.Ok? ==> ProperPrefixes(r.value, position, delim)
  {
    var segs := SplitOpt(position, delim);
    if |segs| <= 1 then Ok([])
    else if delim.None? then Err(AttributeError)
    else Ok(Prefixes(segs, delim.value))
  }

  /** `ids` are the joins of the proper leading segment runs of `position`,
      shortest first: one fewer than its segments. */
  predicate ProperPrefixes(ids: seq<string>, position: string, delim: Option<char>) {
    var segs := SplitOpt(position, delim);
    && |ids| == (if |segs| == 0 then 0 else |segs| - 1)
    && forall n :: 0 <= n < |ids| ==> delim.Some? && ids[n] == Join(segs[..n + 1], delim.value)
  }

  /** `segs'` has exactly one segment more than `segs` and starts with `segs`. */
  predicate IsChildSplit(segs': seq<string>, segs: seq<string>) {
    |segs'| == |segs| + 1 && segs'[..|segs|] == segs
  }

  /** `get_child_ids`: in list order, the positions whose split is a child
      split of `segs` (the split of the part's own position). */
  function ChildIds(segs: seq<string>, positions: seq<string>, delim: Option<char>): (r: seq<string>)
    ensures |r| <= |positions|
    ensures forall k :: 0 <= k < |r| ==> r[k] in positions && IsChildSplit(SplitOpt(r[k], delim), segs)
    decreases |positions|
  {
    if |positions| == 0 then []
    else
      var rest := ChildIds(segs, positions[1..], delim);
      if IsChildSplit(SplitOpt(positions[0], delim), segs) then [positions[0]] + rest else rest
  }

  /** Every position with a child split is among the child ids. */
  lemma {:induction false} ChildIdsComplete(segs: seq<string>, positions: seq<string>, delim: Option<char>, k: nat)
    requires k < |positions| && IsChildSplit(SplitOpt(positions[k], delim), segs)
    ensures positions[k] in ChildIds(segs, positions, delim)
    decreases k
  {
    if k > 0 {
      ChildIdsComplete(segs, positions[1..], delim, k - 1);
      assert positions[1..][k - 1] == positions[k];
    }
  }

  /** `child` holds exactly the positions among `positions` whose split is a
      child split of `segs`. */
  predicate ChildrenOf(child: seq<string>, segs: seq<string>, positions: seq<string>, delim: Option<char>) {
    && (forall k :: 0 <= k < |child| ==> child[k] in positions && IsChildSplit(SplitOpt(child[k], delim), segs))
    && (forall j :: 0 <= j < |positions| && IsChildSplit(SplitOpt(positions[j], delim), segs) ==> positions[j] in child)
  }

  /** The child ids are exactly the child positions. */
  lemma ChildIdsExact(segs: seq<string>, positions: seq<string>, delim: Option<char>)
    ensures ChildrenOf(ChildIds(segs, positions, delim), segs, positions, delim)
  {
    forall j | 0 <= j < |positions| && IsChildSplit(SplitOpt(positions[j], delim), segs)
      ensures positions[j] in ChildIds(segs, positions, delim)
    {
      ChildIdsComplete(segs, positions, delim, j);
    }
  }

  /** Joining two non-empty runs puts one delimiter between their joins. */
  lemma {:induction false} JoinAppend(a: seq<string>, b: seq<string>, d: char)
    requires |a| >= 1 && |b| >= 1
    ensures Join(a + b, d) == Join(a, d) + [d] + Join(b, d)
    decreases |a|
  {
    if |a| == 1 {
      assert (a + b)[1..] == b;
    } else {
      JoinAppend(a[1..], b, d);
      assert (a + b)[1..] == a[1..] + b;
      assert (a + b)[0] == a[0];
    }
  }

  /** Parent id n is the run of the first n+1 segments: it splits back into
      them, and the position continues it with the delimiter. */
  lemma ParentIdIsPrefix(position: string, d: char, n: nat)
    requires n < |Split(position, d)| - 1
    ensures ParentIds(position, Some(d)).Ok?
    ensures var ids := ParentIds(position, Some(d)).value;
            && Split(ids[n], d) == Split(position, d)[..n + 1]
            && exists rest :: position == ids[n] + [d] + rest
  {
    var segs := Split(position, d);
    var ids := ParentIds(position, Some(d)).value;
    assert ids[n] == Join(segs[..n + 1], d);
    SplitJoin(segs[..n + 1], d);
    JoinSplit(position, d);
    JoinAppend(segs[..n + 1], segs[n + 1..], d);
    assert segs[..n + 1] + segs[n + 1..] == segs;
    assert position == ids[n] + [d] + Join(segs[n + 1..], d);
  }

  /** The parent ids of parent id n are the parent ids before it: the ancestor
      chain is closed under taking a parent. */
  lemma ParentIdsOfParent(position: string, d: char, n: nat)
    requires n < |Split(position, d)| - 1
    ensures ParentIds(position, Some(d)).Ok?
    ensures var ids := ParentIds(position, Some(d)).value;
            ParentIds(ids[n], Some(d)) == Ok(ids[..n])
  {
    var segs := Split(position, d);
    var ids := ParentIds(position, Some(d)).value;
    ParentIdIsPrefix(position, d, n);
    var segs' := Split(ids[n], d);
    assert segs' == segs[..n + 1];
    var ids' := ParentIds(ids[n], Some(d));
    if n == 0 {
      assert ids' == Ok([]);
    } else {
      assert |segs'| == n + 1;
      var pre := Prefixes(segs', d);
      assert ids' == Ok(pre);
      forall m | 0 <= m < n ensures pre[m] == ids[m] {
        assert segs'[..m + 1] == segs[..m + 1];
      }
      assert pre == ids[..n];
    }
  }

  /** A child's last parent id is the position whose split it extends. */
  lemma ChildLastParent(parent: string, child: string, d: char)
    requires IsChildSplit(Split(child, d), Split(parent, d))
    ensures ParentIds(child, Some(d)).Ok?
    ensures var ids := ParentIds(child, Some(d)).value;
            |ids| > 0 && ids[|ids| - 1] == parent
  {
    var segs := Split(child, d);
    var ids := ParentIds(child, Some(d)).value;
    assert |ids| == |segs| - 1;
    assert ids[|ids| - 1] == Join(segs[..|segs| - 1], d);
    JoinSplit(parent, d);
  }

  /** The first index holding `id`, if any. */
  function FirstIndex(positions: seq<string>, id: string): (r: Option<nat>)
    ensures r.None? <==> id !in positions
    ensures r.Some? ==> r.value < |positions| && positions[r.value] == id
    ensures r.Some? ==> forall j :: 0 <= j < r.value ==> positions[j] != id
    decreases |positions|
  {
    if |positions| == 0 then None
    else if positions[0] == id then Some(0)
    else match FirstIndex(positions[1..], id)
      case None => None
      case Some(i) => Some(i + 1)
  }

  /** `get_parent_by_id` on the positions of the part list: the index of the
      first part with exactly that position, IndexError when there is none. */
  function ParentById(positions: seq<string>, id: string): (r: Result<nat>)
    ensures r.Err? <==> id !in positions
    ensures r.Err? ==> r.error == IndexError
    ensures r.Ok? ==> r.value < |positions| && positions[r.value] == id
    ensures r.Ok? ==> forall j :: 0 <= j < r.value ==> positions[j] != id
  {
    match FirstIndex(positions, id)
    case None => Err(IndexError)
    case Some(i) => Ok(i)
  }

  /** The parent ids of "1-1-1" are "1" and "1-1". */
  lemma ParentIdsExample()
    ensures ParentIds("1-1-1", Some('-')) == Ok(["1", "1-1"])
  {
    var segs := Split("1-1-1", '-');
    SplitNoSeparator("1", '-');
    assert "1-1" == "1" + ['-'] + "1";
    SplitCons("1", "1", '-');
    assert "1-1-1" == "1" + ['-'] + "1-1";
    SplitCons("1", "1-1", '-');
    assert segs == ["1", "1", "1"];
    assert segs[..1] == ["1"];
    assert segs[..2] == ["1", "1"];
    assert ["1", "1"][1..] == ["1"];
    assert Join(["1", "1"], '-') == "1-1";
    var ids := Prefixes(segs, '-');
    assert |ids| == 2 && ids[0] == "1" && ids[1] == "1-1";
    assert ids == ["1", "1-1"];
  }
}

=== FILE: keywords.dfy ===
/** Keyword lists (`create_keyword_list` in web_app/functions/functions.py and
    the inline keyword cleaning each classification stage repeats).

    A keyword setting is either a comma-separated string or a list of strings.
    Empty entries are dropped BEFORE the surrounding blanks are stripped, so an
    entry made only of blanks survives as the empty keyword, which occurs in
    every string.
 */
module Keywords {
  import opened Wrappers
  import opened Text

  /** A keyword setting as Python holds it: None, a string, a list of strings,
      or a value of some other type (an int, say) with its truthiness. */
  datatype Setting = KwNone | KwStr(s: string) | KwList(items: seq<string>) | KwOther(truthy: bool)

  /** Python truthiness of the setting. */
  predicate Truthy(k: Setting) {
    match k
    case KwNone => false
    case KwStr(s) => s != ""
    case KwList(items) => items != []
    case KwOther(t) => t
  }

  /** `[keyword.strip(' ') for keyword in entries if keyword]`. */
  function Clean(entries: seq<string>): (r: seq<string>)
    ensures |r| <= |entries|
    ensures forall k :: 0 <= k < |r| ==> |r[k]| == 0 || (r[k][0] != ' ' && r[k][|r[k]| - 1] != ' ')
    decreases |entries|
  {
    if |entries| == 0 then []
    else (if entries[0] == "" then [] else [StripBlanks(entries[0])]) + Clean(entries[1..])
  }

  /** A keyword survives cleaning exactly when some non-empty entry strips to it. */
  lemma {:induction false} CleanMembers(entries: seq<string>, w: string)
    ensures w in Clean(entries) <==> exists j :: 0 <= j < |entries| && entries[j] != "" && StripBlanks(entries[j]) == w
    decreases |entries|
  {
    if |entries| > 0 {
      CleanMembers(entries[1..], w);
      var head := if entries[0] == "" then [] else [StripBlanks(entries[0])];
      assert Clean(entries) == head + Clean(entries[1..]);
      if exists j :: 0 <= j < |entries| && entries[j] != "" && StripBlanks(entries[j]) == w {
        var j :| 0 <= j < |entries| && entries[j] != "" && StripBlanks(entries[j]) == w;
        if j > 0 {
          assert entries[1..][j - 1] == entries[j];
        }
      }
      if exists j :: 0 <= j < |entries[1..]| && entries[1..][j] != "" && StripBlanks(entries[1..][j]) == w {
        var j :| 0 <= j < |entries[1..]| && entries[1..][j] != "" && StripBlanks(entries[1..][j]) == w;
        assert entries[j + 1] == entries[1..][j];
      }
    }
  }

  /** The blank-only entry " " survives as the empty keyword. */
  lemma BlankEntrySurvives()
    ensures Clean([" "]) == [""]
  {
    assert StripBlanks(" ") == "";
  }

  /** The inline cleaning of processor.py: a string is split on ',', a list is
      taken as it is, and `filter(None, ...)` over None or a non-list raises
      TypeError. */
  function CleanSetting(k: Setting): (r: Result<seq<string>>)
    ensures r.Err? <==> k.KwNone? || k.KwOther?
    ensures r.Err? ==> r.error == TypeError
    ensures k.KwStr? ==> r == Ok(Clean(Split(k.s, ',')))
    ensures k.KwList? ==> r == Ok(Clean(k.items))
  {
    match k
    case KwStr(s) => Ok(Clean(Split(s, ',')))
    case KwList(items) => Ok(Clean(items))
    case _ => Err(TypeError)
  }

  /** `create_keyword_list`: None for a falsy setting, ValueError for a truthy
      value that is neither a string nor a list, otherwise the cleaned entries. */
  function CreateKeywordList(k: Setting): (r: Result<Option<seq<string>>>)
    ensures r == Ok(None) <==> !Truthy(k)
    ensures r.Err? <==> k.KwOther? && k.truthy
    ensures r.Err? ==> r.error == ValueError
    ensures r.Ok? && r.value.Some? ==> CleanSetting(k) == Ok(r.value.value)
  {
    if !Truthy(k) then Ok(None)
    else match k
      case KwStr(s) => Ok(Some(Clean(Split(s, ','))))
      case KwList(items) => Ok(Some(Clean(items)))
      case _ => Err(ValueError)
  }

  /** No keyword from a string setting contains the separator ','. */
  lemma {:induction false} CleanNoComma(entries: seq<string>)
    requires forall j :: 0 <= j < |entries| ==> ',' !in entries[j]
    ensures forall k :: 0 <= k < |Clean(entries)| ==> ',' !in Clean(entries)[k]
    decreases |entries|
  {
    if |entries| > 0 {
      CleanNoComma(entries[1..]);
      var head := if entries[0] == "" then [] else [StripBlanks(entries[0])];
      assert Clean(entries) == head + Clean(entries[1..]);
      if entries[0] != "" {
        var t := TrimLeft(entries[0], c => c == ' ');
        assert StripBlanks(entries[0]) == TrimRight(t, c => c == ' ');
        forall i | 0 <= i < |t| ensures t[i] != ',' {
          assert t[i] == entries[0][|entries[0]| - |t| + i];
        }
        var u := StripBlanks(entries[0]);
        forall i | 0 <= i < |u| ensures u[i] != ',' {
          assert u[i] == t[i];
        }
      }
    }
  }

  /** Some keyword occurs in `s` (Python's `any(k in s for k in keywords)`). */
  predicate AnyIn(keywords: seq<string>, s: string) {
    exists k :: 0 <= k < |keywords| && Contains(s, keywords[k])
  }

  /** The empty keyword occurs in every string, so it matches every part. */
  lemma EmptyKeywordMatches(keywords: seq<string>, s: string)
    requires "" in keywords
    ensures AnyIn(keywords, s)
  {
    var k :| 0 <= k < |keywords| && keywords[k] == "";
    assert keywords[k] <= s;
  }
}

=== FILE: legacy.dfy ===
/** The oldest processor, `DefaultBomProcessor` and `BomProcessorValidator`
    of web_app/models.py.

    It computes every derived field of one part before moving to the next,
    with the position delimiter hard-coded to `'.'`, and looks other parts
    up in a deep copy of the list taken before the loop.  Each of its
    `_get_*` / `_is_*` methods has the same text as the corresponding stage
    of web_app/functions/processor.py with `'.'` for the delimiter, so the
    stages are reused with the settings' delimiter fixed to `'.'`.
 */
module Legacy {
  import opened Wrappers
  import opened Text
  import opened Parts
  import opened Hierarchy
  import opened Quantity
  import opened Classify
  import opened Normalize
  import opened Config
  import opened Lifecycle
  import PF = ProcessorFunctions
  import Validator

  // ---- the per-part routine ----------------------------------------------

  /** The settings as the legacy methods read them: `.split('.')` everywhere. */
  function Dotted(s: Settings): Settings {
    s.(delimiter := Some('.'))
  }

  /** The number of assignments of `_set_part_extra_keys`. */
  const ExtraKeyCount: nat := 14

  /** The `k`-th assignment of `_set_part_extra_keys`: the director's order
      up to the type, then the file type before the parent assembly. */
  function ExtraKeyStep(k: nat): PF.Step {
    if k == 12 then PF.FileTypeStep
    else if k == 13 then PF.ParentAssemblyStep
    else PF.StepAt(k)
  }

  /** Apply the assignments from the `k`-th on; the first exception ends the
      routine. */
  function ExtraKeysFrom(s: Settings, snap: seq<Part>, k: nat, p: Part): Result<Part>
    requires k <= ExtraKeyCount
    decreases ExtraKeyCount - k
  {
    if k == ExtraKeyCount then Ok(p)
    else
      var q :- PF.Stage(Dotted(s), Some(snap), ExtraKeyStep(k), p);
      ExtraKeysFrom(s, snap, k + 1, q)
  }

  /** `_set_part_extra_keys` on part `p`, with the snapshot `snap`. */
  function ExtraKeys(s: Settings, snap: seq<Part>, p: Part): Result<Part> {
    ExtraKeysFrom(s, snap, 0, p)
  }

  /** What the assignments before the `k`-th have established: the
      director's facts, with the file type established before the parent
      assembly. */
  predicate LegacyFacts(s: Settings, snap: seq<Part>, k: nat, o: Part, c: Part) {
    var d := Dotted(s);
    if k <= 12 then PF.Facts(d, Some(snap), k, o, c)
    else if k == 13 then PF.Facts(d, Some(snap), 12, o, c) && PF.FileTypeFact(c.derived)
    else PF.Facts(d, Some(snap), 14, o, c)
  }

  /** The file type, computed before the parent assembly, keeps the facts
      about the type and the flags. */
  lemma FactsAfterEarlyFileType(s: Settings, snap: Option<seq<Part>>, o: Part, c: Part, c': Part)
    requires PF.Facts(s, snap, 12, o, c) && PF.Writes(s, snap, PF.FileTypeStep, c, c')
    ensures PF.Facts(s, snap, 12, o, c') && PF.FileTypeFact(c'.derived)
  {
    var d, d' := c.derived, c'.derived;
    assert c'.raw == c.raw;
    assert d' == d.(fileType := d'.fileType, fileTypeText := None);
    assert GetType(d') == GetType(d);
    assert NamedType(d) == d.partType;
  }

  /** The parent assembly, computed last, completes the director's facts. */
  lemma FactsAfterLateParentAssembly(s: Settings, snap: Option<seq<Part>>, o: Part, c: Part, c': Part)
    requires PF.Facts(s, snap, 12, o, c) && PF.FileTypeFact(c.derived)
    requires PF.Writes(s, snap, PF.ParentAssemblyStep, c, c')
    ensures PF.Facts(s, snap, 14, o, c')
  {
    var d, d' := c.derived, c'.derived;
    assert c'.raw == c.raw;
    assert d' == d.(parentAssembly := d'.parentAssembly);
    assert GetType(d') == GetType(d);
    assert PF.FileTypeFact(d') == PF.FileTypeFact(d);
  }

  /** One assignment keeps the facts and adds its own. */
  lemma LegacyFactsStep(s: Settings, snap: seq<Part>, k: nat, o: Part, c: Part, c': Part)
    requires k < ExtraKeyCount && LegacyFacts(s, snap, k, o, c)
    requires PF.Writes(Dotted(s), Some(snap), ExtraKeyStep(k), c, c')
    ensures LegacyFacts(s, snap, k + 1, o, c')
  {
    var d := Dotted(s);
    if k < 12 {
      PF.FactsStep(d, Some(snap), k, o, c, c');
    } else if k == 12 {
      FactsAfterEarlyFileType(d, Some(snap), o, c, c');
    } else {
      FactsAfterLateParentAssembly(d, Some(snap), o, c, c');
    }
  }

  /** The remaining assignments carry any invariant that each assignment
      keeps to the end. */
  lemma {:induction false} ExtraKeysFromKeeps(s: Settings, snap: seq<Part>, k: nat, c: Part, inv: (nat, Part) -> bool)
    requires k <= ExtraKeyCount && inv(k, c)
    requires forall j: nat, p, q :: j < ExtraKeyCount && inv(j, p) && PF.Stage(Dotted(s), Some(snap), ExtraKeyStep(j), p) == Ok(q) ==>
                                    inv(j + 1, q)
    ensures ExtraKeysFrom(s, snap, k, c).Ok? ==> inv(ExtraKeyCount, ExtraKeysFrom(s, snap, k, c).value)
    decreases ExtraKeyCount - k
  {
    if k < ExtraKeyCount {
      var r := PF.Stage(Dotted(s), Some(snap), ExtraKeyStep(k), c);
      if r.Ok? {
        ExtraKeysFromKeeps(s, snap, k + 1, r.value, inv);
      }
    }
  }

  /** The facts as an invariant indexed by assignment. */
  function LegacyInv(s: Settings, snap: seq<Part>, o: Part): (nat, Part) -> bool {
    (k: nat, c: Part) => LegacyFacts(s, snap, k, o, c)
  }

  /** The remaining assignments carry the facts to the end. */
  lemma ExtraKeysFromFacts(s: Settings, snap: seq<Part>, k: nat, o: Part, c: Part)
    requires k <= ExtraKeyCount && LegacyFacts(s, snap, k, o, c)
    ensures ExtraKeysFrom(s, snap, k, c).Ok? ==> LegacyFacts(s, snap, ExtraKeyCount, o, ExtraKeysFrom(s, snap, k, c).value)
  {
    var inv := LegacyInv(s, snap, o);
    forall j: nat, p, q | j < ExtraKeyCount && inv(j, p) && PF.Stage(Dotted(s), Some(snap), ExtraKeyStep(j), p) == Ok(q)
      ensures inv(j + 1, q)
    {
      LegacyFactsStep(s, snap, j, o, p, q);
    }
    ExtraKeysFromKeeps(s, snap, k, c, inv);
  }

  /** `_set_part_extra_keys` fills in every derived field with its meaning
      against the part's own columns and the snapshot: dotted proper-prefix
      parent ids, the snapshot positions one level below, main sets times
      the ancestor quantities, quantity times sets, the keyword production
      test, purchased as neither production nor fastener, junk as the OR of
      its reasons, the type by priority and the file type; the raw columns
      are untouched. */
  lemma ExtraKeysFacts(s: Settings, snap: seq<Part>, p: Part)
    requires p.derived == Unset
    ensures ExtraKeys(s, snap, p).Ok? ==> PF.Facts(Dotted(s), Some(snap), 14, p, ExtraKeys(s, snap, p).value)
  {
    ExtraKeysFromFacts(s, snap, 0, p, p);
  }

  /** A column is read from the raw columns only. */
  lemma ColumnSameRaw(p: Part, q: Part, name: string)
    requires p.raw == q.raw
    ensures Column(p, name) == Column(q, name)
  {
  }

  /** A snapshot list is read only through the raw columns of its parts. */
  lemma ColumnsSameRaw(a: seq<Part>, b: seq<Part>, name: string)
    requires SameRaw(a, b)
    ensures Columns(a, name) == Columns(b, name)
  {
    forall j | 0 <= j < |a| ensures Column(a[j], name) == Column(b[j], name) {
      ColumnSameRaw(a[j], b[j], name);
    }
    if Columns(a, name).Ok? {
      assert Columns(a, name).value == Columns(b, name).value;
    }
  }

  lemma SetsSameRaw(s: Settings, a: seq<Part>, b: seq<Part>, p: Part)
    requires SameRaw(a, b)
    ensures PF.SetsStage(s, Some(a), p) == PF.SetsStage(s, Some(b), p)
  {
    forall j | 0 <= j < |a| ensures PF.Position(s)(a[j]) == PF.Position(s)(b[j]) && PF.QuantityOf(s)(a[j]) == PF.QuantityOf(s)(b[j]) {
      ColumnSameRaw(a[j], b[j], s.positionColumn);
      ColumnSameRaw(a[j], b[j], s.quantityColumn);
    }
    SetsCongruent(a, b, p.derived.parent, s.mainAssemblySets, PF.Position(s), PF.QuantityOf(s));
  }

  lemma NestingSameRaw(s: Settings, a: seq<Part>, b: seq<Part>, p: Part)
    requires SameRaw(a, b)
    ensures PF.JunkByNestingStage(s, Some(a), p) == PF.JunkByNestingStage(s, Some(b), p)
  {
    if s.junkForPurchasedNests && PF.HasParent(p) {
      ColumnsSameRaw(a, b, s.positionColumn);
      var k := PF.ParentIndex(s, a, p.derived.parent.value);
      assert k == PF.ParentIndex(s, b, p.derived.parent.value);
      if k.Ok? {
        ColumnSameRaw(a[k.value], b[k.value], s.numberColumn);
        assert PF.ProductionTest(s, a[k.value]) == PF.ProductionTest(s, b[k.value]);
      }
    }
  }

  lemma ParentAssemblySameRaw(s: Settings, a: seq<Part>, b: seq<Part>, p: Part)
    requires SameRaw(a, b)
    ensures PF.ParentAssemblyStage(s, Some(a), p) == PF.ParentAssemblyStage(s, Some(b), p)
  {
    if PF.HasParent(p) {
      ColumnsSameRaw(a, b, s.positionColumn);
      var k := PF.ParentIndex(s, a, p.derived.parent.value);
      assert k == PF.ParentIndex(s, b, p.derived.parent.value);
      if k.Ok? {
        ColumnSameRaw(a[k.value], b[k.value], s.numberColumn);
      }
    }
  }

  /** Each stage reads the snapshot only through raw columns. */
  lemma StageSameRaw(s: Settings, a: seq<Part>, b: seq<Part>, step: PF.Step, p: Part)
    requires SameRaw(a, b)
    ensures PF.Stage(s, Some(a), step, p) == PF.Stage(s, Some(b), step, p)
  {
    match step
    case ChildIdsStep => ColumnsSameRaw(a, b, s.positionColumn);
    case SetsStep => SetsSameRaw(s, a, b, p);
    case JunkByNestingStep => NestingSameRaw(s, a, b, p);
    case ParentAssemblyStep => ParentAssemblySameRaw(s, a, b, p);
    case _ =>
  }

  lemma {:induction false} ExtraKeysFromSameRaw(s: Settings, a: seq<Part>, b: seq<Part>, k: nat, p: Part)
    requires k <= ExtraKeyCount && SameRaw(a, b)
    ensures ExtraKeysFrom(s, a, k, p) == ExtraKeysFrom(s, b, k, p)
    decreases ExtraKeyCount - k
  {
    if k < ExtraKeyCount {
      StageSameRaw(Dotted(s), a, b, ExtraKeyStep(k), p);
      var r := PF.Stage(Dotted(s), Some(a), ExtraKeyStep(k), p);
      if r.Ok? {
        ExtraKeysFromSameRaw(s, a, b, k + 1, r.value);
      }
    }
  }

  /** Every cross-part lookup reads only the raw columns of the snapshot, so
      a snapshot whose parts carry other derived fields (or the list being
      processed, before any column is normalized) gives the same part. */
  lemma ExtraKeysReadsRaw(s: Settings, a: seq<Part>, b: seq<Part>, p: Part)
    requires SameRaw(a, b)
    ensures ExtraKeys(s, a, p) == ExtraKeys(s, b, p)
  {
    ExtraKeysFromSameRaw(s, a, b, 0, p);
  }

  /** `if self.normalized_columns:` on a list setting. */
  predicate NormalizesColumns(s: Settings) {
    s.normalizedColumns.Some? && |s.normalizedColumns.value| > 0
  }

  /** `_normalize_name`: each listed attribute the part has becomes
      `normalize_string` of its value, title-cased once more (which changes
      nothing, `Normalize.RetitledIsCurrent`). */
  function NormalizeName(s: Settings, p: Part): (r: Result<Part>)
    requires NormalizesColumns(s)
    ensures r.Ok? ==> PF.NormalizedFrom(Retitled, p, r.value, s.normalizedColumns.value)
  {
    PF.NormalizeColumnsMeaning(Retitled, p, s.normalizedColumns.value);
    PF.NormalizeColumns(Retitled, p, s.normalizedColumns.value)
  }

  /** One iteration of the loop of `run_processing`. */
  function ProcessPart(s: Settings, snap: seq<Part>, p: Part): Result<Part> {
    var q :- ExtraKeys(s, snap, p);
    if NormalizesColumns(s) then NormalizeName(s, q) else Ok(q)
  }

  /** The loop of `run_processing`: the parts in list order, stopping at the
      first exception. */
  function ProcessParts(s: Settings, snap: seq<Part>, parts: seq<Part>): (r: Result<seq<Part>>)
    ensures r.Ok? <==> forall j :: 0 <= j < |parts| ==> ProcessPart(s, snap, parts[j]).Ok?
    ensures r.Ok? ==> |r.value| == |parts| && forall j :: 0 <= j < |parts| ==> ProcessPart(s, snap, parts[j]) == Ok(r.value[j])
  {
    MapAll(parts, (p: Part) => ProcessPart(s, snap, p))
  }

  /** Each processed part carries the facts of `ExtraKeysFacts` for its own
      columns; only the listed columns and the parent assembly may have been
      normalized afterwards. */
  lemma ProcessPartFacts(s: Settings, snap: seq<Part>, p: Part)
    requires p.derived == Unset && ProcessPart(s, snap, p).Ok?
    ensures var q := ExtraKeys(s, snap, p);
            && q.Ok? && PF.Facts(Dotted(s), Some(snap), 14, p, q.value)
            && (if NormalizesColumns(s)
                then PF.NormalizedFrom(Retitled, q.value, ProcessPart(s, snap, p).value, s.normalizedColumns.value)
                else ProcessPart(s, snap, p).value == q.value)
  {
    ExtraKeysFacts(s, snap, p);
  }

  // ---- BomProcessorValidator ------------------------------------------------

  /** The loop of `is_digit_column_valid` over the split value: false at the
      first segment that is not all digits, otherwise the last segment's
      verdict (false for no segment at all). */
  function DigitSegments(segs: seq<string>): (r: bool)
    ensures r <==> |segs| > 0 && forall k :: 0 <= k < |segs| ==> IsDigits(segs[k])
    decreases |segs|
  {
    if |segs| == 0 then false
    else if !IsDigits(segs[0]) then false
    else if |segs| == 1 then true
    else
      assert forall k :: 1 <= k < |segs| ==> segs[k] == segs[1..][k - 1];
      DigitSegments(segs[1..])
  }

  /** Digits in groups separated by single dots: what the legacy validator
      accepts, stated on the characters. */
  predicate DotNumber(v: string) {
    && |v| > 0 && IsDigit(v[0]) && IsDigit(v[|v| - 1])
    && (forall i :: 0 <= i < |v| ==> IsDigit(v[i]) || v[i] == '.')
    && (forall i :: 0 <= i < |v| - 1 && v[i] == '.' ==> v[i + 1] != '.')
  }

  /** Every `'.'`-segment is all digits exactly when the value is a dotted
      number. */
  lemma {:induction false} DigitSegmentsDotNumber(v: string)
    ensures DigitSegments(Split(v, '.')) <==> DotNumber(v)
    decreases |v|
  {
    if |v| == 0 {
      assert Split(v, '.') == [""];
    } else if v[0] == '.' {
      assert Split(v, '.')[0] == "";
      assert !IsDigit(v[0]);
    } else if |v| == 1 {
      assert v[1..] == "";
      assert Split(v[1..], '.') == [""];
      assert Split(v, '.') == [[v[0]] + ""] + [""][1..];
      assert [""][1..] == [] && [v[0]] + "" == [v[0]] == v;
      SingleDigit(v[0]);
    } else {
      var w := v[1..];
      if w[0] == '.' {
        DotAfterFirst(v);
      } else {
        DigitAfterFirst(v);
      }
    }
  }

  lemma SingleDigit(c: char)
    ensures IsDigits([c]) <==> IsDigit(c)
  {
    assert [c][0] == c;
  }

  /** `v` is a digit, a dot and `v[2..]`: its segments are the digit and
      those of `v[2..]`. */
  lemma {:induction false} DotAfterFirst(v: string)
    requires |v| > 1 && v[0] != '.' && v[1] == '.'
    ensures DigitSegments(Split(v, '.')) <==> DotNumber(v)
    decreases |v|, 0
  {
    var w, u := v[1..], v[2..];
    assert w[0] == '.' && w[1..] == u;
    assert forall i :: 0 <= i < |u| ==> u[i] == v[i + 2];
    DigitSegmentsDotNumber(u);
    var t := Split(w, '.');
    assert t == [""] + Split(u, '.');
    assert t[0] == "" && t[1..] == Split(u, '.');
    var segs := Split(v, '.');
    assert segs == [[v[0]] + t[0]] + t[1..];
    assert [v[0]] + t[0] == [v[0]];
    assert segs == [[v[0]]] + Split(u, '.');
    assert forall k :: 1 <= k < |segs| ==> segs[k] == Split(u, '.')[k - 1];
    assert DigitSegments(segs) <==> IsDigit(v[0]) && DigitSegments(Split(u, '.')) by {
      var su := Split(u, '.');
      assert IsDigits(segs[0]) <==> IsDigit(v[0]) by {
        assert segs[0] == [v[0]];
        SingleDigit(v[0]);
      }
      if IsDigit(v[0]) && DigitSegments(su) {
        forall k | 0 <= k < |segs| ensures IsDigits(segs[k]) {
          if k > 0 { assert segs[k] == su[k - 1]; }
        }
      }
      if DigitSegments(segs) {
        forall k | 0 <= k < |su| ensures IsDigits(su[k]) {
          assert su[k] == segs[k + 1];
        }
      }
    }
    if DotNumber(v) {
      assert |u| > 0 by {
        assert IsDigit(v[|v| - 1]) && !IsDigit(v[1]);
      }
      assert u[0] == v[2];
      assert DotNumber(u);
    }
    if DotNumber(u) && IsDigit(v[0]) {
      forall i | 0 <= i < |v| - 1 && v[i] == '.' ensures v[i + 1] != '.' {
        if i == 1 {
          assert v[2] == u[0];
        } else if i > 1 {
          assert u[i - 2] == '.';
        }
      }
      assert v[|v| - 1] == u[|u| - 1];
      assert DotNumber(v);
    }
  }

  /** `v` is a digit followed by `v[1..]`, which does not start with a dot:
      its first segment extends that of `v[1..]`. */
  lemma {:induction false} DigitAfterFirst(v: string)
    requires |v| > 1 && v[0] != '.' && v[1] != '.'
    ensures DigitSegments(Split(v, '.')) <==> DotNumber(v)
    decreases |v|, 0
  {
    var w := v[1..];
    assert forall i :: 0 <= i < |w| ==> w[i] == v[i + 1];
    DigitSegmentsDotNumber(w);
    var t := Split(w, '.');
    var t' := Split(w[1..], '.');
    assert t == [[w[0]] + t'[0]] + t'[1..];
    assert |t[0]| > 0 && t[0][0] == w[0];
    var segs := Split(v, '.');
    assert v[0] != '.';
    assert Split(v, '.') == (var t0 := Split(v[1..], '.'); [[v[0]] + t0[0]] + t0[1..]);
    assert segs == [[v[0]] + t[0]] + t[1..];
    assert forall k :: 1 <= k < |segs| ==> segs[k] == t[k];
    assert IsDigits(segs[0]) <==> IsDigit(v[0]) && IsDigits(t[0]) by {
      var x := segs[0];
      assert x == [v[0]] + t[0];
      if IsDigit(v[0]) && IsDigits(t[0]) {
        forall i | 0 <= i < |x| ensures IsDigit(x[i]) {
          if i > 0 { assert x[i] == t[0][i - 1]; }
        }
      }
      if IsDigits(x) {
        assert IsDigit(x[0]);
        forall i | 0 <= i < |t[0]| ensures IsDigit(t[0][i]) {
          assert t[0][i] == x[i + 1];
        }
      }
    }
    assert DigitSegments(segs) <==> IsDigit(v[0]) && DigitSegments(t) by {
      if IsDigit(v[0]) && DigitSegments(t) {
        forall k | 0 <= k < |segs| ensures IsDigits(segs[k]) {
          if k > 0 { assert segs[k] == t[k]; }
        }
      }
      if DigitSegments(segs) {
        forall k | 0 <= k < |t| ensures IsDigits(t[k]) {
          if k > 0 { assert t[k] == segs[k]; }
        }
      }
    }
    if DotNumber(v) {
      assert IsDigit(w[0]);
      assert w[|w| - 1] == v[|v| - 1];
      assert DotNumber(w);
    }
    if DotNumber(w) && IsDigit(v[0]) {
      assert v[|v| - 1] == w[|w| - 1];
      assert DotNumber(v);
    }
  }

  /** `is_digit_column_valid`: the column is read (AttributeError when
      absent), split on `'.'`, and every segment must be all digits. */
  function DigitColumnValid(p: Part, column: string): (r: Result<bool>)
    ensures r.Ok? <==> Column(p, column).Ok?
    ensures r.Err? ==> r.error == AttributeError
    ensures r.Ok? ==> (r.value <==> DotNumber(Column(p, column).value))
  {
    var v :- Column(p, column);
    DigitSegmentsDotNumber(v);
    Ok(DigitSegments(Split(v, '.')))
  }

  /** The validator's two lists, as indices into the checked list. */
  datatype Invalids = Invalids(position: seq<nat>, quantity: seq<nat>)

  /** The indices from the `i`-th on of the parts whose `column` fails the
      check; AttributeError when a part lacks the column. */
  function BadFrom(parts: seq<Part>, column: string, i: nat): (r: Result<seq<nat>>)
    requires i <= |parts|
    ensures r.Ok? <==> forall j :: i <= j < |parts| ==> Column(parts[j], column).Ok?
    ensures r.Err? ==> r.error == AttributeError
    ensures r.Ok? ==> Validator.Increasing(r.value)
    ensures r.Ok? ==> forall k :: 0 <= k < |r.value| ==> i <= r.value[k] < |parts|
    ensures r.Ok? ==> forall k :: i <= k < |parts| ==> (k in r.value <==> !DotNumber(Column(parts[k], column).value))
    decreases |parts| - i
  {
    if i == |parts| then Ok([])
    else
      var ok :- DigitColumnValid(parts[i], column);
      var rest :- BadFrom(parts, column, i + 1);
      Ok((if ok then [] else [i]) + rest)
  }

  /** The loop of `is_part_list_valid` from the `i`-th part: both checks run
      on every part, and each list gets the indices its own check rejects. */
  function ScanFrom(parts: seq<Part>, positionColumn: string, quantityColumn: string, i: nat): (r: Result<Invalids>)
    requires i <= |parts|
    ensures r.Ok? <==> BadFrom(parts, positionColumn, i).Ok? && BadFrom(parts, quantityColumn, i).Ok?
    ensures r.Err? ==> r.error == AttributeError
    ensures r.Ok? ==> r.value == Invalids(BadFrom(parts, positionColumn, i).value, BadFrom(parts, quantityColumn, i).value)
    decreases |parts| - i
  {
    if i == |parts| then Ok(Invalids([], []))
    else
      var okPosition :- DigitColumnValid(parts[i], positionColumn);
      var okQuantity :- DigitColumnValid(parts[i], quantityColumn);
      var rest :- ScanFrom(parts, positionColumn, quantityColumn, i + 1);
      Ok(Invalids((if okPosition then [] else [i]) + rest.position, (if okQuantity then [] else [i]) + rest.quantity))
  }

  /** `is_part_list_valid` with the lists it fills: AttributeError for a part
      without either column, whatever the parts before it; otherwise the
      indices of the parts failing each check, in list order. */
  function IsPartListValid(parts: seq<Part>, positionColumn: string, quantityColumn: string): (r: Result<Invalids>)
    ensures r.Ok? <==> forall j :: 0 <= j < |parts| ==> Column(parts[j], positionColumn).Ok? && Column(parts[j], quantityColumn).Ok?
    ensures r.Ok? ==> Validator.Increasing(r.value.position) && Validator.Increasing(r.value.quantity)
    ensures r.Ok? ==> forall k: nat :: k in r.value.position <==> k < |parts| && !DotNumber(Column(parts[k], positionColumn).value)
    ensures r.Ok? ==> forall k: nat :: k in r.value.quantity <==> k < |parts| && !DotNumber(Column(parts[k], quantityColumn).value)
  {
    ScanFrom(parts, positionColumn, quantityColumn, 0)
  }

  /** One line of the ValueError message: the number of parts checked and
      the number found invalid. */
  datatype Report = Report(verified: nat, invalid: nat)

  function ReportText(r: Report): string {
    IntStr(r.verified) + " parts verified by position value. Found " + IntStr(r.invalid) + " invalid parts."
  }

  function ReportTexts(rs: seq<Report>): (r: seq<string>)
    ensures |r| == |rs|
  {
    if |rs| == 0 then [] else [ReportText(rs[0])] + ReportTexts(rs[1..])
  }

  /** The message `validate_part_list` raises. */
  function RejectionMessage(rs: seq<Report>): string {
    Join(ReportTexts(rs), '\n') + "\nProcessing cancelled."
  }

  /** A part both of whose checked columns are present and dotted numbers. */
  predicate ValidPart(s: Settings, p: Part) {
    && Column(p, s.positionColumn).Ok? && DotNumber(Column(p, s.positionColumn).value)
    && Column(p, s.quantityColumn).Ok? && DotNumber(Column(p, s.quantityColumn).value)
  }

  datatype Check = Passed | Rejected(reports: seq<Report>)

  /** `validate_part_list` on the list it checks: it passes iff no part
      failed either check; otherwise the ValueError carries one line for the
      failed positions and then one for the failed quantities, each present
      only when its list is non-empty. */
  function ValidatePartList(s: Settings, checked: seq<Part>): (r: Result<Check>)
    ensures r.Ok? <==> IsPartListValid(checked, s.positionColumn, s.quantityColumn).Ok?
    ensures r.Err? ==> r.error == AttributeError
    ensures r == Ok(Passed) <==> forall j :: 0 <= j < |checked| ==> ValidPart(s, checked[j])
    ensures r.Ok? && r.value.Rejected? ==>
              var inv := IsPartListValid(checked, s.positionColumn, s.quantityColumn).value;
              r.value.reports ==
                (if |inv.position| > 0 then [Report(|checked|, |inv.position|)] else []) +
                (if |inv.quantity| > 0 then [Report(|checked|, |inv.quantity|)] else [])
  {
    var inv :- IsPartListValid(checked, s.positionColumn, s.quantityColumn);
    if |inv.position| == 0 && |inv.quantity| == 0 then
      Ok(Passed)
    else
      assert exists j :: 0 <= j < |checked| && !ValidPart(s, checked[j]) by {
        var k := if |inv.position| > 0 then inv.position[0] else inv.quantity[0];
        assert k in inv.position || k in inv.quantity;
        assert !ValidPart(s, checked[k]);
      }
      Ok(Rejected((if |inv.position| > 0 then [Report(|checked|, |inv.position|)] else []) +
                  (if |inv.quantity| > 0 then [Report(|checked|, |inv.quantity|)] else [])))
  }

  /** The same check applies to quantities: `1.5` passes it, the empty
      string and a trailing dot do not. */
  lemma QuantityCheckExamples()
    ensures DotNumber("1.5") && DotNumber("12")
    ensures !DotNumber("") && !DotNumber("1.") && !DotNumber("1..2") && !DotNumber("-1")
  {
    assert "1." [1] == '.';
    assert "1..2"[1] == '.' && "1..2"[2] == '.';
    assert !IsDigit('-');
  }

  // ---- DefaultBomProcessor.run_processing ---------------------------------

  /** The processor's two lists (both empty after construction). */
  datatype Processing = Processing(initial: seq<Part>, processed: seq<Part>)

  const NewProcessing := Processing([], [])

  /** Why a run failed: the validator's ValueError, or an exception raised
      while processing. */
  datatype Failure = InvalidParts(reports: seq<Report>) | Raised(error: Error)

  datatype Run = Run(proc: Processing, failure: Option<Failure>)

  /** `tree` is the tree list of the parts processed against themselves. */
  predicate TreeOfProcessed(s: Settings, parts: seq<Part>, tree: seq<Part>) {
    && ProcessParts(s, parts, parts).Ok?
    && PF.CreateBomTreeList(Dotted(s), ProcessParts(s, parts, parts).value) == Ok(tree)
  }

  /** `run_processing(part_list)`, validating `checked`: once validation has
      passed, the snapshot is taken (and kept even if processing fails), the
      parts are processed against it and the tree list is built over the
      processed parts with the `'.'` delimiter. */
  function RunChecking(s: Settings, proc: Processing, parts: seq<Part>, checked: seq<Part>): (r: Run)
    ensures ValidatePartList(s, checked) != Ok(Passed) ==> r.proc == proc && r.failure.Some?
    ensures ValidatePartList(s, checked).Err? ==> r.failure == Some(Raised(ValidatePartList(s, checked).error))
    ensures ValidatePartList(s, checked).Ok? && ValidatePartList(s, checked).value.Rejected? ==>
              r.failure == Some(InvalidParts(ValidatePartList(s, checked).value.reports))
    ensures ValidatePartList(s, checked) == Ok(Passed) ==> r.proc.initial == parts && (r.failure.Some? ==> r.failure.value.Raised?)
    ensures r.failure.None? ==> TreeOfProcessed(s, parts, r.proc.processed)
    ensures r.failure.Some? ==> r.proc.processed == proc.processed
  {
    match ValidatePartList(s, checked)
    case Err(e) => Run(proc, Some(Raised(e)))
    case Ok(Rejected(reports)) => Run(proc, Some(InvalidParts(reports)))
    case Ok(Passed) =>
      var proc' := proc.(initial := parts);
      match ProcessParts(s, parts, parts)
      case Err(e) => Run(proc', Some(Raised(e)))
      case Ok(processed) =>
        match PF.CreateBomTreeList(Dotted(s), processed)
        case Err(e) => Run(proc', Some(Raised(e)))
        case Ok(tree) => Run(proc'.(processed := tree), None)
  }

  /** `run_processing` as written: `validate_part_list` checks
      `self.initial_part_list`, the snapshot of the previous run, before the
      new snapshot is taken. */
  function RunProcessingAsWritten(s: Settings, proc: Processing, parts: seq<Part>): (r: Run)
    ensures r.failure.Some? && r.failure.value.InvalidParts? ==>
              r.proc == proc && exists j :: 0 <= j < |proc.initial| && !ValidPart(s, proc.initial[j])
  {
    RunChecking(s, proc, parts, proc.initial)
  }

  /** `run_processing` validating the list it is given. */
  function RunProcessing(s: Settings, proc: Processing, parts: seq<Part>): (r: Run)
    ensures r.failure.Some? && r.failure.value.InvalidParts? ==>
              r.proc == proc && exists j :: 0 <= j < |parts| && !ValidPart(s, parts[j])
    ensures r.failure.None? ==>
              && r.proc.initial == parts
              && (forall j :: 0 <= j < |parts| ==> ValidPart(s, parts[j]))
              && TreeOfProcessed(s, parts, r.proc.processed)
    ensures r.failure.Some? ==> r.proc.processed == proc.processed
    ensures (forall j :: 0 <= j < |parts| ==> ValidPart(s, parts[j])) ==> r.proc.initial == parts
    ensures !(forall j :: 0 <= j < |parts| ==> ValidPart(s, parts[j])) ==> r.proc == proc
  {
    RunChecking(s, proc, parts, parts)
  }

  /** As written, the first run of a new processor validates the empty
      snapshot, so no list is ever rejected by validation on a first run. */
  lemma FirstRunSkipsValidation(s: Settings, parts: seq<Part>)
    ensures var r := RunProcessingAsWritten(s, NewProcessing, parts);
            r.failure.None? || r.failure.value.Raised?
  {
  }

  /** A part whose position is not a dotted number: the run as written
      lets it past validation, the corrected run rejects it with one
      message line. */
  lemma StaleValidationWitness(s: Settings)
    requires s.positionColumn == "pos" && s.quantityColumn == "qty"
    ensures var parts := [Part([("pos", "A"), ("qty", "1")], Unset)];
            && RunProcessing(s, NewProcessing, parts).failure == Some(InvalidParts([Report(1, 1)]))
            && (RunProcessingAsWritten(s, NewProcessing, parts).failure.None? ||
                RunProcessingAsWritten(s, NewProcessing, parts).failure.value.Raised?)
  {
    var p := Part([("pos", "A"), ("qty", "1")], Unset);
    assert Column(p, "pos") == Ok("A");
    assert Column(p, "qty") == Ok("1");
    WitnessRejected(s, p);
    FirstRunSkipsValidation(s, [p]);
  }

  /** Any one part whose position reads "A" and quantity "1" is rejected
      for its position alone. */
  lemma WitnessRejected(s: Settings, p: Part)
    requires s.positionColumn == "pos" && s.quantityColumn == "qty"
    requires Column(p, "pos") == Ok("A") && Column(p, "qty") == Ok("1")
    ensures ValidatePartList(s, [p]) == Ok(Rejected([Report(1, 1)]))
  {
    assert !DotNumber("A") by { assert !IsDigit('A'); }
    assert DotNumber("1");
    assert DigitColumnValid(p, "pos") == Ok(false);
    assert DigitColumnValid(p, "qty") == Ok(true);
    assert [p][0] == p;
    assert BadFrom([p], "pos", 1) == Ok([]) && BadFrom([p], "qty", 1) == Ok([]);
    var none: seq<nat> := [];
    assert [0 as nat] + none == [0] && none + none == none;
    assert BadFrom([p], "pos", 0) == Ok([0]);
    assert BadFrom([p], "qty", 0) == Ok([]);
    assert IsPartListValid([p], "pos", "qty") == Ok(Invalids([0], []));
    var noReports: seq<Report> := [];
    assert [Report(1, 1)] + noReports == [Report(1, 1)];
  }
}

=== FILE: legacybom.dfy ===
/** The oldest BOM and BOM manager (`BaseBomManager`, `DefaultBomManager`,
    `BaseBom` and `DefaultBom` of web_app/models.py).

    Unlike their successors, the list operations print a message and change
    nothing when the object is absent, and every BOM owns its processor from
    construction on, so undoing is always possible.
 */
module LegacyBoms {
  import opened Wrappers
  import opened Parts
  import opened Keywords
  import opened Config
  import opened Boms
  import Legacy

  /** A legacy `DefaultBom`: its parts and the processor built from the same
      keyword arguments, with the settings it reads. */
  datatype LegacyBom = LegacyBom(
    parts: seq<Obj<Part>>,          // part_list
    nextPart: nat,                  // the identity the next new part gets
    settings: Settings,             // the processor's configuration
    proc: Legacy.Processing)        // bom_processor

  /** `DefaultBom(**kwargs)`: no parts, and a new processor. */
  function NewLegacyBom(s: Settings): (b: LegacyBom)
    ensures b.parts == [] && b.proc == Legacy.NewProcessing && b.settings == s
  {
    LegacyBom([], 0, s, Legacy.NewProcessing)
  }

  /** The settings of `DefaultBom()` with no arguments: empty column names
      and keywords, nests of purchased parts junk, no normalized columns. */
  function DefaultSettings(library: seq<(string, seq<int>)>): Settings {
    Settings("", "", "", "", None, KwStr(""), KwStr(""), KwStr(""), true, None, "", 0, library)
  }

  /** New objects for the given parts, numbered from `next`. */
  function Fresh(vs: seq<Part>, next: nat): (r: seq<Obj<Part>>)
    ensures |r| == |vs| && Values(r) == vs
    ensures forall k :: 0 <= k < |r| ==> r[k].id == next + k
    ensures Below(r, next + |vs|) && UniqueIds(r)
    decreases |vs|
  {
    if |vs| == 0 then []
    else
      var rest := Fresh(vs[1..], next + 1);
      var r := [Obj(next, vs[0])] + rest;
      assert Values(r) == vs by {
        forall k | 0 <= k < |vs| ensures Values(r)[k] == vs[k] {
          if k > 0 { assert Values(r)[k] == rest[k - 1].value == vs[1..][k - 1]; }
        }
      }
      r
  }

  /** `get_part_count`. */
  function PartCount(b: LegacyBom): nat {
    |b.parts|
  }

  /** `create_part(**kwargs)`: a new part is appended and returned. */
  function CreatePart(b: LegacyBom, kwargs: seq<(string, string)>): (r: (LegacyBom, Obj<Part>))
    ensures PartCount(r.0) == PartCount(b) + 1
    ensures r.0.parts[..|b.parts|] == b.parts && r.0.parts[|b.parts|] == r.1
    ensures r.1.value == NewPart(kwargs)
    ensures Below(b.parts, b.nextPart) ==> !Holds(b.parts, r.1.id) && Below(r.0.parts, r.0.nextPart)
    ensures r.0.(parts := b.parts, nextPart := b.nextPart) == b
  {
    var part := NewPart(kwargs);
    (b.(parts := Added(b.parts, b.nextPart, part), nextPart := b.nextPart + 1), Obj(b.nextPart, part))
  }

  /** `delete_part(part)`: an absent part leaves the BOM as it is (the
      method only prints); otherwise every other part stays. */
  function DeletePart(b: LegacyBom, id: nat): (r: LegacyBom)
    ensures !Holds(b.parts, id) ==> r == b
    ensures !Holds(r.parts, id)
    ensures forall k :: 0 <= k < |r.parts| ==> r.parts[k] in b.parts
    ensures forall k :: 0 <= k < |b.parts| && b.parts[k].id != id ==> b.parts[k] in r.parts
    ensures r.(parts := b.parts) == b
  {
    if !Holds(b.parts, id) then b
    else
      var r := Without(b.parts, id);
      assert !Holds(r, id) by {
        forall k | 0 <= k < |r| ensures r[k].id != id {
        }
      }
      b.(parts := r)
  }

  /** Deleting the part at index `k` of a list without repeats removes it
      and nothing else; deleting it again changes nothing. */
  lemma DeletePartAt(b: LegacyBom, k: nat)
    requires k < |b.parts| && UniqueIds(b.parts)
    ensures DeletePart(b, b.parts[k].id) == b.(parts := b.parts[..k] + b.parts[k + 1..])
    ensures var b' := DeletePart(b, b.parts[k].id); DeletePart(b', b.parts[k].id) == b'
  {
    WithoutAt(b.parts, k);
  }

  /** `delete_all_parts`. */
  function DeleteAllParts(b: LegacyBom): (r: LegacyBom)
    ensures PartCount(r) == 0
    ensures r.(parts := b.parts) == b
  {
    b.(parts := [])
  }

  /** `process_part_list`: `run_processing` on the part list (validating the
      list it is given); when it finishes, the part list becomes the new
      processed list; a ValueError, from the validator or from processing,
      is returned; any other exception propagates.  The processor keeps
      whatever the run left in it. */
  function ProcessPartList(b: LegacyBom): (r: (LegacyBom, Result<Option<Legacy.Failure>>))
    ensures var run := Legacy.RunProcessing(b.settings, b.proc, Values(b.parts));
            && r.0.proc == run.proc
            && (run.failure.None? ==> Values(r.0.parts) == run.proc.processed && r.1 == Ok(None))
            && (run.failure.Some? ==> r.0.parts == b.parts)
            && (r.1.Ok? <==> run.failure.None? || run.failure.value.InvalidParts? || run.failure == Some(Legacy.Raised(ValueError)))
            && (r.1.Ok? && run.failure.Some? ==> r.1.value == run.failure)
            && (r.1.Err? ==> run.failure == Some(Legacy.Raised(r.1.error)))
    ensures Below(b.parts, b.nextPart) ==> Below(r.0.parts, r.0.nextPart)
    ensures r.0.settings == b.settings
  {
    var run := Legacy.RunProcessing(b.settings, b.proc, Values(b.parts));
    Settle(b, run)
  }

  /** What `process_part_list` does with the outcome `run` of
      `run_processing`. */
  function Settle(b: LegacyBom, run: Legacy.Run): (r: (LegacyBom, Result<Option<Legacy.Failure>>))
    ensures && r.0.proc == run.proc
            && (run.failure.None? ==> Values(r.0.parts) == run.proc.processed && r.1 == Ok(None))
            && (run.failure.Some? ==> r.0.parts == b.parts)
            && (r.1.Ok? <==> run.failure.None? || run.failure.value.InvalidParts? || run.failure == Some(Legacy.Raised(ValueError)))
            && (r.1.Ok? && run.failure.Some? ==> r.1.value == run.failure)
            && (r.1.Err? ==> run.failure == Some(Legacy.Raised(r.1.error)))
    ensures Below(b.parts, b.nextPart) ==> Below(r.0.parts, r.0.nextPart)
    ensures r.0.settings == b.settings
  {
    var b' := b.(proc := run.proc);
    if run.failure.None? then
      var processed := Fresh(run.proc.processed, b.nextPart);
      (b'.(parts := processed, nextPart := b.nextPart + |processed|), Ok(None))
    else if run.failure.value.InvalidParts? || run.failure.value.error == ValueError then
      (b', Ok(run.failure))
    else
      (b', Err(run.failure.value.error))
  }

  /** `undo_processing`: the part list becomes the processor's snapshot. */
  function UndoProcessing(b: LegacyBom): (r: LegacyBom)
    ensures Values(r.parts) == b.proc.initial
    ensures r.(parts := b.parts, nextPart := b.nextPart) == b
  {
    var initial := Fresh(b.proc.initial, b.nextPart);
    b.(parts := initial, nextPart := b.nextPart + |initial|)
  }

  /** Once the list passes validation, the snapshot is of that list, so
      undoing brings back the parts the BOM had before processing, whether
      processing then finished or raised. */
  lemma UndoAfterProcessing(b: LegacyBom)
    requires forall j :: 0 <= j < |b.parts| ==> Legacy.ValidPart(b.settings, b.parts[j].value)
    ensures var (b', _) := ProcessPartList(b);
            Values(UndoProcessing(b').parts) == Values(b.parts)
  {
    var vs := Values(b.parts);
    assert forall j :: 0 <= j < |vs| ==> Legacy.ValidPart(b.settings, vs[j]);
    assert ProcessPartList(b).0.proc.initial == vs;
  }

  /** A list that fails validation is left alone, and so is the processor. */
  lemma RejectedListKept(b: LegacyBom)
    requires exists j :: 0 <= j < |b.parts| && !Legacy.ValidPart(b.settings, b.parts[j].value)
    ensures var (b', _) := ProcessPartList(b);
            b'.parts == b.parts && b'.proc == b.proc
  {
    var vs := Values(b.parts);
    var j :| 0 <= j < |b.parts| && !Legacy.ValidPart(b.settings, b.parts[j].value);
    assert vs[j] == b.parts[j].value;
    assert !Legacy.ValidPart(b.settings, vs[j]);
  }

  // ---- the legacy manager -------------------------------------------------

  /** A legacy `DefaultBomManager`. */
  datatype LegacyManager = LegacyManager(boms: seq<Obj<LegacyBom>>, nextBom: nat)

  /** `get_bom_count`. */
  function BomCount(m: LegacyManager): nat {
    |m.boms|
  }

  /** `create_bom(**kwargs)`: the new BOM is appended and returned. */
  function CreateBom(m: LegacyManager, s: Settings): (r: (LegacyManager, Obj<LegacyBom>))
    ensures BomCount(r.0) == BomCount(m) + 1 && Holds(r.0.boms, r.1.id)
    ensures r.0.boms[..|m.boms|] == m.boms && r.0.boms[|m.boms|] == r.1
    ensures r.1.value == NewLegacyBom(s)
    ensures Below(m.boms, m.nextBom) ==> !Holds(m.boms, r.1.id) && Below(r.0.boms, r.0.nextBom)
  {
    var bom := Obj(m.nextBom, NewLegacyBom(s));
    var boms := Added(m.boms, m.nextBom, bom.value);
    assert boms[|m.boms|] == bom;
    (LegacyManager(boms, m.nextBom + 1), bom)
  }

  /** `delete_bom(bom)`: an absent BOM leaves the manager as it is (the
      method only prints); otherwise every other BOM stays. */
  function DeleteBom(m: LegacyManager, id: nat): (r: LegacyManager)
    ensures !Holds(m.boms, id) ==> r == m
    ensures !Holds(r.boms, id)
    ensures forall k :: 0 <= k < |r.boms| ==> r.boms[k] in m.boms
    ensures forall k :: 0 <= k < |m.boms| && m.boms[k].id != id ==> m.boms[k] in r.boms
    ensures r.nextBom == m.nextBom
  {
    if !Holds(m.boms, id) then m
    else
      var r := Without(m.boms, id);
      assert !Holds(r, id) by {
        forall k | 0 <= k < |r| ensures r[k].id != id {
        }
      }
      m.(boms := r)
  }

  /** A BOM just created can be deleted again, which gives back the list the
      manager had before. */
  lemma CreateThenDeleteBom(m: LegacyManager, s: Settings)
    requires Below(m.boms, m.nextBom)
    ensures var (m', bom) := CreateBom(m, s);
            DeleteBom(m', bom.id).boms == m.boms
  {
    var (m', bom) := CreateBom(m, s);
    AddedThenWithout(m.boms, m.nextBom, bom.value);
  }

  /** `reset_bom(bom)`: an absent BOM gives None and changes nothing;
      otherwise a new default BOM takes its place, at the same index, every
      other entry unchanged, and is returned. */
  function ResetBom(m: LegacyManager, id: nat, library: seq<(string, seq<int>)>): (r: (LegacyManager, Option<Obj<LegacyBom>>))
    ensures r.1.None? <==> !Holds(m.boms, id)
    ensures r.1.None? ==> r.0 == m
    ensures r.1.Some? ==> var clean := r.1.value;
                          && |r.0.boms| == |m.boms|
                          && clean.value == NewLegacyBom(DefaultSettings(library))
                          && (forall k :: 0 <= k < |m.boms| && m.boms[k].id != id ==> r.0.boms[k] == m.boms[k])
                          && (forall k :: 0 <= k < |m.boms| && m.boms[k].id == id ==> r.0.boms[k] == clean)
                          && Holds(r.0.boms, clean.id)
                          && (Below(m.boms, m.nextBom) ==> !Holds(m.boms, clean.id) && Below(r.0.boms, r.0.nextBom))
  {
    if !Holds(m.boms, id) then (m, None)
    else
      var clean := Obj(m.nextBom, NewLegacyBom(DefaultSettings(library)));
      var boms := Replaced(m.boms, id, clean);
      assert Holds(boms, clean.id) by {
        var k :| 0 <= k < |m.boms| && m.boms[k].id == id;
        assert boms[k] == clean;
      }
      (LegacyManager(boms, m.nextBom + 1), Some(clean))
  }
}

=== FILE: lifecycle.dfy ===
/** The processor lifecycle (web_app/models/bom_processor.py `BomProcessor` and
    the `prepare_and_finish_processing` decorator of
    web_app/functions/processor_director.py).

    A processor works on a copy of its BOM's part list: initialization takes
    two snapshots, the initial list (for undo) and the processed list (to work
    on); the BOM's list is replaced by the processed one only when the last
    pass reported success, and undo puts the initial list back.  Part lists are
    values here, so the deep copies are copies by construction; a list that
    Python holds as None is `None`.
 */
module Lifecycle {
  import opened Wrappers
  import opened Parts

  /** The value of a configuration attribute as Python may hold it. */
  datatype AttrVal = ANone | AStr(s: string) | AList(items: seq<string>) | ABool(b: bool) | AInt(i: int)

  /** A processor: its BOM's part list, the two working lists, the success
      flag and the configuration attributes by name. */
  datatype Processor = Processor(
    bomParts: Option<seq<Part>>,
    initial: Option<seq<Part>>,
    processed: Option<seq<Part>>,
    succeeded: bool,
    attrs: map<string, AttrVal>)

  /** The configuration attributes `__init__` sets, with their defaults. */
  const Defaults: map<string, AttrVal> := map[
    "part_position_delimiter" := ANone,
    "production_part_keywords" := ANone,
    "junk_part_keywords" := ANone,
    "junk_part_empty_fields" := ANone,
    "set_junk_for_purchased_nests" := ABool(true),
    "reverse_bom_sorting" := ABool(false),
    "normalized_columns" := ANone,
    "parts_sorting" := ANone
  ]

  /** `BomProcessor(bom)`: nothing processed, no lists yet, no delimiter, the
      junk-for-purchased-nests policy on. */
  function NewProcessor(bomParts: seq<Part>): (p: Processor)
    ensures p.bomParts == Some(bomParts)
    ensures !p.succeeded && p.initial.None? && p.processed.None?
    ensures "part_position_delimiter" in p.attrs && p.attrs["part_position_delimiter"] == ANone
    ensures "set_junk_for_purchased_nests" in p.attrs && p.attrs["set_junk_for_purchased_nests"] == ABool(true)
    ensures "reverse_bom_sorting" in p.attrs && p.attrs["reverse_bom_sorting"] == ABool(false)
    ensures forall k :: k in p.attrs && k != "set_junk_for_purchased_nests" && k != "reverse_bom_sorting" ==> p.attrs[k] == ANone
  {
    Processor(Some(bomParts), None, None, false, Defaults)
  }

  /** `run_initialization`: both working lists become copies of the BOM's
      list; nothing else changes. */
  function RunInitialization(p: Processor): (r: Processor)
    ensures r.initial == p.bomParts && r.processed == p.bomParts
    ensures r.bomParts == p.bomParts && r.succeeded == p.succeeded && r.attrs == p.attrs
  {
    p.(initial := p.bomParts, processed := p.bomParts)
  }

  /** `finish_processing`: the BOM takes the processed list iff the last pass
      succeeded; otherwise nothing changes. */
  function FinishProcessing(p: Processor): (r: Processor)
    ensures p.succeeded ==> r == p.(bomParts := p.processed)
    ensures !p.succeeded ==> r == p
  {
    if p.succeeded then p.(bomParts := p.processed) else p
  }

  /** `undo_processing`: the BOM takes the initial list back. */
  function UndoProcessing(p: Processor): (r: Processor)
    ensures r.bomParts == p.initial
    ensures r.(bomParts := p.bomParts) == p
  {
    p.(bomParts := p.initial)
  }

  /** The value the last of the pairs with name `k` gives, if any. */
  function LastValue(kwargs: seq<(string, AttrVal)>, k: string): (r: Option<AttrVal>)
    ensures r.None? <==> forall j :: 0 <= j < |kwargs| ==> kwargs[j].0 != k
    ensures r.Some? ==> exists j :: 0 <= j < |kwargs| && kwargs[j] == (k, r.value) &&
                                   forall j' :: j < j' < |kwargs| ==> kwargs[j'].0 != k
    decreases |kwargs|
  {
    if |kwargs| == 0 then None
    else if kwargs[|kwargs| - 1].0 == k then Some(kwargs[|kwargs| - 1].1)
    else
      var r := LastValue(kwargs[..|kwargs| - 1], k);
      assert forall j :: 0 <= j < |kwargs| - 1 ==> kwargs[..|kwargs| - 1][j] == kwargs[j];
      r
  }

  /** `set_attributes_from_kwargs`: each keyword argument is assigned in turn. */
  function SetAttributes(attrs: map<string, AttrVal>, kwargs: seq<(string, AttrVal)>): map<string, AttrVal>
    decreases |kwargs|
  {
    if |kwargs| == 0 then attrs else SetAttributes(attrs[kwargs[0].0 := kwargs[0].1], kwargs[1..])
  }

  /** `set_attributes_from_kwargs` on the processor: only the configuration
      attributes change. */
  function SetAttributesFromKwargs(p: Processor, kwargs: seq<(string, AttrVal)>): (r: Processor)
    ensures r.(attrs := p.attrs) == p
  {
    p.(attrs := SetAttributes(p.attrs, kwargs))
  }

  /** Exactly the named attributes are assigned, each to the last value given
      for it; every other attribute keeps its value, and no attribute is
      removed. */
  lemma {:induction false} SetAttributesExactly(attrs: map<string, AttrVal>, kwargs: seq<(string, AttrVal)>, k: string)
    ensures var r := SetAttributes(attrs, kwargs);
            && (k in r <==> k in attrs || LastValue(kwargs, k).Some?)
            && (LastValue(kwargs, k).Some? ==> r[k] == LastValue(kwargs, k).value)
            && (LastValue(kwargs, k).None? && k in attrs ==> r[k] == attrs[k])
    decreases |kwargs|
  {
    if |kwargs| > 0 {
      var attrs' := attrs[kwargs[0].0 := kwargs[0].1];
      SetAttributesExactly(attrs', kwargs[1..], k);
      LastValueCons(kwargs, k);
    }
  }

  /** The last value of `k` in a list is the last value in its tail, or the
      head's value when the tail does not name `k`. */
  lemma {:induction false} LastValueCons(kwargs: seq<(string, AttrVal)>, k: string)
    requires |kwargs| > 0
    ensures LastValue(kwargs, k) ==
            if LastValue(kwargs[1..], k).Some? then LastValue(kwargs[1..], k)
            else if kwargs[0].0 == k then Some(kwargs[0].1) else None
    decreases |kwargs|
  {
    if |kwargs| > 1 {
      var last := |kwargs| - 1;
      if kwargs[last].0 != k {
        LastValueCons(kwargs[..last], k);
        assert kwargs[..last][1..] == kwargs[1..][..|kwargs[1..]| - 1];
        assert kwargs[..last][0] == kwargs[0];
      } else {
        assert kwargs[1..][|kwargs[1..]| - 1] == kwargs[last];
      }
    }
  }

  /** What a decorated call produced: the processor afterwards and the
      steps' return value or exception. */
  datatype Outcome<T> = Outcome(proc: Processor, result: Result<T>)

  /** `prepare_and_finish_processing`: initialize, run the steps once on the
      initialized processor, then finish; an exception from the steps skips
      the finish and propagates. */
  function PrepareAndFinish<T>(p: Processor, steps: Processor -> Outcome<T>): (r: Outcome<T>)
    ensures r.result == steps(RunInitialization(p)).result
    ensures r.result.Err? ==> r.proc == steps(RunInitialization(p)).proc
    ensures r.result.Ok? ==> r.proc == FinishProcessing(steps(RunInitialization(p)).proc)
  {
    var mid := steps(RunInitialization(p));
    if mid.result.Err? then mid else Outcome(FinishProcessing(mid.proc), mid.result)
  }

  /** The steps leave the BOM's list alone. */
  ghost predicate KeepsBom<T>(steps: Processor -> Outcome<T>) {
    forall q :: steps(q).proc.bomParts == q.bomParts
  }

  /** When the steps leave the BOM alone, the BOM keeps its list after a
      failure or an unsuccessful pass, and takes the processed list after a
      successful one. */
  lemma CommitOnlyOnSuccess<T>(p: Processor, steps: Processor -> Outcome<T>)
    requires KeepsBom(steps)
    ensures var mid := steps(RunInitialization(p));
            var r := PrepareAndFinish(p, steps);
            && (r.result.Err? || !mid.proc.succeeded ==> r.proc.bomParts == p.bomParts)
            && (r.result.Ok? && mid.proc.succeeded ==> r.proc.bomParts == mid.proc.processed)
  {
    var q := RunInitialization(p);
    assert steps(q).proc.bomParts == q.bomParts;
  }

  /** Undo after a decorated run gives back the list the BOM had before it,
      when the steps leave the snapshot alone. */
  lemma UndoRestores<T>(p: Processor, steps: Processor -> Outcome<T>)
    requires forall q :: steps(q).proc.initial == q.initial
    ensures UndoProcessing(PrepareAndFinish(p, steps).proc).bomParts == p.bomParts
  {
    var q := RunInitialization(p);
    assert steps(q).proc.initial == q.initial;
  }

  /** One pass of a stage over a part list, from index `i` on: each part in
      turn is replaced by what the stage makes of it, given the stage's running
      state and the list as updated so far.  The first exception stops the
      pass, leaving the parts before it updated. */
  datatype Pass<S> = Pass(state: S, parts: seq<Part>, error: Option<Error>)

  function ModifyFrom<S>(state: S, parts: seq<Part>, i: nat, step: (S, seq<Part>, Part) -> Result<(S, Part)>,
                         stuck: (S, seq<Part>, Part) -> S): (r: Pass<S>)
    requires i <= |parts|
    ensures |r.parts| == |parts|
    ensures forall j :: 0 <= j < i ==> r.parts[j] == parts[j]
    decreases |parts| - i
  {
    if i == |parts| then Pass(state, parts, None)
    else match step(state, parts, parts[i])
      case Err(e) => Pass(stuck(state, parts, parts[i]), parts, Some(e))
      case Ok((state', p)) => ModifyFrom(state', parts[i := p], i + 1, step, stuck)
  }

  /** When every result of the stage is related to its input by `rel`, a
      pass without exception relates every part from `i` on to what became of
      it. */
  lemma {:induction false} ModifyRelates<S>(state: S, parts: seq<Part>, i: nat, step: (S, seq<Part>, Part) -> Result<(S, Part)>,
                                            stuck: (S, seq<Part>, Part) -> S,
                                            rel: (Part, Part) -> bool)
    requires i <= |parts|
    requires forall st, cur, p :: step(st, cur, p).Ok? ==> rel(p, step(st, cur, p).value.1)
    ensures var r := ModifyFrom(state, parts, i, step, stuck);
            r.error.None? ==> forall j :: i <= j < |parts| ==> rel(parts[j], r.parts[j])
    decreases |parts| - i
  {
    if i < |parts| {
      var o := step(state, parts, parts[i]);
      if o.Ok? {
        var parts' := parts[i := o.value.1];
        ModifyRelates(o.value.0, parts', i + 1, step, stuck, rel);
        var r := ModifyFrom(o.value.0, parts', i + 1, step, stuck);
        assert r == ModifyFrom(state, parts, i, step, stuck);
        if r.error.None? {
          forall j | i <= j < |parts| ensures rel(parts[j], r.parts[j]) {
            if j > i {
              assert parts'[j] == parts[j];
            }
          }
        }
      }
    }
  }

  /** What `part_modifier` leaves: the processor, the stage's state and the
      exception that stopped the pass, if any. */
  datatype Modified<S> = Modified(proc: Processor, state: S, error: Option<Error>)

  /** `part_modifier` (web_app/functions/functions.py and
      web_app/models/bom_processor_methods.py): clear the success flag, apply
      the stage to every part of the processed list in order, then set the
      flag.  Iterating a missing list raises TypeError. */
  function PartModifier<S>(proc: Processor, state: S, step: (S, seq<Part>, Part) -> Result<(S, Part)>,
                           stuck: (S, seq<Part>, Part) -> S): (r: Modified<S>)
    ensures r.proc.succeeded <==> r.error.None?
    ensures proc.processed.None? ==> r.error == Some(TypeError) && r.proc == proc.(succeeded := false)
    ensures proc.processed.Some? ==> r.proc.processed.Some? && |r.proc.processed.value| == |proc.processed.value|
    ensures r.proc.(processed := proc.processed, succeeded := proc.succeeded) == proc
  {
    match proc.processed
    case None => Modified(proc.(succeeded := false), state, Some(TypeError))
    case Some(parts) =>
      var pass := ModifyFrom(state, parts, 0, step, stuck);
      Modified(proc.(processed := Some(pass.parts), succeeded := pass.error.None?), pass.state, pass.error)
  }

  /** A pass without exception updates every part of the processed list, each
      related to its old self as every single step of the stage is. */
  lemma PartModifierRelates<S>(proc: Processor, state: S, step: (S, seq<Part>, Part) -> Result<(S, Part)>,
                               stuck: (S, seq<Part>, Part) -> S,
                               rel: (Part, Part) -> bool)
    requires forall st, cur, p :: step(st, cur, p).Ok? ==> rel(p, step(st, cur, p).value.1)
    ensures var r := PartModifier(proc, state, step, stuck);
            r.error.None? ==> proc.processed.Some? && r.proc.processed.Some? &&
                              forall j :: 0 <= j < |proc.processed.value| ==> rel(proc.processed.value[j], r.proc.processed.value[j])
  {
    if proc.processed.Some? {
      ModifyRelates(state, proc.processed.value, 0, step, stuck, rel);
    }
  }

  /** The running state of a pass only moves along `keep` (a preorder),
      and every step leaves a state that `fits` the part it read, which
      later moves along `keep` preserve.  Then the state after the pass is a
      `keep`-successor of the first, and a pass without exception ends in a
      state that fits every part it read. */
  lemma {:induction false} ModifyKeeps<S>(state: S, parts: seq<Part>, i: nat, step: (S, seq<Part>, Part) -> Result<(S, Part)>,
                                          stuck: (S, seq<Part>, Part) -> S,
                                          keep: (S, S) -> bool, fits: (S, Part) -> bool)
    requires i <= |parts|
    requires forall a :: keep(a, a)
    requires forall a, b, c :: keep(a, b) && keep(b, c) ==> keep(a, c)
    requires forall a, b, p :: fits(a, p) && keep(a, b) ==> fits(b, p)
    requires forall st, cur, p :: step(st, cur, p).Ok? ==> keep(st, step(st, cur, p).value.0) && fits(step(st, cur, p).value.0, p)
    requires forall st, cur, p :: step(st, cur, p).Err? ==> keep(st, stuck(st, cur, p))
    ensures var r := ModifyFrom(state, parts, i, step, stuck);
            && keep(state, r.state)
            && (r.error.None? ==> forall j :: i <= j < |parts| ==> fits(r.state, parts[j]))
    decreases |parts| - i
  {
    if i < |parts| {
      var o := step(state, parts, parts[i]);
      if o.Ok? {
        var parts' := parts[i := o.value.1];
        ModifyKeeps(o.value.0, parts', i + 1, step, stuck, keep, fits);
        var r := ModifyFrom(o.value.0, parts', i + 1, step, stuck);
        assert r == ModifyFrom(state, parts, i, step, stuck);
        assert keep(state, o.value.0) && keep(o.value.0, r.state);
        if r.error.None? {
          forall j | i <= j < |parts| ensures fits(r.state, parts[j]) {
            if j > i {
              assert parts'[j] == parts[j];
            } else {
              assert fits(o.value.0, parts[i]);
            }
          }
        }
      }
    }
  }

  /** `ModifyKeeps` for a whole `part_modifier` pass. */
  lemma PartModifierKeeps<S>(proc: Processor, state: S, step: (S, seq<Part>, Part) -> Result<(S, Part)>,
                             stuck: (S, seq<Part>, Part) -> S,
                             keep: (S, S) -> bool, fits: (S, Part) -> bool)
    requires forall a :: keep(a, a)
    requires forall a, b, c :: keep(a, b) && keep(b, c) ==> keep(a, c)
    requires forall a, b, p :: fits(a, p) && keep(a, b) ==> fits(b, p)
    requires forall st, cur, p :: step(st, cur, p).Ok? ==> keep(st, step(st, cur, p).value.0) && fits(step(st, cur, p).value.0, p)
    requires forall st, cur, p :: step(st, cur, p).Err? ==> keep(st, stuck(st, cur, p))
    ensures var r := PartModifier(proc, state, step, stuck);
            && keep(state, r.state)
            && (r.error.None? ==> forall j :: 0 <= j < |proc.processed.value| ==> fits(r.state, proc.processed.value[j]))
  {
    if proc.processed.Some? {
      ModifyKeeps(state, proc.processed.value, 0, step, stuck, keep, fits);
    }
  }

  /** Two part lists of the same length whose parts have the same raw
      columns, place by place. */
  predicate SameRaw(a: seq<Part>, b: seq<Part>) {
    |a| == |b| && forall j :: 0 <= j < |a| ==> a[j].raw == b[j].raw
  }

  /** A stage that keeps raw columns, and that relates its input to its
      output by `rel` whenever the list it reads has the raw columns of
      `orig`, relates every part of `orig` to what a pass without exception
      makes of it: the updates of a pass never change what it reads. */
  lemma {:induction false} ModifyReadsRaw<S>(state: S, parts: seq<Part>, i: nat, step: (S, seq<Part>, Part) -> Result<(S, Part)>,
                                             stuck: (S, seq<Part>, Part) -> S,
                                             orig: seq<Part>, rel: (Part, Part) -> bool)
    requires i <= |parts| && SameRaw(parts, orig)
    requires forall j :: i <= j < |parts| ==> parts[j] == orig[j]
    requires forall st, cur, p :: SameRaw(cur, orig) && step(st, cur, p).Ok? ==>
                                  step(st, cur, p).value.1.raw == p.raw && rel(p, step(st, cur, p).value.1)
    ensures var r := ModifyFrom(state, parts, i, step, stuck);
            r.error.None? ==> forall j :: i <= j < |parts| ==> rel(orig[j], r.parts[j])
    decreases |parts| - i
  {
    if i < |parts| {
      var o := step(state, parts, parts[i]);
      if o.Ok? {
        var parts' := parts[i := o.value.1];
        assert SameRaw(parts', orig);
        ModifyReadsRaw(o.value.0, parts', i + 1, step, stuck, orig, rel);
        var r := ModifyFrom(o.value.0, parts', i + 1, step, stuck);
        assert r == ModifyFrom(state, parts, i, step, stuck);
        if r.error.None? {
          forall j | i <= j < |parts| ensures rel(orig[j], r.parts[j]) {
            if j == i {
              assert r.parts[i] == parts'[i];
            }
          }
        }
      }
    }
  }

  /** `ModifyReadsRaw` for a whole `part_modifier` pass. */
  lemma PartModifierReadsRaw<S>(proc: Processor, state: S, step: (S, seq<Part>, Part) -> Result<(S, Part)>,
                                stuck: (S, seq<Part>, Part) -> S,
                                rel: (Part, Part) -> bool)
    requires proc.processed.Some?
    requires forall st, cur, p :: SameRaw(cur, proc.processed.value) && step(st, cur, p).Ok? ==>
                                  step(st, cur, p).value.1.raw == p.raw && rel(p, step(st, cur, p).value.1)
    ensures var r := PartModifier(proc, state, step, stuck);
            r.error.None? ==> forall j :: 0 <= j < |proc.processed.value| ==> rel(proc.processed.value[j], r.proc.processed.value[j])
  {
    ModifyReadsRaw(state, proc.processed.value, 0, step, stuck, proc.processed.value, rel);
  }

  /** The running state of a stage that keeps none. */
  function NoState(st: (), cur: seq<Part>, p: Part): () {
    ()
  }

  /** A run of passes: the `i`-th pass applies `stage(i)` to the processed
      list with `part_modifier`, for `i` from `k` up to `n`; the first
      exception ends the run.  The BOM's list, the snapshot and the
      configuration are never touched. */
  function RunStages(proc: Processor, stage: nat -> ((), seq<Part>, Part) -> Result<((), Part)>, k: nat, n: nat): (r: Outcome<()>)
    requires k <= n
    ensures r.proc.bomParts == proc.bomParts && r.proc.initial == proc.initial && r.proc.attrs == proc.attrs
    ensures r.result.Ok? && k < n ==> r.proc.succeeded
    ensures proc.processed.None? && k < n ==> r.result == Err(TypeError)
    decreases n - k
  {
    if k == n then Outcome(proc, Ok(()))
    else
      var m := PartModifier(proc, (), stage(k), NoState);
      if m.error.Some? then Outcome(m.proc, Err(m.error.value))
      else RunStages(m.proc, stage, k + 1, n)
  }

  /** Every part of `parts` stands in `inv(k, _, _)` to the part at the same
      place in `orig`. */
  ghost predicate AllRelated(inv: (nat, Part, Part) -> bool, k: nat, orig: seq<Part>, parts: Option<seq<Part>>) {
    parts.Some? && |parts.value| == |orig| && forall j :: 0 <= j < |orig| ==> inv(k, orig[j], parts.value[j])
  }

  /** If each stage takes `inv(i, ...)` to `inv(i + 1, ...)` part by part, a
      run that completes takes the whole list from `inv(k, ...)` to
      `inv(n, ...)`. */
  lemma {:induction false} RunStagesKeep(proc: Processor, stage: nat -> ((), seq<Part>, Part) -> Result<((), Part)>,
                                         k: nat, n: nat, orig: seq<Part>, inv: (nat, Part, Part) -> bool)
    requires k <= n && AllRelated(inv, k, orig, proc.processed)
    requires forall i, st, cur, o, p :: k <= i < n && inv(i, o, p) && stage(i)(st, cur, p).Ok? ==>
                                        inv(i + 1, o, stage(i)(st, cur, p).value.1)
    ensures RunStages(proc, stage, k, n).result.Ok? ==> AllRelated(inv, n, orig, RunStages(proc, stage, k, n).proc.processed)
    decreases n - k
  {
    if k < n {
      var m := PartModifier(proc, (), stage(k), NoState);
      if m.error.None? {
        var rel := (p: Part, q: Part) => forall o :: inv(k, o, p) ==> inv(k + 1, o, q);
        PartModifierRelates(proc, (), stage(k), NoState, rel);
        var before, after := proc.processed.value, m.proc.processed.value;
        assert AllRelated(inv, k + 1, orig, m.proc.processed) by {
          forall j | 0 <= j < |orig| ensures inv(k + 1, orig[j], after[j]) {
            assert rel(before[j], after[j]);
          }
        }
        RunStagesKeep(m.proc, stage, k + 1, n, orig, inv);
      }
    }
  }
}

=== FILE: methods.dfy ===
/** The stage methods of web_app/models/bom_processor_methods.py
    (`ProcessorMethods`), each wrapped by its own `part_modifier`.

    Unlike the free functions of web_app/functions/processor.py, these read
    the processor's processed list (as updated so far in the pass) for
    cross-part lookups, and they discover the position delimiter as they go:
    every read of a position split checks the part's own delimiter against
    the one the processor has recorded, and records it when none is.  The
    recorded delimiter is therefore the running state of a pass.
 */
module ProcessorMethods {
  import opened Wrappers
  import opened Text
  import opened Keywords
  import opened Parts
  import opened Hierarchy
  import opened Classify
  import opened Quantity
  import opened Config
  import opened Lifecycle
  import opened Sorting
  import opened PositionDelimiter
  import PF = ProcessorFunctions
  import Tree
  import TreeList

  // ---- column accessors -----------------------------------------------------

  /** `get_part_position`: AttrNotSet while the column name is unset, then
      the part's raw column of that name. */
  function GetPartPosition(s: Settings, p: Part): (r: Result<string>)
    ensures s.positionColumn == "" ==> r == Err(AttrNotSet)
    ensures s.positionColumn != "" ==> r == Column(p, s.positionColumn)
  {
    if s.positionColumn == "" then Err(AttrNotSet) else Column(p, s.positionColumn)
  }

  /** `get_part_number`. */
  function GetPartNumber(s: Settings, p: Part): (r: Result<string>)
    ensures s.numberColumn == "" ==> r == Err(AttrNotSet)
    ensures s.numberColumn != "" ==> r == Column(p, s.numberColumn)
  {
    if s.numberColumn == "" then Err(AttrNotSet) else Column(p, s.numberColumn)
  }

  /** `get_part_name`. */
  function GetPartName(s: Settings, p: Part): (r: Result<string>)
    ensures s.nameColumn == "" ==> r == Err(AttrNotSet)
    ensures s.nameColumn != "" ==> r == Column(p, s.nameColumn)
  {
    if s.nameColumn == "" then Err(AttrNotSet) else Column(p, s.nameColumn)
  }

  /** `get_part_quantity`: AttrNotSet while the column name is unset, the
      missing column's AttributeError, and QuantityNotDigit where `int()`
      fails on the value. */
  function GetPartQuantity(s: Settings, p: Part): (r: Result<int>)
    ensures s.quantityColumn == "" ==> r == Err(AttrNotSet)
    ensures s.quantityColumn != "" && Column(p, s.quantityColumn).Err? ==> r == Err(AttributeError)
    ensures s.quantityColumn != "" && Column(p, s.quantityColumn).Ok? ==>
              (r.Err? <==> PyInt(Column(p, s.quantityColumn).value).Err?) &&
              (r.Err? ==> r.error == QuantityNotDigit) &&
              (r.Ok? ==> PyInt(Column(p, s.quantityColumn).value) == Ok(r.value))
  {
    if s.quantityColumn == "" then Err(AttrNotSet)
    else
      var v :- Column(p, s.quantityColumn);
      match PyInt(v)
      case Err(_) => Err(QuantityNotDigit)
      case Ok(n) => Ok(n)
  }

  /** The position reader `set_sets` passes over the list. */
  function PositionReader(s: Settings): Part -> Result<string> {
    (p: Part) => GetPartPosition(s, p)
  }

  /** The quantity reader `set_sets` passes over the list. */
  function QuantityReader(s: Settings): Part -> Result<int> {
    (p: Part) => GetPartQuantity(s, p)
  }

  /** With every column name set, the accessors read what the readers of
      web_app/functions/processor.py read, except that a quantity `int()`
      rejects is reported as QuantityNotDigit instead of ValueError. */
  lemma AccessorsAgree(s: Settings, p: Part)
    requires s.positionColumn != "" && s.quantityColumn != ""
    ensures GetPartPosition(s, p) == PF.Position(s)(p)
    ensures GetPartQuantity(s, p).Ok? <==> PF.QuantityOf(s)(p).Ok?
    ensures GetPartQuantity(s, p).Ok? ==> GetPartQuantity(s, p) == PF.QuantityOf(s)(p)
    ensures PF.QuantityOf(s)(p) == Err(ValueError) <==> GetPartQuantity(s, p) == Err(QuantityNotDigit)
  {
  }

  // ---- the position delimiter -----------------------------------------------

  /** The delimiter a position is split on once it is accepted: its single
      non-digit character after stripping, or None when it is all digits. */
  function OwnDelimiter(position: string): (r: Option<char>)
    ensures r.None? <==> AllDigits(Strip(position))
    ensures r.Some? ==> r.value in Strip(position) && !IsDigit(r.value)
  {
    if AllDigits(Strip(position)) then None else Some(FirstNonDigit(Strip(position)))
  }

  /** `_get_pos_delimiter` on a read position, with the recorded delimiter
      `current`: the new recorded delimiter and the one returned.  An
      all-digit position returns None and records nothing; several distinct
      non-digit characters, or one that differs from the recorded delimiter,
      raise DelimiterNotUnique; otherwise the position's delimiter is
      recorded and returned. */
  function PosDelimiter(current: Option<char>, position: string): (r: Result<(Option<char>, Option<char>)>)
    ensures AllDigits(Strip(position)) ==> r == Ok((current, None))
    ensures r.Ok? <==> PositionAgrees(current, Strip(position))
    ensures r.Err? ==> r.error == DelimiterNotUnique
    ensures r.Ok? ==> r.value.1 == OwnDelimiter(position)
    ensures r.Ok? && !AllDigits(Strip(position)) ==> r.value.0 == OwnDelimiter(position)
    ensures r.Ok? && current.Some? ==> r.value.0 == current
  {
    match GetPositionDelimiter(Strip(position))
    case Err(_) => Err(DelimiterNotUnique)
    case Ok(None) => Ok((current, None))
    case Ok(Some(c)) =>
      if current.Some? && current.value != c then Err(DelimiterNotUnique)
      else Ok((Some(c), Some(c)))
  }

  /** `_get_pos_delimiter` strips the position and compares delimiters with
      `!=`; the part-list validator's `is_position_delimiter_unique` reads the
      raw position and compares with `is`.  The processor accepts everything
      the validator accepts, and records the same delimiter unless the
      validator adopted a blank from the padding of an all-digit position.
      On an unpadded position the processor accepts more exactly when the
      position repeats an established delimiter beyond Latin-1; on a padded
      one exactly when the stripped position agrees and the raw one does not,
      since the validator passes a padded position only when all its
      separators are whitespace. */
  lemma PosDelimiterAgreesWithValidator(current: Option<char>, position: string)
    ensures IsPositionDelimiterUnique(current, position).ok ==> PosDelimiter(current, position).Ok?
    ensures IsPositionDelimiterUnique(current, position).ok ==>
              (PosDelimiter(current, position).value.0 == IsPositionDelimiterUnique(current, position).established
               <==> !(current.None? && AllDigits(Strip(position)) && !AllDigits(position)))
    ensures Strip(position) == position ==>
              (PosDelimiter(current, position).Ok? && !IsPositionDelimiterUnique(current, position).ok <==>
                 && PositionAgrees(current, position)
                 && current.Some? && !AllDigits(position) && !Interned(current.value))
    ensures Strip(position) != position ==>
              (PosDelimiter(current, position).Ok? && !IsPositionDelimiterUnique(current, position).ok <==>
                 PositionAgrees(current, Strip(position)) && !PositionAgrees(current, position))
    ensures Strip(position) != position && IsPositionDelimiterUnique(current, position).ok ==>
              forall i :: 0 <= i < |position| && !IsDigit(position[i]) ==> IsSpace(position[i])
  {
    StrippedAgrees(current, position);
    PaddedValidatorAgrees(current, position);
    PaddedDelimiterIsBlank(position);
  }

  /** The part-list validator rejects "1.1 " after '.', since the blank is a
      second separator, while the processor strips it and accepts. */
  lemma PaddedPositionRejected()
    ensures !IsPositionDelimiterUnique(Some('.'), "1.1 ").ok
    ensures PosDelimiter(Some('.'), "1.1 ") == Ok((Some('.'), Some('.')))
  {
    DotPaddedRejected();
    StripPadded("", "1.1", " ");
    assert "" + "1.1" + " " == "1.1 ";
  }

  /** The part-list validator adopts the blank of " 12" as the delimiter,
      where the processor strips it and records none. */
  lemma PaddedBlankAdopted()
    ensures IsPositionDelimiterUnique(None, " 12") == Check(true, Some(' '))
    ensures PosDelimiter(None, " 12") == Ok((None, None))
  {
    BlankPaddingAdopted();
    StripPadded(" ", "12", "");
    assert " " + "12" + "" == " 12";
    assert AllDigits(Strip(" 12"));
  }

  /** Reading the delimiter again with the delimiter it recorded gives the
      same answer and records nothing new. */
  lemma PosDelimiterStable(current: Option<char>, position: string)
    requires PosDelimiter(current, position).Ok?
    ensures var (current', d) := PosDelimiter(current, position).value;
            PosDelimiter(current', position) == Ok((current', d))
  {
  }

  /** `_get_pos_delimiter(part)`: the position is read first. */
  function GetPosDelimiter(s: Settings, current: Option<char>, p: Part): (r: Result<(Option<char>, Option<char>)>)
    ensures GetPartPosition(s, p).Err? ==> r == Err(GetPartPosition(s, p).error)
    ensures GetPartPosition(s, p).Ok? ==> r == PosDelimiter(current, GetPartPosition(s, p).value)
  {
    var position :- GetPartPosition(s, p);
    PosDelimiter(current, position)
  }

  /** The split of a position on its own delimiter. */
  function OwnSplit(position: string): seq<string> {
    SplitOpt(position, OwnDelimiter(position))
  }

  /** `_get_position_split`: the position split on its delimiter, and the
      recorded delimiter afterwards. */
  function PositionSplit(s: Settings, current: Option<char>, p: Part): (r: Result<(Option<char>, seq<string>)>)
    ensures r.Ok? <==> GetPartPosition(s, p).Ok? && PositionAgrees(current, Strip(GetPartPosition(s, p).value))
    ensures r.Err? ==> r.error == AttrNotSet || r.error == AttributeError || r.error == DelimiterNotUnique
    ensures r.Ok? ==> r.value.1 == OwnSplit(GetPartPosition(s, p).value)
    ensures r.Ok? ==> GetPosDelimiter(s, current, p) == Ok((r.value.0, OwnDelimiter(GetPartPosition(s, p).value)))
    ensures r.Ok? && current.Some? ==> r.value.0 == current
  {
    var position :- GetPartPosition(s, p);
    var (current', d) :- GetPosDelimiter(s, current, p);
    Ok((current', SplitOpt(position, d)))
  }

  /** Splitting again with the delimiter the first split recorded gives the
      same split and records nothing new. */
  lemma PositionSplitStable(s: Settings, current: Option<char>, p: Part)
    requires PositionSplit(s, current, p).Ok?
    ensures PositionSplit(s, PositionSplit(s, current, p).value.0, p) == PositionSplit(s, current, p)
  {
    PosDelimiterStable(current, GetPartPosition(s, p).value);
  }

  /** A position agrees with the recorded delimiter: it has none, or the
      recorded one. */
  predicate Fits(current: Option<char>, position: string) {
    OwnDelimiter(position).None? || OwnDelimiter(position) == current
  }
  // ---- cross-part lookups -----------------------------------------------------

  /** The positions of every part of the list, read in order: AttrNotSet
      while the column name is unset (once there is a part to read), the
      first missing column's AttributeError otherwise. */
  function Positions(s: Settings, parts: seq<Part>): (r: Result<seq<string>>)
    ensures r.Ok? <==> forall j :: 0 <= j < |parts| ==> GetPartPosition(s, parts[j]).Ok?
    ensures r.Ok? ==> |r.value| == |parts| && forall j :: 0 <= j < |parts| ==> GetPartPosition(s, parts[j]) == Ok(r.value[j])
    ensures r.Err? ==> r.error == AttrNotSet || r.error == AttributeError
  {
    if |parts| == 0 then Ok([])
    else if s.positionColumn == "" then
      assert GetPartPosition(s, parts[0]).Err?;
      Err(AttrNotSet)
    else Columns(parts, s.positionColumn)
  }

  /** The positions of a non-empty list: the first part's, then the rest's. */
  lemma PositionsCons(s: Settings, parts: seq<Part>)
    requires |parts| > 0
    ensures Positions(s, parts).Ok? <==> GetPartPosition(s, parts[0]).Ok? && Positions(s, parts[1..]).Ok?
    ensures Positions(s, parts).Ok? ==>
              Positions(s, parts).value == [GetPartPosition(s, parts[0]).value] + Positions(s, parts[1..]).value
  {
    assert forall j :: 1 <= j < |parts| ==> parts[j] == parts[1..][j - 1];
    if Positions(s, parts).Ok? {
      var all, tail := Positions(s, parts).value, Positions(s, parts[1..]).value;
      assert all == [all[0]] + tail by {
        forall j | 1 <= j < |parts| ensures all[j] == tail[j - 1] {
          assert GetPartPosition(s, parts[1..][j - 1]) == Ok(tail[j - 1]);
        }
      }
    }
  }

  /** `_get_parent_by_id(ids[-1])` as an index into the processed list: the
      first part whose position is the last id; every position is read, and
      no match raises IndexError. */
  function ParentOf(s: Settings, cur: seq<Part>, ids: seq<string>): (r: Result<nat>)
    requires |ids| > 0
    ensures r.Ok? <==> Positions(s, cur).Ok? && ids[|ids| - 1] in Positions(s, cur).value
    ensures r.Ok? ==> r.value < |cur| && GetPartPosition(s, cur[r.value]) == Ok(ids[|ids| - 1])
    ensures r.Ok? ==> forall j :: 0 <= j < r.value ==> GetPartPosition(s, cur[j]) != Ok(ids[|ids| - 1])
    ensures r.Err? ==> r.error == AttrNotSet || r.error == AttributeError || r.error == IndexError
  {
    var positions :- Positions(s, cur);
    ParentById(positions, ids[|ids| - 1])
  }

  /** With the position column set, the parent the methods find in a list is
      the one the free functions find in the same list. */
  lemma ParentOfAgrees(s: Settings, cur: seq<Part>, ids: seq<string>)
    requires |ids| > 0 && s.positionColumn != ""
    ensures ParentOf(s, cur, ids).Ok? <==> PF.ParentIndex(s, cur, ids).Ok?
    ensures ParentOf(s, cur, ids).Ok? ==> ParentOf(s, cur, ids) == PF.ParentIndex(s, cur, ids)
  {
  }

  // ---- the stages ---------------------------------------------------------------

  /** `set_parent`: the proper prefixes of the part's position, joined by its
      own delimiter; reading the delimiter may record it or raise. */
  function SetParentStep(s: Settings, current: Option<char>, p: Part): (r: Result<(Option<char>, Part)>)
    ensures r.Ok? <==> && GetPartPosition(s, p).Ok? && PositionAgrees(current, Strip(GetPartPosition(s, p).value))
                       && (OwnDelimiter(GetPartPosition(s, p).value).Some? || |WsSplit(GetPartPosition(s, p).value)| <= 1)
    ensures r.Err? ==> r.error in {AttrNotSet, AttributeError, DelimiterNotUnique}
    ensures r.Ok? ==> var position := GetPartPosition(s, p).value;
                      && r.value.1 == p.(derived := p.derived.(parent := r.value.1.derived.parent))
                      && r.value.1.derived.parent.Some?
                      && ProperPrefixes(r.value.1.derived.parent.value, position, OwnDelimiter(position))
                      && r.value.0 == (if OwnDelimiter(position).Some? then OwnDelimiter(position) else current)
    ensures r.Ok? && current.Some? ==> r.value.0 == current
  {
    var position :- GetPartPosition(s, p);
    var found :- PosDelimiter(current, position);
    var ids :- ParentIds(position, found.1);
    Ok((found.0, p.(derived := p.derived.(parent := Some(ids)))))
  }

  /** `set_parent_assembly`: the number of the first part of the processed
      list at the last parent id, or the main assembly's name for a
      top-level part. */
  function SetParentAssemblyStep(s: Settings, cur: seq<Part>, p: Part): (r: Result<Part>)
    ensures !PF.HasParent(p) ==> r == Ok(p.(derived := p.derived.(parentAssembly := Some(s.mainAssemblyName))))
    ensures r.Ok? ==> r.value == p.(derived := p.derived.(parentAssembly := r.value.derived.parentAssembly))
    ensures r.Ok? ==> r.value.derived.parentAssembly.Some?
    ensures r.Ok? && PF.HasParent(p) ==>
              && ParentOf(s, cur, p.derived.parent.value).Ok?
              && GetPartNumber(s, cur[ParentOf(s, cur, p.derived.parent.value).value]) == Ok(r.value.derived.parentAssembly.value)
    ensures r.Err? ==> r.error in {AttrNotSet, AttributeError, IndexError}
  {
    if !PF.HasParent(p) then Ok(p.(derived := p.derived.(parentAssembly := Some(s.mainAssemblyName))))
    else
      var k :- ParentOf(s, cur, p.derived.parent.value);
      var number :- GetPartNumber(s, cur[k]);
      Ok(p.(derived := p.derived.(parentAssembly := Some(number))))
  }

  /** A position whose own split is one segment longer than `segs` and
      starts with it. */
  predicate ChildOf(position: string, segs: seq<string>) {
    IsChildSplit(OwnSplit(position), segs)
  }

  /** The child positions of a part with split `segs`, read as own splits:
      every member is the position of a list part one segment longer that
      starts with `segs`, and every such position is a member. */
  predicate ChildrenByOwnSplit(child: seq<string>, segs: seq<string>, positions: seq<string>) {
    && (forall k :: 0 <= k < |child| ==> child[k] in positions && ChildOf(child[k], segs))
    && (forall j :: 0 <= j < |positions| && ChildOf(positions[j], segs) ==> positions[j] in child)
  }

  /** Reference definition: in list order, the positions whose split under
      `split` is one segment longer than `segs` and starts with it. */
  function ChildrenBy(split: string -> seq<string>, segs: seq<string>, positions: seq<string>): (r: seq<string>)
    ensures forall k :: 0 <= k < |r| ==> r[k] in positions && IsChildSplit(split(r[k]), segs)
    decreases |positions|
  {
    if |positions| == 0 then []
    else
      var rest := ChildrenBy(split, segs, positions[1..]);
      if IsChildSplit(split(positions[0]), segs) then [positions[0]] + rest else rest
  }

  /** Every child position is among the children. */
  lemma {:induction false} ChildrenByComplete(split: string -> seq<string>, segs: seq<string>, positions: seq<string>, k: nat)
    requires k < |positions| && IsChildSplit(split(positions[k]), segs)
    ensures positions[k] in ChildrenBy(split, segs, positions)
    decreases k
  {
    if k > 0 {
      ChildrenByComplete(split, segs, positions[1..], k - 1);
      assert positions[1..][k - 1] == positions[k];
    }
  }

  /** Read with own splits, the children are exactly the child positions. */
  lemma OwnChildrenExact(segs: seq<string>, positions: seq<string>)
    ensures ChildrenByOwnSplit(ChildrenBy(OwnSplit, segs, positions), segs, positions)
  {
    forall j | 0 <= j < |positions| && ChildOf(positions[j], segs)
      ensures positions[j] in ChildrenBy(OwnSplit, segs, positions)
    {
      ChildrenByComplete(OwnSplit, segs, positions, j);
    }
  }

  /** When every position splits on its own delimiter as it does on `d`,
      the own-split children are the child ids `get_child_ids` finds. */
  lemma {:induction false} OwnChildrenAgree(segs: seq<string>, positions: seq<string>, d: Option<char>)
    requires forall j :: 0 <= j < |positions| ==> OwnSplit(positions[j]) == SplitOpt(positions[j], d)
    ensures ChildrenBy(OwnSplit, segs, positions) == ChildIds(segs, positions, d)
    decreases |positions|
  {
    if |positions| > 0 {
      assert forall j :: 1 <= j < |positions| ==> positions[1..][j - 1] == positions[j];
      OwnChildrenAgree(segs, positions[1..], d);
    }
  }

  /** The loop of `set_child` over the processed list: each item's split is
      read twice (the delimiter check runs each time), and its position is
      kept when the split is one segment longer than `segs` and starts with
      it. */
  function ChildScan(s: Settings, current: Option<char>, segs: seq<string>, items: seq<Part>): (r: Result<(Option<char>, seq<string>)>)
    ensures r.Ok? ==> Positions(s, items).Ok? && r.value.1 == ChildrenBy(OwnSplit, segs, Positions(s, items).value)
    ensures r.Ok? ==> forall j :: 0 <= j < |items| ==> Fits(r.value.0, Positions(s, items).value[j])
    ensures r.Ok? && current.Some? ==> r.value.0 == current
    ensures r.Ok? ==> r.value.0 == SplitsReached(s, current, items)
    ensures r.Err? ==> r.error in {AttrNotSet, AttributeError, DelimiterNotUnique}
    decreases |items|
  {
    if |items| == 0 then Ok((current, []))
    else
      var first :- PositionSplit(s, current, items[0]);
      PositionSplitStable(s, current, items[0]);
      var again := PositionSplit(s, first.0, items[0]).value;
      var position := GetPartPosition(s, items[0]).value;
      var here := if |first.1| == |segs| + 1 && TreeList.Take(again.1, |segs|) == segs then [position] else [];
      var rest :- ChildScan(s, again.0, segs, items[1..]);
      ChildScanCons(s, current, segs, items, first.0, here, rest.0, rest.1);
      Ok((rest.0, here + rest.1))
  }

  /** The step of `ChildScan` from the tail to the whole list. */
  lemma ChildScanCons(s: Settings, current: Option<char>, segs: seq<string>, items: seq<Part>,
                      current': Option<char>, here: seq<string>, final: Option<char>, rest: seq<string>)
    requires |items| > 0 && GetPartPosition(s, items[0]).Ok?
    requires var position := GetPartPosition(s, items[0]).value;
             && (OwnDelimiter(position).Some? ==> current' == OwnDelimiter(position))
             && here == if IsChildSplit(OwnSplit(position), segs) then [position] else []
    requires Positions(s, items[1..]).Ok? && rest == ChildrenBy(OwnSplit, segs, Positions(s, items[1..]).value)
    requires forall j :: 0 <= j < |items| - 1 ==> Fits(final, Positions(s, items[1..]).value[j])
    requires current'.Some? ==> final == current'
    ensures Positions(s, items).Ok? && here + rest == ChildrenBy(OwnSplit, segs, Positions(s, items).value)
    ensures forall j :: 0 <= j < |items| ==> Fits(final, Positions(s, items).value[j])
  {
    PositionsCons(s, items);
    var position := GetPartPosition(s, items[0]).value;
    var tail := Positions(s, items[1..]).value;
    var all := Positions(s, items).value;
    assert all == [position] + tail;
    ChildrenByCons(OwnSplit, segs, position, tail, here, rest);
    forall j | 0 <= j < |items| ensures Fits(final, all[j]) {
      if j > 0 { assert all[j] == tail[j - 1]; }
    }
  }

  /** Putting a position in front of the list puts it in front of the
      children exactly when it is a child. */
  lemma ChildrenByCons(split: string -> seq<string>, segs: seq<string>, position: string, tail: seq<string>,
                       here: seq<string>, rest: seq<string>)
    requires rest == ChildrenBy(split, segs, tail)
    requires here == if IsChildSplit(split(position), segs) then [position] else []
    ensures here + rest == ChildrenBy(split, segs, [position] + tail)
  {
    assert ([position] + tail)[1..] == tail;
  }

  /** When every position splits on its own delimiter as it does on the
      delimiter `d`, `set_child` finds the child ids `get_child_ids` finds. */
  lemma ChildScanAgrees(s: Settings, current: Option<char>, segs: seq<string>, items: seq<Part>, d: Option<char>)
    requires ChildScan(s, current, segs, items).Ok?
    requires forall j :: 0 <= j < |items| ==>
               GetPartPosition(s, items[j]).Ok? && OwnSplit(GetPartPosition(s, items[j]).value) == SplitOpt(GetPartPosition(s, items[j]).value, d)
    ensures ChildScan(s, current, segs, items).value.1 == ChildIds(segs, Positions(s, items).value, d)
  {
    OwnChildrenAgree(segs, Positions(s, items).value, d);
  }

  /** `set_child`: the positions one segment below the part's, over the
      processed list; every split read runs the delimiter check. */
  function SetChildStep(s: Settings, current: Option<char>, cur: seq<Part>, p: Part): (r: Result<(Option<char>, Part)>)
    ensures r.Ok? ==> && GetPartPosition(s, p).Ok? && Positions(s, cur).Ok?
                      && r.value.1 == p.(derived := p.derived.(child := r.value.1.derived.child))
                      && r.value.1.derived.child.Some?
                      && ChildrenByOwnSplit(r.value.1.derived.child.value, OwnSplit(GetPartPosition(s, p).value), Positions(s, cur).value)
    ensures r.Ok? ==> Fits(r.value.0, GetPartPosition(s, p).value) &&
                      forall j :: 0 <= j < |cur| ==> Fits(r.value.0, Positions(s, cur).value[j])
    ensures r.Ok? && current.Some? ==> r.value.0 == current
    ensures r.Ok? ==> r.value.0 == SetChildStuck(s, current, cur, p)
    ensures r.Err? ==> r.error in {AttrNotSet, AttributeError, DelimiterNotUnique}
  {
    var own :- PositionSplit(s, current, p);
    var scan :- ChildScan(s, own.0, own.1, cur);
    OwnChildrenExact(own.1, Positions(s, cur).value);
    var position := GetPartPosition(s, p).value;
    assert Fits(scan.0, position) by {
      if OwnDelimiter(position).Some? {
        assert own.0 == OwnDelimiter(position);
      }
    }
    Ok((scan.0, p.(derived := p.derived.(child := Some(scan.1)))))
  }

  /** `set_sets`: the main-assembly sets times the quantities of the
      processed-list parts standing at the part's parent ids. */
  function SetSetsStep(s: Settings, cur: seq<Part>, p: Part): (r: Result<Part>)
    ensures r.Ok? <==> Sets(cur, p.derived.parent, s.mainAssemblySets, PositionReader(s), QuantityReader(s)).Ok?
    ensures r.Ok? ==> r.value == p.(derived := p.derived.(sets := r.value.derived.sets)) && r.value.derived.sets.Some? &&
                      Sets(cur, p.derived.parent, s.mainAssemblySets, PositionReader(s), QuantityReader(s)) == Ok(r.value.derived.sets.value)
    ensures p.derived.parent == Some([]) ==> r == Ok(p.(derived := p.derived.(sets := Some(s.mainAssemblySets))))
  {
    var sets :- Sets(cur, p.derived.parent, s.mainAssemblySets, PositionReader(s), QuantityReader(s));
    Ok(p.(derived := p.derived.(sets := Some(sets))))
  }

  /** `set_to_order`: the part's quantity times its sets. */
  function SetToOrderStep(s: Settings, p: Part): (r: Result<Part>)
    ensures r.Ok? <==> GetPartQuantity(s, p).Ok? && p.derived.sets.Some?
    ensures r.Ok? ==> r.value == p.(derived := p.derived.(toOrder := Some(GetPartQuantity(s, p).value * p.derived.sets.value)))
    ensures r.Err? ==> r.error in {AttrNotSet, AttributeError, QuantityNotDigit, TypeError}
  {
    var n :- ToOrder(GetPartQuantity(s, p), p.derived.sets);
    Ok(p.(derived := p.derived.(toOrder := Some(n))))
  }

  /** The keyword test of `set_is_production`: the keyword setting is split
      on commas when it is a string, emptied entries dropped, blanks
      stripped; the number is read only when keywords remain. */
  function ProductionTest(s: Settings, p: Part): (r: Result<bool>)
    ensures r.Err? <==> CleanSetting(s.productionKeywords).Err? ||
                        (|CleanSetting(s.productionKeywords).value| > 0 && GetPartNumber(s, p).Err?)
    ensures r == Ok(true) <==>
              && CleanSetting(s.productionKeywords).Ok? && GetPartNumber(s, p).Ok?
              && AnyIn(CleanSetting(s.productionKeywords).value, GetPartNumber(s, p).value)
  {
    var keywords :- CleanSetting(s.productionKeywords);
    if |keywords| == 0 then Ok(false)
    else
      var number :- GetPartNumber(s, p);
      Ok(IsProductionNumber(keywords, number))
  }

  /** With the number column set, both generations classify production
      parts alike. */
  lemma ProductionTestAgrees(s: Settings, p: Part)
    requires s.numberColumn != ""
    ensures ProductionTest(s, p) == PF.ProductionTest(s, p)
  {
  }

  /** `set_is_production`. */
  function SetIsProductionStep(s: Settings, p: Part): (r: Result<Part>)
    ensures r.Ok? <==> ProductionTest(s, p).Ok?
    ensures r.Ok? ==> r.value == p.(derived := p.derived.(isProduction := Some(ProductionTest(s, p).value)))
  {
    var flag :- ProductionTest(s, p);
    Ok(p.(derived := p.derived.(isProduction := Some(flag))))
  }

  /** `get_part_number(part) or get_part_name(part)`: the number, or the
      name when the number is empty. */
  function NumberOrName(s: Settings, p: Part): (r: Result<string>)
    ensures r.Ok? <==> GetPartNumber(s, p).Ok? && (GetPartNumber(s, p).value == "" ==> GetPartName(s, p).Ok?)
    ensures r.Ok? && GetPartNumber(s, p).value != "" ==> r.value == GetPartNumber(s, p).value
    ensures r.Ok? && GetPartNumber(s, p).value == "" ==> r.value == GetPartName(s, p).value
  {
    var number :- GetPartNumber(s, p);
    if number != "" then Ok(number) else GetPartName(s, p)
  }

  /** `set_is_junk_by_keywords`: true iff there are junk keywords and one
      occurs in the part number, or in the name when the number is empty. */
  function SetIsJunkByKeywordsStep(s: Settings, p: Part): (r: Result<Part>)
    ensures CleanSetting(s.junkKeywords).Err? ==> r == Err(TypeError)
    ensures CleanSetting(s.junkKeywords).Ok? ==>
              (r.Ok? <==> |CleanSetting(s.junkKeywords).value| == 0 || NumberOrName(s, p).Ok?)
    ensures r.Ok? ==> r.value == p.(derived := p.derived.(isJunkByKeywords := r.value.derived.isJunkByKeywords))
    ensures r.Ok? ==> && r.value.derived.isJunkByKeywords.Some? && CleanSetting(s.junkKeywords).Ok?
                      && (r.value.derived.isJunkByKeywords.value <==>
                            |CleanSetting(s.junkKeywords).value| > 0 && AnyIn(CleanSetting(s.junkKeywords).value, NumberOrName(s, p).value))
  {
    var keywords :- CleanSetting(s.junkKeywords);
    if |keywords| == 0 then Ok(p.(derived := p.derived.(isJunkByKeywords := Some(false))))
    else
      var number :- GetPartNumber(s, p);
      var name :- if number == "" then GetPartName(s, p) else Ok("");
      Ok(p.(derived := p.derived.(isJunkByKeywords := Some(IsJunkByKeywords(keywords, number, name)))))
  }

  /** With the number and name columns set, both generations flag junk by
      keywords alike. */
  lemma JunkByKeywordsAgrees(s: Settings, p: Part)
    requires s.numberColumn != "" && s.nameColumn != ""
    ensures SetIsJunkByKeywordsStep(s, p) == PF.JunkByKeywordsStage(s, p)
  {
  }

  /** `set_is_junk_by_purchased_part_nesting`: with the policy on and a
      parent, true iff the `is_production` flag already stored on the
      first processed-list part at the last parent id is not set. */
  function SetIsJunkByNestingStep(s: Settings, cur: seq<Part>, p: Part): (r: Result<Part>)
    ensures !s.junkForPurchasedNests || !PF.HasParent(p) ==> r == Ok(p.(derived := p.derived.(isJunkByNesting := Some(false))))
    ensures r.Ok? ==> r.value == p.(derived := p.derived.(isJunkByNesting := r.value.derived.isJunkByNesting))
    ensures r.Ok? ==> r.value.derived.isJunkByNesting.Some?
    ensures s.junkForPurchasedNests && PF.HasParent(p) ==>
              (r.Ok? <==> ParentOf(s, cur, p.derived.parent.value).Ok?) &&
              (r.Ok? ==> r.value.derived.isJunkByNesting ==
                           Some(!IsSet(cur[ParentOf(s, cur, p.derived.parent.value).value].derived.isProduction)))
  {
    if !s.junkForPurchasedNests || !PF.HasParent(p) then Ok(p.(derived := p.derived.(isJunkByNesting := Some(false))))
    else
      var k :- ParentOf(s, cur, p.derived.parent.value);
      Ok(p.(derived := p.derived.(isJunkByNesting := Some(!IsSet(cur[k].derived.isProduction)))))
  }

  /** Once the production stage has stored every flag, the methods' nesting
      flag (read from the stored flag) equals the free function's (which
      runs the keyword test on the parent). */
  lemma JunkByNestingAgrees(s: Settings, cur: seq<Part>, p: Part)
    requires s.positionColumn != ""
    requires forall j :: 0 <= j < |cur| ==> PF.ProductionTest(s, cur[j]).Ok? &&
                                            cur[j].derived.isProduction == Some(PF.ProductionTest(s, cur[j]).value)
    ensures SetIsJunkByNestingStep(s, cur, p).Ok? <==> PF.JunkByNestingStage(s, Some(cur), p).Ok?
    ensures SetIsJunkByNestingStep(s, cur, p).Ok? ==> SetIsJunkByNestingStep(s, cur, p) == PF.JunkByNestingStage(s, Some(cur), p)
  {
    if s.junkForPurchasedNests && PF.HasParent(p) {
      ParentOfAgrees(s, cur, p.derived.parent.value);
    }
  }
  /** With the position and quantity columns set, the methods' sets of a
      part equal the free function's on the same list: the two generations
      raise on the same parts and agree on every value. */
  lemma SetsAgreeWithFunctions(s: Settings, parts: seq<Part>, p: Part)
    requires s.positionColumn != "" && s.quantityColumn != ""
    ensures SetSetsStep(s, parts, p).Ok? <==> PF.SetsStage(s, Some(parts), p).Ok?
    ensures SetSetsStep(s, parts, p).Ok? ==> SetSetsStep(s, parts, p) == PF.SetsStage(s, Some(parts), p)
  {
    forall j | 0 <= j < |parts| ensures GetPartQuantity(s, parts[j]).Ok? == PF.QuantityOf(s)(parts[j]).Ok? {
      AccessorsAgree(s, parts[j]);
    }
    SetsAgree(parts, p.derived.parent, s.mainAssemblySets, PositionReader(s), QuantityReader(s), PF.Position(s), PF.QuantityOf(s));
  }

  // ---- the decorated methods ----------------------------------------------------

  /** The stage methods wrapped by `part_modifier`. */
  datatype Method =
    | SetParent | SetParentAssembly | SetChild | SetSets | SetToOrder | SetFileType | SetType | SetIsProduction
    | SetIsFastener | SetIsPurchased | SetIsJunkByKeywords | SetIsJunkByEmptyFields | SetIsJunkByNesting | SetIsJunk
    | SetNormalizedNames

  /** The delimiter recorded when `set_child` raises on part `p`: its own
      split records nothing when it raises, and the scan of the list keeps
      what the items read before the failing one recorded. */
  function SetChildStuck(s: Settings, current: Option<char>, cur: seq<Part>, p: Part): (r: Option<char>)
    ensures Settled(current, r)
    ensures PositionSplit(s, current, p).Ok? && PositionSplit(s, current, p).value.0.Some? ==>
              r == PositionSplit(s, current, p).value.0
  {
    match PositionSplit(s, current, p)
    case Err(_) => current
    case Ok(own) => SplitsReached(s, own.0, cur)
  }

  /** The delimiter recorded when a method raises on a part: only
      `set_child` can record one before it raises (a failing `set_parent`
      step raises before it records). */
  function MethodStuck(s: Settings, m: Method, current: Option<char>, cur: seq<Part>, p: Part): (r: Option<char>)
    ensures Settled(current, r)
    ensures m != SetChild ==> r == current
  {
    if m == SetChild then SetChildStuck(s, current, cur, p) else current
  }

  /** `MethodStuck` as the state `part_modifier` keeps when a step raises. */
  function StuckOf(s: Settings, m: Method): (Option<char>, seq<Part>, Part) -> Option<char> {
    (current: Option<char>, cur: seq<Part>, p: Part) => MethodStuck(s, m, current, cur, p)
  }

  /** A stage that reads no position split leaves the recorded delimiter as
      it is. */
  function Keep(current: Option<char>, r: Result<Part>): (r': Result<(Option<char>, Part)>)
    ensures r'.Ok? <==> r.Ok?
    ensures r'.Ok? ==> r'.value == (current, r.value)
    ensures r'.Err? ==> r'.error == r.error
  {
    var p :- r;
    Ok((current, p))
  }

  /** One method applied to one part, with the recorded delimiter and the
      processed list as updated so far.  The methods that are written as the
      functions of web_app/functions/processor.py are those functions.  Only
      the two that split positions may record a delimiter, and only when none
      is recorded; only name normalization changes raw columns. */
  function MethodStep(s: Settings, m: Method, current: Option<char>, cur: seq<Part>, p: Part): (r: Result<(Option<char>, Part)>)
    ensures r.Ok? && m != SetParent && m != SetChild ==> r.value.0 == current
    ensures r.Ok? && current.Some? ==> r.value.0 == current
    ensures r.Ok? && m != SetNormalizedNames ==> r.value.1.raw == p.raw
  {
    match m
    case SetParent => SetParentStep(s, current, p)
    case SetParentAssembly => Keep(current, SetParentAssemblyStep(s, cur, p))
    case SetChild => SetChildStep(s, current, cur, p)
    case SetSets => Keep(current, SetSetsStep(s, cur, p))
    case SetToOrder => Keep(current, SetToOrderStep(s, p))
    case SetFileType => Keep(current, PF.FileTypeStage(p))
    case SetType => Ok((current, PF.TypeStage(p)))
    case SetIsProduction => Keep(current, SetIsProductionStep(s, p))
    case SetIsFastener => Ok((current, PF.FastenerStage(s, p)))
    case SetIsPurchased => Ok((current, PF.PurchasedStage(p)))
    case SetIsJunkByKeywords => Keep(current, SetIsJunkByKeywordsStep(s, p))
    case SetIsJunkByEmptyFields => Keep(current, PF.JunkByEmptyFieldsStage(s, p))
    case SetIsJunkByNesting => Keep(current, SetIsJunkByNestingStep(s, cur, p))
    case SetIsJunk => Ok((current, PF.JunkStage(p)))
    case SetNormalizedNames => Keep(current, PF.NormalizeStage(s, p))
  }

  /** A method as the step `part_modifier` runs on each part. */
  function StepOf(s: Settings, m: Method): (Option<char>, seq<Part>, Part) -> Result<(Option<char>, Part)> {
    (current: Option<char>, cur: seq<Part>, p: Part) => MethodStep(s, m, current, cur, p)
  }

  /** The delimiter, once recorded, stays. */
  predicate Settled(a: Option<char>, b: Option<char>) {
    a.Some? ==> b == a
  }

  /** Calling a decorated method with the recorded delimiter `current`:
      the success flag is cleared, the method runs over every part of the
      processed list in order, and the flag is set only when the last part
      is done.  An exception leaves the flag cleared and the parts before
      it updated.  The BOM, the snapshot and the configuration are never
      touched, and a recorded delimiter is never replaced. */
  function RunMethod(s: Settings, proc: Processor, current: Option<char>, m: Method): (r: Modified<Option<char>>)
    ensures r.proc.succeeded <==> r.error.None?
    ensures r.proc.bomParts == proc.bomParts && r.proc.initial == proc.initial && r.proc.attrs == proc.attrs
    ensures proc.processed.None? ==> r.error == Some(TypeError)
    ensures proc.processed.Some? ==> r.proc.processed.Some? && |r.proc.processed.value| == |proc.processed.value|
    ensures current.Some? ==> r.state == current
    ensures m != SetParent && m != SetChild ==> r.state == current
  {
    var step := StepOf(s, m);
    var settled := (a: Option<char>, b: Option<char>) => Settled(a, b) && (m != SetParent && m != SetChild ==> b == a);
    PartModifierKeeps(proc, current, step, StuckOf(s, m), settled, (a: Option<char>, p: Part) => true);
    PartModifier(proc, current, step, StuckOf(s, m))
  }

  /** A delimiter the first part's split records is the one `set_child`
      leaves recorded, whether the pass completes or a later read raises. */
  lemma SetChildKeepsFirstDelimiter(s: Settings, proc: Processor)
    requires proc.processed.Some? && |proc.processed.value| > 0
    requires PositionSplit(s, None, proc.processed.value[0]).Ok? && PositionSplit(s, None, proc.processed.value[0]).value.0.Some?
    ensures RunMethod(s, proc, None, SetChild).state == PositionSplit(s, None, proc.processed.value[0]).value.0
  {
    var parts := proc.processed.value;
    var step, stuck := StepOf(s, SetChild), StuckOf(s, SetChild);
    var d := PositionSplit(s, None, parts[0]).value.0;
    SetChildStepSettles(s);
    SetChildFirstStep(s, parts, parts[0], d);
    SetChildUnfolds(s, None, parts, parts[0]);
    var o := step(None, parts, parts[0]);
    if o.Ok? {
      var parts' := parts[0 := o.value.1];
      ModifyKeeps(d, parts', 1, step, stuck, Settled, (a: Option<char>, p: Part) => true);
    }
  }

  /** A `set_child` step on a part whose split records the delimiter `d`
      leaves `d` recorded, whether it completes or raises. */
  lemma SetChildFirstStep(s: Settings, cur: seq<Part>, p: Part, d: Option<char>)
    requires PositionSplit(s, None, p).Ok? && PositionSplit(s, None, p).value.0 == d && d.Some?
    ensures SetChildStep(s, None, cur, p).Ok? ==> SetChildStep(s, None, cur, p).value.0 == d
    ensures SetChildStuck(s, None, cur, p) == d
  {
  }

  /** `set_child` as the step and the failure state of a pass. */
  lemma SetChildUnfolds(s: Settings, st: Option<char>, cur: seq<Part>, p: Part)
    ensures StepOf(s, SetChild)(st, cur, p) == SetChildStep(s, st, cur, p)
    ensures StuckOf(s, SetChild)(st, cur, p) == SetChildStuck(s, st, cur, p)
  {
    assert MethodStep(s, SetChild, st, cur, p) == SetChildStep(s, st, cur, p);
    assert MethodStuck(s, SetChild, st, cur, p) == SetChildStuck(s, st, cur, p);
  }

  /** A `set_child` step, whether it completes or raises, keeps a recorded
      delimiter. */
  lemma SetChildStepSettles(s: Settings)
    ensures forall st, cur, p :: StepOf(s, SetChild)(st, cur, p).Ok? ==> Settled(st, StepOf(s, SetChild)(st, cur, p).value.0)
    ensures forall st, cur, p :: StepOf(s, SetChild)(st, cur, p).Err? ==> Settled(st, StuckOf(s, SetChild)(st, cur, p))
  {
    forall st, cur, p | StepOf(s, SetChild)(st, cur, p).Ok?
      ensures Settled(st, StepOf(s, SetChild)(st, cur, p).value.0)
    {
      assert StepOf(s, SetChild)(st, cur, p) == SetChildStep(s, st, cur, p);
    }
  }

  /** Whether a part's parent ids are the proper prefixes of its position,
      split on its own delimiter, with nothing else changed. */
  predicate ParentWritten(s: Settings, p: Part, q: Part) {
    && GetPartPosition(s, p).Ok?
    && q == p.(derived := p.derived.(parent := q.derived.parent))
    && q.derived.parent.Some?
    && ProperPrefixes(q.derived.parent.value, GetPartPosition(s, p).value, OwnDelimiter(GetPartPosition(s, p).value))
  }

  /** Whether a part's position agrees with the recorded delimiter. */
  predicate PositionFits(s: Settings, current: Option<char>, p: Part) {
    GetPartPosition(s, p).Ok? && Fits(current, GetPartPosition(s, p).value)
  }

  /** After `set_parent` succeeds, every part holds the proper prefixes of
      its position, and every position's delimiter is the one recorded at
      the end (which is the one recorded before, if any): the delimiter is
      unique across the list. */
  lemma SetParentPass(s: Settings, proc: Processor, current: Option<char>)
    ensures var r := RunMethod(s, proc, current, SetParent);
            r.error.None? ==>
              && proc.processed.Some?
              && (current.Some? ==> r.state == current)
              && forall j :: 0 <= j < |proc.processed.value| ==>
                   && ParentWritten(s, proc.processed.value[j], r.proc.processed.value[j])
                   && PositionFits(s, r.state, proc.processed.value[j])
  {
    var step := StepOf(s, SetParent);
    var fits := (a: Option<char>, p: Part) => PositionFits(s, a, p);
    SetParentStepFits(s);
    assert forall a, b, p :: fits(a, p) && Settled(a, b) ==> fits(b, p);
    PartModifierKeeps(proc, current, step, StuckOf(s, SetParent), Settled, fits);
    PartModifierRelates(proc, current, step, StuckOf(s, SetParent), (p: Part, q: Part) => ParentWritten(s, p, q));
  }

  /** One `set_parent` step keeps a recorded delimiter, leaves one its
      part's position fits, and writes the parent ids. */
  lemma SetParentStepFits(s: Settings)
    ensures forall st, cur, p :: StepOf(s, SetParent)(st, cur, p).Ok? ==>
              && Settled(st, StepOf(s, SetParent)(st, cur, p).value.0)
              && PositionFits(s, StepOf(s, SetParent)(st, cur, p).value.0, p)
              && ParentWritten(s, p, StepOf(s, SetParent)(st, cur, p).value.1)
  {
    forall st, cur, p | StepOf(s, SetParent)(st, cur, p).Ok?
      ensures && Settled(st, StepOf(s, SetParent)(st, cur, p).value.0)
              && PositionFits(s, StepOf(s, SetParent)(st, cur, p).value.0, p)
              && ParentWritten(s, p, StepOf(s, SetParent)(st, cur, p).value.1)
    {
      assert StepOf(s, SetParent)(st, cur, p) == SetParentStep(s, st, p);
    }
  }

  /** Whether a part's sets are the main-assembly sets times the quantities
      at its parent ids in `orig`, with nothing else changed. */
  predicate SetsWritten(s: Settings, orig: seq<Part>, p: Part, q: Part) {
    && q == p.(derived := p.derived.(sets := q.derived.sets))
    && q.derived.sets.Some?
    && Sets(orig, p.derived.parent, s.mainAssemblySets, PositionReader(s), QuantityReader(s)) == Ok(q.derived.sets.value)
  }

  /** After `set_sets` succeeds, every part's sets are computed against the
      processed list as it was before the pass: updating earlier parts'
      sets never changes what later parts read. */
  lemma SetSetsPass(s: Settings, proc: Processor, current: Option<char>)
    requires proc.processed.Some?
    ensures var r := RunMethod(s, proc, current, SetSets);
            r.error.None? ==> forall j :: 0 <= j < |proc.processed.value| ==>
                                SetsWritten(s, proc.processed.value, proc.processed.value[j], r.proc.processed.value[j])
  {
    var orig := proc.processed.value;
    var step := StepOf(s, SetSets);
    var rel := (p: Part, q: Part) => SetsWritten(s, orig, p, q);
    forall st, cur, p | SameRaw(cur, orig) && step(st, cur, p).Ok?
      ensures step(st, cur, p).value.1.raw == p.raw && rel(p, step(st, cur, p).value.1)
    {
      assert step(st, cur, p) == Keep(st, SetSetsStep(s, cur, p));
      SetsCongruent(cur, orig, p.derived.parent, s.mainAssemblySets, PositionReader(s), QuantityReader(s));
    }
    PartModifierReadsRaw(proc, current, step, StuckOf(s, SetSets), rel);
  }

  /** When every parent id of part `j` is the position of exactly one part,
      `set_sets` gives it the main-assembly sets times the product of those
      parts' quantities. */
  lemma SetSetsIsAncestorProduct(s: Settings, proc: Processor, current: Option<char>, j: nat, holders: seq<nat>, qs: seq<int>)
    requires proc.processed.Some? && j < |proc.processed.value| && proc.processed.value[j].derived.parent.Some?
    requires UniqueHolders(proc.processed.value, proc.processed.value[j].derived.parent.value, holders, qs,
                           PositionReader(s), QuantityReader(s))
    requires RunMethod(s, proc, current, SetSets).error.None?
    ensures RunMethod(s, proc, current, SetSets).proc.processed.value[j].derived.sets == Some(Product(qs) * s.mainAssemblySets)
  {
    SetSetsPass(s, proc, current);
    SetsIsAncestorProduct(proc.processed.value, proc.processed.value[j].derived.parent.value, holders, qs, s.mainAssemblySets,
                          PositionReader(s), QuantityReader(s));
  }
  // ---- the tree list ------------------------------------------------------------

  /** The splits of every part of the list, read in order with the
      delimiter check, and the delimiter recorded afterwards. */
  function Splits(s: Settings, current: Option<char>, parts: seq<Part>): (r: Result<(Option<char>, seq<seq<string>>)>)
    ensures r.Ok? ==> Positions(s, parts).Ok? && |r.value.1| == |parts|
    ensures r.Ok? ==> forall j :: 0 <= j < |parts| ==>
                        r.value.1[j] == OwnSplit(Positions(s, parts).value[j]) && Fits(r.value.0, Positions(s, parts).value[j])
    ensures r.Ok? && current.Some? ==> r.value.0 == current
    ensures r.Err? ==> r.error in {AttrNotSet, AttributeError, DelimiterNotUnique}
    decreases |parts|
  {
    if |parts| == 0 then Ok((current, []))
    else
      var first :- PositionSplit(s, current, parts[0]);
      var rest :- Splits(s, first.0, parts[1..]);
      SplitsCons(s, parts, first.0, rest.0, rest.1);
      Ok((rest.0, [first.1] + rest.1))
  }

  /** The delimiter recorded once `Splits` stops, at the part whose split
      raises or at the end of the list: a recorded delimiter stays, and the
      first one read is kept whatever is read after it. */
  function SplitsReached(s: Settings, current: Option<char>, parts: seq<Part>): (r: Option<char>)
    ensures Splits(s, current, parts).Ok? ==> r == Splits(s, current, parts).value.0
    ensures Settled(current, r)
    ensures |parts| > 0 && PositionSplit(s, current, parts[0]).Ok? && PositionSplit(s, current, parts[0]).value.0.Some? ==>
              r == PositionSplit(s, current, parts[0]).value.0
    decreases |parts|
  {
    if |parts| == 0 then current
    else match PositionSplit(s, current, parts[0])
      case Err(_) => current
      case Ok(first) => SplitsReached(s, first.0, parts[1..])
  }

  /** The step of `Splits` from the tail to the whole list. */
  lemma SplitsCons(s: Settings, parts: seq<Part>, current': Option<char>, final: Option<char>, rest: seq<seq<string>>)
    requires |parts| > 0 && GetPartPosition(s, parts[0]).Ok?
    requires var position := GetPartPosition(s, parts[0]).value;
             OwnDelimiter(position).Some? ==> current' == OwnDelimiter(position)
    requires Positions(s, parts[1..]).Ok? && |rest| == |parts| - 1
    requires forall j :: 0 <= j < |parts| - 1 ==>
               rest[j] == OwnSplit(Positions(s, parts[1..]).value[j]) && Fits(final, Positions(s, parts[1..]).value[j])
    requires current'.Some? ==> final == current'
    ensures Positions(s, parts).Ok?
    ensures var all := [OwnSplit(GetPartPosition(s, parts[0]).value)] + rest;
            forall j :: 0 <= j < |parts| ==>
              all[j] == OwnSplit(Positions(s, parts).value[j]) && Fits(final, Positions(s, parts).value[j])
  {
    PositionsCons(s, parts);
    var p0 := GetPartPosition(s, parts[0]).value;
    var tail := Positions(s, parts[1..]).value;
    var ps := Positions(s, parts).value;
    var all := [OwnSplit(p0)] + rest;
    assert ps == [p0] + tail;
    forall j | 0 <= j < |parts| ensures all[j] == OwnSplit(ps[j]) && Fits(final, ps[j]) {
      if j > 0 {
        assert all[j] == rest[j - 1] && ps[j] == tail[j - 1];
      }
    }
  }

  /** With a delimiter recorded, the splits succeed whenever every position
      can be read and agrees with it. */
  lemma {:induction false} SplitsSucceed(s: Settings, current: Option<char>, parts: seq<Part>)
    requires current.Some? && Positions(s, parts).Ok?
    requires forall j :: 0 <= j < |parts| ==> PositionAgrees(current, Strip(Positions(s, parts).value[j]))
    ensures Splits(s, current, parts).Ok?
    decreases |parts|
  {
    if |parts| > 0 {
      PositionsCons(s, parts);
      assert GetPartPosition(s, parts[0]) == Ok(Positions(s, parts).value[0]);
      var first := PositionSplit(s, current, parts[0]).value;
      forall j | 0 <= j < |parts| - 1
        ensures PositionAgrees(current, Strip(Positions(s, parts[1..]).value[j]))
      {
        assert GetPartPosition(s, parts[1..][j]) == GetPartPosition(s, parts[j + 1]);
      }
      SplitsSucceed(s, first.0, parts[1..]);
    }
  }

  /** What the tree list reads from one part given its split: the length of
      its parent-id list (`len(None)` raises TypeError), the (type, number)
      sort key and the number read through `get_part_number`. */
  function ViewB(s: Settings, segs: seq<string>, p: Part): (r: Result<TreeList.View>)
    ensures r.Ok? <==> p.derived.parent.Some? && TypeKey(p.derived).Ok? && GetPartNumber(s, p).Ok?
    ensures r.Ok? ==> && r.value.segs == segs
                      && r.value.depth == |p.derived.parent.value|
                      && r.value.key == Key(TypeKey(p.derived).value, Codes(GetPartNumber(s, p).value))
                      && r.value.number == Codes(GetPartNumber(s, p).value)
  {
    var parent :- if p.derived.parent.Some? then Ok(p.derived.parent.value) else Err(TypeError);
    var typeKey :- TypeKey(p.derived);
    var number :- GetPartNumber(s, p);
    Ok(TreeList.View(segs, |parent|, Key(typeKey, Codes(number)), Codes(number)))
  }

  /** The views of a whole part list from its splits. */
  function ViewsB(s: Settings, splits: seq<seq<string>>, parts: seq<Part>): (r: Result<seq<TreeList.View>>)
    requires |splits| == |parts|
    ensures r.Ok? <==> forall j :: 0 <= j < |parts| ==> ViewB(s, splits[j], parts[j]).Ok?
    ensures r.Ok? ==> |r.value| == |parts| && forall j :: 0 <= j < |parts| ==> ViewB(s, splits[j], parts[j]) == Ok(r.value[j])
    decreases |parts|
  {
    if |parts| == 0 then Ok([])
    else
      match ViewB(s, splits[0], parts[0])
      case Err(e) => Err(e)
      case Ok(v) =>
        assert forall j :: 1 <= j < |parts| ==> parts[j] == parts[1..][j - 1] && splits[j] == splits[1..][j - 1];
        match ViewsB(s, splits[1..], parts[1..])
        case Err(e) => Err(e)
        case Ok(vs) => Ok([v] + vs)
  }

  /** The views the tree list sorts by, and the delimiter recorded while
      splitting. */
  function TreeViews(s: Settings, current: Option<char>, parts: seq<Part>): (r: Result<(Option<char>, seq<TreeList.View>)>)
    ensures r.Ok? <==> Splits(s, current, parts).Ok? && ViewsB(s, Splits(s, current, parts).value.1, parts).Ok?
    ensures r.Ok? ==> r.value == (Splits(s, current, parts).value.0, ViewsB(s, Splits(s, current, parts).value.1, parts).value)
  {
    var (current', splits) :- Splits(s, current, parts);
    var vs :- ViewsB(s, splits, parts);
    Ok((current', vs))
  }

  /** Part `q` is one level below part `p`: one parent id more, and its own
      split starts with `p`'s. */
  predicate IsSubPart(s: Settings, q: Part, p: Part) {
    && q.derived.parent.Some? && p.derived.parent.Some?
    && GetPartPosition(s, q).Ok? && GetPartPosition(s, p).Ok?
    && |q.derived.parent.value| == |p.derived.parent.value| + 1
    && TreeList.Take(OwnSplit(GetPartPosition(s, q).value), |p.derived.parent.value| + 1) == OwnSplit(GetPartPosition(s, p).value)
  }

  /** `_get_sub_bom`, as indices into the processed list `parts`: exactly the
      parts one level below `p`, in descending (type, number) order; the
      recorded delimiter afterwards. */
  function GetSubBom(s: Settings, current: Option<char>, parts: seq<Part>, p: Part): (r: Result<(Option<char>, seq<nat>)>)
    ensures r.Ok? ==> forall y: nat :: y in r.value.1 <==> y < |parts| && IsSubPart(s, parts[y], p)
    ensures r.Ok? ==> TreeViews(s, current, parts).Ok? &&
                      Sorted(r.value.1, TreeList.ByKey(TreeViews(s, current, parts).value.1), true)
    ensures r.Ok? && current.Some? ==> r.value.0 == current
  {
    var (current', vs) :- TreeViews(s, current, parts);
    var own :- PositionSplit(s, current', p);
    var v :- ViewB(s, own.1, p);
    var sub := PF.SubBomOf(vs, v);
    SubBomIsSubParts(s, current, parts, p, vs, v, sub);
    SortedPrefix(sub, vs, v);
    Ok((own.0, sub))
  }

  /** The sub-BOM on the views is the sub-BOM on the parts. */
  lemma SubBomIsSubParts(s: Settings, current: Option<char>, parts: seq<Part>, p: Part,
                         vs: seq<TreeList.View>, v: TreeList.View, sub: seq<nat>)
    requires TreeViews(s, current, parts).Ok? && TreeViews(s, current, parts).value.1 == vs
    requires GetPartPosition(s, p).Ok? && ViewB(s, OwnSplit(GetPartPosition(s, p).value), p) == Ok(v)
    requires sub == PF.SubBomOf(vs, v)
    ensures forall y: nat :: y in sub <==> y < |parts| && IsSubPart(s, parts[y], p)
  {
    var splits := Splits(s, current, parts).value.1;
    forall y: nat ensures y in sub <==> y < |parts| && IsSubPart(s, parts[y], p) {
      if y < |parts| {
        assert ViewB(s, splits[y], parts[y]) == Ok(vs[y]);
        assert (vs + [v])[y] == vs[y] && (vs + [v])[|vs|] == v;
        assert GetPartPosition(s, parts[y]) == Ok(Positions(s, parts).value[y]);
      }
    }
  }

  /** Sortedness of the sub-BOM read against the list's views alone. */
  lemma SortedPrefix(sub: seq<nat>, vs: seq<TreeList.View>, v: TreeList.View)
    requires forall i :: 0 <= i < |sub| ==> sub[i] < |vs|
    requires Sorted(sub, TreeList.ByKey(vs + [v]), true)
    ensures Sorted(sub, TreeList.ByKey(vs), true)
  {
    forall i | 0 <= i < |sub| ensures TreeList.ByKey(vs + [v])(sub[i]) == TreeList.ByKey(vs)(sub[i]) {
      assert (vs + [v])[sub[i]] == vs[sub[i]];
    }
  }

  /** The tree list as indices into the processed list, and the recorded
      delimiter afterwards. */
  function TreeOrder(s: Settings, current: Option<char>, parts: seq<Part>): (r: Result<(Option<char>, seq<nat>)>)
    ensures r.Ok? <==> TreeViews(s, current, parts).Ok?
    ensures r.Ok? ==> forall i :: 0 <= i < |r.value.1| ==> r.value.1[i] < |parts|
    ensures r.Ok? && current.Some? ==> r.value.0 == current
  {
    var (current', vs) :- TreeViews(s, current, parts);
    TreeList.OrderBounded(vs);
    Ok((current', TreeList.Order(vs)))
  }

  /** `set_tree_sorting`: the processed list is replaced by its tree list.
      The success flag is not touched.  An exception leaves the part list as
      it was, and the delimiter as the splits read before it recorded it. */
  function SetTreeSorting(s: Settings, proc: Processor, current: Option<char>): (r: Modified<Option<char>>)
    ensures r.proc.succeeded == proc.succeeded
    ensures r.proc.bomParts == proc.bomParts && r.proc.initial == proc.initial && r.proc.attrs == proc.attrs
    ensures proc.processed.None? ==> r.error == Some(TypeError)
    ensures r.error.Some? ==> r.proc == proc
    ensures proc.processed.Some? ==> r.state == SplitsReached(s, current, proc.processed.value)
    ensures r.error.None? ==> proc.processed.Some? && TreeOrder(s, current, proc.processed.value).Ok? &&
                              var order := TreeOrder(s, current, proc.processed.value).value.1;
                              r.proc.processed == Some(seq(|order|, i requires 0 <= i < |order| => proc.processed.value[order[i]]))
    ensures current.Some? ==> r.state == current
  {
    match proc.processed
    case None => Modified(proc, current, Some(TypeError))
    case Some(parts) =>
      match TreeOrder(s, current, parts)
      case Err(e) => Modified(proc, SplitsReached(s, current, parts), Some(e))
      case Ok((current', order)) =>
        Modified(proc.(processed := Some(seq(|order|, i requires 0 <= i < |order| => parts[order[i]]))), current', None)
  }

  /** Parent ids as `set_parent` leaves them: the proper prefixes of each
      part's position on its own delimiter, which has at least one segment. */
  predicate ParentsFromOwnSplits(s: Settings, parts: seq<Part>) {
    forall j :: 0 <= j < |parts| ==>
      && GetPartPosition(s, parts[j]).Ok? && parts[j].derived.parent.Some?
      && |OwnSplit(GetPartPosition(s, parts[j]).value)| > 0
      && ProperPrefixes(parts[j].derived.parent.value, GetPartPosition(s, parts[j]).value,
                        OwnDelimiter(GetPartPosition(s, parts[j]).value))
  }

  /** Such parent ids make the views consistent: a part's generation is one
      more than its parent-id count. */
  lemma TreeViewsConsistent(s: Settings, current: Option<char>, parts: seq<Part>)
    requires TreeViews(s, current, parts).Ok? && ParentsFromOwnSplits(s, parts)
    ensures TreeList.Consistent(TreeViews(s, current, parts).value.1)
  {
    var splits := Splits(s, current, parts).value.1;
    var vs := TreeViews(s, current, parts).value.1;
    forall x | 0 <= x < |vs| ensures vs[x].depth + 1 == |vs[x].segs| {
      assert ViewB(s, splits[x], parts[x]) == Ok(vs[x]);
      assert GetPartPosition(s, parts[x]) == Ok(Positions(s, parts).value[x]);
    }
  }

  /** With parent ids from the parts' own splits, distinct positions, every
      parent present and at most 20 levels, the tree list holds every part
      of the processed list exactly once and nothing else. */
  lemma TreeSortingHoldsEachPartOnce(s: Settings, current: Option<char>, parts: seq<Part>)
    requires TreeViews(s, current, parts).Ok? && ParentsFromOwnSplits(s, parts)
    requires var vs := TreeViews(s, current, parts).value.1;
             TreeList.Distinct(vs) && forall y :: 0 <= y < |vs| ==> TreeList.Placed(vs, y) && |vs[y].segs| <= Tree.LastGeneration
    ensures TreeOrder(s, current, parts).Ok?
    ensures Tree.NoDups(TreeOrder(s, current, parts).value.1)
    ensures forall y: nat :: y in TreeOrder(s, current, parts).value.1 <==> y < |parts|
  {
    TreeViewsConsistent(s, current, parts);
    TreeList.OrderPermutation(TreeViews(s, current, parts).value.1);
  }

  /** The tree list is the pre-order flattening of the parts forest: each
      root in turn, each followed by the flattened subtrees of its
      sub-BOM; every listed part is a root or sits in the sub-BOM of a listed
      part, and has between 1 and 20 segments. */
  lemma TreeSortingIsPreOrder(s: Settings, current: Option<char>, parts: seq<Part>, y: nat)
    requires TreeViews(s, current, parts).Ok? && ParentsFromOwnSplits(s, parts)
    ensures var vs := TreeViews(s, current, parts).value.1;
            && Tree.Valid(TreeList.ForestOf(vs))
            && TreeOrder(s, current, parts) ==
                 Ok((TreeViews(s, current, parts).value.0, Tree.Subtrees(TreeList.ForestOf(vs), TreeList.Roots(vs), Tree.LastGeneration)))
    ensures var vs := TreeViews(s, current, parts).value.1;
            y in TreeOrder(s, current, parts).value.1 ==>
              && y < |parts| && 1 <= |vs[y].segs| <= Tree.LastGeneration
              && (TreeList.IsRoot(vs, y) || exists x: nat :: TreeList.IsSub(vs, x, y) && x in TreeOrder(s, current, parts).value.1)
  {
    var vs := TreeViews(s, current, parts).value.1;
    TreeViewsConsistent(s, current, parts);
    TreeList.OrderIsPreOrder(vs);
    if y in TreeOrder(s, current, parts).value.1 {
      TreeList.OrderSound(vs, y);
    }
  }

  /** When every position splits on its own delimiter as it does on the
      configured delimiter, and the position and number columns are set,
      the methods' tree list is the free function's. */
  lemma TreeOrderAgrees(s: Settings, current: Option<char>, parts: seq<Part>)
    requires s.positionColumn != "" && s.numberColumn != ""
    requires Splits(s, current, parts).Ok?
    requires forall j :: 0 <= j < |parts| ==>
               OwnSplit(Column(parts[j], s.positionColumn).value) == SplitOpt(Column(parts[j], s.positionColumn).value, s.delimiter)
    ensures TreeOrder(s, current, parts).Ok? <==> PF.TreeOrder(s, parts).Ok?
    ensures TreeOrder(s, current, parts).Ok? ==> TreeOrder(s, current, parts).value.1 == PF.TreeOrder(s, parts).value
  {
    var splits := Splits(s, current, parts).value.1;
    forall j | 0 <= j < |parts| ensures ViewB(s, splits[j], parts[j]) == PF.ViewOf(s, parts[j]) {
      assert GetPartPosition(s, parts[j]) == Ok(Positions(s, parts).value[j]);
    }
    if ViewsB(s, splits, parts).Ok? {
      assert ViewsB(s, splits, parts).value == PF.Views(s, parts).value;
    }
  }
}

=== FILE: normalize.dfy ===
/** Name normalisation (web_app/functions/functions.py `normalize_string` and the
    older web_app/functions.py `normalize_string`, which the package
    web_app/functions shadows, so no import reaches it).

    The newer version replaces every character that is neither a word character
    nor whitespace by a blank, collapses whitespace runs to one blank,
    title-cases and strips; the older one stops after collapsing.
 */
module Normalize {
  import opened Text

  /** `re.sub(r"[^\w\s]", ' ', s)`. */
  function ReplacePunct(s: string): (r: string)
    ensures |r| == |s|
    ensures forall i :: 0 <= i < |s| ==> r[i] == (if IsWordChar(s[i]) || IsSpace(s[i]) then s[i] else ' ')
  {
    if |s| == 0 then ""
    else [if IsWordChar(s[0]) || IsSpace(s[0]) then s[0] else ' '] + ReplacePunct(s[1..])
  }

  /** `re.sub(r"\s+", ' ', s)`: every maximal whitespace run becomes one blank. */
  function Collapse(s: string): (r: string)
    ensures |r| <= |s|
    ensures |s| > 0 ==> |r| > 0 && r[0] == (if IsSpace(s[0]) then ' ' else s[0])
    decreases |s|
  {
    if |s| == 0 then ""
    else if IsSpace(s[0]) then " " + Collapse(TrimLeft(s[1..], IsSpace))
    else [s[0]] + Collapse(s[1..])
  }

  /** Python's `str.title()` on ASCII, given whether the previous character was a letter:
      a letter is upper-cased after a non-letter and lower-cased after a letter. */
  function TitleFrom(s: string, prevAlpha: bool): (r: string)
    ensures |r| == |s|
    ensures forall i :: 0 <= i < |s| ==> (IsAlpha(r[i]) <==> IsAlpha(s[i]))
    ensures forall i :: 0 <= i < |s| && !IsAlpha(s[i]) ==> r[i] == s[i]
    decreases |s|
  {
    if |s| == 0 then ""
    else if IsAlpha(s[0]) then [if prevAlpha then Lower(s[0]) else Upper(s[0])] + TitleFrom(s[1..], true)
    else [s[0]] + TitleFrom(s[1..], false)
  }

  function Title(s: string): string {
    TitleFrom(s, false)
  }

  /** web_app/functions/functions.py `normalize_string`. */
  function NormalizeString(s: string): string {
    Strip(Title(Collapse(ReplacePunct(s))))
  }

  /** web_app/functions.py `normalize_string`: no title-case, no strip.  The
      package of the same name shadows this module. */
  function LegacyNormalizeString(s: string): string {
    Collapse(ReplacePunct(s))
  }

  /** Only word characters and blanks. */
  predicate WordsAndBlanks(t: string) {
    forall i :: 0 <= i < |t| ==> IsWordChar(t[i]) || t[i] == ' '
  }

  /** No two blanks in a row. */
  predicate NoDoubleBlank(t: string) {
    forall i :: 0 <= i < |t| - 1 ==> !(t[i] == ' ' && t[i + 1] == ' ')
  }

  /** The first letter of every letter run is upper-case, the others lower-case;
      `prevAlpha` says whether a letter precedes `t`. */
  predicate TitleCasedFrom(t: string, prevAlpha: bool) {
    && (|t| > 0 && IsAlpha(t[0]) ==> (IsUpper(t[0]) <==> !prevAlpha))
    && forall i :: 1 <= i < |t| && IsAlpha(t[i]) ==> (IsUpper(t[i]) <==> !IsAlpha(t[i - 1]))
  }

  /** The shape `normalize_string` produces. */
  predicate IsNormalized(t: string) {
    && WordsAndBlanks(t)
    && NoDoubleBlank(t)
    && (|t| > 0 ==> t[0] != ' ' && t[|t| - 1] != ' ')
    && TitleCasedFrom(t, false)
  }

  /** The letters of a string, in order. */
  function Letters(s: string): string
    decreases |s|
  {
    if |s| == 0 then "" else (if IsAlpha(s[0]) then [s[0]] else "") + Letters(s[1..])
  }

  /** Skipping leading whitespace keeps the letters. */
  lemma {:induction false} TrimLeftSpaceLetters(s: string)
    ensures Letters(TrimLeft(s, IsSpace)) == Letters(s)
    decreases |s|
  {
    if |s| > 0 && IsSpace(s[0]) {
      TrimLeftSpaceLetters(s[1..]);
    }
  }

  /** Collapsing keeps word characters and turns whitespace into blanks. */
  lemma {:induction false} CollapseWords(s: string)
    requires forall i :: 0 <= i < |s| ==> IsWordChar(s[i]) || IsSpace(s[i])
    ensures WordsAndBlanks(Collapse(s))
    decreases |s|
  {
    if |s| > 0 {
      if IsSpace(s[0]) {
        var t := TrimLeft(s[1..], IsSpace);
        assert forall i :: 0 <= i < |t| ==> t[i] == s[1..][|s[1..]| - |t| + i];
        CollapseWords(t);
        var c := Collapse(t);
        assert forall i :: 1 <= i < |c| + 1 ==> (" " + c)[i] == c[i - 1];
      } else {
        assert forall i :: 0 <= i < |s[1..]| ==> s[1..][i] == s[i + 1];
        CollapseWords(s[1..]);
        var c := Collapse(s[1..]);
        assert forall i :: 1 <= i < |c| + 1 ==> ([s[0]] + c)[i] == c[i - 1];
      }
    }
  }

  /** Collapsing never leaves two blanks in a row. */
  lemma {:induction false} CollapseNoDouble(s: string)
    ensures NoDoubleBlank(Collapse(s))
    decreases |s|
  {
    if |s| > 0 {
      if IsSpace(s[0]) {
        var t := TrimLeft(s[1..], IsSpace);
        CollapseNoDouble(t);
        var c := Collapse(t);
        var r := " " + c;
        forall i | 0 <= i < |r| - 1 ensures !(r[i] == ' ' && r[i + 1] == ' ') {
          if i == 0 {
            assert r[1] == c[0] == t[0];
          } else {
            assert r[i] == c[i - 1] && r[i + 1] == c[i];
          }
        }
      } else {
        CollapseNoDouble(s[1..]);
        var c := Collapse(s[1..]);
        var r := [s[0]] + c;
        forall i | 0 <= i < |r| - 1 ensures !(r[i] == ' ' && r[i + 1] == ' ') {
          if i > 0 {
            assert r[i] == c[i - 1] && r[i + 1] == c[i];
          }
        }
      }
    }
  }

  /** Collapsing keeps the letters, in order. */
  lemma {:induction false} CollapseLetters(s: string)
    ensures Letters(Collapse(s)) == Letters(s)
    decreases |s|
  {
    if |s| > 0 {
      if IsSpace(s[0]) {
        var t := TrimLeft(s[1..], IsSpace);
        CollapseLetters(t);
        TrimLeftSpaceLetters(s[1..]);
        assert Letters(" " + Collapse(t)) == Letters(Collapse(t)) by {
          assert (" " + Collapse(t))[1..] == Collapse(t);
        }
      } else {
        CollapseLetters(s[1..]);
        assert ([s[0]] + Collapse(s[1..]))[1..] == Collapse(s[1..]);
      }
    }
  }

  /** `TitleFrom` produces a title-cased string. */
  lemma {:induction false} TitleFromCased(s: string, prevAlpha: bool)
    ensures TitleCasedFrom(TitleFrom(s, prevAlpha), prevAlpha)
    decreases |s|
  {
    if |s| > 0 {
      TitleFromCased(s[1..], IsAlpha(s[0]));
      var r := TitleFrom(s, prevAlpha);
      assert r[1..] == TitleFrom(s[1..], IsAlpha(s[0]));
      forall i | 1 <= i < |r| && IsAlpha(r[i]) ensures IsUpper(r[i]) <==> !IsAlpha(r[i - 1]) {
        assert r[i] == r[1..][i - 1];
        if i >= 2 {
          assert r[i - 1] == r[1..][i - 2];
        }
      }
    }
  }

  /** A title-cased string is a fixed point of `TitleFrom`. */
  lemma {:induction false} TitleFromFixed(t: string, prevAlpha: bool)
    requires TitleCasedFrom(t, prevAlpha)
    ensures TitleFrom(t, prevAlpha) == t
    decreases |t|
  {
    if |t| > 0 {
      assert TitleCasedFrom(t[1..], IsAlpha(t[0])) by {
        forall i | 1 <= i < |t[1..]| && IsAlpha(t[1..][i])
          ensures IsUpper(t[1..][i]) <==> !IsAlpha(t[1..][i - 1])
        {
          assert t[1..][i] == t[i + 1] && t[1..][i - 1] == t[i];
        }
        if |t| > 1 && IsAlpha(t[1]) {
          assert t[1..][0] == t[1];
        }
      }
      TitleFromFixed(t[1..], IsAlpha(t[0]));
      assert t == [t[0]] + t[1..];
    }
  }

  /** A slice of a title-cased string is title-cased, given what precedes it. */
  lemma TitleCasedSlice(t: string, a: nat, b: nat)
    requires a <= b <= |t|
    requires TitleCasedFrom(t, false)
    ensures TitleCasedFrom(t[a..b], a > 0 && IsAlpha(t[a - 1]))
  {
    var u := t[a..b];
    forall i | 1 <= i < |u| && IsAlpha(u[i]) ensures IsUpper(u[i]) <==> !IsAlpha(u[i - 1]) {
      assert u[i] == t[a + i] && u[i - 1] == t[a + i - 1];
    }
    if |u| > 0 {
      assert u[0] == t[a];
    }
  }

  /** Title-casing changes only the case of letters, so it keeps the blanks. */
  lemma TitleKeepsShape(c: string)
    requires WordsAndBlanks(c) && NoDoubleBlank(c)
    ensures WordsAndBlanks(Title(c)) && NoDoubleBlank(Title(c))
  {
    var t := Title(c);
    forall i | 0 <= i < |t| ensures IsWordChar(t[i]) || t[i] == ' ' {
      if !IsAlpha(c[i]) {
        assert t[i] == c[i];
      }
    }
    forall i | 0 <= i < |t| - 1 ensures !(t[i] == ' ' && t[i + 1] == ' ') {
      if !IsAlpha(c[i]) {
        assert t[i] == c[i];
      }
      if !IsAlpha(c[i + 1]) {
        assert t[i + 1] == c[i + 1];
      }
    }
  }

  /** Slices keep the two blank-related shape properties. */
  lemma SliceShape(t: string, a: nat, b: nat)
    requires a <= b <= |t|
    requires WordsAndBlanks(t) && NoDoubleBlank(t)
    ensures WordsAndBlanks(t[a..b]) && NoDoubleBlank(t[a..b])
  {
    var r := t[a..b];
    forall i | 0 <= i < |r| ensures IsWordChar(r[i]) || r[i] == ' ' {
      assert r[i] == t[a + i];
    }
    forall i | 0 <= i < |r| - 1 ensures !(r[i] == ' ' && r[i + 1] == ' ') {
      assert r[i] == t[a + i] && r[i + 1] == t[a + i + 1];
    }
  }

  /** Stripping keeps a string title-cased: what it drops is whitespace. */
  lemma StripTitleCased(t: string)
    requires TitleCasedFrom(t, false)
    ensures TitleCasedFrom(Strip(t), false)
  {
    var a, _ := StripSlice(t);
    TitleCasedSlice(t, a, a + |Strip(t)|);
  }

  /** Stripping keeps word characters and single blanks. */
  lemma StripKeepsBlanks(t: string)
    requires WordsAndBlanks(t) && NoDoubleBlank(t)
    ensures WordsAndBlanks(Strip(t)) && NoDoubleBlank(Strip(t))
  {
    var a, _ := StripSlice(t);
    SliceShape(t, a, a + |Strip(t)|);
  }

  /** Every result of `normalize_string` has the normalised shape: only word
      characters and single blanks, no blank at either end, title-cased. */
  lemma NormalizeShape(s: string)
    ensures IsNormalized(NormalizeString(s))
  {
    var u := ReplacePunct(s);
    var c := Collapse(u);
    CollapseWords(u);
    CollapseNoDouble(u);
    TitleKeepsShape(c);
    TitleFromCased(c, false);
    StripTitleCased(Title(c));
    StripKeepsBlanks(Title(c));
    var r := NormalizeString(s);
    assert |r| > 0 ==> r[0] != ' ' && r[|r| - 1] != ' ';
  }

  /** On word characters and single blanks, collapsing changes nothing. */
  lemma {:induction false} CollapseFixed(t: string)
    requires WordsAndBlanks(t) && NoDoubleBlank(t)
    ensures Collapse(t) == t
    decreases |t|
  {
    if |t| > 0 {
      assert WordsAndBlanks(t[1..]) && NoDoubleBlank(t[1..]) by {
        assert forall i :: 0 <= i < |t[1..]| ==> t[1..][i] == t[i + 1];
      }
      CollapseFixed(t[1..]);
      if IsSpace(t[0]) {
        if |t| > 1 {
          assert t[1] != ' ';
          assert !IsSpace(t[1]);
          assert t[1..][0] == t[1];
        }
        assert TrimLeft(t[1..], IsSpace) == t[1..];
        assert t[0] == ' ';
      }
      assert t == [t[0]] + t[1..];
    }
  }

  /** A normalised string is a fixed point of `normalize_string`. */
  lemma NormalizeFixed(t: string)
    requires IsNormalized(t)
    ensures NormalizeString(t) == t
  {
    assert ReplacePunct(t) == t;
    CollapseFixed(t);
    TitleFromFixed(t, false);
    if |t| > 0 {
      assert !IsSpace(t[0]) && !IsSpace(t[|t| - 1]);
      assert TrimLeft(t, IsSpace) == t;
      assert TrimRight(t, IsSpace) == t;
    }
  }

  /** `normalize_string` is idempotent. */
  lemma NormalizeIdempotent(s: string)
    ensures NormalizeString(NormalizeString(s)) == NormalizeString(s)
  {
    NormalizeShape(s);
    NormalizeFixed(NormalizeString(s));
  }

  /** The older `normalize_string` yields only word characters and single
      blanks, keeps every letter (with its case) in order, and never grows. */
  lemma LegacyNormalizeShape(s: string)
    ensures WordsAndBlanks(LegacyNormalizeString(s))
    ensures NoDoubleBlank(LegacyNormalizeString(s))
    ensures Letters(LegacyNormalizeString(s)) == Letters(s)
    ensures |LegacyNormalizeString(s)| <= |s|
  {
    var u := ReplacePunct(s);
    CollapseWords(u);
    CollapseNoDouble(u);
    CollapseLetters(u);
    ReplacePunctLetters(s);
  }

  /** Replacing punctuation keeps the letters. */
  lemma {:induction false} ReplacePunctLetters(s: string)
    ensures Letters(ReplacePunct(s)) == Letters(s)
    decreases |s|
  {
    if |s| > 0 {
      ReplacePunctLetters(s[1..]);
      assert ReplacePunct(s)[1..] == ReplacePunct(s[1..]);
    }
  }

  /** The two ways a column is normalized: `normalize_string` as the
      processor functions call it, and `normalize_string(...).title()` as the
      older `_normalize_name` of web_app/models.py calls it.  Both reach the
      web_app/functions package, which shadows the module web_app/functions.py
      of the same name. */
  datatype Normalizer = Current | Retitled

  function Normalized(n: Normalizer, s: string): string {
    match n
    case Current => NormalizeString(s)
    case Retitled => Title(NormalizeString(s))
  }

  /** Title-casing again changes nothing: the two normalisations agree, so
      the older one strips the ends as well. */
  lemma RetitledIsCurrent(s: string)
    ensures Normalized(Retitled, s) == Normalized(Current, s)
    ensures IsNormalized(Normalized(Retitled, s))
  {
    NormalizeShape(s);
    TitleFromFixed(NormalizeString(s), false);
  }

  /** Either normalisation is idempotent. */
  lemma NormalizedIdempotent(n: Normalizer, s: string)
    ensures Normalized(n, Normalized(n, s)) == Normalized(n, s)
  {
    NormalizeIdempotent(s);
    if n == Retitled {
      RetitledIsCurrent(s);
      RetitledIsCurrent(Normalized(n, s));
    }
  }

  /** A text that starts with a lower-case letter comes out of either
      normalisation starting with that letter upper-cased. */
  lemma NormalizedCapitalizes(n: Normalizer, s: string)
    requires |s| > 0 && IsLower(s[0])
    ensures |Normalized(n, s)| > 0 && Normalized(n, s)[0] == Upper(s[0])
  {
    var a := ReplacePunct(s);
    var b := Collapse(a);
    var c := Title(b);
    assert c[0] == Upper(s[0]);
    TrimRightKeepsHead(TrimLeft(c, IsSpace), IsSpace);
    if n == Retitled {
      RetitledIsCurrent(s);
    }
  }

  /** Trimming the end of a text whose first character stays keeps that
      character. */
  lemma {:induction false} TrimRightKeepsHead(s: string, p: char -> bool)
    requires |s| > 0 && !p(s[0])
    ensures |TrimRight(s, p)| > 0 && TrimRight(s, p)[0] == s[0]
    decreases |s|
  {
    if p(s[|s| - 1]) {
      TrimRightKeepsHead(s[..|s| - 1], p);
    }
  }
}

=== FILE: part.dfy ===
/** One BOM line item (web_app/models/part.py `AbstractPart` / `DefaultPart`).

    A part holds the raw columns it was created with, in creation order, and
    the derived fields the processing stages fill in.  Python's dynamic
    attributes become an explicit lookup: a raw column by its name, a derived
    field by its fixed attribute name.
 */
module Parts {
  import opened Wrappers

  /** `typing.PartTypes`. */
  datatype PartType = Production | Purchased | Fastener | Junk

  /** `typing.PartFileTypes`. */
  datatype FileType = PartFile | AssemblyFile

  /** The fields `AbstractPart.__init__` resets to None and the stages fill
      in.  `type` and `file_type` hold the name of a type until name
      normalization rewrites them: `typeText` and `fileTypeText` are the text
      it wrote, until the stage sets the type again. */
  datatype Derived = Derived(
    sets: Option<int>,
    toOrder: Option<int>,
    parent: Option<seq<string>>,
    child: Option<seq<string>>,
    parentAssembly: Option<string>,
    partType: Option<PartType>,
    fileType: Option<FileType>,
    isFastener: Option<bool>,
    isPurchased: Option<bool>,
    isProduction: Option<bool>,
    isJunkByKeywords: Option<bool>,
    isJunkByEmptyFields: Option<bool>,
    isJunkByNesting: Option<bool>,
    isJunk: Option<bool>,
    typeText: Option<string>,
    fileTypeText: Option<string>)

  /** Every derived field unset. */
  const Unset := Derived(None, None, None, None, None, None, None, None, None, None, None, None, None, None, None, None)

  /** A Python attribute value as the core observes it. */
  datatype Value = VNone | VStr(s: string) | VInt(i: int) | VBool(b: bool) | VList(items: seq<string>)

  /** A part: raw columns (name, value) in creation order, and derived fields. */
  datatype Part = Part(raw: seq<(string, string)>, derived: Derived)

  /** The attribute names the constructor resets (`assembly_number` and
      `assembly_name` are reset too, and never set again). */
  const DerivedNames: set<string> := {
    "sets", "to_order", "parent", "child", "parent_assembly", "assembly_number", "assembly_name",
    "type", "file_type", "is_fastener", "is_purchased", "is_production", "is_junk_by_keywords",
    "is_junk_by_empty_fields", "is_junk_by_purchased_part_nesting", "is_junk"
  }

  /** The value of raw column `name`, if the part has one. */
  function RawLookup(raw: seq<(string, string)>, name: string): (r: Option<string>)
    ensures r.Some? ==> (name, r.value) in raw
  {
    if |raw| == 0 then None
    else if raw[0].0 == name then Some(raw[0].1)
    else RawLookup(raw[1..], name)
  }

  /** `getattr(part, column)` for a raw column: AttributeError when absent. */
  function Column(p: Part, name: string): (r: Result<string>)
    ensures r.Err? ==> r.error == AttributeError
    ensures r.Ok? ==> (name, r.value) in p.raw
  {
    match RawLookup(p.raw, name)
    case Some(v) => Ok(v)
    case None => Err(AttributeError)
  }

  /** `getattr(part, column)` for every part in order: the first part without
      the column raises AttributeError. */
  function Columns(parts: seq<Part>, name: string): (r: Result<seq<string>>)
    ensures r.Ok? <==> forall i :: 0 <= i < |parts| ==> Column(parts[i], name).Ok?
    ensures r.Ok? ==> |r.value| == |parts| && forall i :: 0 <= i < |parts| ==> Column(parts[i], name) == Ok(r.value[i])
    ensures r.Err? ==> r.error == AttributeError
    decreases |parts|
  {
    if |parts| == 0 then Ok([])
    else
      match Column(parts[0], name)
      case Err(e) => Err(e)
      case Ok(v) =>
        match Columns(parts[1..], name)
        case Err(e) =>
          assert forall i :: 1 <= i < |parts| ==> parts[i] == parts[1..][i - 1];
          Err(e)
        case Ok(vs) =>
          assert forall i :: 1 <= i < |parts| ==> parts[i] == parts[1..][i - 1];
          Ok([v] + vs)
  }

  function OptBool(b: Option<bool>): Value {
    match b
    case Some(x) => VBool(x)
    case None => VNone
  }

  /** `getattr(part, name)`: a derived field, otherwise a raw column. */
  function Attr(p: Part, name: string): Result<Value> {
    if name in DerivedNames then Ok(DerivedAttr(p.derived, name))
    else match RawLookup(p.raw, name)
      case Some(v) => Ok(VStr(v))
      case None => Err(AttributeError)
  }

  /** The value of derived attribute `name`. */
  function DerivedAttr(d: Derived, name: string): Value
    requires name in DerivedNames
  {
    if name == "sets" then (if d.sets.Some? then VInt(d.sets.value) else VNone)
    else if name == "to_order" then if d.toOrder.Some? then VInt(d.toOrder.value) else VNone
    else if name == "parent" then if d.parent.Some? then VList(d.parent.value) else VNone
    else if name == "child" then if d.child.Some? then VList(d.child.value) else VNone
    else if name == "parent_assembly" then if d.parentAssembly.Some? then VStr(d.parentAssembly.value) else VNone
    else if name == "type" then if TypeAttr(d).Some? then VStr(TypeAttr(d).value) else VNone
    else if name == "file_type" then if FileTypeAttr(d).Some? then VStr(FileTypeAttr(d).value) else VNone
    else if name == "is_fastener" then OptBool(d.isFastener)
    else if name == "is_purchased" then OptBool(d.isPurchased)
    else if name == "is_production" then OptBool(d.isProduction)
    else if name == "is_junk_by_keywords" then OptBool(d.isJunkByKeywords)
    else if name == "is_junk_by_empty_fields" then OptBool(d.isJunkByEmptyFields)
    else if name == "is_junk_by_purchased_part_nesting" then OptBool(d.isJunkByNesting)
    else if name == "is_junk" then OptBool(d.isJunk)
    else VNone
  }

  /** `hasattr(part, name)`. */
  predicate HasAttr(p: Part, name: string) {
    Attr(p, name).Ok?
  }

  /** Python truthiness of an attribute value. */
  predicate Truthy(v: Value) {
    match v
    case VNone => false
    case VStr(s) => s != ""
    case VInt(i) => i != 0
    case VBool(b) => b
    case VList(items) => items != []
  }

  function TypeName(t: PartType): string {
    match t
    case Production => "production"
    case Purchased => "purchased"
    case Fastener => "fastener"
    case Junk => "junk"
  }

  function FileTypeName(f: FileType): string {
    match f
    case PartFile => "part"
    case AssemblyFile => "assembly"
  }

  /** The text of the `type` attribute: none while no type is set, the
      type's name until normalization rewrites it. */
  function TypeAttr(d: Derived): (r: Option<string>)
    ensures r.Some? <==> d.partType.Some?
    ensures d.partType.Some? && d.typeText.None? ==> r == Some(TypeName(d.partType.value))
  {
    match d.partType
    case None => None
    case Some(t) => if d.typeText.Some? then d.typeText else Some(TypeName(t))
  }

  /** The text of the `file_type` attribute, as `TypeAttr`. */
  function FileTypeAttr(d: Derived): (r: Option<string>)
    ensures r.Some? <==> d.fileType.Some?
    ensures d.fileType.Some? && d.fileTypeText.None? ==> r == Some(FileTypeName(d.fileType.value))
  {
    match d.fileType
    case None => None
    case Some(f) => if d.fileTypeText.Some? then d.fileTypeText else Some(FileTypeName(f))
  }

  /** The type a text names, compared as `part.type == 'production'`
      compares it: none for any other text. */
  function TypeOfName(s: string): (r: Option<PartType>)
    ensures r.Some? ==> TypeName(r.value) == s
  {
    if s == "production" then Some(Production)
    else if s == "purchased" then Some(Purchased)
    else if s == "fastener" then Some(Fastener)
    else if s == "junk" then Some(Junk)
    else None
  }

  /** No type is named by a text that starts with a capital letter. */
  lemma CapitalNamesNoType(d: Derived)
    requires TypeAttr(d).Some? && |TypeAttr(d).value| > 0 && 'A' <= TypeAttr(d).value[0] <= 'Z'
    ensures NamedType(d).None?
  {
    var s := TypeAttr(d).value;
    assert s[0] != 'p' && s[0] != 'f' && s[0] != 'j';
  }

  /** Reading back a type's name gives the type. */
  lemma TypeOfNameInverse(t: PartType)
    ensures TypeOfName(TypeName(t)) == Some(t)
  {
  }

  /** The type the `type` attribute names: the type itself until
      normalization rewrites its name. */
  function NamedType(d: Derived): (r: Option<PartType>)
    ensures d.typeText.None? ==> r == d.partType
  {
    match TypeAttr(d)
    case None => None
    case Some(s) =>
      TypeOfNameInverse(d.partType.value);
      TypeOfName(s)
  }

  /** The entries of `kwargs` whose names are not derived attributes. */
  function KeepRaw(kwargs: seq<(string, string)>): (r: seq<(string, string)>)
    ensures forall k :: 0 <= k < |r| ==> r[k].0 !in DerivedNames
  {
    if |kwargs| == 0 then []
    else (if kwargs[0].0 in DerivedNames then [] else [kwargs[0]]) + KeepRaw(kwargs[1..])
  }

  /** `AbstractPart(**kwargs)` (and `DefaultPart`, which adds nothing): the
      keyword columns become attributes, then every derived field is reset to
      None, so a column named like a derived field is overwritten. */
  function NewPart(kwargs: seq<(string, string)>): (p: Part)
    ensures p.derived == Unset
    ensures forall name :: name in DerivedNames ==> Attr(p, name) == Ok(VNone)
    ensures forall name :: name !in DerivedNames ==> RawLookup(p.raw, name) == RawLookup(kwargs, name)
  {
    var p := Part(KeepRaw(kwargs), Unset);
    assert forall name :: name !in DerivedNames ==> RawLookup(p.raw, name) == RawLookup(kwargs, name) by {
      forall name | name !in DerivedNames ensures RawLookup(p.raw, name) == RawLookup(kwargs, name) {
        KeepRawLookup(kwargs, name);
      }
    }
    p
  }

  lemma {:induction false} KeepRawLookup(kwargs: seq<(string, string)>, name: string)
    requires name !in DerivedNames
    ensures RawLookup(KeepRaw(kwargs), name) == RawLookup(kwargs, name)
    decreases |kwargs|
  {
    if |kwargs| > 0 {
      KeepRawLookup(kwargs[1..], name);
      var rest := KeepRaw(kwargs[1..]);
      if kwargs[0].0 in DerivedNames {
        assert KeepRaw(kwargs) == rest;
        assert kwargs[0].0 != name;
      } else {
        var r := [kwargs[0]] + rest;
        assert KeepRaw(kwargs) == r;
        assert r[0] == kwargs[0] && r[1..] == rest;
      }
    }
  }

  /** Every keyword column whose name is not a derived field reads back as given
      (the first occurrence of the name wins, as in a Python dict built from
      keyword arguments, whose names are distinct anyway). */
  lemma NewPartKeepsColumns(kwargs: seq<(string, string)>, k: nat)
    requires k < |kwargs| && kwargs[k].0 !in DerivedNames
    requires forall j :: 0 <= j < k ==> kwargs[j].0 != kwargs[k].0
    ensures Attr(NewPart(kwargs), kwargs[k].0) == Ok(VStr(kwargs[k].1))
  {
    FirstMatchLookup(kwargs, k);
  }

  lemma {:induction false} FirstMatchLookup(raw: seq<(string, string)>, k: nat)
    requires k < |raw|
    requires forall j :: 0 <= j < k ==> raw[j].0 != raw[k].0
    ensures RawLookup(raw, raw[k].0) == Some(raw[k].1)
    decreases k
  {
    if k > 0 {
      FirstMatchLookup(raw[1..], k - 1);
    }
  }

  /** Replaces the value of raw column `name` (the `setattr` of a stage). */
  function SetColumn(raw: seq<(string, string)>, name: string, value: string): (r: seq<(string, string)>)
    ensures |r| == |raw|
    ensures forall k :: 0 <= k < |raw| ==> r[k].0 == raw[k].0
    ensures forall k :: 0 <= k < |raw| && raw[k].0 != name ==> r[k] == raw[k]
    ensures forall k :: 0 <= k < |raw| && raw[k].0 == name ==> r[k].1 == value
  {
    if |raw| == 0 then []
    else [if raw[0].0 == name then (name, value) else raw[0]] + SetColumn(raw[1..], name, value)
  }

  /** After setting column `name`, looking it up gives the new value if the
      part had the column; every other column reads as before. */
  lemma {:induction false} RawLookupSetColumn(raw: seq<(string, string)>, name: string, value: string, other: string)
    ensures RawLookup(SetColumn(raw, name, value), other) ==
            if other == name && RawLookup(raw, name).Some? then Some(value) else RawLookup(raw, other)
    decreases |raw|
  {
    if |raw| > 0 {
      RawLookupSetColumn(raw[1..], name, value, other);
    }
  }

  // ---- `vars(part)` as text ------------------------------------------------

  /** The derived attributes in the order the constructor creates them. */
  const VarsOrder: seq<string> := [
    "sets", "to_order", "parent", "child", "parent_assembly", "assembly_number", "assembly_name",
    "type", "file_type", "is_fastener", "is_purchased", "is_production", "is_junk_by_keywords",
    "is_junk_by_empty_fields", "is_junk_by_purchased_part_nesting", "is_junk"
  ]

  function DigitChar(d: nat): char
    requires d < 10
  {
    ('0' as int + d) as char
  }

  /** The decimal digits of `n`. */
  function Digits(n: nat): string
    decreases n
  {
    if n < 10 then [DigitChar(n)] else Digits(n / 10) + [DigitChar(n % 10)]
  }

  /** `str(i)` for an integer. */
  function IntStr(i: int): string {
    if i < 0 then "-" + Digits(-i) else Digits(i)
  }

  /** The quoted items of a list of strings, comma-separated. */
  function QuotedItems(items: seq<string>): string
    decreases |items|
  {
    if |items| == 0 then ""
    else if |items| == 1 then "'" + items[0] + "'"
    else "'" + items[0] + "', " + QuotedItems(items[1..])
  }

  /** `str(value)` for the values a part holds. */
  function Str(v: Value): string {
    match v
    case VNone => "None"
    case VStr(s) => s
    case VInt(i) => IntStr(i)
    case VBool(b) => if b then "True" else "False"
    case VList(items) => "[" + QuotedItems(items) + "]"
  }

  /** `[str(value) for key, value in vars(part).items()]`: the raw columns in
      creation order, then the derived attributes. */
  function Vars(p: Part): (r: seq<string>)
    ensures |r| == |p.raw| + |VarsOrder|
    ensures forall k :: 0 <= k < |p.raw| ==> r[k] == p.raw[k].1
  {
    seq(|p.raw|, k requires 0 <= k < |p.raw| => p.raw[k].1) +
    seq(|VarsOrder|, k requires 0 <= k < |VarsOrder| => Str(DerivedAttr(p.derived, VarsOrder[k])))
  }
}

=== FILE: processor.dfy ===
/** The per-part stages of web_app/functions/processor.py, the director of
    web_app/models/processor_director.py that runs them, and the tree list.

    Each stage reads one part of the processed list, and the snapshot
    (`initial_part_list`) for cross-part lookups, and sets one derived field
    of the part.  A stage is a function from the part to the updated part or
    the exception it raises.
 */
module ProcessorFunctions {
  import opened Wrappers
  import opened Text
  import opened Keywords
  import opened Parts
  import opened Hierarchy
  import opened Classify
  import opened Quantity
  import opened Normalize
  import opened Config
  import opened Lifecycle
  import opened Sorting
  import Tree
  import TreeList

  // ---- lookups ----------------------------------------------------------

  /** Iterating `processor.initial_part_list`: TypeError while it is None. */
  function Instances(snap: Option<seq<Part>>): (r: Result<seq<Part>>)
    ensures r.Ok? <==> snap.Some?
    ensures r.Ok? ==> r.value == snap.value
    ensures r.Err? ==> r.error == TypeError
  {
    match snap
    case None => Err(TypeError)
    case Some(parts) => Ok(parts)
  }

  /** `getattr(part, processor.part_position_column)`. */
  function Position(s: Settings): Part -> Result<string> {
    (p: Part) => Column(p, s.positionColumn)
  }

  /** `int(getattr(part, processor.part_quantity_column))`. */
  function QuantityOf(s: Settings): Part -> Result<int> {
    (p: Part) => match Column(p, s.quantityColumn)
      case Err(e) => Err(e)
      case Ok(v) => PyInt(v)
  }

  /** The part has a non-empty list of parent ids (`if part.parent:`). */
  predicate HasParent(p: Part) {
    p.derived.parent.Some? && |p.derived.parent.value| > 0
  }

  /** `get_parent_by_id(processor, ids[-1])` as an index into the snapshot:
      the first part whose position is the last id.  Every position is read
      (AttributeError), and no match raises IndexError. */
  function ParentIndex(s: Settings, instances: seq<Part>, ids: seq<string>): (r: Result<nat>)
    requires |ids| > 0
    ensures r.Ok? <==> Columns(instances, s.positionColumn).Ok? && ids[|ids| - 1] in Columns(instances, s.positionColumn).value
    ensures r.Ok? ==> r.value < |instances| && Column(instances[r.value], s.positionColumn) == Ok(ids[|ids| - 1])
    ensures r.Ok? ==> forall j :: 0 <= j < r.value ==> Column(instances[j], s.positionColumn) != Ok(ids[|ids| - 1])
    ensures r.Err? ==> r.error == AttributeError || r.error == IndexError
  {
    var positions :- Columns(instances, s.positionColumn);
    ParentById(positions, ids[|ids| - 1])
  }

  // ---- the stages ---------------------------------------------------------

  /** `get_parent_ids`: the proper prefixes of the part's position.  It fails
      only without a position column, or without a delimiter on a position of
      several words. */
  function ParentIdsStage(s: Settings, p: Part): (r: Result<Part>)
    ensures r.Ok? <==> Column(p, s.positionColumn).Ok? &&
                       (s.delimiter.Some? || |WsSplit(Column(p, s.positionColumn).value)| <= 1)
    ensures r.Err? ==> r.error == AttributeError
    ensures r.Ok? ==> r.value == p.(derived := p.derived.(parent := r.value.derived.parent))
    ensures r.Ok? ==> r.value.derived.parent.Some? &&
                      ProperPrefixes(r.value.derived.parent.value, Column(p, s.positionColumn).value, s.delimiter)
  {
    var position :- Column(p, s.positionColumn);
    var ids :- ParentIds(position, s.delimiter);
    Ok(p.(derived := p.derived.(parent := Some(ids))))
  }

  /** `get_child_ids`: exactly the snapshot positions one segment longer
      than the part's and starting with its segments. */
  function ChildIdsStage(s: Settings, snap: Option<seq<Part>>, p: Part): (r: Result<Part>)
    ensures r.Ok? <==> Column(p, s.positionColumn).Ok? && snap.Some? && Columns(snap.value, s.positionColumn).Ok?
    ensures r.Err? ==> r.error == AttributeError || r.error == TypeError
    ensures r.Ok? ==> r.value == p.(derived := p.derived.(child := r.value.derived.child))
    ensures r.Ok? ==> r.value.derived.child.Some? &&
                      ChildrenOf(r.value.derived.child.value, SplitOpt(Column(p, s.positionColumn).value, s.delimiter),
                                 Columns(snap.value, s.positionColumn).value, s.delimiter)
  {
    var position :- Column(p, s.positionColumn);
    var instances :- Instances(snap);
    var positions :- Columns(instances, s.positionColumn);
    var segs := SplitOpt(position, s.delimiter);
    ChildIdsExact(segs, positions, s.delimiter);
    Ok(p.(derived := p.derived.(child := Some(ChildIds(segs, positions, s.delimiter)))))
  }

  /** `get_sets`: the main-assembly sets times the quantities of the snapshot
      parts standing at the part's parent ids; a top-level part gets the
      main-assembly sets. */
  function SetsStage(s: Settings, snap: Option<seq<Part>>, p: Part): (r: Result<Part>)
    ensures snap.None? ==> r == Err(TypeError)
    ensures r.Ok? ==> r.value == p.(derived := p.derived.(sets := r.value.derived.sets))
    ensures snap.Some? ==>
              (r.Ok? <==> Sets(snap.value, p.derived.parent, s.mainAssemblySets, Position(s), QuantityOf(s)).Ok?)
    ensures r.Ok? ==> r.value.derived.sets.Some? && snap.Some? &&
                      Sets(snap.value, p.derived.parent, s.mainAssemblySets, Position(s), QuantityOf(s)) == Ok(r.value.derived.sets.value)
    ensures snap.Some? && p.derived.parent == Some([]) ==> r == Ok(p.(derived := p.derived.(sets := Some(s.mainAssemblySets))))
  {
    var instances :- Instances(snap);
    var sets :- Sets(instances, p.derived.parent, s.mainAssemblySets, Position(s), QuantityOf(s));
    Ok(p.(derived := p.derived.(sets := Some(sets))))
  }

  /** `get_to_order`: the part's quantity times its sets. */
  function ToOrderStage(s: Settings, p: Part): (r: Result<Part>)
    ensures r.Ok? <==> QuantityOf(s)(p).Ok? && p.derived.sets.Some?
    ensures r.Ok? ==> r.value == p.(derived := p.derived.(toOrder := Some(QuantityOf(s)(p).value * p.derived.sets.value)))
  {
    var n :- ToOrder(QuantityOf(s)(p), p.derived.sets);
    Ok(p.(derived := p.derived.(toOrder := Some(n))))
  }

  /** The keyword test of `is_production`: true iff the cleaned keyword list
      is non-empty and one of its keywords occurs in the part number.  The
      number is read only when there are keywords. */
  function ProductionTest(s: Settings, p: Part): (r: Result<bool>)
    ensures r.Err? <==> CleanSetting(s.productionKeywords).Err? ||
                        (|CleanSetting(s.productionKeywords).value| > 0 && Column(p, s.numberColumn).Err?)
    ensures r == Ok(true) <==>
              && CleanSetting(s.productionKeywords).Ok? && Column(p, s.numberColumn).Ok?
              && exists k :: 0 <= k < |CleanSetting(s.productionKeywords).value| &&
                             Contains(Column(p, s.numberColumn).value, CleanSetting(s.productionKeywords).value[k])
  {
    var keywords :- CleanSetting(s.productionKeywords);
    if |keywords| == 0 then Ok(false)
    else
      var number :- Column(p, s.numberColumn);
      Ok(IsProductionNumber(keywords, number))
  }

  /** `is_production`. */
  function ProductionStage(s: Settings, p: Part): (r: Result<Part>)
    ensures r.Ok? <==> ProductionTest(s, p).Ok?
    ensures r.Ok? ==> r.value == p.(derived := p.derived.(isProduction := Some(ProductionTest(s, p).value)))
  {
    var flag :- ProductionTest(s, p);
    Ok(p.(derived := p.derived.(isProduction := Some(flag))))
  }

  /** `is_fastener`, over every attribute value of the part. */
  function FastenerStage(s: Settings, p: Part): (r: Part)
    ensures r.derived.isFastener.Some?
    ensures r == p.(derived := p.derived.(isFastener := r.derived.isFastener))
    ensures r.derived.isFastener == Some(true) ==> exists f :: 0 <= f < |s.library| && OccursIn(UpperAll(Vars(p)), s.library[f].0)
  {
    p.(derived := p.derived.(isFastener := Some(IsFastener(Vars(p), s.library))))
  }

  /** `is_purchased`: neither production nor fastener. */
  function PurchasedStage(p: Part): (r: Part)
    ensures r.derived.isPurchased == Some(!IsSet(p.derived.isProduction) && !IsSet(p.derived.isFastener))
    ensures r == p.(derived := p.derived.(isPurchased := r.derived.isPurchased))
  {
    p.(derived := p.derived.(isPurchased := Some(IsPurchased(p.derived.isProduction, p.derived.isFastener))))
  }

  /** `getattr(part, number) or getattr(part, name)`: the number, or the name
      when the number is empty. */
  function NumberOrName(s: Settings, p: Part): (r: Result<string>)
    ensures r.Ok? <==> Column(p, s.numberColumn).Ok? && (Column(p, s.numberColumn).value == "" ==> Column(p, s.nameColumn).Ok?)
    ensures r.Ok? && Column(p, s.numberColumn).value != "" ==> r.value == Column(p, s.numberColumn).value
    ensures r.Ok? && Column(p, s.numberColumn).value == "" ==> r.value == Column(p, s.nameColumn).value
  {
    var number :- Column(p, s.numberColumn);
    if number != "" then Ok(number) else Column(p, s.nameColumn)
  }

  /** `is_junk_by_keywords`: true iff there are junk keywords and one occurs
      in the part number, or in the name when the number is empty. */
  function JunkByKeywordsStage(s: Settings, p: Part): (r: Result<Part>)
    ensures CleanSetting(s.junkKeywords).Err? ==> r == Err(TypeError)
    ensures CleanSetting(s.junkKeywords).Ok? ==>
              (r.Ok? <==> |CleanSetting(s.junkKeywords).value| == 0 || NumberOrName(s, p).Ok?)
    ensures r.Ok? ==> r.value == p.(derived := p.derived.(isJunkByKeywords := r.value.derived.isJunkByKeywords))
    ensures r.Ok? ==> r.value.derived.isJunkByKeywords.Some? && CleanSetting(s.junkKeywords).Ok? &&
                      (r.value.derived.isJunkByKeywords.value <==>
                         exists k :: 0 <= k < |CleanSetting(s.junkKeywords).value| &&
                                     NumberOrName(s, p).Ok? && Contains(NumberOrName(s, p).value, CleanSetting(s.junkKeywords).value[k]))
  {
    var keywords :- CleanSetting(s.junkKeywords);
    if |keywords| == 0 then Ok(p.(derived := p.derived.(isJunkByKeywords := Some(false))))
    else
      var number :- Column(p, s.numberColumn);
      var name :- if number == "" then Column(p, s.nameColumn) else Ok("");
      Ok(p.(derived := p.derived.(isJunkByKeywords := Some(IsJunkByKeywords(keywords, number, name)))))
  }

  /** `any(getattr(part, key) for key in fields)`: the scan stops at the first
      truthy value; a missing attribute before it raises AttributeError. */
  function AnyTruthy(p: Part, fields: seq<string>): (r: Result<bool>)
    ensures r == Ok(false) <==> forall k :: 0 <= k < |fields| ==> Attr(p, fields[k]).Ok? && !Parts.Truthy(Attr(p, fields[k]).value)
    ensures r == Ok(true) <==> exists k :: 0 <= k < |fields| && Attr(p, fields[k]).Ok? && Parts.Truthy(Attr(p, fields[k]).value) &&
                                           forall j :: 0 <= j < k ==> Attr(p, fields[j]).Ok?
    ensures r.Err? ==> r.error == AttributeError
    decreases |fields|
  {
    if |fields| == 0 then Ok(false)
    else
      match Attr(p, fields[0])
      case Err(e) => Err(e)
      case Ok(v) =>
        if Parts.Truthy(v) then Ok(true)
        else
          var rest := AnyTruthy(p, fields[1..]);
          assert forall k :: 1 <= k < |fields| ==> fields[k] == fields[1..][k - 1];
          rest
  }

  /** `is_junk_by_empty_fields`: true iff the cleaned field list is non-empty
      and every listed attribute is present and falsy. */
  function JunkByEmptyFieldsStage(s: Settings, p: Part): (r: Result<Part>)
    ensures CleanSetting(s.emptyFields).Err? ==> r == Err(TypeError)
    ensures CleanSetting(s.emptyFields).Ok? ==>
              (forall k :: 0 <= k < |CleanSetting(s.emptyFields).value| ==> Attr(p, CleanSetting(s.emptyFields).value[k]).Ok?) ==>
              r.Ok?
    ensures r.Ok? ==> r.value == p.(derived := p.derived.(isJunkByEmptyFields := r.value.derived.isJunkByEmptyFields))
    ensures r.Ok? ==> r.value.derived.isJunkByEmptyFields.Some? && CleanSetting(s.emptyFields).Ok? &&
                      (r.value.derived.isJunkByEmptyFields.value <==>
                         var fields := CleanSetting(s.emptyFields).value;
                         |fields| > 0 && forall k :: 0 <= k < |fields| ==> Attr(p, fields[k]).Ok? && !Parts.Truthy(Attr(p, fields[k]).value))
  {
    var fields :- CleanSetting(s.emptyFields);
    if |fields| == 0 then Ok(p.(derived := p.derived.(isJunkByEmptyFields := Some(false))))
    else
      var any :- AnyTruthy(p, fields);
      Ok(p.(derived := p.derived.(isJunkByEmptyFields := Some(!any))))
  }

  /** `is_junk_by_purchased_part_nesting`, leaving the snapshot alone: with
      the policy on and a parent, true iff the first snapshot part at the
      last parent id fails the production-keyword test. */
  function JunkByNestingStage(s: Settings, snap: Option<seq<Part>>, p: Part): (r: Result<Part>)
    ensures !s.junkForPurchasedNests || !HasParent(p) ==> r == Ok(p.(derived := p.derived.(isJunkByNesting := Some(false))))
    ensures r.Ok? ==> r.value == p.(derived := p.derived.(isJunkByNesting := r.value.derived.isJunkByNesting))
    ensures r.Ok? ==> r.value.derived.isJunkByNesting.Some?
    ensures r.Ok? && s.junkForPurchasedNests && HasParent(p) ==>
              && snap.Some? && ParentIndex(s, snap.value, p.derived.parent.value).Ok?
              && ProductionTest(s, snap.value[ParentIndex(s, snap.value, p.derived.parent.value).value]).Ok?
              && r.value.derived.isJunkByNesting ==
                 Some(!ProductionTest(s, snap.value[ParentIndex(s, snap.value, p.derived.parent.value).value]).value)
  {
    if !s.junkForPurchasedNests || !HasParent(p) then Ok(p.(derived := p.derived.(isJunkByNesting := Some(false))))
    else
      var instances :- Instances(snap);
      var k :- ParentIndex(s, instances, p.derived.parent.value);
      var production :- ProductionTest(s, instances[k]);
      Ok(p.(derived := p.derived.(isJunkByNesting := Some(!production))))
  }

  /** `is_junk_by_purchased_part_nesting` as written: `is_production` is
      called on the snapshot's copy of the parent, and so also stores the
      parent's production flag in the snapshot.  The part comes out as
      `JunkByNestingStage` makes it; only the snapshot's parent differs. */
  function JunkByNestingAsWritten(s: Settings, snap: Option<seq<Part>>, p: Part): (r: Result<(Option<seq<Part>>, Part)>)
    ensures r.Ok? <==> JunkByNestingStage(s, snap, p).Ok?
    ensures r.Ok? ==> r.value.1 == JunkByNestingStage(s, snap, p).value
    ensures r.Ok? && s.junkForPurchasedNests && HasParent(p) ==>
              var k := ParentIndex(s, snap.value, p.derived.parent.value).value;
              var parent := snap.value[k];
              r.value.0 == Some(snap.value[k := parent.(derived := parent.derived.(isProduction := Some(ProductionTest(s, parent).value)))])
  {
    if !s.junkForPurchasedNests || !HasParent(p) then Ok((snap, p.(derived := p.derived.(isJunkByNesting := Some(false)))))
    else
      var instances :- Instances(snap);
      var k :- ParentIndex(s, instances, p.derived.parent.value);
      var parent := instances[k];
      var production :- ProductionTest(s, parent);
      var parent' := parent.(derived := parent.derived.(isProduction := Some(production)));
      Ok((Some(instances[k := parent']), p.(derived := p.derived.(isJunkByNesting := Some(!production)))))
  }

  /** `is_junk`: any of the three junk reasons. */
  function JunkStage(p: Part): (r: Part)
    ensures r.derived.isJunk ==
            Some(IsSet(p.derived.isJunkByKeywords) || IsSet(p.derived.isJunkByEmptyFields) || IsSet(p.derived.isJunkByNesting))
    ensures r == p.(derived := p.derived.(isJunk := r.derived.isJunk))
  {
    var d := p.derived;
    p.(derived := d.(isJunk := Some(IsJunk(d.isJunkByKeywords, d.isJunkByEmptyFields, d.isJunkByNesting))))
  }

  /** `get_type`: the attribute holds the type's name again. */
  function TypeStage(p: Part): (r: Part)
    ensures r == p.(derived := p.derived.(partType := r.derived.partType, typeText := None))
    ensures r.derived.partType == Some(Junk) <==> IsSet(p.derived.isJunk)
    ensures r.derived.partType == Some(Production) <==> !IsSet(p.derived.isJunk) && IsSet(p.derived.isProduction)
    ensures r.derived.partType.None? <==>
              !IsSet(p.derived.isJunk) && !IsSet(p.derived.isProduction) && !IsSet(p.derived.isFastener) && !IsSet(p.derived.isPurchased)
  {
    p.(derived := p.derived.(partType := GetType(p.derived), typeText := None))
  }

  /** `get_parent_assembly`: the number of the first snapshot part at the
      last parent id, or the main assembly's name for a top-level part. */
  function ParentAssemblyStage(s: Settings, snap: Option<seq<Part>>, p: Part): (r: Result<Part>)
    ensures !HasParent(p) ==> r == Ok(p.(derived := p.derived.(parentAssembly := Some(s.mainAssemblyName))))
    ensures r.Ok? ==> r.value == p.(derived := p.derived.(parentAssembly := r.value.derived.parentAssembly))
    ensures r.Ok? ==> r.value.derived.parentAssembly.Some?
    ensures r.Ok? && HasParent(p) ==>
              && snap.Some? && ParentIndex(s, snap.value, p.derived.parent.value).Ok?
              && Column(snap.value[ParentIndex(s, snap.value, p.derived.parent.value).value], s.numberColumn) ==
                 Ok(r.value.derived.parentAssembly.value)
  {
    if !HasParent(p) then Ok(p.(derived := p.derived.(parentAssembly := Some(s.mainAssemblyName))))
    else
      var instances :- Instances(snap);
      var k :- ParentIndex(s, instances, p.derived.parent.value);
      var number :- Column(instances[k], s.numberColumn);
      Ok(p.(derived := p.derived.(parentAssembly := Some(number))))
  }

  /** `get_file_type`: an assembly iff it has children and its `type`
      attribute reads `production` (a name normalization has title-cased
      does not); `len(None)` raises TypeError when child ids were never
      computed. */
  function FileTypeStage(p: Part): (r: Result<Part>)
    ensures r.Ok? <==> p.derived.child.Some?
    ensures r.Err? ==> r.error == TypeError
    ensures r.Ok? ==> && r.value == p.(derived := p.derived.(fileType := r.value.derived.fileType, fileTypeText := None))
                      && r.value.derived.fileType.Some?
    ensures r.Ok? ==> (r.value.derived.fileType == Some(AssemblyFile) <==>
                         |p.derived.child.value| > 0 && TypeAttr(p.derived) == Some("production"))
  {
    var fileType :- GetFileType(p.derived.child, NamedType(p.derived));
    Ok(p.(derived := p.derived.(fileType := Some(fileType), fileTypeText := None)))
  }

  /** The derived attributes that can hold text. */
  const TextNames: set<string> := {"parent_assembly", "type", "file_type"}

  /** The text a derived attribute holds, if any. */
  function DerivedText(d: Derived, key: string): Option<string> {
    if key == "parent_assembly" then d.parentAssembly
    else if key == "type" then TypeAttr(d)
    else if key == "file_type" then FileTypeAttr(d)
    else None
  }

  /** `setattr(part, key, text)` for a derived attribute that holds text. */
  function WithText(d: Derived, key: string, text: string): (r: Derived)
    requires key in TextNames
    ensures DerivedText(r, key) == (if DerivedText(d, key).Some? || key == "parent_assembly" then Some(text) else None)
  {
    if key == "parent_assembly" then d.(parentAssembly := Some(text))
    else if key == "type" then d.(typeText := Some(text))
    else d.(fileTypeText := Some(text))
  }

  /** One iteration of `normalize_name`'s loop.  A raw column the part has
      takes its normalized value; a column it lacks is skipped.  A derived
      attribute is normalized when it holds text (the parent assembly, or a
      type's or file type's name, which becomes title-cased); any other
      value makes `normalize_string` raise TypeError. */
  function NormalizeColumn(n: Normalizer, p: Part, key: string): (r: Result<Part>)
    ensures r.Ok? && (key in DerivedNames || RawLookup(p.raw, key).None?) ==> r.value.raw == p.raw
    ensures r.Ok? && key !in DerivedNames && RawLookup(p.raw, key).Some? ==>
              r.value.raw == SetColumn(p.raw, key, Normalized(n, RawLookup(p.raw, key).value))
    ensures r.Ok? && key !in TextNames ==> r.value.derived == p.derived
    ensures key in DerivedNames ==> (r.Ok? <==> DerivedText(p.derived, key).Some?)
    ensures r.Ok? && key in TextNames ==>
              r.value.derived == WithText(p.derived, key, Normalized(n, DerivedText(p.derived, key).value))
    ensures r.Err? ==> r.error == TypeError
  {
    if key in DerivedNames then
      match DerivedAttr(p.derived, key)
      case VStr(v) => Ok(p.(derived := WithText(p.derived, key, Normalized(n, v))))
      case _ => Err(TypeError)
    else
      match RawLookup(p.raw, key)
      case None => Ok(p)
      case Some(v) => Ok(p.(raw := SetColumn(p.raw, key, Normalized(n, v))))
  }

  /** The loop of `normalize_name` over the listed columns. */
  function NormalizeColumns(n: Normalizer, p: Part, keys: seq<string>): Result<Part>
    decreases |keys|
  {
    if |keys| == 0 then Ok(p)
    else
      var q :- NormalizeColumn(n, p, keys[0]);
      NormalizeColumns(n, q, keys[1..])
  }

  /** `q` is `p` with the listed raw columns and the listed derived texts
      normalized once, and nothing else changed. */
  predicate NormalizedFrom(n: Normalizer, p: Part, q: Part, keys: seq<string>) {
    && q.derived == NormalizedDerived(n, p.derived, keys)
    && RawNormalized(n, p.raw, q.raw, keys)
  }

  /** A text normalized once if it is listed and present. */
  function NormalizedText(n: Normalizer, listed: bool, text: Option<string>): Option<string> {
    if listed && text.Some? then Some(Normalized(n, text.value)) else text
  }

  /** The derived fields with every listed text normalized once. */
  function NormalizedDerived(n: Normalizer, d: Derived, keys: seq<string>): (r: Derived)
    ensures r == d.(parentAssembly := r.parentAssembly, typeText := r.typeText, fileTypeText := r.fileTypeText)
    ensures r.parentAssembly == NormalizedText(n, "parent_assembly" in keys, d.parentAssembly)
    ensures TypeAttr(r) == NormalizedText(n, "type" in keys, TypeAttr(d))
    ensures FileTypeAttr(r) == NormalizedText(n, "file_type" in keys, FileTypeAttr(d))
  {
    NormalizedFields(n, d, "parent_assembly" in keys, "type" in keys, "file_type" in keys)
  }

  /** The derived fields with the parent assembly, the type's text and the
      file type's text normalized once, as far as each is listed. */
  function NormalizedFields(n: Normalizer, d: Derived, pa: bool, ty: bool, ft: bool): Derived {
    d.(parentAssembly := NormalizedText(n, pa, d.parentAssembly),
       typeText := if ty && TypeAttr(d).Some? then NormalizedText(n, true, TypeAttr(d)) else d.typeText,
       fileTypeText := if ft && FileTypeAttr(d).Some? then NormalizedText(n, true, FileTypeAttr(d)) else d.fileTypeText)
  }

  /** `raw'` is `raw` with the listed columns normalized once, in place. */
  predicate RawNormalized(n: Normalizer, raw: seq<(string, string)>, raw': seq<(string, string)>, keys: seq<string>) {
    && |raw'| == |raw|
    && forall j :: 0 <= j < |raw| ==>
         && raw'[j].0 == raw[j].0
         && (if raw[j].0 in keys && raw[j].0 !in DerivedNames
             then RawLookup(raw, raw[j].0).Some? && raw'[j].1 == Normalized(n, RawLookup(raw, raw[j].0).value)
             else raw'[j].1 == raw[j].1)
  }

  /** A column present in the raw list can be looked up. */
  lemma {:induction false} RawLookupPresent(raw: seq<(string, string)>, j: nat)
    requires j < |raw|
    ensures RawLookup(raw, raw[j].0).Some?
    decreases j
  {
    if j > 0 && raw[0].0 != raw[j].0 {
      RawLookupPresent(raw[1..], j - 1);
    }
  }

  /** One column normalized after the rest: the raw entry `j` ends up as
      the whole list prescribes. */
  lemma NormalizeStepRaw(n: Normalizer, p: Part, key: string, rest: seq<string>, q: Part, r: Part, j: nat)
    requires NormalizeColumn(n, p, key) == Ok(q) && j < |p.raw|
    requires |r.raw| == |q.raw| && r.raw[j].0 == q.raw[j].0
    requires var c := q.raw[j].0;
             if c in rest && c !in DerivedNames
             then RawLookup(q.raw, c).Some? && r.raw[j].1 == Normalized(n, RawLookup(q.raw, c).value)
             else r.raw[j].1 == q.raw[j].1
    ensures r.raw[j].0 == p.raw[j].0
    ensures var c := p.raw[j].0;
            if (c == key || c in rest) && c !in DerivedNames
            then RawLookup(p.raw, c).Some? && r.raw[j].1 == Normalized(n, RawLookup(p.raw, c).value)
            else r.raw[j].1 == p.raw[j].1
  {
    var c := p.raw[j].0;
    RawLookupPresent(p.raw, j);
    assert q.raw[j].0 == c;
    if key in DerivedNames || RawLookup(p.raw, key).None? {
      assert q.raw == p.raw;
    } else {
      var v := RawLookup(p.raw, key).value;
      assert q.raw == SetColumn(p.raw, key, Normalized(n, v));
      RawLookupSetColumn(p.raw, key, Normalized(n, v), c);
      if c == key {
        assert q.raw[j].1 == Normalized(n, v);
        NormalizedIdempotent(n, v);
      } else {
        assert q.raw[j] == p.raw[j];
      }
    }
  }

  /** One column normalized after the rest: the derived fields end up as the
      whole list prescribes. */
  lemma NormalizeStepDerived(n: Normalizer, p: Part, key: string, rest: seq<string>, q: Part, r: Part)
    requires NormalizeColumn(n, p, key) == Ok(q) && r.derived == NormalizedDerived(n, q.derived, rest)
    ensures r.derived == NormalizedDerived(n, p.derived, [key] + rest)
  {
    var d := p.derived;
    var pa, ty, ft := "parent_assembly" in rest, "type" in rest, "file_type" in rest;
    ConsFlags(n, d, key, rest);
    if key == "parent_assembly" {
      StepParentAssembly(n, d, pa, ty, ft);
    } else if key == "type" {
      StepType(n, d, pa, ty, ft);
    } else if key == "file_type" {
      StepFileType(n, d, pa, ty, ft);
    }
  }

  /** The listed normalization of `key` then `rest`, in terms of which of the
      three text columns each names. */
  lemma ConsFlags(n: Normalizer, d: Derived, key: string, rest: seq<string>)
    ensures NormalizedDerived(n, d, [key] + rest) ==
            NormalizedFields(n, d, key == "parent_assembly" || "parent_assembly" in rest,
                             key == "type" || "type" in rest, key == "file_type" || "file_type" in rest)
  {
    var keys := [key] + rest;
    assert "parent_assembly" in keys <==> key == "parent_assembly" || "parent_assembly" in rest;
    assert "type" in keys <==> key == "type" || "type" in rest;
    assert "file_type" in keys <==> key == "file_type" || "file_type" in rest;
  }

  /** Normalizing the parent assembly first changes nothing the listed
      normalization does not. */
  lemma StepParentAssembly(n: Normalizer, d: Derived, pa: bool, ty: bool, ft: bool)
    requires d.parentAssembly.Some?
    ensures NormalizedFields(n, d.(parentAssembly := Some(Normalized(n, d.parentAssembly.value))), pa, ty, ft) ==
            NormalizedFields(n, d, true, ty, ft)
  {
    var x := Normalized(n, d.parentAssembly.value);
    assert NormalizedText(n, pa, Some(x)) == NormalizedText(n, true, d.parentAssembly) by {
      NormalizedIdempotent(n, d.parentAssembly.value);
    }
    ReplaceParentAssembly(n, d, Some(x), pa, true, ty, ft);
  }

  /** Replacing the parent assembly by a text that normalizes alike leaves
      the listed normalization alike. */
  lemma ReplaceParentAssembly(n: Normalizer, d: Derived, t: Option<string>, pa: bool, pa': bool, ty: bool, ft: bool)
    requires NormalizedText(n, pa, t) == NormalizedText(n, pa', d.parentAssembly)
    ensures NormalizedFields(n, d.(parentAssembly := t), pa, ty, ft) == NormalizedFields(n, d, pa', ty, ft)
  {
    var e := d.(parentAssembly := t);
    assert TypeAttr(e) == TypeAttr(d) && FileTypeAttr(e) == FileTypeAttr(d);
  }

  /** Normalizing the type's text first changes nothing the listed
      normalization does not. */
  lemma StepType(n: Normalizer, d: Derived, pa: bool, ty: bool, ft: bool)
    requires TypeAttr(d).Some?
    ensures NormalizedFields(n, d.(typeText := Some(Normalized(n, TypeAttr(d).value))), pa, ty, ft) ==
            NormalizedFields(n, d, pa, true, ft)
  {
    NormalizedIdempotent(n, TypeAttr(d).value);
  }

  /** Normalizing the file type's text first changes nothing the listed
      normalization does not. */
  lemma StepFileType(n: Normalizer, d: Derived, pa: bool, ty: bool, ft: bool)
    requires FileTypeAttr(d).Some?
    ensures NormalizedFields(n, d.(fileTypeText := Some(Normalized(n, FileTypeAttr(d).value))), pa, ty, ft) ==
            NormalizedFields(n, d, pa, ty, true)
  {
    NormalizedIdempotent(n, FileTypeAttr(d).value);
  }

  /** `normalize_name`: each listed column ends up normalized exactly once,
      however often it is listed, because normalizing is idempotent. */
  lemma {:induction false} NormalizeColumnsMeaning(n: Normalizer, p: Part, keys: seq<string>)
    ensures NormalizeColumns(n, p, keys).Ok? ==> NormalizedFrom(n, p, NormalizeColumns(n, p, keys).value, keys)
    decreases |keys|
  {
    if |keys| > 0 && NormalizeColumn(n, p, keys[0]).Ok? {
      var q := NormalizeColumn(n, p, keys[0]).value;
      NormalizeColumnsMeaning(n, q, keys[1..]);
      NormalizeColumnsUnfold(n, p, keys, q);
      if NormalizeColumns(n, q, keys[1..]).Ok? {
        NormalizeColumnsHead(n, p, keys, q, NormalizeColumns(n, q, keys[1..]).value);
      }
    }
  }

  /** After the first column, the rest are normalized in order. */
  lemma NormalizeColumnsUnfold(n: Normalizer, p: Part, keys: seq<string>, q: Part)
    requires |keys| > 0 && NormalizeColumn(n, p, keys[0]) == Ok(q)
    ensures NormalizeColumns(n, p, keys) == NormalizeColumns(n, q, keys[1..])
  {
  }

  /** `NormalizeColumnsStep` on a list split at its head. */
  lemma NormalizeColumnsHead(n: Normalizer, p: Part, keys: seq<string>, q: Part, r: Part)
    requires |keys| > 0 && NormalizeColumn(n, p, keys[0]) == Ok(q) && NormalizedFrom(n, q, r, keys[1..])
    ensures NormalizedFrom(n, p, r, keys)
  {
    HeadTail(keys);
    NormalizeColumnsStep(n, p, keys[0], keys[1..], q, r);
  }

  lemma HeadTail(keys: seq<string>)
    requires |keys| > 0
    ensures keys == [keys[0]] + keys[1..]
  {
  }

  /** One column normalized, then the rest as listed: together, the whole
      list as listed. */
  lemma NormalizeColumnsStep(n: Normalizer, p: Part, key: string, rest: seq<string>, q: Part, r: Part)
    requires NormalizeColumn(n, p, key) == Ok(q) && NormalizedFrom(n, q, r, rest)
    ensures NormalizedFrom(n, p, r, [key] + rest)
  {
    var keys := [key] + rest;
    NormalizeStepDerived(n, p, key, rest, q, r);
    forall j | 0 <= j < |p.raw|
      ensures r.raw[j].0 == p.raw[j].0
      ensures if p.raw[j].0 in keys && p.raw[j].0 !in DerivedNames
              then RawLookup(p.raw, p.raw[j].0).Some? && r.raw[j].1 == Normalized(n, RawLookup(p.raw, p.raw[j].0).value)
              else r.raw[j].1 == p.raw[j].1
    {
      NormalizeStepRaw(n, p, key, rest, q, r, j);
    }
  }

  /** `normalize_name`. */
  function NormalizeStage(s: Settings, p: Part): (r: Result<Part>)
    ensures s.normalizedColumns.None? ==> r == Err(TypeError)
    ensures r.Ok? ==> s.normalizedColumns.Some? && NormalizedFrom(Current, p, r.value, s.normalizedColumns.value)
  {
    match s.normalizedColumns
    case None => Err(TypeError)
    case Some(keys) =>
      NormalizeColumnsMeaning(Current, p, keys);
      NormalizeColumns(Current, p, keys)
  }

  /** Listing `type` among the normalized columns title-cases the name of a
      set type: the attribute then reads as no type at all, so
      `get_file_type` no longer sees a production part, and the tree list's
      key raises ValueError on its first letter. */
  lemma NormalizedTypeUnreadable(s: Settings, p: Part)
    requires NormalizeStage(s, p).Ok? && "type" in s.normalizedColumns.value
    requires p.derived.partType.Some? && p.derived.typeText.None?
    ensures var d := NormalizeStage(s, p).value.derived;
            && d.partType == p.derived.partType
            && TypeAttr(d) == Some(Normalized(Current, TypeName(p.derived.partType.value)))
            && NamedType(d).None?
            && TypeKey(d) == Err(ValueError)
  {
    var d := NormalizeStage(s, p).value.derived;
    var name := TypeName(p.derived.partType.value);
    NormalizedTypeText(s, p);
    assert IsLower(name[0]) by {
      match p.derived.partType.value
      case Production =>
      case Purchased =>
      case Fastener =>
      case Junk =>
    }
    NormalizedCapitalizes(Current, name);
    CapitalNamesNoType(d);
  }

  /** With `type` among the normalized columns, the type reads back as its
      name normalized. */
  lemma NormalizedTypeText(s: Settings, p: Part)
    requires NormalizeStage(s, p).Ok? && "type" in s.normalizedColumns.value
    requires p.derived.typeText.None?
    ensures var d := NormalizeStage(s, p).value.derived;
            && d.partType == p.derived.partType
            && TypeAttr(d) == NormalizedText(Current, true, TypeAttr(p.derived))
  {
  }

  // ---- the full-feature director ------------------------------------------

  /** The stages, by the function the director passes to `update_parts_with`. */
  datatype Step =
    | ParentIdsStep | ChildIdsStep | SetsStep | ToOrderStep | ProductionStep | FastenerStep | PurchasedStep
    | JunkByKeywordsStep | JunkByEmptyFieldsStep | JunkByNestingStep | JunkStep | TypeStep
    | ParentAssemblyStep | FileTypeStep | NormalizeStep

  /** The number of stages of `FullFeatureProcessorDirector.run`. */
  const StageCount: nat := 15

  /** The `k`-th stage of `FullFeatureProcessorDirector.run` (the last one
      from the 14th on). */
  function StepAt(k: nat): Step {
    match k
    case 0 => ParentIdsStep
    case 1 => ChildIdsStep
    case 2 => SetsStep
    case 3 => ToOrderStep
    case 4 => ProductionStep
    case 5 => FastenerStep
    case 6 => PurchasedStep
    case 7 => JunkByKeywordsStep
    case 8 => JunkByEmptyFieldsStep
    case 9 => JunkByNestingStep
    case 10 => JunkStep
    case 11 => TypeStep
    case 12 => ParentAssemblyStep
    case 13 => FileTypeStep
    case _ => NormalizeStep
  }

  /** What a successful stage does to a part: it sets its own field to a
      value with the stated meaning and leaves everything else alone (the
      last stage changes the listed columns and the parent assembly only). */
  predicate Writes(s: Settings, snap: Option<seq<Part>>, step: Step, p: Part, q: Part) {
    var d, e := p.derived, q.derived;
    match step
    case ParentIdsStep =>
      && q == p.(derived := d.(parent := e.parent))
      && Column(p, s.positionColumn).Ok? && e.parent.Some?
      && ProperPrefixes(e.parent.value, Column(p, s.positionColumn).value, s.delimiter)
    case ChildIdsStep =>
      && q == p.(derived := d.(child := e.child))
      && Column(p, s.positionColumn).Ok? && snap.Some? && Columns(snap.value, s.positionColumn).Ok? && e.child.Some?
      && ChildrenOf(e.child.value, SplitOpt(Column(p, s.positionColumn).value, s.delimiter),
                    Columns(snap.value, s.positionColumn).value, s.delimiter)
    case SetsStep =>
      && q == p.(derived := d.(sets := e.sets))
      && snap.Some? && e.sets.Some?
      && Sets(snap.value, d.parent, s.mainAssemblySets, Position(s), QuantityOf(s)) == Ok(e.sets.value)
    case ToOrderStep =>
      && q == p.(derived := d.(toOrder := e.toOrder))
      && QuantityOf(s)(p).Ok? && d.sets.Some? && e.toOrder == Some(QuantityOf(s)(p).value * d.sets.value)
    case ProductionStep =>
      && q == p.(derived := d.(isProduction := e.isProduction))
      && ProductionTest(s, p).Ok? && e.isProduction == Some(ProductionTest(s, p).value)
    case FastenerStep =>
      q == p.(derived := d.(isFastener := e.isFastener)) && e.isFastener.Some?
    case PurchasedStep =>
      && q == p.(derived := d.(isPurchased := e.isPurchased))
      && e.isPurchased == Some(!IsSet(d.isProduction) && !IsSet(d.isFastener))
    case JunkByKeywordsStep =>
      q == p.(derived := d.(isJunkByKeywords := e.isJunkByKeywords)) && e.isJunkByKeywords.Some?
    case JunkByEmptyFieldsStep =>
      q == p.(derived := d.(isJunkByEmptyFields := e.isJunkByEmptyFields)) && e.isJunkByEmptyFields.Some?
    case JunkByNestingStep =>
      q == p.(derived := d.(isJunkByNesting := e.isJunkByNesting)) && e.isJunkByNesting.Some?
    case JunkStep =>
      && q == p.(derived := d.(isJunk := e.isJunk))
      && e.isJunk == Some(IsSet(d.isJunkByKeywords) || IsSet(d.isJunkByEmptyFields) || IsSet(d.isJunkByNesting))
    case TypeStep =>
      q == p.(derived := d.(partType := e.partType, typeText := None)) && e.partType == GetType(d)
    case ParentAssemblyStep =>
      q == p.(derived := d.(parentAssembly := e.parentAssembly)) && e.parentAssembly.Some?
    case FileTypeStep =>
      && q == p.(derived := d.(fileType := e.fileType, fileTypeText := None))
      && e.fileType.Some? && GetFileType(d.child, NamedType(d)) == Ok(e.fileType.value)
    case NormalizeStep =>
      s.normalizedColumns.Some? && NormalizedFrom(Current, p, q, s.normalizedColumns.value)
  }

  /** One stage applied to one part. */
  function Stage(s: Settings, snap: Option<seq<Part>>, step: Step, p: Part): (r: Result<Part>)
    ensures r.Ok? ==> Writes(s, snap, step, p, r.value)
  {
    match step
    case ParentIdsStep => ParentIdsStage(s, p)
    case ChildIdsStep => ChildIdsStage(s, snap, p)
    case SetsStep => SetsStage(s, snap, p)
    case ToOrderStep => ToOrderStage(s, p)
    case ProductionStep => ProductionStage(s, p)
    case FastenerStep => Ok(FastenerStage(s, p))
    case PurchasedStep => Ok(PurchasedStage(p))
    case JunkByKeywordsStep => JunkByKeywordsStage(s, p)
    case JunkByEmptyFieldsStep => JunkByEmptyFieldsStage(s, p)
    case JunkByNestingStep => JunkByNestingStage(s, snap, p)
    case JunkStep => Ok(JunkStage(p))
    case TypeStep => Ok(TypeStage(p))
    case ParentAssemblyStep => ParentAssemblyStage(s, snap, p)
    case FileTypeStep => FileTypeStage(p)
    case NormalizeStep => NormalizeStage(s, p)
  }

  /** A stage as the step `part_modifier` runs on each part: no running
      state, the snapshot fixed for the whole pass. */
  function StepFn(s: Settings, snap: Option<seq<Part>>, step: Step): ((), seq<Part>, Part) -> Result<((), Part)> {
    (u: (), cur: seq<Part>, p: Part) =>
      match Stage(s, snap, step, p)
      case Ok(q) => Ok(((), q))
      case Err(e) => Err(e)
  }

  /** The `i`-th stage as the step `part_modifier` runs, with the snapshot
      `snap`. */
  function Stages(s: Settings, snap: Option<seq<Part>>): nat -> ((), seq<Part>, Part) -> Result<((), Part)> {
    (i: nat) => StepFn(s, snap, StepAt(i))
  }

  /** `FullFeatureProcessorDirector.run` under `prepare_and_finish_processing`,
      with `update_parts_with` taken to be `part_modifier`'s loop: after
      initialization, one pass per stage over the processed list, stopping
      at the first exception. */
  function Director(s: Settings, proc: Processor): (r: Outcome<()>)
    ensures r.proc.initial == proc.bomParts
    ensures r.result.Err? ==> r.proc.bomParts == proc.bomParts
    ensures r.result.Ok? ==> r.proc.bomParts == r.proc.processed
    ensures proc.bomParts.None? ==> r.result == Err(TypeError)
    ensures UndoProcessing(r.proc).bomParts == proc.bomParts
  {
    PrepareAndFinish(proc, (q: Processor) => RunStages(q, Stages(s, q.initial), 0, StageCount))
  }

  /** The director as written: the processor has no `update_parts_with`, so
      the first line of `run` raises AttributeError after initialization,
      and the BOM keeps its list. */
  function DirectorAsWritten(proc: Processor): (r: Outcome<()>)
    ensures r.result == Err(AttributeError)
    ensures r.proc.bomParts == proc.bomParts && r.proc.initial == proc.bomParts && r.proc.processed == proc.bomParts
  {
    PrepareAndFinish(proc, (q: Processor) => Outcome(q, Err(AttributeError)))
  }

  /** The parent ids are the proper prefixes of the original position. */
  predicate ParentFact(s: Settings, o: Part, parent: Option<seq<string>>) {
    Column(o, s.positionColumn).Ok? && parent.Some? &&
    ProperPrefixes(parent.value, Column(o, s.positionColumn).value, s.delimiter)
  }

  /** The child ids are exactly the snapshot positions one level below. */
  predicate ChildFact(s: Settings, snap: Option<seq<Part>>, o: Part, child: Option<seq<string>>) {
    Column(o, s.positionColumn).Ok? && snap.Some? && Columns(snap.value, s.positionColumn).Ok? &&
    child.Some? && ChildrenOf(child.value, SplitOpt(Column(o, s.positionColumn).value, s.delimiter),
                              Columns(snap.value, s.positionColumn).value, s.delimiter)
  }

  /** The sets are what `get_sets` computes from the parent ids. */
  predicate SetsFact(s: Settings, snap: Option<seq<Part>>, parent: Option<seq<string>>, sets: Option<int>) {
    snap.Some? && sets.Some? &&
    Sets(snap.value, parent, s.mainAssemblySets, Position(s), QuantityOf(s)) == Ok(sets.value)
  }

  /** The quantity to order is the original quantity times the sets. */
  predicate ToOrderFact(s: Settings, o: Part, sets: Option<int>, toOrder: Option<int>) {
    QuantityOf(s)(o).Ok? && sets.Some? && toOrder == Some(QuantityOf(s)(o).value * sets.value)
  }

  /** The production flag is the keyword test on the original number. */
  predicate ProductionFact(s: Settings, o: Part, isProduction: Option<bool>) {
    ProductionTest(s, o).Ok? && isProduction == Some(ProductionTest(s, o).value)
  }

  /** The type and file type follow from the flags and the child ids. */
  predicate FileTypeFact(d: Derived) {
    d.fileType.Some? && GetFileType(d.child, d.partType) == Ok(d.fileType.value)
  }

  /** What the stages before the `k`-th have established about the part `c`
      that started as `o`: every fact is stated against the original columns,
      which only the last stage changes. */
  predicate Facts(s: Settings, snap: Option<seq<Part>>, k: nat, o: Part, c: Part) {
    var d := c.derived;
    && (k < StageCount ==> c.raw == o.raw)
    && (k >= StageCount ==> s.normalizedColumns.Some? && RawNormalized(Current, o.raw, c.raw, s.normalizedColumns.value))
    && (k >= 1 ==> ParentFact(s, o, d.parent))
    && (k >= 2 ==> ChildFact(s, snap, o, d.child))
    && (k >= 3 ==> SetsFact(s, snap, d.parent, d.sets))
    && (k >= 4 ==> ToOrderFact(s, o, d.sets, d.toOrder))
    && (k >= 5 ==> ProductionFact(s, o, d.isProduction))
    && (k >= 6 ==> d.isFastener.Some?)
    && (k >= 7 ==> d.isPurchased == Some(!IsSet(d.isProduction) && !IsSet(d.isFastener)))
    && (k >= 8 ==> d.isJunkByKeywords.Some?)
    && (k >= 9 ==> d.isJunkByEmptyFields.Some?)
    && (k >= 10 ==> d.isJunkByNesting.Some?)
    && (k >= 11 ==> d.isJunk == Some(IsSet(d.isJunkByKeywords) || IsSet(d.isJunkByEmptyFields) || IsSet(d.isJunkByNesting)))
    && (k >= 12 ==> d.partType == GetType(d))
    && (12 <= k < StageCount ==> d.typeText.None?)
    && (k >= 13 ==> d.parentAssembly.Some?)
    && (k >= 14 ==> FileTypeFact(d))
  }

  /** Each stage adds its fact and keeps the earlier ones. */
  lemma FactsStep(s: Settings, snap: Option<seq<Part>>, k: nat, o: Part, c: Part, c': Part)
    requires k < StageCount && Facts(s, snap, k, o, c) && Writes(s, snap, StepAt(k), c, c')
    ensures Facts(s, snap, k + 1, o, c')
  {
    match k
    case 0 => FactsAfterParentIds(s, snap, o, c, c');
    case 1 => FactsAfterChildIds(s, snap, o, c, c');
    case 2 => FactsAfterSets(s, snap, o, c, c');
    case 3 => FactsAfterToOrder(s, snap, o, c, c');
    case 4 => FactsAfterProduction(s, snap, o, c, c');
    case 5 => FactsAfterFastener(s, snap, o, c, c');
    case 6 => FactsAfterPurchased(s, snap, o, c, c');
    case 7 => FactsAfterJunkByKeywords(s, snap, o, c, c');
    case 8 => FactsAfterJunkByEmptyFields(s, snap, o, c, c');
    case 9 => FactsAfterJunkByNesting(s, snap, o, c, c');
    case 10 => FactsAfterJunk(s, snap, o, c, c');
    case 11 => FactsAfterType(s, snap, o, c, c');
    case 12 => FactsAfterParentAssembly(s, snap, o, c, c');
    case 13 => FactsAfterFileType(s, snap, o, c, c');
    case _ => FactsNormalized(s, snap, o, c, c');
  }

  lemma FactsAfterParentIds(s: Settings, snap: Option<seq<Part>>, o: Part, c: Part, c': Part)
    requires Facts(s, snap, 0, o, c) && Writes(s, snap, ParentIdsStep, c, c')
    ensures Facts(s, snap, 1, o, c')
  {
  }

  lemma FactsAfterChildIds(s: Settings, snap: Option<seq<Part>>, o: Part, c: Part, c': Part)
    requires Facts(s, snap, 1, o, c) && Writes(s, snap, ChildIdsStep, c, c')
    ensures Facts(s, snap, 2, o, c')
  {
  }

  lemma FactsAfterSets(s: Settings, snap: Option<seq<Part>>, o: Part, c: Part, c': Part)
    requires Facts(s, snap, 2, o, c) && Writes(s, snap, SetsStep, c, c')
    ensures Facts(s, snap, 3, o, c')
  {
  }

  lemma FactsAfterToOrder(s: Settings, snap: Option<seq<Part>>, o: Part, c: Part, c': Part)
    requires Facts(s, snap, 3, o, c) && Writes(s, snap, ToOrderStep, c, c')
    ensures Facts(s, snap, 4, o, c')
  {
  }

  lemma FactsAfterProduction(s: Settings, snap: Option<seq<Part>>, o: Part, c: Part, c': Part)
    requires Facts(s, snap, 4, o, c) && Writes(s, snap, ProductionStep, c, c')
    ensures Facts(s, snap, 5, o, c')
  {
    assert c'.raw == c.raw == o.raw;
    assert c'.derived == c.derived.(isProduction := c'.derived.isProduction);
    assert ProductionTest(s, c) == ProductionTest(s, o) by {
      assert Column(c, s.numberColumn) == Column(o, s.numberColumn);
    }
  }

  lemma FactsAfterFastener(s: Settings, snap: Option<seq<Part>>, o: Part, c: Part, c': Part)
    requires Facts(s, snap, 5, o, c) && Writes(s, snap, FastenerStep, c, c')
    ensures Facts(s, snap, 6, o, c')
  {
  }

  lemma FactsAfterPurchased(s: Settings, snap: Option<seq<Part>>, o: Part, c: Part, c': Part)
    requires Facts(s, snap, 6, o, c) && Writes(s, snap, PurchasedStep, c, c')
    ensures Facts(s, snap, 7, o, c')
  {
  }

  lemma FactsAfterJunkByKeywords(s: Settings, snap: Option<seq<Part>>, o: Part, c: Part, c': Part)
    requires Facts(s, snap, 7, o, c) && Writes(s, snap, JunkByKeywordsStep, c, c')
    ensures Facts(s, snap, 8, o, c')
  {
  }

  lemma FactsAfterJunkByEmptyFields(s: Settings, snap: Option<seq<Part>>, o: Part, c: Part, c': Part)
    requires Facts(s, snap, 8, o, c) && Writes(s, snap, JunkByEmptyFieldsStep, c, c')
    ensures Facts(s, snap, 9, o, c')
  {
  }

  lemma FactsAfterJunkByNesting(s: Settings, snap: Option<seq<Part>>, o: Part, c: Part, c': Part)
    requires Facts(s, snap, 9, o, c) && Writes(s, snap, JunkByNestingStep, c, c')
    ensures Facts(s, snap, 10, o, c')
  {
  }

  lemma FactsAfterJunk(s: Settings, snap: Option<seq<Part>>, o: Part, c: Part, c': Part)
    requires Facts(s, snap, 10, o, c) && Writes(s, snap, JunkStep, c, c')
    ensures Facts(s, snap, 11, o, c')
  {
  }

  lemma FactsAfterType(s: Settings, snap: Option<seq<Part>>, o: Part, c: Part, c': Part)
    requires Facts(s, snap, 11, o, c) && Writes(s, snap, TypeStep, c, c')
    ensures Facts(s, snap, 12, o, c')
  {
    var d, d' := c.derived, c'.derived;
    assert c'.raw == c.raw;
    assert d' == d.(partType := d'.partType, typeText := None);
    assert GetType(d') == GetType(d);
  }

  lemma FactsAfterParentAssembly(s: Settings, snap: Option<seq<Part>>, o: Part, c: Part, c': Part)
    requires Facts(s, snap, 12, o, c) && Writes(s, snap, ParentAssemblyStep, c, c')
    ensures Facts(s, snap, 13, o, c')
  {
    var d, d' := c.derived, c'.derived;
    assert c'.raw == c.raw;
    assert d' == d.(parentAssembly := d'.parentAssembly);
    assert GetType(d') == GetType(d);
  }

  lemma FactsAfterFileType(s: Settings, snap: Option<seq<Part>>, o: Part, c: Part, c': Part)
    requires Facts(s, snap, 13, o, c) && Writes(s, snap, FileTypeStep, c, c')
    ensures Facts(s, snap, 14, o, c')
  {
    var d, d' := c.derived, c'.derived;
    assert c'.raw == c.raw;
    assert d' == d.(fileType := d'.fileType, fileTypeText := None);
    assert GetType(d') == GetType(d);
    assert NamedType(d) == d.partType;
  }

  /** The last stage changes the listed columns and the parent assembly,
      which no fact depends on except through being set. */
  lemma FactsNormalized(s: Settings, snap: Option<seq<Part>>, o: Part, c: Part, c': Part)
    requires Facts(s, snap, 14, o, c) && Writes(s, snap, NormalizeStep, c, c')
    ensures Facts(s, snap, 15, o, c')
  {
    var d, d' := c.derived, c'.derived;
    assert d' == d.(parentAssembly := d'.parentAssembly, typeText := d'.typeText, fileTypeText := d'.fileTypeText);
    assert GetType(d') == GetType(d);
    assert FileTypeFact(d') == FileTypeFact(d);
  }


  /** The facts as an invariant indexed by stage. */
  function FactsInv(s: Settings, snap: Option<seq<Part>>): (nat, Part, Part) -> bool {
    (k: nat, o: Part, c: Part) => Facts(s, snap, k, o, c)
  }

  /** Each stage's step takes the facts before it to the facts after it. */
  lemma StagesKeepFacts(s: Settings, snap: Option<seq<Part>>)
    ensures forall i, st, cur, o, p :: 0 <= i < StageCount && FactsInv(s, snap)(i, o, p) && Stages(s, snap)(i)(st, cur, p).Ok? ==>
                                       FactsInv(s, snap)(i + 1, o, Stages(s, snap)(i)(st, cur, p).value.1)
  {
    forall i, st, cur, o, p | 0 <= i < StageCount && FactsInv(s, snap)(i, o, p) && Stages(s, snap)(i)(st, cur, p).Ok?
      ensures FactsInv(s, snap)(i + 1, o, Stages(s, snap)(i)(st, cur, p).value.1)
    {
      var q := Stage(s, snap, StepAt(i), p).value;
      FactsStep(s, snap, i, o, p, q);
    }
  }

  /** What the director promises of each part `c` of the committed list that
      started as `o`: all the stage facts, a type, and an assembly only for a
      production part that is not junk. */
  predicate Processed(s: Settings, snap: Option<seq<Part>>, o: Part, c: Part) {
    && Facts(s, snap, StageCount, o, c)
    && c.derived.partType.Some?
    && (c.derived.fileType == Some(AssemblyFile) ==> c.derived.partType == Some(Production) && !IsSet(c.derived.isJunk))
  }

  /** After the last stage a part has a type, and only a production part
      that is not junk can be an assembly. */
  lemma FactsProcessed(s: Settings, snap: Option<seq<Part>>, o: Part, c: Part)
    requires Facts(s, snap, StageCount, o, c)
    ensures Processed(s, snap, o, c)
  {
    var d := c.derived;
    TypeTotalAfterPurchased(d);
    if d.fileType == Some(AssemblyFile) {
      AssemblyNotJunk(d);
    }
  }

  /** A successful director run replaces the BOM's list by one of the same
      length whose every part is processed from the part at the same place;
      a failed run leaves the BOM's list alone. */
  lemma DirectorOutcome(s: Settings, proc: Processor)
    ensures var r := Director(s, proc);
            && (r.result.Err? ==> r.proc.bomParts == proc.bomParts)
            && (r.result.Ok? ==>
                  && proc.bomParts.Some? && r.proc.bomParts.Some?
                  && |r.proc.bomParts.value| == |proc.bomParts.value|
                  && forall j :: 0 <= j < |proc.bomParts.value| ==>
                       Processed(s, proc.bomParts, proc.bomParts.value[j], r.proc.bomParts.value[j]))
  {
    var q := RunInitialization(proc);
    var snap := proc.bomParts;
    var mid := RunStages(q, Stages(s, snap), 0, StageCount);
    var r := Director(s, proc);
    if r.result.Ok? {
      var orig := proc.bomParts.value;
      InitialFacts(s, snap, orig);
      StagesKeepFacts(s, snap);
      RunStagesKeep(q, Stages(s, snap), 0, StageCount, orig, FactsInv(s, snap));
      var done := mid.proc.processed.value;
      assert r.proc.bomParts == Some(done);
      AllProcessed(s, snap, orig, done);
    }
  }

  /** Before the first stage every part stands in the facts to itself. */
  lemma InitialFacts(s: Settings, snap: Option<seq<Part>>, orig: seq<Part>)
    ensures AllRelated(FactsInv(s, snap), 0, orig, Some(orig))
  {
    forall j | 0 <= j < |orig| ensures FactsInv(s, snap)(0, orig[j], orig[j]) {
    }
  }

  /** Parts carrying all the stage facts are processed. */
  lemma AllProcessed(s: Settings, snap: Option<seq<Part>>, orig: seq<Part>, done: seq<Part>)
    requires AllRelated(FactsInv(s, snap), StageCount, orig, Some(done))
    ensures |done| == |orig|
    ensures forall j :: 0 <= j < |orig| ==> Processed(s, snap, orig[j], done[j])
  {
    forall j | 0 <= j < |orig| ensures Processed(s, snap, orig[j], done[j]) {
      assert FactsInv(s, snap)(StageCount, orig[j], done[j]);
      FactsProcessed(s, snap, orig[j], done[j]);
    }
  }

  /** A BOM where the as-written nesting stage alters the snapshot: part
      1-1 sits under part 1, and with no production keywords part 1 is not
      production, so the snapshot copy of part 1 gets `is_production` False
      and undo would bring back a part 1 that was never in the BOM. */
  lemma NestingWritesSnapshot()
    ensures var s := Settings("p", "q", "n", "m", Some('-'), KwList([]), KwNone, KwNone, true, None, "A", 1, []);
            var parent := Part([("p", "1"), ("n", "X")], Unset);
            var child := Part([("p", "1-1"), ("n", "Y")], Unset.(parent := Some(["1"])));
            var r := JunkByNestingAsWritten(s, Some([parent]), child);
            && r.Ok? && r.value.0.Some? && |r.value.0.value| == 1
            && r.value.0.value[0].derived.isProduction == Some(false)
            && parent.derived.isProduction == None
  {
    var s := Settings("p", "q", "n", "m", Some('-'), KwList([]), KwNone, KwNone, true, None, "A", 1, []);
    var parent := Part([("p", "1"), ("n", "X")], Unset);
    assert Column(parent, "p") == Ok("1");
    var cs := Columns([parent], "p");
    assert cs.Ok? && |cs.value| == 1 && cs.value[0] == "1";
    assert cs.value == ["1"];
    assert ParentIndex(s, [parent], ["1"]) == Ok(0);
    assert ProductionTest(s, parent) == Ok(false);
  }

  // ---- the tree list ------------------------------------------------------

  /** What the tree list reads from one part: the split of its position, the
      length of its parent-id list (`len(None)` raises TypeError), the
      (type, number) sort key and the number. */
  function ViewOf(s: Settings, p: Part): (r: Result<TreeList.View>)
    ensures r.Ok? <==> && Column(p, s.positionColumn).Ok? && p.derived.parent.Some?
                       && TypeKey(p.derived).Ok? && Column(p, s.numberColumn).Ok?
    ensures r.Ok? ==> && r.value.segs == SplitOpt(Column(p, s.positionColumn).value, s.delimiter)
                      && r.value.depth == |p.derived.parent.value|
                      && r.value.key == Key(TypeKey(p.derived).value, Codes(Column(p, s.numberColumn).value))
                      && r.value.number == Codes(Column(p, s.numberColumn).value)
  {
    var position :- Column(p, s.positionColumn);
    var parent :- if p.derived.parent.Some? then Ok(p.derived.parent.value) else Err(TypeError);
    var typeKey :- TypeKey(p.derived);
    var number :- Column(p, s.numberColumn);
    Ok(TreeList.View(SplitOpt(position, s.delimiter), |parent|, Key(typeKey, Codes(number)), Codes(number)))
  }

  /** The views of a whole part list; the first part that cannot be read
      decides the exception. */
  function Views(s: Settings, parts: seq<Part>): (r: Result<seq<TreeList.View>>)
    ensures r.Ok? <==> forall j :: 0 <= j < |parts| ==> ViewOf(s, parts[j]).Ok?
    ensures r.Ok? ==> |r.value| == |parts| && forall j :: 0 <= j < |parts| ==> ViewOf(s, parts[j]) == Ok(r.value[j])
  {
    MapAll(parts, (p: Part) => ViewOf(s, p))
  }

  /** The sub-BOM of a part with view `v` in a list with views `vs`, as
      indices into the list: exactly the parts one level below it, sorted
      descending by (type, number). */
  function SubBomOf(vs: seq<TreeList.View>, v: TreeList.View): (r: seq<nat>)
    ensures forall i :: 0 <= i < |r| ==> r[i] < |vs|
    ensures forall y: nat :: y in r <==> TreeList.IsSub(vs + [v], |vs|, y)
    ensures Sorted(r, TreeList.ByKey(vs + [v]), true)
  {
    var all := vs + [v];
    var sub := TreeList.SubBom(all, |vs|);
    assert forall i :: 0 <= i < |sub| ==> sub[i] < |vs| by {
      forall i | 0 <= i < |sub| ensures sub[i] < |vs| {
        assert TreeList.IsSub(all, |vs|, sub[i]);
      }
    }
    sub
  }

  /** `get_sub_bom`: the parts of `parts` one parent id deeper than `p`
      whose leading position segments are `p`'s, in descending (type,
      number) order. */
  function GetSubBom(s: Settings, parts: seq<Part>, p: Part): (r: Result<seq<Part>>)
    ensures r.Ok? <==> ViewOf(s, p).Ok? && Views(s, parts).Ok?
    ensures r.Ok? ==> var sub := SubBomOf(Views(s, parts).value, ViewOf(s, p).value);
                      |r.value| == |sub| && forall i :: 0 <= i < |sub| ==> r.value[i] == parts[sub[i]]
  {
    var v :- ViewOf(s, p);
    var vs :- Views(s, parts);
    var sub := SubBomOf(vs, v);
    Ok(seq(|sub|, i requires 0 <= i < |sub| => parts[sub[i]]))
  }

  /** The tree list as indices into the part list. */
  function TreeOrder(s: Settings, parts: seq<Part>): (r: Result<seq<nat>>)
    ensures r.Ok? <==> Views(s, parts).Ok?
    ensures r.Ok? ==> forall i :: 0 <= i < |r.value| ==> r.value[i] < |parts|
  {
    var vs :- Views(s, parts);
    TreeList.OrderBounded(vs);
    Ok(TreeList.Order(vs))
  }

  /** `create_bom_tree_list`: the parts in tree order. */
  function CreateBomTreeList(s: Settings, parts: seq<Part>): (r: Result<seq<Part>>)
    ensures r.Ok? <==> Views(s, parts).Ok?
    ensures r.Ok? ==> var order := TreeOrder(s, parts).value;
                      |r.value| == |order| && forall i :: 0 <= i < |order| ==> r.value[i] == parts[order[i]]
  {
    var order :- TreeOrder(s, parts);
    Ok(seq(|order|, i requires 0 <= i < |order| => parts[order[i]]))
  }

  /** Parent ids computed from the part's own position make the views
      consistent: a part's generation is one more than its parent-id count. */
  lemma ViewsConsistent(s: Settings, parts: seq<Part>)
    requires Views(s, parts).Ok?
    requires forall j :: 0 <= j < |parts| ==>
               ParentFact(s, parts[j], parts[j].derived.parent) &&
               |SplitOpt(Column(parts[j], s.positionColumn).value, s.delimiter)| > 0
    ensures TreeList.Consistent(Views(s, parts).value)
  {
    var vs := Views(s, parts).value;
    forall x | 0 <= x < |vs| ensures vs[x].depth + 1 == |vs[x].segs| {
      assert ViewOf(s, parts[x]) == Ok(vs[x]);
    }
  }

  /** With parent ids from the parts' own positions, distinct positions,
      every parent present and at most 20 levels, the tree list holds every
      part of the list exactly once and nothing else. */
  lemma TreeListHoldsEachPartOnce(s: Settings, parts: seq<Part>)
    requires Views(s, parts).Ok?
    requires forall j :: 0 <= j < |parts| ==>
               ParentFact(s, parts[j], parts[j].derived.parent) &&
               |SplitOpt(Column(parts[j], s.positionColumn).value, s.delimiter)| > 0
    requires var vs := Views(s, parts).value;
             TreeList.Distinct(vs) && forall y :: 0 <= y < |vs| ==> TreeList.Placed(vs, y) && |vs[y].segs| <= Tree.LastGeneration
    ensures TreeOrder(s, parts).Ok?
    ensures Tree.NoDups(TreeOrder(s, parts).value)
    ensures forall y: nat :: y in TreeOrder(s, parts).value <==> y < |parts|
  {
    ViewsConsistent(s, parts);
    TreeList.OrderPermutation(Views(s, parts).value);
  }
}

=== FILE: quantity.dfy ===
/** Quantity propagation (`get_sets` / `get_to_order` in
    web_app/functions/processor.py, `set_sets` / `set_to_order` in
    web_app/models/bom_processor_methods.py, `_get_sets` / `_get_to_order` in
    web_app/models.py).

    All three generations run the same double loop: for each instance of the
    part list, for each parent id of the part, an instance at that position
    contributes its quantity; `sets` is the main-assembly multiplier times the
    product of the contributions.  They differ only in how a position and a
    quantity are read, so those readers are parameters here.
 */
module Quantity {
  import opened Wrappers
  import opened Parts

  /** Product of a list of integers (`math.prod`; 1 for the empty list). */
  function Product(xs: seq<int>): int
    decreases |xs|
  {
    if |xs| == 0 then 1 else xs[0] * Product(xs[1..])
  }

  lemma {:induction false} ProductAppend(a: seq<int>, b: seq<int>)
    ensures Product(a + b) == Product(a) * Product(b)
    decreases |a|
  {
    if |a| > 0 {
      ProductAppend(a[1..], b);
      assert (a + b)[1..] == a[1..] + b;
      var x, pa, pb := a[0], Product(a[1..]), Product(b);
      assert Product(a + b) == x * (pa * pb);
      assert x * (pa * pb) == (x * pa) * pb;
    } else {
      assert a + b == b;
    }
  }

  /** How many of `ids` equal `p`. */
  function Count(ids: seq<string>, p: string): (n: nat)
    ensures n <= |ids|
    ensures n > 0 <==> p in ids
    decreases |ids|
  {
    if |ids| == 0 then 0 else (if ids[0] == p then 1 else 0) + Count(ids[1..], p)
  }

  /** `n` copies of `q`. */
  function Repeat(q: int, n: nat): (r: seq<int>)
    ensures |r| == n
    ensures forall k :: 0 <= k < n ==> r[k] == q
  {
    seq(n, k => q)
  }

  /** The contributions of one instance to the inner loop over the parent
      ids: its quantity once per parent id equal to its position.  The loop
      reads the position once per parent id, so an instance without a position
      fails only when there are parent ids; it reads the quantity only on a
      match. */
  function InstanceFactors(inst: Part, ids: seq<string>, position: Part -> Result<string>,
                           quantity: Part -> Result<int>): (r: Result<seq<int>>)
    ensures ids == [] ==> r == Ok([])
    ensures r.Ok? ==> |r.value| <= |ids|
  {
    if |ids| == 0 then Ok([])
    else match position(inst)
      case Err(e) => Err(e)
      case Ok(p) =>
        if p !in ids then Ok([])
        else match quantity(inst)
          case Err(e) => Err(e)
          case Ok(q) => Ok(Repeat(q, Count(ids, p)))
  }

  /** `parent_sets` after the double loop over `instances` and `ids`. */
  function ParentSets(instances: seq<Part>, ids: seq<string>, position: Part -> Result<string>,
                      quantity: Part -> Result<int>): (r: Result<seq<int>>)
    ensures ids == [] ==> r == Ok([])
    decreases |instances|
  {
    if |instances| == 0 then Ok([])
    else
      var r := Then(InstanceFactors(instances[0], ids, position, quantity),
                    ParentSets(instances[1..], ids, position, quantity));
      assert ids == [] ==> r == Ok([] + []);
      r
  }

  /** Two successive steps of a loop building one list: the first failure
      wins, otherwise the lists are concatenated. */
  function Then(a: Result<seq<int>>, b: Result<seq<int>>): (r: Result<seq<int>>)
    ensures r.Ok? <==> a.Ok? && b.Ok?
    ensures r.Ok? ==> r.value == a.value + b.value
    ensures a.Err? ==> r == a
    ensures a.Ok? && b.Err? ==> r == b
  {
    if a.Err? then a else if b.Err? then b else Ok(a.value + b.value)
  }

  /** `get_sets`: main-assembly sets times the product of the parent
      contributions.  Iterating a part whose parent ids were never computed
      (None) raises TypeError, but only once there is an instance to loop over. */
  function Sets(instances: seq<Part>, ids: Option<seq<string>>, mainSets: int,
                position: Part -> Result<string>, quantity: Part -> Result<int>): (r: Result<int>)
    ensures |instances| == 0 ==> r == Ok(mainSets)
    ensures ids == Some([]) ==> r == Ok(mainSets)
    ensures ids.None? && |instances| > 0 ==> r == Err(TypeError)
  {
    if |instances| == 0 then Ok(mainSets)
    else match ids
      case None => Err(TypeError)
      case Some(ps) =>
        match ParentSets(instances, ps, position, quantity)
        case Err(e) => Err(e)
        case Ok(fs) => Ok(Product(fs) * mainSets)
  }

  /** `get_to_order`: the part's quantity times its sets; `int * None` raises
      TypeError when sets were never computed (the quantity is read first). */
  function ToOrder(q: Result<int>, sets: Option<int>): (r: Result<int>)
    ensures q.Err? ==> r == Err(q.error)
    ensures q.Ok? && sets.None? ==> r == Err(TypeError)
    ensures q.Ok? && sets.Some? ==> r == Ok(q.value * sets.value)
  {
    var n :- q;
    match sets
    case None => Err(TypeError)
    case Some(s) => Ok(n * s)
  }

  /** The contribution of the instances at position `x`: the product of their
      quantities (1 when no instance sits there). */
  function QtyAt(instances: seq<Part>, x: string, position: Part -> Result<string>,
                 quantity: Part -> Result<int>): Result<int>
  {
    var fs :- ParentSets(instances, [x], position, quantity);
    Ok(Product(fs))
  }

  lemma {:induction false} CountSnoc(ids: seq<string>, x: string, p: string)
    ensures Count(ids + [x], p) == Count(ids, p) + (if x == p then 1 else 0)
    decreases |ids|
  {
    if |ids| == 0 {
      assert ([] + [x])[1..] == [];
    } else {
      CountSnoc(ids[1..], x, p);
      assert (ids + [x])[1..] == ids[1..] + [x];
    }
  }

  lemma RepeatAppend(q: int, n: nat, m: nat)
    ensures Repeat(q, n + m) == Repeat(q, n) + Repeat(q, m)
  {
  }

  /** One instance's contributions for `ids + [x]` multiply to those for `ids`
      times those for `[x]`; either part failing makes the whole fail. */
  lemma InstanceFactorsSnoc(inst: Part, ids: seq<string>, x: string,
                            position: Part -> Result<string>, quantity: Part -> Result<int>)
    ensures var all := InstanceFactors(inst, ids + [x], position, quantity);
            var front := InstanceFactors(inst, ids, position, quantity);
            var back := InstanceFactors(inst, [x], position, quantity);
            && (all.Ok? <==> front.Ok? && back.Ok?)
            && (all.Ok? ==> Product(all.value) == Product(front.value) * Product(back.value))
  {
    var all := InstanceFactors(inst, ids + [x], position, quantity);
    var front := InstanceFactors(inst, ids, position, quantity);
    var back := InstanceFactors(inst, [x], position, quantity);
    if position(inst).Ok? {
      var p := position(inst).value;
      CountSnoc(ids, x, p);
      assert p in ids + [x] <==> p in ids || p == x;
      if quantity(inst).Ok? {
        var q := quantity(inst).value;
        var n, m := Count(ids, p), (if x == p then 1 else 0);
        assert Count([x], p) == m by {
          assert [x][1..] == [];
        }
        RepeatAppend(q, n, m);
        ProductAppend(Repeat(q, n), Repeat(q, m));
        if p in ids + [x] {
          assert all.value == Repeat(q, n + m);
        }
        assert front.Ok? ==> front.value == Repeat(q, n);
        assert back.Ok? ==> back.value == Repeat(q, m);
      }
    }
  }

  /** The contributions for `ids + [x]` are, up to order, those for `ids` and
      those for `[x]`, so their product splits; either failing makes the whole
      fail. */
  lemma {:induction false} ParentSetsSnoc(instances: seq<Part>, ids: seq<string>, x: string,
                                          position: Part -> Result<string>, quantity: Part -> Result<int>)
    ensures var all := ParentSets(instances, ids + [x], position, quantity);
            var front := ParentSets(instances, ids, position, quantity);
            var back := ParentSets(instances, [x], position, quantity);
            && (all.Ok? <==> front.Ok? && back.Ok?)
            && (all.Ok? ==> Product(all.value) == Product(front.value) * Product(back.value))
    decreases |instances|
  {
    if |instances| > 0 {
      var inst := instances[0];
      ParentSetsSnoc(instances[1..], ids, x, position, quantity);
      InstanceFactorsSnoc(inst, ids, x, position, quantity);
      var all := ParentSets(instances, ids + [x], position, quantity);
      var front := ParentSets(instances, ids, position, quantity);
      var back := ParentSets(instances, [x], position, quantity);
      var iAll := InstanceFactors(inst, ids + [x], position, quantity);
      var iFront := InstanceFactors(inst, ids, position, quantity);
      var iBack := InstanceFactors(inst, [x], position, quantity);
      var rAll := ParentSets(instances[1..], ids + [x], position, quantity);
      var rFront := ParentSets(instances[1..], ids, position, quantity);
      var rBack := ParentSets(instances[1..], [x], position, quantity);
      if all.Ok? {
        assert all.value == iAll.value + rAll.value;
        assert front.value == iFront.value + rFront.value;
        assert back.value == iBack.value + rBack.value;
        ProductAppend(iAll.value, rAll.value);
        ProductAppend(iFront.value, rFront.value);
        ProductAppend(iBack.value, rBack.value);
        Regroup(Product(iFront.value), Product(iBack.value), Product(rFront.value), Product(rBack.value));
      }
    }
  }

  lemma Regroup(a: int, b: int, c: int, d: int)
    ensures (a * b) * (c * d) == (a * c) * (b * d)
  {
    assert (a * b) * (c * d) == a * (b * (c * d));
    assert b * (c * d) == c * (b * d);
    assert a * (c * (b * d)) == (a * c) * (b * d);
  }

  /** The sets of a part whose parent ids end in `x` are the sets of a part
      whose parent ids are the rest, times the quantity found at `x`: sets
      propagate down the tree one level at a time. */
  lemma SetsChain(instances: seq<Part>, ids: seq<string>, x: string, mainSets: int,
                  position: Part -> Result<string>, quantity: Part -> Result<int>)
    requires Sets(instances, Some(ids + [x]), mainSets, position, quantity).Ok?
    ensures Sets(instances, Some(ids), mainSets, position, quantity).Ok?
    ensures QtyAt(instances, x, position, quantity).Ok?
    ensures Sets(instances, Some(ids + [x]), mainSets, position, quantity).value ==
            Sets(instances, Some(ids), mainSets, position, quantity).value * QtyAt(instances, x, position, quantity).value
  {
    if |instances| > 0 {
      ParentSetsSnoc(instances, ids, x, position, quantity);
      var all := ParentSets(instances, ids + [x], position, quantity).value;
      var front := ParentSets(instances, ids, position, quantity).value;
      var back := ParentSets(instances, [x], position, quantity).value;
      Rotate(Product(front), Product(back), mainSets);
    } else {
      assert QtyAt(instances, x, position, quantity) == Ok(Product([]));
    }
  }

  lemma Rotate(a: int, b: int, m: int)
    ensures (a * b) * m == (a * m) * b
  {
  }

  /** At a position held by exactly one instance, the contribution is that
      instance's quantity. */
  lemma {:induction false} QtyAtUnique(instances: seq<Part>, x: string, k: nat,
                                       position: Part -> Result<string>, quantity: Part -> Result<int>)
    requires k < |instances|
    requires forall j :: 0 <= j < |instances| ==> position(instances[j]).Ok?
    requires position(instances[k]) == Ok(x) && quantity(instances[k]).Ok?
    requires forall j :: 0 <= j < |instances| && j != k ==> position(instances[j]) != Ok(x)
    ensures QtyAt(instances, x, position, quantity) == Ok(quantity(instances[k]).value)
    decreases |instances|
  {
    var inst := instances[0];
    assert Count([x], x) == 1 by {
      assert [x][1..] == [];
    }
    if k == 0 {
      forall j | 0 <= j < |instances[1..]| ensures position(instances[1..][j]).Ok? && position(instances[1..][j]) != Ok(x) {
        assert instances[1..][j] == instances[j + 1];
      }
      NoOtherAt(instances[1..], x, position, quantity);
      var q := quantity(inst).value;
      assert Repeat(q, 1) == [q];
      assert InstanceFactors(inst, [x], position, quantity) == Ok([q]);
      assert ParentSets(instances, [x], position, quantity) == Ok([q] + []);
      assert [q] + [] == [q];
      assert Product([q]) == q * Product([]);
    } else {
      forall j | 0 <= j < |instances[1..]| ensures position(instances[1..][j]).Ok? {
        assert instances[1..][j] == instances[j + 1];
      }
      forall j | 0 <= j < |instances[1..]| && j != k - 1 ensures position(instances[1..][j]) != Ok(x) {
        assert instances[1..][j] == instances[j + 1];
      }
      QtyAtUnique(instances[1..], x, k - 1, position, quantity);
      assert position(inst) != Ok(x);
      assert InstanceFactors(inst, [x], position, quantity) == Ok([]);
      var rest := ParentSets(instances[1..], [x], position, quantity);
      assert ParentSets(instances, [x], position, quantity) == Ok([] + rest.value);
      assert [] + rest.value == rest.value;
    }
  }

  lemma {:induction false} NoOtherAt(instances: seq<Part>, x: string,
                                     position: Part -> Result<string>, quantity: Part -> Result<int>)
    requires forall j :: 0 <= j < |instances| ==> position(instances[j]).Ok? && position(instances[j]) != Ok(x)
    ensures ParentSets(instances, [x], position, quantity) == Ok([])
    decreases |instances|
  {
    if |instances| > 0 {
      forall j | 0 <= j < |instances[1..]| ensures position(instances[1..][j]).Ok? && position(instances[1..][j]) != Ok(x) {
        assert instances[1..][j] == instances[j + 1];
      }
      NoOtherAt(instances[1..], x, position, quantity);
      assert InstanceFactors(instances[0], [x], position, quantity) == Ok([]);
    }
  }

  /** `holders[n]` is the one instance at position `ids[n]`, and its quantity
      reads as `qs[n]`; every instance has a position. */
  predicate UniqueHolders(instances: seq<Part>, ids: seq<string>, holders: seq<nat>, qs: seq<int>,
                          position: Part -> Result<string>, quantity: Part -> Result<int>) {
    && |holders| == |ids| && |qs| == |ids|
    && (forall j :: 0 <= j < |instances| ==> position(instances[j]).Ok?)
    && forall n :: 0 <= n < |ids| ==>
         && holders[n] < |instances|
         && position(instances[holders[n]]) == Ok(ids[n])
         && quantity(instances[holders[n]]) == Ok(qs[n])
         && forall j :: 0 <= j < |instances| && j != holders[n] ==> position(instances[j]) != Ok(ids[n])
  }

  /** With one instance at each parent id, the contributions are exactly
      the quantities of those instances. */
  lemma {:induction false} ParentSetsHolders(instances: seq<Part>, ids: seq<string>, holders: seq<nat>, qs: seq<int>,
                                             position: Part -> Result<string>, quantity: Part -> Result<int>)
    requires UniqueHolders(instances, ids, holders, qs, position, quantity)
    ensures ParentSets(instances, ids, position, quantity).Ok?
    ensures Product(ParentSets(instances, ids, position, quantity).value) == Product(qs)
    decreases |ids|
  {
    if |ids| > 0 {
      var n := |ids| - 1;
      var front, x := ids[..n], ids[n];
      assert ids == front + [x];
      assert UniqueHolders(instances, front, holders[..n], qs[..n], position, quantity);
      ParentSetsHolders(instances, front, holders[..n], qs[..n], position, quantity);
      QtyAtUnique(instances, x, holders[n], position, quantity);
      ParentSetsSnoc(instances, front, x, position, quantity);
      assert qs == qs[..n] + [qs[n]];
      ProductAppend(qs[..n], [qs[n]]);
      assert Product([qs[n]]) == qs[n] * Product([]);
    }
  }

  /** `get_sets` is the main-assembly sets times the quantities of all the
      part's ancestors, when each ancestor position is held by one instance. */
  lemma SetsIsAncestorProduct(instances: seq<Part>, ids: seq<string>, holders: seq<nat>, qs: seq<int>, mainSets: int,
                              position: Part -> Result<string>, quantity: Part -> Result<int>)
    requires UniqueHolders(instances, ids, holders, qs, position, quantity)
    ensures Sets(instances, Some(ids), mainSets, position, quantity) == Ok(Product(qs) * mainSets)
  {
    ParentSetsHolders(instances, ids, holders, qs, position, quantity);
    if |instances| == 0 {
      assert |qs| == 0;
    }
  }
  /** `parent_sets` reads each instance only through the two readers, so
      lists the readers cannot tell apart give the same result. */
  lemma {:induction false} ParentSetsCongruent(a: seq<Part>, b: seq<Part>, ids: seq<string>,
                                               position: Part -> Result<string>, quantity: Part -> Result<int>)
    requires |a| == |b|
    requires forall j :: 0 <= j < |a| ==> position(a[j]) == position(b[j]) && quantity(a[j]) == quantity(b[j])
    ensures ParentSets(a, ids, position, quantity) == ParentSets(b, ids, position, quantity)
    decreases |a|
  {
    if |a| > 0 {
      ParentSetsCongruent(a[1..], b[1..], ids, position, quantity);
      assert InstanceFactors(a[0], ids, position, quantity) == InstanceFactors(b[0], ids, position, quantity);
    }
  }

  /** `get_sets` depends on the instances only through the two readers. */
  lemma SetsCongruent(a: seq<Part>, b: seq<Part>, ids: Option<seq<string>>, mainSets: int,
                      position: Part -> Result<string>, quantity: Part -> Result<int>)
    requires |a| == |b|
    requires forall j :: 0 <= j < |a| ==> position(a[j]) == position(b[j]) && quantity(a[j]) == quantity(b[j])
    ensures Sets(a, ids, mainSets, position, quantity) == Sets(b, ids, mainSets, position, quantity)
  {
    if ids.Some? {
      ParentSetsCongruent(a, b, ids.value, position, quantity);
    }
  }
  /** Readers that fail on the same parts and agree where they succeed
      (they may raise different exceptions) give `parent_sets` the same
      success and the same value. */
  lemma {:induction false} ParentSetsAgree(a: seq<Part>, ids: seq<string>,
                                           position: Part -> Result<string>, quantity: Part -> Result<int>,
                                           position': Part -> Result<string>, quantity': Part -> Result<int>)
    requires forall j :: 0 <= j < |a| ==> position(a[j]).Ok? == position'(a[j]).Ok? && quantity(a[j]).Ok? == quantity'(a[j]).Ok?
    requires forall j :: 0 <= j < |a| && position(a[j]).Ok? ==> position(a[j]).value == position'(a[j]).value
    requires forall j :: 0 <= j < |a| && quantity(a[j]).Ok? ==> quantity(a[j]).value == quantity'(a[j]).value
    ensures ParentSets(a, ids, position, quantity).Ok? == ParentSets(a, ids, position', quantity').Ok?
    ensures ParentSets(a, ids, position, quantity).Ok? ==>
              ParentSets(a, ids, position, quantity).value == ParentSets(a, ids, position', quantity').value
    decreases |a|
  {
    if |a| > 0 {
      assert forall j :: 1 <= j < |a| ==> a[j] == a[1..][j - 1];
      ParentSetsAgree(a[1..], ids, position, quantity, position', quantity');
    }
  }

  /** `get_sets` with such readers succeeds alike and agrees on the value. */
  lemma SetsAgree(a: seq<Part>, ids: Option<seq<string>>, mainSets: int,
                  position: Part -> Result<string>, quantity: Part -> Result<int>,
                  position': Part -> Result<string>, quantity': Part -> Result<int>)
    requires forall j :: 0 <= j < |a| ==> position(a[j]).Ok? == position'(a[j]).Ok? && quantity(a[j]).Ok? == quantity'(a[j]).Ok?
    requires forall j :: 0 <= j < |a| && position(a[j]).Ok? ==> position(a[j]).value == position'(a[j]).value
    requires forall j :: 0 <= j < |a| && quantity(a[j]).Ok? ==> quantity(a[j]).value == quantity'(a[j]).value
    ensures Sets(a, ids, mainSets, position, quantity).Ok? == Sets(a, ids, mainSets, position', quantity').Ok?
    ensures Sets(a, ids, mainSets, position, quantity).Ok? ==>
              Sets(a, ids, mainSets, position, quantity).value == Sets(a, ids, mainSets, position', quantity').value
  {
    if ids.Some? {
      ParentSetsAgree(a, ids.value, position, quantity, position', quantity');
    }
  }
}

=== FILE: sorting.dfy ===
/** The orderings the tree sequencer uses: Python's comparison of lists of ints
    and of strings, the type key of `type_sorter` (web_app/functions/functions.py)
    and of the sub-BOM sort keys, and `sorted`, which is stable also with
    `reverse=True`.
 */
module Sorting {
  import opened Wrappers
  import opened Parts

  // ---- lexicographic order ---------------------------------------------

  /** Python's `<` on lists of ints: the first difference decides, and a
      proper prefix comes first. */
  predicate LexLess(a: seq<int>, b: seq<int>)
    decreases |a|
  {
    |b| > 0 && (|a| == 0 || a[0] < b[0] || (a[0] == b[0] && LexLess(a[1..], b[1..])))
  }

  lemma {:induction false} LexIrreflexive(a: seq<int>)
    ensures !LexLess(a, a)
    decreases |a|
  {
    if |a| > 0 {
      LexIrreflexive(a[1..]);
    }
  }

  lemma {:induction false} LexTransitive(a: seq<int>, b: seq<int>, c: seq<int>)
    requires LexLess(a, b) && LexLess(b, c)
    ensures LexLess(a, c)
    decreases |a|
  {
    if |a| > 0 && a[0] == b[0] && b[0] == c[0] {
      LexTransitive(a[1..], b[1..], c[1..]);
    }
  }

  lemma {:induction false} LexTotal(a: seq<int>, b: seq<int>)
    ensures a == b || LexLess(a, b) || LexLess(b, a)
    decreases |a|
  {
    if |a| > 0 && |b| > 0 && a[0] == b[0] {
      LexTotal(a[1..], b[1..]);
      if a[1..] == b[1..] {
        assert a == [a[0]] + a[1..] && b == [b[0]] + b[1..];
      }
    }
  }

  /** The code points of a string: Python compares strings by them. */
  function Codes(s: string): (r: seq<int>)
    ensures |r| == |s|
    ensures forall i :: 0 <= i < |s| ==> r[i] == s[i] as int
  {
    seq(|s|, i requires 0 <= i < |s| => s[i] as int)
  }

  /** Equal code points mean equal strings. */
  lemma CodesInjective(a: string, b: string)
    requires Codes(a) == Codes(b)
    ensures a == b
  {
    assert |a| == |Codes(a)|;
    forall i | 0 <= i < |a| ensures a[i] == b[i] {
      assert Codes(a)[i] == Codes(b)[i];
    }
  }

  // ---- sort keys ---------------------------------------------------------

  /** A sort key `(type key, part number)`; the roots are sorted on the number
      alone, which is the key with an empty type key. */
  datatype Key = Key(typeKey: seq<int>, number: seq<int>)

  /** Python's `<` on a pair: the first components decide unless equal. */
  predicate KeyLess(a: Key, b: Key) {
    LexLess(a.typeKey, b.typeKey) || (a.typeKey == b.typeKey && LexLess(a.number, b.number))
  }

  /** `a` goes strictly before `b` in a sort in the given direction. */
  predicate Before(a: Key, b: Key, descending: bool) {
    if descending then KeyLess(b, a) else KeyLess(a, b)
  }

  lemma BeforeIrreflexive(a: Key, descending: bool)
    ensures !Before(a, a, descending)
  {
    LexIrreflexive(a.typeKey);
    LexIrreflexive(a.number);
  }

  lemma KeyTransitive(a: Key, b: Key, c: Key)
    requires KeyLess(a, b) && KeyLess(b, c)
    ensures KeyLess(a, c)
  {
    if LexLess(a.typeKey, b.typeKey) && LexLess(b.typeKey, c.typeKey) {
      LexTransitive(a.typeKey, b.typeKey, c.typeKey);
    } else if a.typeKey == b.typeKey && b.typeKey == c.typeKey {
      LexTransitive(a.number, b.number, c.number);
    }
  }

  /** What does not go before `c` does not go before anything that goes
      before `c`. */
  lemma NotBeforeVia(a: Key, b: Key, c: Key, descending: bool)
    requires Before(b, c, descending) && !Before(a, c, descending)
    ensures !Before(a, b, descending)
  {
    if Before(a, b, descending) {
      BeforeTransitive(a, b, c, descending);
    }
  }

  lemma BeforeTransitive(a: Key, b: Key, c: Key, descending: bool)
    requires Before(a, b, descending) && Before(b, c, descending)
    ensures Before(a, c, descending)
  {
    if descending {
      KeyTransitive(c, b, a);
    } else {
      KeyTransitive(a, b, c);
    }
  }

  lemma BeforeTotal(a: Key, b: Key, descending: bool)
    ensures a == b || Before(a, b, descending) || Before(b, a, descending)
  {
    LexTotal(a.typeKey, b.typeKey);
    LexTotal(a.number, b.number);
  }

  // ---- stable sort -----------------------------------------------------

  /** No element goes strictly before an earlier one. */
  predicate Sorted(s: seq<nat>, key: nat -> Key, descending: bool) {
    forall i, j :: 0 <= i < j < |s| ==> !Before(key(s[j]), key(s[i]), descending)
  }

  /** `x` placed before the first element it goes strictly before, so after
      every element with an equal key. */
  function Insert(x: nat, s: seq<nat>, key: nat -> Key, descending: bool): (r: seq<nat>)
    ensures |r| == |s| + 1
    ensures multiset(r) == multiset(s) + multiset{x}
    decreases |s|
  {
    if |s| == 0 then [x]
    else if Before(key(x), key(s[0]), descending) then [x] + s
    else
      var rest := Insert(x, s[1..], key, descending);
      assert s == [s[0]] + s[1..];
      [s[0]] + rest
  }

  /** Python's `sorted(s, key=key, reverse=descending)`, which is stable. */
  function Sort(s: seq<nat>, key: nat -> Key, descending: bool): (r: seq<nat>)
    ensures |r| == |s|
    ensures multiset(r) == multiset(s)
    decreases |s|
  {
    if |s| == 0 then []
    else
      assert s == s[..|s| - 1] + [s[|s| - 1]];
      Insert(s[|s| - 1], Sort(s[..|s| - 1], key, descending), key, descending)
  }

  lemma SortedTail(s: seq<nat>, key: nat -> Key, descending: bool)
    requires |s| > 0 && Sorted(s, key, descending)
    ensures Sorted(s[1..], key, descending)
  {
    forall i, j | 0 <= i < j < |s| - 1 ensures !Before(key(s[1..][j]), key(s[1..][i]), descending) {
      assert s[1..][j] == s[j + 1] && s[1..][i] == s[i + 1];
    }
  }

  /** No element of `t` goes strictly before `y`. */
  predicate NoneBefore(y: nat, t: seq<nat>, key: nat -> Key, descending: bool) {
    forall j :: 0 <= j < |t| ==> !Before(key(t[j]), key(y), descending)
  }

  lemma ConsSorted(y: nat, t: seq<nat>, key: nat -> Key, descending: bool)
    requires Sorted(t, key, descending) && NoneBefore(y, t, key, descending)
    ensures Sorted([y] + t, key, descending)
  {
    var r := [y] + t;
    forall i, j | 0 <= i < j < |r| ensures !Before(key(r[j]), key(r[i]), descending) {
      assert r[j] == t[j - 1];
      if i > 0 {
        assert r[i] == t[i - 1];
      }
    }
  }

  /** In a sorted list nothing goes strictly before the head. */
  lemma HeadFirst(s: seq<nat>, key: nat -> Key, descending: bool)
    requires |s| > 0 && Sorted(s, key, descending)
    ensures NoneBefore(s[0], s[1..], key, descending)
  {
    forall j | 0 <= j < |s| - 1 ensures !Before(key(s[1..][j]), key(s[0]), descending) {
      assert s[1..][j] == s[j + 1];
    }
  }

  lemma {:induction false} InsertSorted(x: nat, s: seq<nat>, key: nat -> Key, descending: bool)
    requires Sorted(s, key, descending)
    ensures Sorted(Insert(x, s, key, descending), key, descending)
    decreases |s|
  {
    if |s| > 0 {
      HeadFirst(s, key, descending);
      if Before(key(x), key(s[0]), descending) {
        forall j | 0 <= j < |s| ensures !Before(key(s[j]), key(x), descending) {
          if j == 0 {
            BeforeIrreflexive(key(s[0]), descending);
          } else {
            assert s[j] == s[1..][j - 1];
          }
          NotBeforeVia(key(s[j]), key(x), key(s[0]), descending);
        }
        ConsSorted(x, s, key, descending);
      } else {
        SortedTail(s, key, descending);
        InsertSorted(x, s[1..], key, descending);
        var rest := Insert(x, s[1..], key, descending);
        forall j | 0 <= j < |rest| ensures !Before(key(rest[j]), key(s[0]), descending) {
          var y := rest[j];
          assert y in multiset(rest);
          if y != x {
            assert y in multiset(s[1..]);
            var m :| 0 <= m < |s[1..]| && s[1..][m] == y;
          }
        }
        ConsSorted(s[0], rest, key, descending);
      }
    }
  }

  lemma {:induction false} SortSorted(s: seq<nat>, key: nat -> Key, descending: bool)
    ensures Sorted(Sort(s, key, descending), key, descending)
    decreases |s|
  {
    if |s| > 0 {
      SortSorted(s[..|s| - 1], key, descending);
      InsertSorted(s[|s| - 1], Sort(s[..|s| - 1], key, descending), key, descending);
    }
  }

  /** The elements of `s` whose key is `k`, in order. */
  function WithKey(s: seq<nat>, key: nat -> Key, k: Key): (r: seq<nat>)
    decreases |s|
  {
    if |s| == 0 then [] else (if key(s[0]) == k then [s[0]] else []) + WithKey(s[1..], key, k)
  }

  lemma {:induction false} WithKeyAppend(a: seq<nat>, b: seq<nat>, key: nat -> Key, k: Key)
    ensures WithKey(a + b, key, k) == WithKey(a, key, k) + WithKey(b, key, k)
    decreases |a|
  {
    if |a| > 0 {
      WithKeyAppend(a[1..], b, key, k);
      assert (a + b)[1..] == a[1..] + b;
      assert (a + b)[0] == a[0];
    } else {
      assert a + b == b;
    }
  }

  lemma {:induction false} WithKeyNone(s: seq<nat>, key: nat -> Key, k: Key)
    requires forall i :: 0 <= i < |s| ==> key(s[i]) != k
    ensures WithKey(s, key, k) == []
    decreases |s|
  {
    if |s| > 0 {
      assert forall i :: 0 <= i < |s| - 1 ==> s[1..][i] == s[i + 1];
      WithKeyNone(s[1..], key, k);
    }
  }

  /** Inserting keeps the elements of each key in their order, `x` last. */
  lemma {:induction false} InsertStable(x: nat, s: seq<nat>, key: nat -> Key, descending: bool, k: Key)
    requires Sorted(s, key, descending)
    ensures WithKey(Insert(x, s, key, descending), key, k) ==
            WithKey(s, key, k) + (if key(x) == k then [x] else [])
    decreases |s|
  {
    if |s| == 0 {
      assert Insert(x, s, key, descending) == [x];
      WithKeySingle(x, key, k);
    } else if Before(key(x), key(s[0]), descending) {
      InsertFrontStable(x, s, key, descending, k);
    } else {
      SortedTail(s, key, descending);
      InsertStable(x, s[1..], key, descending, k);
      InsertLaterStable(x, s, key, descending, k);
    }
  }

  /** `x` placed in front: no element of `s` shares its key. */
  lemma InsertFrontStable(x: nat, s: seq<nat>, key: nat -> Key, descending: bool, k: Key)
    requires |s| > 0 && Sorted(s, key, descending) && Before(key(x), key(s[0]), descending)
    ensures WithKey([x] + s, key, k) == WithKey(s, key, k) + (if key(x) == k then [x] else [])
  {
    WithKeySingle(x, key, k);
    WithKeyAppend([x], s, key, k);
    if key(x) == k {
      HeadFirst(s, key, descending);
      BeforeIrreflexive(key(x), descending);
      forall i | 0 <= i < |s| ensures key(s[i]) != k {
        if i > 0 {
          assert s[i] == s[1..][i - 1];
        }
      }
      WithKeyNone(s, key, k);
    }
  }

  /** `x` inserted after the head: the head's contribution comes first. */
  lemma InsertLaterStable(x: nat, s: seq<nat>, key: nat -> Key, descending: bool, k: Key)
    requires |s| > 0 && !Before(key(x), key(s[0]), descending)
    requires WithKey(Insert(x, s[1..], key, descending), key, k) ==
             WithKey(s[1..], key, k) + (if key(x) == k then [x] else [])
    ensures WithKey(Insert(x, s, key, descending), key, k) ==
            WithKey(s, key, k) + (if key(x) == k then [x] else [])
  {
    var rest := Insert(x, s[1..], key, descending);
    assert Insert(x, s, key, descending) == [s[0]] + rest;
    WithKeyAppend([s[0]], rest, key, k);
    WithKeyAppend([s[0]], s[1..], key, k);
    assert s == [s[0]] + s[1..];
  }

  /** `sorted` is stable: the elements of each key keep their input order. */
  lemma {:induction false} SortStable(s: seq<nat>, key: nat -> Key, descending: bool, k: Key)
    ensures WithKey(Sort(s, key, descending), key, k) == WithKey(s, key, k)
    decreases |s|
  {
    if |s| > 0 {
      var init := s[..|s| - 1];
      var last := s[|s| - 1];
      SortStable(init, key, descending, k);
      SortSorted(init, key, descending);
      InsertStable(last, Sort(init, key, descending), key, descending, k);
      assert s == init + [last];
      WithKeyAppend(init, [last], key, k);
      WithKeySingle(last, key, k);
    }
  }

  lemma WithKeySingle(x: nat, key: nat -> Key, k: Key)
    ensures WithKey([x], key, k) == if key(x) == k then [x] else []
  {
    assert [x][1..] == [];
  }

  // ---- reversal --------------------------------------------------------

  function Reverse(s: seq<nat>): (r: seq<nat>)
    ensures |r| == |s|
    ensures forall i :: 0 <= i < |s| ==> r[i] == s[|s| - 1 - i]
  {
    seq(|s|, i requires 0 <= i < |s| => s[|s| - 1 - i])
  }

  lemma ReverseMultiset(s: seq<nat>)
    ensures multiset(Reverse(s)) == multiset(s)
    decreases |s|
  {
    if |s| > 0 {
      ReverseMultiset(s[1..]);
      assert Reverse(s) == Reverse(s[1..]) + [s[0]];
      assert s == [s[0]] + s[1..];
    }
  }

  /** A sequence sorted one way, reversed, is sorted the other way. */
  lemma ReverseSorted(s: seq<nat>, key: nat -> Key, descending: bool)
    requires Sorted(s, key, descending)
    ensures Sorted(Reverse(s), key, !descending)
  {
    var r := Reverse(s);
    forall i, j | 0 <= i < j < |r| ensures !Before(key(r[j]), key(r[i]), !descending) {
      assert r[i] == s[|s| - 1 - i] && r[j] == s[|s| - 1 - j];
    }
  }

  lemma {:induction false} ReverseWithKey(s: seq<nat>, key: nat -> Key, k: Key)
    ensures WithKey(Reverse(s), key, k) == Reverse(WithKey(s, key, k))
    decreases |s|
  {
    if |s| > 0 {
      ReverseWithKey(s[1..], key, k);
      assert Reverse(s) == Reverse(s[1..]) + [s[0]];
      WithKeyAppend(Reverse(s[1..]), [s[0]], key, k);
      var h := if key(s[0]) == k then [s[0]] else [];
      WithKeySingle(s[0], key, k);
      var w := WithKey(s[1..], key, k);
      assert WithKey(s, key, k) == h + w;
      assert Reverse(h + w) == Reverse(w) + h;
    }
  }

  // ---- the type key ----------------------------------------------------

  /** The order string of `type_sorter` and `_get_sub_bom`. */
  const PartsOrder := "pfjabcdeghiklmnoqrstuvwxyz"

  /** Python's `s.index(c)`: the first position of `c`, ValueError if absent. */
  function IndexOf(s: string, c: char): (r: Result<nat>)
    ensures r.Err? <==> c !in s
    ensures r.Err? ==> r.error == ValueError
    ensures r.Ok? ==> r.value < |s| && s[r.value] == c && c !in s[..r.value]
    decreases |s|
  {
    if |s| == 0 then Err(ValueError)
    else if s[0] == c then Ok(0)
    else match IndexOf(s[1..], c)
      case Err(e) => Err(e)
      case Ok(i) =>
        assert s[..i + 1] == [s[0]] + s[1..][..i];
        Ok(i + 1)
  }

  /** `[order.index(c) for c in chars]`. */
  function CharKeys(order: string, chars: string): (r: Result<seq<int>>)
    ensures r.Ok? <==> forall i :: 0 <= i < |chars| ==> chars[i] in order
    ensures r.Err? ==> r.error == ValueError
    ensures r.Ok? ==> |r.value| == |chars|
    ensures r.Ok? ==> forall i :: 0 <= i < |chars| ==> r.value[i] == IndexOf(order, chars[i]).value
    decreases |chars|
  {
    if |chars| == 0 then Ok([])
    else
      var head := IndexOf(order, chars[0]);
      var tail := CharKeys(order, chars[1..]);
      assert forall i :: 1 <= i < |chars| ==> chars[i] == chars[1..][i - 1];
      if head.Err? then Err(ValueError)
      else if tail.Err? then Err(ValueError)
      else Ok([head.value] + tail.value)
  }

  /** `type_sorter`: the key of a part's type; iterating an unset type
      (None) raises TypeError. */
  function TypeSorter(t: Option<PartType>): (r: Result<seq<int>>)
    ensures r.Err? <==> t.None?
    ensures r.Err? ==> r.error == TypeError
    ensures r.Ok? ==> r == CharKeys(PartsOrder, TypeName(t.value))
  {
    match t
    case None => Err(TypeError)
    case Some(pt) =>
      TypeNameKeyed(pt);
      CharKeys(PartsOrder, TypeName(pt))
  }

  /** `type_sorter` on a part: the key of the text its `type` attribute
      holds.  Iterating an unset type raises TypeError; a letter outside the
      order string raises ValueError, and an upper-case letter is one. */
  function TypeKey(d: Derived): (r: Result<seq<int>>)
    ensures d.typeText.None? ==> r == TypeSorter(d.partType)
    ensures TypeAttr(d).None? ==> r == Err(TypeError)
    ensures TypeAttr(d).Some? && |TypeAttr(d).value| > 0 && 'A' <= TypeAttr(d).value[0] <= 'Z' ==> r == Err(ValueError)
  {
    match TypeAttr(d)
    case None => Err(TypeError)
    case Some(text) =>
      PartsOrderLower();
      CharKeys(PartsOrder, text)
  }

  /** The order string has lower-case letters only. */
  lemma PartsOrderLower()
    ensures forall i :: 0 <= i < |PartsOrder| ==> 'a' <= PartsOrder[i] <= 'z'
  {
  }

  /** Every type name is spelled with letters of the order string. */
  lemma TypeNameKeyed(t: PartType)
    ensures CharKeys(PartsOrder, TypeName(t)).Ok?
  {
    var o := PartsOrder;
    assert o[0] == 'p' && o[1] == 'f' && o[2] == 'j' && o[3] == 'a' && o[5] == 'c' && o[6] == 'd';
    assert o[7] == 'e' && o[9] == 'h' && o[10] == 'i' && o[11] == 'k' && o[14] == 'n' && o[15] == 'o';
    assert o[17] == 'r' && o[18] == 's' && o[19] == 't' && o[20] == 'u';
    var n := TypeName(t);
    forall i | 0 <= i < |n| ensures n[i] in o {
      assert n[i] in {'p', 'r', 'o', 'd', 'u', 'c', 't', 'i', 'n', 'h', 'a', 's', 'e', 'f', 'j', 'k'};
    }
  }

  /** The first occurrence of `c` is at `i`. */
  lemma IndexOfAt(s: string, c: char, i: nat)
    requires i < |s| && s[i] == c && c !in s[..i]
    ensures IndexOf(s, c) == Ok(i)
  {
    var v := IndexOf(s, c).value;
    assert forall j :: 0 <= j < v ==> s[..v][j] == s[j];
    assert forall j :: 0 <= j < i ==> s[..i][j] == s[j];
  }

  /** The places in the order string of the letters that start the type
      names, one lemma each: a single lemma holding all five unfoldings of
      `IndexOf` on the order string is too costly for the solver. */
  lemma IndexOfR()
    ensures IndexOf(PartsOrder, 'r') == Ok(17)
  {
    assert PartsOrder[..17] == "pfjabcdeghiklmnoq";
    IndexOfAt(PartsOrder, 'r', 17);
  }

  lemma IndexOfU()
    ensures IndexOf(PartsOrder, 'u') == Ok(20)
  {
    assert PartsOrder[..20] == "pfjabcdeghiklmnoqrst";
    IndexOfAt(PartsOrder, 'u', 20);
  }

  lemma IndexOfP()
    ensures IndexOf(PartsOrder, 'p') == Ok(0)
  {
    assert PartsOrder[..0] == "";
    IndexOfAt(PartsOrder, 'p', 0);
  }

  lemma IndexOfF()
    ensures IndexOf(PartsOrder, 'f') == Ok(1)
  {
    assert PartsOrder[..1] == "p";
    IndexOfAt(PartsOrder, 'f', 1);
  }

  lemma IndexOfJ()
    ensures IndexOf(PartsOrder, 'j') == Ok(2)
  {
    assert PartsOrder[..2] == "pf";
    IndexOfAt(PartsOrder, 'j', 2);
  }

  /** The first two entries of each type key. */
  lemma TypeKeyHeads(t: PartType)
    ensures TypeSorter(Some(t)).Ok?
    ensures var k := TypeSorter(Some(t)).value;
            |k| >= 2 &&
            match t
            case Production => k[0] == 0 && k[1] == 17
            case Purchased => k[0] == 0 && k[1] == 20
            case Fastener => k[0] == 1
            case Junk => k[0] == 2
  {
    var n := TypeName(t);
    TypeNameKeyed(t);
    assert |n| >= 2;
    KeyOfHeads(n);
    match t
    case Production =>
      assert n[0] == 'p' && n[1] == 'r';
      IndexOfP();
      IndexOfR();
    case Purchased =>
      assert n[0] == 'p' && n[1] == 'u';
      IndexOfP();
      IndexOfU();
    case Fastener =>
      assert n[0] == 'f';
      IndexOfF();
    case Junk =>
      assert n[0] == 'j';
      IndexOfJ();
  }

  /** The first two entries of a key are the places of the first two
      letters in the order string. */
  lemma KeyOfHeads(n: string)
    requires |n| >= 2 && CharKeys(PartsOrder, n).Ok?
    ensures var k := CharKeys(PartsOrder, n).value;
            |k| >= 2 && k[0] == IndexOf(PartsOrder, n[0]).value && k[1] == IndexOf(PartsOrder, n[1]).value
  {
  }

  /** The intended type order: production, purchased, fastener, junk. */
  function Rank(t: PartType): (r: nat)
    ensures r < 4
  {
    match t
    case Production => 0
    case Purchased => 1
    case Fastener => 2
    case Junk => 3
  }

  /** The order string sorts the types as the comment beside it says:
      production before purchased before fastener before junk. */
  lemma TypeKeyOrder(a: PartType, b: PartType)
    ensures LexLess(TypeSorter(Some(a)).value, TypeSorter(Some(b)).value) <==> Rank(a) < Rank(b)
    ensures TypeSorter(Some(a)).value == TypeSorter(Some(b)).value <==> a == b
  {
    TypeKeyHeads(a);
    TypeKeyHeads(b);
    var ka := TypeSorter(Some(a)).value;
    var kb := TypeSorter(Some(b)).value;
    if a == b {
      LexIrreflexive(ka);
    }
  }
}

=== FILE: text.dfy ===
/** ASCII string primitives the core borrows from Python's `str` and `re`.

    Python's `isdigit`, `\w`, `\s`, `upper`, `title`, `strip`, `split`, `join`,
    `in` (substring) and `int()` are restricted here to ASCII.
 */
module Text {
  import opened Wrappers

  predicate IsDigit(c: char) {
    '0' <= c <= '9'
  }

  predicate IsUpper(c: char) {
    'A' <= c <= 'Z'
  }

  predicate IsLower(c: char) {
    'a' <= c <= 'z'
  }

  predicate IsAlpha(c: char) {
    IsUpper(c) || IsLower(c)
  }

  /** The ASCII part of the regular-expression class `\w`. */
  predicate IsWordChar(c: char) {
    IsAlpha(c) || IsDigit(c) || c == '_'
  }

  /** The ASCII part of the regular-expression class `\s` (and of `str.isspace`):
      blank, tab, line feed, vertical tab, form feed, carriage return and the
      four separators 0x1C to 0x1F. */
  predicate IsSpace(c: char) {
    c == ' ' || (9 <= c as int <= 13) || (28 <= c as int <= 31)
  }

  /** Every character is a digit (true of the empty string). */
  predicate AllDigits(s: string) {
    forall i :: 0 <= i < |s| ==> IsDigit(s[i])
  }

  /** Python's `str.isdigit()`: non-empty and all digits. */
  predicate IsDigits(s: string) {
    |s| > 0 && AllDigits(s)
  }

  function Upper(c: char): (r: char)
    ensures IsLower(c) ==> IsUpper(r)
    ensures !IsLower(c) ==> r == c
  {
    if IsLower(c) then (c as int - 32) as char else c
  }

  function Lower(c: char): (r: char)
    ensures IsUpper(c) ==> IsLower(r)
    ensures !IsUpper(c) ==> r == c
  {
    if IsUpper(c) then (c as int + 32) as char else c
  }

  /** Python's `str.upper()`. */
  function UpperStr(s: string): (r: string)
    ensures |r| == |s|
    ensures forall i :: 0 <= i < |s| ==> r[i] == Upper(s[i])
  {
    if |s| == 0 then "" else [Upper(s[0])] + UpperStr(s[1..])
  }

  /** Drops leading characters satisfying `p`. */
  function TrimLeft(s: string, p: char -> bool): (r: string)
    ensures |r| <= |s|
    ensures r == s[|s| - |r|..]
    ensures |r| > 0 ==> !p(r[0])
    decreases |s|
  {
    if |s| > 0 && p(s[0]) then TrimLeft(s[1..], p) else s
  }

  /** Drops trailing characters satisfying `p`. */
  function TrimRight(s: string, p: char -> bool): (r: string)
    ensures |r| <= |s|
    ensures r == s[..|r|]
    ensures |r| > 0 ==> !p(r[|r| - 1])
    decreases |s|
  {
    if |s| > 0 && p(s[|s| - 1]) then TrimRight(s[..|s| - 1], p) else s
  }

  /** Characters `TrimLeft` drops all satisfy its predicate. */
  lemma {:induction false} TrimLeftDropsOnly(s: string, p: char -> bool)
    ensures forall i :: 0 <= i < |s| - |TrimLeft(s, p)| ==> p(s[i])
    decreases |s|
  {
    if |s| > 0 && p(s[0]) {
      TrimLeftDropsOnly(s[1..], p);
      forall i | 0 <= i < |s| - |TrimLeft(s, p)| ensures p(s[i]) {
        if i > 0 {
          assert s[i] == s[1..][i - 1];
        }
      }
    }
  }

  /** Characters `TrimRight` drops all satisfy its predicate. */
  lemma {:induction false} TrimRightDropsOnly(s: string, p: char -> bool)
    ensures forall i :: |TrimRight(s, p)| <= i < |s| ==> p(s[i])
    decreases |s|
  {
    if |s| > 0 && p(s[|s| - 1]) {
      TrimRightDropsOnly(s[..|s| - 1], p);
    }
  }

  /** Python's `str.strip()`: surrounding whitespace removed. */
  function Strip(s: string): (r: string)
    ensures |r| <= |s|
    ensures |r| > 0 ==> !IsSpace(r[0]) && !IsSpace(r[|r| - 1])
  {
    TrimRight(TrimLeft(s, IsSpace), IsSpace)
  }

  /** Python's `str.strip(' ')`: surrounding blanks (only ' ') removed. */
  function StripBlanks(s: string): (r: string)
    ensures |r| <= |s|
    ensures |r| > 0 ==> r[0] != ' ' && r[|r| - 1] != ' '
  {
    TrimRight(TrimLeft(s, c => c == ' '), c => c == ' ')
  }

  /** Python's `needle in hay` on strings: `needle` occurs contiguously in `hay`. */
  predicate Contains(hay: string, needle: string)
    decreases |hay|
  {
    needle <= hay || (|hay| > 0 && Contains(hay[1..], needle))
  }

  /** Python's `s.split(d)` for a one-character separator. */
  function Split(s: string, d: char): (r: seq<string>)
    ensures |r| >= 1
    ensures forall k :: 0 <= k < |r| ==> d !in r[k]
    decreases |s|
  {
    if |s| == 0 then [""]
    else
      var t := Split(s[1..], d);
      if s[0] == d then [""] + t else [[s[0]] + t[0]] + t[1..]
  }

  /** Python's `d.join(segs)`. */
  function Join(segs: seq<string>, d: char): string
    decreases |segs|
  {
    if |segs| == 0 then ""
    else if |segs| == 1 then segs[0]
    else segs[0] + [d] + Join(segs[1..], d)
  }

  /** Maximal runs of characters not satisfying `isSep`, left to right. */
  function Tokens(s: string, isSep: char -> bool): (r: seq<string>)
    ensures |s| > 0 && !isSep(s[0]) ==> |r| > 0 && |r[0]| > 0 && r[0][0] == s[0]
    ensures forall k :: 0 <= k < |r| ==> |r[k]| > 0
    ensures forall k, i :: 0 <= k < |r| && 0 <= i < |r[k]| ==> !isSep(r[k][i])
    decreases |s|
  {
    if |s| == 0 then []
    else if isSep(s[0]) then Tokens(s[1..], isSep)
    else
      var t := Tokens(s[1..], isSep);
      if |s| > 1 && !isSep(s[1]) then [[s[0]] + t[0]] + t[1..] else [[s[0]]] + t
  }

  /** Python's `s.split()` (no argument): the whitespace-separated words. */
  function WsSplit(s: string): seq<string> {
    Tokens(s, IsSpace)
  }

  /** Python's `s.split(d)` where `d` may be `None`, which means `s.split()`. */
  function SplitOpt(s: string, d: Option<char>): seq<string> {
    match d
    case Some(c) => Split(s, c)
    case None => WsSplit(s)
  }

  /** `re.findall(r'\d+', s)`: the maximal digit runs of `s`. */
  function DigitRuns(s: string): seq<string> {
    Tokens(s, c => !IsDigit(c))
  }

  /** The value of a digit string, most significant digit first. */
  function DigitsValue(s: string): nat
    requires AllDigits(s)
    decreases |s|
  {
    if |s| == 0 then 0
    else DigitsValue(s[..|s| - 1]) * 10 + (s[|s| - 1] as int - '0' as int)
  }

  /** Python's `int(s)` on a string: surrounding whitespace, an optional sign and
      at least one digit; anything else raises ValueError. */
  function PyInt(s: string): (r: Result<int>)
    ensures r.Err? ==> r.error == ValueError
    ensures IsDigits(s) ==> r == Ok(DigitsValue(s))
  {
    var t := Strip(s);
    assert IsDigits(s) ==> t == s by { StripDigits(s); }
    var negative := |t| > 0 && t[0] == '-';
    var body := if |t| > 0 && (t[0] == '+' || t[0] == '-') then t[1..] else t;
    if !IsDigits(body) then Err(ValueError)
    else
      var magnitude: int := DigitsValue(body);
      Ok(if negative then -magnitude else magnitude)
  }

  /** `str.strip()` keeps one stretch of the string and drops only
      whitespace around it. */
  lemma StripSlice(s: string) returns (a: nat, b: nat)
    ensures a <= b <= |s| && Strip(s) == s[a..b]
    ensures forall i :: 0 <= i < a || b <= i < |s| ==> IsSpace(s[i])
  {
    var t := TrimLeft(s, IsSpace);
    var r := Strip(s);
    a, b := |s| - |t|, |s| - |t| + |r|;
    assert t == s[a..];
    assert r == TrimRight(t, IsSpace) == t[..|r|];
    assert r == s[a..b];
    TrimLeftDropsOnly(s, IsSpace);
    TrimRightDropsOnly(t, IsSpace);
    forall i | b <= i < |s| ensures IsSpace(s[i]) {
      assert s[i] == t[i - a];
    }
  }

  /** Leading whitespace in front of a text that does not start with
      whitespace is exactly what `TrimLeft` drops. */
  lemma {:induction false} TrimLeftSkips(pre: string, t: string)
    requires forall i :: 0 <= i < |pre| ==> IsSpace(pre[i])
    requires |t| > 0 && !IsSpace(t[0])
    ensures TrimLeft(pre + t, IsSpace) == t
    decreases |pre|
  {
    if |pre| > 0 {
      assert (pre + t)[1..] == pre[1..] + t;
      TrimLeftSkips(pre[1..], t);
    } else {
      assert pre + t == t;
    }
  }

  /** Trailing whitespace after a text that does not end with whitespace is
      exactly what `TrimRight` drops. */
  lemma {:induction false} TrimRightSkips(t: string, post: string)
    requires forall i :: 0 <= i < |post| ==> IsSpace(post[i])
    requires |t| > 0 && !IsSpace(t[|t| - 1])
    ensures TrimRight(t + post, IsSpace) == t
    decreases |post|
  {
    if |post| > 0 {
      assert (t + post)[..|t + post| - 1] == t + post[..|post| - 1];
      TrimRightSkips(t, post[..|post| - 1]);
    } else {
      assert t + post == t;
    }
  }

  /** `str.strip()` gives back a text from between whitespace padding. */
  lemma StripPadded(pre: string, t: string, post: string)
    requires forall i :: 0 <= i < |pre| ==> IsSpace(pre[i])
    requires forall i :: 0 <= i < |post| ==> IsSpace(post[i])
    requires |t| > 0 && !IsSpace(t[0]) && !IsSpace(t[|t| - 1])
    ensures Strip(pre + t + post) == t
  {
    assert pre + t + post == pre + (t + post);
    TrimLeftSkips(pre, t + post);
    TrimRightSkips(t, post);
  }

  /** A digit string has no surrounding whitespace to strip. */
  lemma StripDigits(s: string)
    ensures AllDigits(s) ==> Strip(s) == s
  {
    if AllDigits(s) && |s| > 0 {
      assert !IsSpace(s[0]) && !IsSpace(s[|s| - 1]);
      assert TrimLeft(s, IsSpace) == s;
    }
  }

  /** Joining the pieces of a split gives back the original string. */
  lemma {:induction false} JoinSplit(s: string, d: char)
    ensures Join(Split(s, d), d) == s
    decreases |s|
  {
    if |s| > 0 {
      JoinSplit(s[1..], d);
      var t := Split(s[1..], d);
      if s[0] == d {
        assert Split(s, d) == [""] + t;
        assert ([""] + t)[1..] == t;
        assert s == [d] + s[1..];
      } else {
        var r := [[s[0]] + t[0]] + t[1..];
        assert r[1..] == t[1..];
        if |t| == 1 {
          assert s == [s[0]] + s[1..];
        } else {
          assert Join(t, d) == t[0] + [d] + Join(t[1..], d);
          assert s == [s[0]] + s[1..];
        }
      }
    }
  }

  /** A string without the separator splits into itself. */
  lemma {:induction false} SplitNoSeparator(a: string, d: char)
    requires d !in a
    ensures Split(a, d) == [a]
    decreases |a|
  {
    if |a| > 0 {
      assert d !in a[1..] by {
        forall i | 0 <= i < |a[1..]| ensures a[1..][i] != d {
          assert a[1..][i] == a[i + 1];
        }
      }
      SplitNoSeparator(a[1..], d);
      assert [a[0]] + a[1..] == a;
    }
  }

  /** Splitting `a + d + b` peels `a` off as the first piece. */
  lemma {:induction false} SplitCons(a: string, b: string, d: char)
    requires d !in a
    ensures Split(a + [d] + b, d) == [a] + Split(b, d)
    decreases |a|
  {
    var s := a + [d] + b;
    if |a| == 0 {
      assert s == [d] + b;
      assert s[1..] == b;
    } else {
      assert d !in a[1..] by {
        forall i | 0 <= i < |a[1..]| ensures a[1..][i] != d {
          assert a[1..][i] == a[i + 1];
        }
      }
      SplitCons(a[1..], b, d);
      assert s[1..] == a[1..] + [d] + b;
      assert s[0] == a[0];
      assert [a[0]] + a[1..] == a;
    }
  }

  /** Splitting a join of separator-free pieces gives back the pieces. */
  lemma {:induction false} SplitJoin(segs: seq<string>, d: char)
    requires |segs| >= 1
    requires forall k :: 0 <= k < |segs| ==> d !in segs[k]
    ensures Split(Join(segs, d), d) == segs
    decreases |segs|
  {
    if |segs| == 1 {
      SplitNoSeparator(segs[0], d);
    } else {
      SplitJoin(segs[1..], d);
      SplitCons(segs[0], Join(segs[1..], d), d);
      assert [segs[0]] + segs[1..] == segs;
    }
  }

  /** A digit-only string (no whitespace) is one word, or none when empty. */
  lemma {:induction false} WsSplitDigits(s: string)
    requires AllDigits(s)
    ensures WsSplit(s) == if s == "" then [] else [s]
    decreases |s|
  {
    if |s| > 0 {
      assert AllDigits(s[1..]) by {
        forall i | 0 <= i < |s[1..]| ensures IsDigit(s[1..][i]) {
          assert s[1..][i] == s[i + 1];
        }
      }
      WsSplitDigits(s[1..]);
      assert !IsSpace(s[0]);
      assert [s[0]] + s[1..] == s;
      var t := Tokens(s[1..], IsSpace);
      if |s| > 1 {
        assert !IsSpace(s[1]);
        assert t == [s[1..]];
        assert Tokens(s, IsSpace) == [[s[0]] + t[0]] + t[1..];
      } else {
        assert t == [];
        assert Tokens(s, IsSpace) == [[s[0]]] + t;
        assert s == [s[0]];
      }
    }
  }
}

=== FILE: tree.dfy ===
/** The tree sequencer shared by `create_bom_tree_list`
    (web_app/functions/processor.py), `set_tree_sorting`
    (web_app/models/bom_processor_methods.py), `_create_bom_tree_list`
    (web_app/models.py) and `TreeOrderIterator` (web_app/models/parts_collection.py).

    Parts are named by number.  Each part has a generation (the number of its
    position segments) and the list of children the source iterates in order,
    inserting each at `list.index(part) + 1`, so the children end up in
    reverse.  Generations 1 to 19 are expanded, one pass each, over the list
    as it grows.
 */
module Tree {
  import opened Sorting

  /** The parts' generations and child lists, by part. */
  datatype Forest = Forest(gen: nat -> int, kids: nat -> seq<nat>)

  /** Every child is one generation below its parent. */
  ghost predicate Valid(f: Forest) {
    forall x, i :: 0 <= i < |f.kids(x)| ==> f.gen(f.kids(x)[i]) == f.gen(x) + 1
  }

  predicate NoDups(s: seq<nat>) {
    forall i, j :: 0 <= i < j < |s| ==> s[i] != s[j]
  }

  /** What the insertion loop places right after part `x` in the pass of
      generation `g`: its children, reversed, if `x` is of that generation. */
  function Inserted(f: Forest, x: nat, g: int): (r: seq<nat>)
    ensures f.gen(x) != g ==> r == []
    ensures f.gen(x) == g ==> |r| == |f.kids(x)| && forall i :: 0 <= i < |r| ==> r[i] in f.kids(x)
  {
    if f.gen(x) == g then Reverse(f.kids(x)) else []
  }

  /** The list after the pass of generation `g`: each element followed by
      what the loop inserts after it. */
  function Pass(f: Forest, s: seq<nat>, g: int): seq<nat>
    decreases |s|
  {
    if |s| == 0 then []
    else [s[0]] + Inserted(f, s[0], g) + Pass(f, s[1..], g)
  }

  lemma {:induction false} PassAppend(f: Forest, a: seq<nat>, b: seq<nat>, g: int)
    ensures Pass(f, a + b, g) == Pass(f, a, g) + Pass(f, b, g)
    decreases |a|
  {
    if |a| == 0 {
      assert a + b == b;
    } else {
      assert (a + b)[0] == a[0] && (a + b)[1..] == a[1..] + b;
      PassAppend(f, a[1..], b, g);
    }
  }

  lemma PassCons(f: Forest, x: nat, c: seq<nat>, g: int)
    ensures Pass(f, [x] + c, g) == [x] + Inserted(f, x, g) + Pass(f, c, g)
  {
    assert ([x] + c)[0] == x && ([x] + c)[1..] == c;
  }

  /** Every element of the list is kept by the pass. */
  lemma {:induction false} PassKeeps(f: Forest, s: seq<nat>, g: int, y: nat)
    requires y in s
    ensures y in Pass(f, s, g)
    decreases |s|
  {
    if s[0] != y {
      PassKeeps(f, s[1..], g, y);
    }
  }

  lemma NoDupsSplit(a: seq<nat>, b: seq<nat>)
    requires NoDups(a + b)
    ensures NoDups(a) && NoDups(b)
    ensures forall x :: x in a ==> x !in b
  {
    forall i, j | 0 <= i < j < |b| ensures b[i] != b[j] {
      assert (a + b)[|a| + i] == b[i] && (a + b)[|a| + j] == b[j];
    }
    forall i, j | 0 <= i < j < |a| ensures a[i] != a[j] {
      assert (a + b)[i] == a[i] && (a + b)[j] == a[j];
    }
    forall x | x in a ensures x !in b {
      var i :| 0 <= i < |a| && a[i] == x;
      forall j | 0 <= j < |b| ensures b[j] != x {
        assert (a + b)[i] == a[i] && (a + b)[|a| + j] == b[j];
      }
    }
  }

  /** A duplicate-free pass result comes from a duplicate-free list. */
  lemma {:induction false} PassNoDups(f: Forest, s: seq<nat>, g: int)
    requires NoDups(Pass(f, s, g))
    ensures NoDups(s)
    decreases |s|
  {
    if |s| > 0 {
      var head := [s[0]] + Inserted(f, s[0], g);
      var rest := Pass(f, s[1..], g);
      NoDupsSplit(head, rest);
      PassNoDups(f, s[1..], g);
      forall j | 1 <= j < |s| ensures s[0] != s[j] {
        assert s[j] == s[1..][j - 1];
        PassKeeps(f, s[1..], g, s[j]);
      }
    }
  }

  /** The first index of `x` in `s`: Python's `list.index`. */
  function IndexIn(s: seq<nat>, x: nat): (r: nat)
    requires x in s
    ensures r < |s| && s[r] == x && x !in s[..r]
    decreases |s|
  {
    if s[0] == x then 0
    else
      var i := IndexIn(s[1..], x);
      assert s[..i + 1] == [s[0]] + s[1..][..i];
      i + 1
  }

  /** Inserts each of `child`, in order, at `s.index(p) + 1`: the children
      end up right after `p`, reversed. */
  method InsertChildren(s0: seq<nat>, i: nat, child: seq<nat>) returns (s: seq<nat>)
    requires i < |s0| && s0[i] !in s0[..i]
    ensures s == s0[..i + 1] + Reverse(child) + s0[i + 1..]
  {
    var p := s0[i];
    s := s0;
    var m := 0;
    while m < |child|
      invariant 0 <= m <= |child|
      invariant s == s0[..i + 1] + Reverse(child[..m]) + s0[i + 1..]
    {
      assert s[i] == p && s[..i] == s0[..i];
      var at := IndexIn(s, p) + 1;
      assert at == i + 1;
      assert Reverse(child[..m + 1]) == [child[m]] + Reverse(child[..m]);
      s := s[..at] + [child[m]] + s[at..];
      m := m + 1;
    }
    assert child[..m] == child;
  }

  /** One iteration of the tree-list loop of web_app/functions/processor.py
      (lines 271-278) at cursor `i`, as written: when the part there is of
      generation `g`, each child is put in with
      `bom_tree_list.insert(bom_tree_list.index(part) + 1, item)`, so the
      children land, reversed, right after the part's FIRST occurrence, which
      is before the cursor when the part occurs twice. */
  function StepAt(f: Forest, s: seq<nat>, i: nat, g: int): (r: seq<nat>)
    requires i < |s|
    ensures |r| == |s| + |Inserted(f, s[i], g)|
  {
    var x := s[i];
    if f.gen(x) != g then s
    else
      var j := IndexIn(s, x);
      s[..j + 1] + Reverse(f.kids(x)) + s[j + 1..]
  }

  /** The body of the source's loop at index `i`. */
  method ExpandAt(f: Forest, s0: seq<nat>, i: nat, g: int) returns (s: seq<nat>)
    requires i < |s0|
    ensures s == StepAt(f, s0, i, g)
  {
    var p := s0[i];
    if f.gen(p) == g {
      s := InsertChildren(s0, IndexIn(s0, p), f.kids(p));
    } else {
      s := s0;
    }
  }

  /** When the part at the cursor occurs there first, or inserts nothing, the
      loop body puts what it inserts right after the cursor. */
  lemma StepAtFirst(f: Forest, s: seq<nat>, i: nat, g: int)
    requires i < |s|
    requires f.gen(s[i]) == g && |f.kids(s[i])| > 0 ==> s[i] !in s[..i]
    ensures StepAt(f, s, i, g) == s[..i + 1] + Inserted(f, s[i], g) + s[i + 1..]
  {
    var x := s[i];
    if f.gen(x) != g || |f.kids(x)| == 0 {
      assert s[..i + 1] + [] + s[i + 1..] == s;
      if f.gen(x) == g {
        var j := IndexIn(s, x);
        assert Reverse(f.kids(x)) == [];
        assert s[..j + 1] + [] + s[j + 1..] == s;
      }
    } else {
      var j := IndexIn(s, x);
      assert j == i;
    }
  }

  /** The source's pass of generation `g` ends: no part of that generation
      with children is met at a second occurrence. */
  predicate Halts(f: Forest, s: seq<nat>, g: int) {
    forall k :: 0 <= k < |s| ==> !Repeat(f, s, g, k)
  }

  /** The part at `k` is of generation `g`, has children, and occurs earlier
      in the list. */
  predicate Repeat(f: Forest, s: seq<nat>, g: int, k: nat) {
    k < |s| && f.gen(s[k]) == g && |f.kids(s[k])| > 0 && s[k] in s[..k]
  }

  /** Every part of generation `g` in a pass's result was already in the
      list: what the pass inserts is one generation deeper. */
  lemma {:induction false} PassGenMember(f: Forest, s: seq<nat>, g: int, y: nat)
    requires Valid(f) && y in Pass(f, s, g) && f.gen(y) == g
    ensures y in s
    decreases |s|
  {
    var ins := Inserted(f, s[0], g);
    assert Pass(f, s, g) == [s[0]] + ins + Pass(f, s[1..], g);
    if y != s[0] {
      PassGenMember(f, s[1..], g, y);
    }
  }

  /** A part of generation `g` with children is not in the pass of the parts
      before its first occurrence. */
  lemma FirstReached(f: Forest, s0: seq<nat>, g: int, k: nat)
    requires Valid(f) && k < |s0| && Halts(f, s0, g)
    requires f.gen(s0[k]) == g && |f.kids(s0[k])| > 0
    ensures s0[k] !in Pass(f, s0[..k], g)
  {
    assert !Repeat(f, s0, g, k);
    if s0[k] in Pass(f, s0[..k], g) {
      PassGenMember(f, s0[..k], g, s0[k]);
    }
  }

  /** The loop reaching original part `s0[k]` right after what the pass has
      produced from the parts before it, which holds it only when it is a
      repeat; after expanding it, the list is the pass of one more original
      part, and what was inserted is of another generation. */
  lemma Reached(f: Forest, s0: seq<nat>, g: int, k: nat, done: seq<nat>, s: seq<nat>) returns (next: seq<nat>)
    requires Valid(f) && k < |s0| && Halts(f, s0, g)
    requires done == Pass(f, s0[..k], g) && s == done + s0[k..]
    ensures |done| < |s| && s[|done|] == s0[k]
    ensures f.gen(s0[k]) == g && |f.kids(s0[k])| > 0 ==> s0[k] !in s[..|done|]
    ensures next == Pass(f, s0[..k + 1], g)
    ensures s[..|done| + 1] + Inserted(f, s0[k], g) + s[|done| + 1..] == next + s0[k + 1..]
    ensures forall j :: |done| < j < |next| ==> f.gen(next[j]) != g
  {
    next := ReachedList(f, s0, g, k, done, s);
    if f.gen(s0[k]) == g && |f.kids(s0[k])| > 0 {
      FirstReached(f, s0, g, k);
    }
    InsertedDeeper(f, s0[k], g, done, next);
  }

  /** The list side of `Reached`. */
  lemma ReachedList(f: Forest, s0: seq<nat>, g: int, k: nat, done: seq<nat>, s: seq<nat>) returns (next: seq<nat>)
    requires k < |s0|
    requires done == Pass(f, s0[..k], g) && s == done + s0[k..]
    ensures |done| < |s| && s[|done|] == s0[k] && s[..|done|] == done
    ensures next == Pass(f, s0[..k + 1], g) == done + [s0[k]] + Inserted(f, s0[k], g)
    ensures s[..|done| + 1] + Inserted(f, s0[k], g) + s[|done| + 1..] == next + s0[k + 1..]
  {
    PassSnoc(f, s0, g, k);
    next := Pass(f, s0[..k + 1], g);
    assert s0[k..] == [s0[k]] + s0[k + 1..];
    Splice(done, s0[k], Inserted(f, s0[k], g), s0[k + 1..]);
  }

  /** The pass over one more original part adds that part and what it
      inserts. */
  lemma PassSnoc(f: Forest, s0: seq<nat>, g: int, k: nat)
    requires k < |s0|
    ensures Pass(f, s0[..k + 1], g) == Pass(f, s0[..k], g) + [s0[k]] + Inserted(f, s0[k], g)
  {
    var x := s0[k];
    assert s0[..k] + [x] == s0[..k + 1];
    PassAppend(f, s0[..k], [x], g);
    PassSingle(f, x, g);
  }

  /** The pass over one part is the part and what it inserts. */
  lemma PassSingle(f: Forest, x: nat, g: int)
    ensures Pass(f, [x], g) == [x] + Inserted(f, x, g)
  {
    assert [x][1..] == [];
  }

  /** Inserting right after the element that follows `done`. */
  lemma Splice(done: seq<nat>, x: nat, ins: seq<nat>, post: seq<nat>)
    ensures var s := done + ([x] + post);
            && |done| < |s| && s[|done|] == x && s[..|done|] == done
            && s[..|done| + 1] + ins + s[|done| + 1..] == done + [x] + ins + post
  {
    var s := done + ([x] + post);
    assert s[..|done| + 1] == done + [x];
    assert s[|done| + 1..] == post;
  }

  /** What a part inserts after itself is of another generation. */
  lemma InsertedDeeper(f: Forest, x: nat, g: int, done: seq<nat>, next: seq<nat>)
    requires Valid(f) && next == done + [x] + Inserted(f, x, g)
    ensures forall j :: |done| < j < |next| ==> f.gen(next[j]) != g
  {
    var ins := Inserted(f, x, g);
    ReverseKids(f, x);
    forall j | |done| < j < |next| ensures f.gen(next[j]) != g {
      assert next[j] == ins[j - |done| - 1];
    }
  }

  /** What holds of the in-place pass after `i` steps: the list is the pass
      over the first `k` original parts followed by the rest, and every part
      between the cursor and the rest was inserted by this pass. */
  ghost predicate PassState(f: Forest, s0: seq<nat>, g: int, k: nat, done: seq<nat>, s: seq<nat>, i: nat) {
    && k <= |s0|
    && done == Pass(f, s0[..k], g)
    && s == done + s0[k..]
    && i <= |done|
    && (forall j :: i <= j < |done| ==> f.gen(done[j]) != g)
  }

  /** One step of the in-place pass keeps its state, with progress. */
  lemma PassStateStep(f: Forest, s0: seq<nat>, g: int, k: nat, done: seq<nat>, s: seq<nat>, i: nat)
    returns (k': nat, done': seq<nat>)
    requires Valid(f) && Halts(f, s0, g)
    requires PassState(f, s0, g, k, done, s, i) && i < |s|
    ensures PassState(f, s0, g, k', done', StepAt(f, s, i, g), i + 1)
    ensures k' > k || (k' == k && done' == done && i + 1 <= |done|)
  {
    if i == |done| {
      done' := Reached(f, s0, g, k, done, s);
      k' := k + 1;
    } else {
      k', done' := k, done;
      assert s[i] == done[i];
      assert s[..i + 1] + [] + s[i + 1..] == s;
    }
    StepAtFirst(f, s, i, g);
  }

  /** One pass of the source's loop, in place: walk the list as it grows and,
      at each part of generation `g`, insert each child at
      `list.index(part) + 1`.  When the pass ends, its result is `Pass`. */
  method PassInPlace(f: Forest, s0: seq<nat>, g: int) returns (s: seq<nat>)
    requires Valid(f) && Halts(f, s0, g)
    ensures s == Pass(f, s0, g)
  {
    s := s0;
    var i := 0;
    ghost var k := 0;
    ghost var done: seq<nat> := [];
    assert s0[..0] == [];
    while i < |s|
      invariant PassState(f, s0, g, k, done, s, i)
      decreases |s0| - k, |done| - i
    {
      ghost var k', done' := PassStateStep(f, s0, g, k, done, s, i);
      s := ExpandAt(f, s, i, g);
      k, done := k', done';
      i := i + 1;
    }
    assert s0[..k] == s0;
  }

  // ---- the pass that never ends ---------------------------------------------

  /** `n` iterations of the `for part in bom_tree_list` loop
      of web_app/functions/processor.py (lines 271-278) from cursor `i`, or
      fewer if the cursor leaves the list: the list and the cursor
      afterwards. */
  function Steps(f: Forest, s: seq<nat>, i: nat, g: int, n: nat): Loop
    decreases n
  {
    if n == 0 || i >= |s| then Loop(s, i) else Steps(f, StepAt(f, s, i, g), i + 1, g, n - 1)
  }

  /** The list and the cursor of the loop. */
  datatype Loop = Loop(list: seq<nat>, cursor: nat) {
    predicate Running() {
      cursor < |list|
    }
  }

  /** One iteration, then the rest. */
  lemma StepsCons(f: Forest, s: seq<nat>, i: nat, g: int, n: nat, s': seq<nat>)
    requires 0 < n && i < |s| && s' == StepAt(f, s, i, g)
    ensures Steps(f, s, i, g, n) == Steps(f, s', i + 1, g, n - 1)
  {
  }

  /** A repeat at or after the cursor, of generation `g` and with children,
      survives one iteration at or after the next cursor: the children it
      inserts go in before it. */
  lemma RepeatMovesAhead(f: Forest, s: seq<nat>, i: nat, g: int, k: nat) returns (k': nat)
    requires i <= k && Repeat(f, s, g, k)
    ensures i + 1 <= k' && Repeat(f, StepAt(f, s, i, g), g, k')
    ensures StepAt(f, s, i, g)[k'] == s[k]
  {
    var y := s[i];
    if f.gen(y) != g {
      k' := k;
    } else {
      var j := IndexIn(s, y);
      assert j < k by {
        if k == i {
          assert s[..k] == s[..j] + s[j..k];
        }
      }
      k' := k + |f.kids(y)|;
      ShiftedRepeat(s, j, Reverse(f.kids(y)), k);
    }
  }

  /** Inserting after index `j` moves a later repeat along, still preceded
      by an earlier occurrence. */
  lemma ShiftedRepeat(s: seq<nat>, j: nat, ins: seq<nat>, k: nat)
    requires j < k < |s| && s[k] in s[..k]
    ensures var r := s[..j + 1] + ins + s[j + 1..];
            k + |ins| < |r| && r[k + |ins|] == s[k] && s[k] in r[..k + |ins|]
  {
    var r := s[..j + 1] + ins + s[j + 1..];
    var m := |ins|;
    var t :| 0 <= t < k && s[t] == s[k];
    if t <= j {
      assert r[t] == s[t];
    } else {
      assert r[t + m] == s[t];
    }
    assert r[k + m] == s[k];
  }

  /** A repeat lies at or after the cursor. */
  predicate Stuck(f: Forest, s: seq<nat>, i: nat, g: int) {
    exists k: nat :: i <= k < |s| && Repeat(f, s, g, k)
  }

  /** `Stuck` is an invariant of the loop that implies its condition: the
      cursor is inside the list, and after one iteration a repeat still lies
      at or after the next cursor. */
  lemma StuckStep(f: Forest, s: seq<nat>, i: nat, g: int)
    requires Stuck(f, s, i, g)
    ensures i < |s| && Stuck(f, StepAt(f, s, i, g), i + 1, g)
  {
    var k: nat :| i <= k < |s| && Repeat(f, s, g, k);
    var k' := RepeatMovesAhead(f, s, i, g, k);
  }

  /** The pass never ends once the cursor has such a repeat ahead of it:
      after any number of iterations the cursor is still inside the list. */
  lemma {:induction false} PassNeverEnds(f: Forest, s: seq<nat>, i: nat, g: int, n: nat)
    requires Stuck(f, s, i, g)
    ensures Steps(f, s, i, g, n).Running()
    decreases n
  {
    StuckStep(f, s, i, g);
    if n > 0 {
      var s' := StepAt(f, s, i, g);
      PassNeverEnds(f, s', i + 1, g, n - 1);
      StepsCons(f, s, i, g, n, s');
    }
  }

  /** So a pass ends exactly when `Halts` holds: otherwise, from the start,
      the cursor stays inside the list however many iterations run. */
  lemma NotHaltsNeverEnds(f: Forest, s: seq<nat>, g: int, n: nat)
    requires !Halts(f, s, g)
    ensures Steps(f, s, 0, g, n).Running()
  {
    var k :| 0 <= k < |s| && Repeat(f, s, g, k);
    assert Stuck(f, s, 0, g);
    PassNeverEnds(f, s, 0, g, n);
  }

  /** Two roots A, B sharing one child C, which has a child D. */
  function SharedChild(): Forest {
    Forest(x => if x <= 1 then 1 else if x == 2 then 2 else 3,
           x => if x <= 1 then [2] else if x == 2 then [3] else [])
  }

  /** Each child in that forest is one generation below its parent. */
  lemma SharedChildValid()
    ensures Valid(SharedChild())
  {
    var f := SharedChild();
    forall x, i | 0 <= i < |f.kids(x)| ensures f.gen(f.kids(x)[i]) == f.gen(x) + 1 {
    }
  }

  /** The pass of generation 1 over the roots A, B lists C twice. */
  lemma SharedChildFirstPass()
    ensures Pass(SharedChild(), [0, 1], 1) == [0, 2, 1, 2]
  {
    var f := SharedChild();
    assert f.gen(0) == 1 && f.gen(1) == 1 && f.kids(0) == [2] && f.kids(1) == [2];
    assert Reverse([2]) == [2];
    PassCons(f, 1, [], 1);
    PassCons(f, 0, [1], 1);
  }

  /** On that forest the pass of generation 1 lists C twice, and the pass of
      generation 2 never ends: it keeps meeting the second C. */
  lemma SharedChildNeverEnds(n: nat)
    ensures Valid(SharedChild())
    ensures Pass(SharedChild(), [0, 1], 1) == [0, 2, 1, 2]
    ensures !Halts(SharedChild(), [0, 2, 1, 2], 2)
    ensures Steps(SharedChild(), [0, 2, 1, 2], 0, 2, n).Running()
  {
    SharedChildValid();
    SharedChildFirstPass();
    var f := SharedChild();
    var s := [0, 2, 1, 2];
    assert f.gen(2) == 2 && f.kids(2) == [3];
    assert s[3] == 2 && s[..3] == [0, 2, 1];
    assert Repeat(f, s, 2, 3);
    assert Stuck(f, s, 0, 2);
    PassNeverEnds(f, s, 0, 2, n);
  }

  // ---- all passes ------------------------------------------------------

  /** The generation after the last one the source expands. */
  const LastGeneration := 20

  /** The passes of generations `g` to 19, in order. */
  function Passes(f: Forest, s: seq<nat>, g: int): seq<nat>
    decreases LastGeneration - g
  {
    if g >= LastGeneration then s else Passes(f, Pass(f, s, g), g + 1)
  }

  /** Every child list holds indices below `n`. */
  ghost predicate Bounded(f: Forest, n: nat) {
    forall x: nat, i :: 0 <= i < |f.kids(x)| ==> f.kids(x)[i] < n
  }

  /** A pass only draws from the list and the child lists. */
  lemma {:induction false} PassBounded(f: Forest, s: seq<nat>, g: int, n: nat)
    requires Bounded(f, n) && forall i :: 0 <= i < |s| ==> s[i] < n
    ensures forall i :: 0 <= i < |Pass(f, s, g)| ==> Pass(f, s, g)[i] < n
    decreases |s|
  {
    if |s| > 0 {
      PassBounded(f, s[1..], g, n);
      var ins := Inserted(f, s[0], g);
      assert forall i :: 0 <= i < |ins| ==> ins[i] < n;
    }
  }

  /** Neither do the remaining passes. */
  lemma {:induction false} PassesBounded(f: Forest, s: seq<nat>, g: int, n: nat)
    requires Bounded(f, n) && forall i :: 0 <= i < |s| ==> s[i] < n
    ensures forall i :: 0 <= i < |Passes(f, s, g)| ==> Passes(f, s, g)[i] < n
    decreases LastGeneration - g
  {
    if g < LastGeneration {
      var next := Pass(f, s, g);
      PassBounded(f, s, g, n);
      PassesBounded(f, next, g + 1, n);
      assert Passes(f, s, g) == Passes(f, next, g + 1);
    } else {
      assert Passes(f, s, g) == s;
    }
  }

  /** A duplicate-free result of the remaining passes comes from a
      duplicate-free list. */
  lemma {:induction false} PassesNoDups(f: Forest, s: seq<nat>, g: int)
    requires NoDups(Passes(f, s, g))
    ensures NoDups(s)
    decreases LastGeneration - g
  {
    if g < LastGeneration {
      PassesNoDups(f, Pass(f, s, g), g + 1);
      PassNoDups(f, s, g);
    }
  }

  /** Every pass the source runs from generation `g` on ends. */
  predicate HaltsFrom(f: Forest, s: seq<nat>, g: int)
    decreases LastGeneration - g
  {
    g >= LastGeneration || (Halts(f, s, g) && HaltsFrom(f, Pass(f, s, g), g + 1))
  }

  /** A list without repeats passes every such check: a duplicate-free
      result of the remaining passes means every pass ends. */
  lemma {:induction false} NoDupsHalts(f: Forest, s: seq<nat>, g: int)
    requires NoDups(Passes(f, s, g))
    ensures HaltsFrom(f, s, g)
    decreases LastGeneration - g
  {
    if g < LastGeneration {
      PassesNoDups(f, Pass(f, s, g), g + 1);
      PassNoDups(f, s, g);
      NoDupsHalts(f, Pass(f, s, g), g + 1);
    }
  }

  /** The source's two nested loops, in place: passes 1 to 19 over the list.
      When they end, the result is `Passes`. */
  method TreeInPlace(f: Forest, roots: seq<nat>) returns (s: seq<nat>)
    requires Valid(f) && HaltsFrom(f, roots, 1)
    ensures s == Passes(f, roots, 1)
  {
    s := roots;
    var g := 1;
    while g < LastGeneration
      invariant 1 <= g <= LastGeneration
      invariant HaltsFrom(f, s, g)
      invariant Passes(f, s, g) == Passes(f, roots, 1)
    {
      s := PassInPlace(f, s, g);
      g := g + 1;
    }
  }

  // ---- the pre-order it computes -----------------------------------------

  function Measure(g: int, h: int): nat {
    if g > h then g - h else 0
  }

  /** Part `x` and, if its generation is below `g`, the subtrees of its
      children (reversed): what the passes up to generation `g - 1` make of
      `x`. */
  function Sub(f: Forest, x: nat, g: int): (r: seq<nat>)
    requires Valid(f)
    ensures |r| > 0 && r[0] == x
    decreases Measure(g, f.gen(x)), 1, 0
  {
    if f.gen(x) < g then [x] + Subs(f, Reverse(f.kids(x)), f.gen(x) + 1, g) else [x]
  }

  /** The subtrees of `xs`, all of generation `level`, one after the other. */
  function Subs(f: Forest, xs: seq<nat>, level: int, g: int): seq<nat>
    requires Valid(f) && level <= g
    requires forall i :: 0 <= i < |xs| ==> f.gen(xs[i]) == level
    decreases Measure(g + 1, level), 0, |xs|
  {
    if |xs| == 0 then []
    else Sub(f, xs[0], g) + Subs(f, xs[1..], level, g)
  }

  /** The subtrees of a list of parts of any generations. */
  function Subtrees(f: Forest, s: seq<nat>, g: int): seq<nat>
    requires Valid(f)
    decreases |s|
  {
    if |s| == 0 then [] else Sub(f, s[0], g) + Subtrees(f, s[1..], g)
  }

  lemma {:induction false} SubsLeaves(f: Forest, xs: seq<nat>, level: int)
    requires Valid(f)
    requires forall i :: 0 <= i < |xs| ==> f.gen(xs[i]) == level
    ensures Subs(f, xs, level, level) == xs
    decreases |xs|
  {
    if |xs| > 0 {
      SubsLeaves(f, xs[1..], level);
      assert xs == [xs[0]] + xs[1..];
    }
  }

  lemma ReverseKids(f: Forest, x: nat)
    requires Valid(f)
    ensures forall i :: 0 <= i < |Reverse(f.kids(x))| ==> f.gen(Reverse(f.kids(x))[i]) == f.gen(x) + 1
  {
  }

  /** One pass moves every subtree one generation on. */
  lemma {:induction false} PassSub(f: Forest, x: nat, g: int)
    requires Valid(f)
    ensures Pass(f, Sub(f, x, g), g) == Sub(f, x, g + 1)
    decreases Measure(g, f.gen(x)), 1
  {
    var kids := Reverse(f.kids(x));
    ReverseKids(f, x);
    if f.gen(x) == g {
      PassCons(f, x, [], g);
      assert [x] + [] == [x];
      SubsLeaves(f, kids, g + 1);
    } else if f.gen(x) < g {
      var rest := Subs(f, kids, f.gen(x) + 1, g);
      PassCons(f, x, rest, g);
      PassSubs(f, kids, f.gen(x) + 1, g);
    } else {
      PassCons(f, x, [], g);
      assert [x] + [] == [x];
    }
  }

  lemma {:induction false} PassSubs(f: Forest, xs: seq<nat>, level: int, g: int)
    requires Valid(f) && level <= g
    requires forall i :: 0 <= i < |xs| ==> f.gen(xs[i]) == level
    ensures Pass(f, Subs(f, xs, level, g), g) == Subs(f, xs, level, g + 1)
    decreases Measure(g + 1, level), 0, |xs|
  {
    if |xs| > 0 {
      PassAppend(f, Sub(f, xs[0], g), Subs(f, xs[1..], level, g), g);
      PassSub(f, xs[0], g);
      PassSubs(f, xs[1..], level, g);
    }
  }

  lemma {:induction false} PassSubtrees(f: Forest, s: seq<nat>, g: int)
    requires Valid(f)
    ensures Pass(f, Subtrees(f, s, g), g) == Subtrees(f, s, g + 1)
    decreases |s|
  {
    if |s| > 0 {
      PassAppend(f, Sub(f, s[0], g), Subtrees(f, s[1..], g), g);
      PassSub(f, s[0], g);
      PassSubtrees(f, s[1..], g);
    }
  }

  lemma {:induction false} SubtreesStart(f: Forest, s: seq<nat>)
    requires Valid(f)
    requires forall i :: 0 <= i < |s| ==> f.gen(s[i]) >= 1
    ensures Subtrees(f, s, 1) == s
    decreases |s|
  {
    if |s| > 0 {
      SubtreesStart(f, s[1..]);
      assert s == [s[0]] + s[1..];
    }
  }

  lemma {:induction false} PassesSubtrees(f: Forest, s: seq<nat>, g: int)
    requires Valid(f) && g <= LastGeneration
    ensures Passes(f, Subtrees(f, s, g), g) == Subtrees(f, s, LastGeneration)
    decreases LastGeneration - g
  {
    if g < LastGeneration {
      PassSubtrees(f, s, g);
      PassesSubtrees(f, s, g + 1);
    }
  }

  /** The passes of generations 1 to 19 produce the pre-order of the roots'
      subtrees, where a part of generation 20 or more is not expanded. */
  lemma TreeIsPreOrder(f: Forest, roots: seq<nat>)
    requires Valid(f)
    requires forall i :: 0 <= i < |roots| ==> f.gen(roots[i]) >= 1
    ensures Passes(f, roots, 1) == Subtrees(f, roots, LastGeneration)
  {
    SubtreesStart(f, roots);
    PassesSubtrees(f, roots, 1);
  }

  // ---- what the pre-order contains ----------------------------------------

  /** `y` is in the subtree of `x` exactly when it is `x` or, `x` being of a
      generation below `g`, in the subtree of one of its children. */
  lemma {:induction false} SubMembers(f: Forest, x: nat, g: int, y: nat)
    requires Valid(f)
    ensures y in Sub(f, x, g) <==>
              y == x || (f.gen(x) < g && exists i :: 0 <= i < |f.kids(x)| && y in Sub(f, f.kids(x)[i], g))
  {
    if f.gen(x) < g {
      var kids := Reverse(f.kids(x));
      ReverseKids(f, x);
      SubsMembers(f, kids, f.gen(x) + 1, g, y);
      if exists j :: 0 <= j < |kids| && y in Sub(f, kids[j], g) {
        var j :| 0 <= j < |kids| && y in Sub(f, kids[j], g);
        assert kids[j] == f.kids(x)[|kids| - 1 - j];
      }
      if exists i :: 0 <= i < |f.kids(x)| && y in Sub(f, f.kids(x)[i], g) {
        var i :| 0 <= i < |f.kids(x)| && y in Sub(f, f.kids(x)[i], g);
        assert kids[|kids| - 1 - i] == f.kids(x)[i];
      }
    }
  }

  lemma {:induction false} SubsMembers(f: Forest, xs: seq<nat>, level: int, g: int, y: nat)
    requires Valid(f) && level <= g
    requires forall i :: 0 <= i < |xs| ==> f.gen(xs[i]) == level
    ensures y in Subs(f, xs, level, g) <==> exists j :: 0 <= j < |xs| && y in Sub(f, xs[j], g)
    decreases |xs|
  {
    if |xs| > 0 {
      SubsMembers(f, xs[1..], level, g, y);
      if exists j :: 0 <= j < |xs[1..]| && y in Sub(f, xs[1..][j], g) {
        var j :| 0 <= j < |xs[1..]| && y in Sub(f, xs[1..][j], g);
        assert xs[j + 1] == xs[1..][j];
      }
      if exists j :: 1 <= j < |xs| && y in Sub(f, xs[j], g) {
        var j :| 1 <= j < |xs| && y in Sub(f, xs[j], g);
        assert xs[1..][j - 1] == xs[j];
      }
    }
  }

  lemma {:induction false} SubtreesMembers(f: Forest, s: seq<nat>, g: int, y: nat)
    requires Valid(f)
    ensures y in Subtrees(f, s, g) <==> exists j :: 0 <= j < |s| && y in Sub(f, s[j], g)
    decreases |s|
  {
    if |s| > 0 {
      SubtreesMembers(f, s[1..], g, y);
      if exists j :: 0 <= j < |s[1..]| && y in Sub(f, s[1..][j], g) {
        var j :| 0 <= j < |s[1..]| && y in Sub(f, s[1..][j], g);
        assert s[j + 1] == s[1..][j];
      }
      if exists j :: 1 <= j < |s| && y in Sub(f, s[j], g) {
        var j :| 1 <= j < |s| && y in Sub(f, s[j], g);
        assert s[1..][j - 1] == s[j];
      }
    }
  }

  /** A subtree contains the subtree of each of its parts. */
  lemma {:induction false} SubClosed(f: Forest, r: nat, g: int, x: nat, y: nat)
    requires Valid(f)
    requires x in Sub(f, r, g) && y in Sub(f, x, g)
    ensures y in Sub(f, r, g)
    decreases Measure(g, f.gen(r))
  {
    if x != r {
      SubMembers(f, r, g, x);
      var i :| 0 <= i < |f.kids(r)| && x in Sub(f, f.kids(r)[i], g);
      SubClosed(f, f.kids(r)[i], g, x, y);
      SubMembers(f, r, g, y);
    }
  }

  lemma {:induction false} SubSound(f: Forest, r: nat, g: int, y: nat)
    requires Valid(f) && y in Sub(f, r, g)
    ensures y == r || exists x, i :: 0 <= i < |f.kids(x)| && f.kids(x)[i] == y && f.gen(x) < g && x in Sub(f, r, g)
    decreases Measure(g, f.gen(r))
  {
    SubMembers(f, r, g, y);
    if y != r {
      var i :| 0 <= i < |f.kids(r)| && y in Sub(f, f.kids(r)[i], g);
      var c := f.kids(r)[i];
      SubSound(f, c, g, y);
      if y == c {
        SubMembers(f, r, g, r);
      } else {
        var x, i' :| 0 <= i' < |f.kids(x)| && f.kids(x)[i'] == y && f.gen(x) < g && x in Sub(f, c, g);
        SubMembers(f, r, g, c);
        SubClosed(f, r, g, c, x);
      }
    }
  }

  /** Every part in the tree list is a root or a child of a part of a
      generation below 20 that is in the list too. */
  lemma TreeListSound(f: Forest, roots: seq<nat>, y: nat)
    requires Valid(f)
    requires forall i :: 0 <= i < |roots| ==> f.gen(roots[i]) >= 1
    requires y in Passes(f, roots, 1)
    ensures y in roots ||
            exists x, i :: 0 <= i < |f.kids(x)| && f.kids(x)[i] == y && f.gen(x) < LastGeneration && x in Passes(f, roots, 1)
  {
    TreeIsPreOrder(f, roots);
    var g := LastGeneration;
    SubtreesMembers(f, roots, g, y);
    var j :| 0 <= j < |roots| && y in Sub(f, roots[j], g);
    SubSound(f, roots[j], g, y);
    if y != roots[j] {
      var x, i :| 0 <= i < |f.kids(x)| && f.kids(x)[i] == y && f.gen(x) < g && x in Sub(f, roots[j], g);
      SubtreesMembers(f, roots, g, x);
    }
  }

  /** Every root is in the tree list, and so is every child of a part of a
      generation below 20 that is in it. */
  lemma TreeListComplete(f: Forest, roots: seq<nat>, x: nat, i: nat)
    requires Valid(f)
    requires forall j :: 0 <= j < |roots| ==> f.gen(roots[j]) >= 1
    ensures forall j :: 0 <= j < |roots| ==> roots[j] in Passes(f, roots, 1)
    ensures i < |f.kids(x)| && f.gen(x) < LastGeneration && x in Passes(f, roots, 1) ==>
              f.kids(x)[i] in Passes(f, roots, 1)
  {
    TreeIsPreOrder(f, roots);
    var g := LastGeneration;
    forall j | 0 <= j < |roots| ensures roots[j] in Passes(f, roots, 1) {
      SubtreesMembers(f, roots, g, roots[j]);
    }
    if i < |f.kids(x)| && f.gen(x) < g && x in Passes(f, roots, 1) {
      SubtreesMembers(f, roots, g, x);
      var j :| 0 <= j < |roots| && x in Sub(f, roots[j], g);
      var y := f.kids(x)[i];
      SubMembers(f, x, g, y);
      SubClosed(f, roots[j], g, x, y);
      SubtreesMembers(f, roots, g, y);
    }
  }

  lemma {:induction false} SubDepth(f: Forest, r: nat, g: int, y: nat)
    requires Valid(f) && f.gen(r) <= g && y in Sub(f, r, g)
    ensures f.gen(r) <= f.gen(y) <= g
    decreases Measure(g, f.gen(r))
  {
    SubMembers(f, r, g, y);
    if y != r {
      var i :| 0 <= i < |f.kids(r)| && y in Sub(f, f.kids(r)[i], g);
      SubDepth(f, f.kids(r)[i], g, y);
    }
  }

  /** With roots of generation 1, every part in the tree list is of a
      generation from 1 to 20. */
  lemma TreeListDepth(f: Forest, roots: seq<nat>, y: nat)
    requires Valid(f)
    requires forall j :: 0 <= j < |roots| ==> f.gen(roots[j]) == 1
    requires y in Passes(f, roots, 1)
    ensures 1 <= f.gen(y) <= LastGeneration
  {
    TreeIsPreOrder(f, roots);
    SubtreesMembers(f, roots, LastGeneration, y);
    var j :| 0 <= j < |roots| && y in Sub(f, roots[j], LastGeneration);
    SubDepth(f, roots[j], LastGeneration, y);
  }

  // ---- each part at most once ---------------------------------------------

  /** No part is listed twice among one part's children, and no part is a
      child of two parts. */
  ghost predicate UniqueParents(f: Forest) {
    && (forall x, i, j :: 0 <= i < j < |f.kids(x)| ==> f.kids(x)[i] != f.kids(x)[j])
    && (forall x1, x2, i, j :: 0 <= i < |f.kids(x1)| && 0 <= j < |f.kids(x2)| && f.kids(x1)[i] == f.kids(x2)[j] ==> x1 == x2)
  }

  lemma NoDupsAppend(a: seq<nat>, b: seq<nat>)
    requires NoDups(a) && NoDups(b)
    requires forall y :: y in a ==> y !in b
    ensures NoDups(a + b)
  {
    var c := a + b;
    forall i, j | 0 <= i < j < |c| ensures c[i] != c[j] {
      if j < |a| {
        assert c[i] == a[i] && c[j] == a[j];
      } else if i >= |a| {
        assert c[i] == b[i - |a|] && c[j] == b[j - |a|];
      } else {
        assert c[i] == a[i] && c[j] == b[j - |a|];
        assert a[i] in a && b[j - |a|] in b;
      }
    }
  }

  /** A part in the subtree of `x` is `x` or of a later generation. */
  lemma SubLater(f: Forest, x: nat, g: int, y: nat)
    requires Valid(f) && y in Sub(f, x, g)
    ensures y == x || f.gen(y) > f.gen(x)
    decreases Measure(g, f.gen(x))
  {
    SubMembers(f, x, g, y);
    if y != x {
      var i :| 0 <= i < |f.kids(x)| && y in Sub(f, f.kids(x)[i], g);
      SubLater(f, f.kids(x)[i], g, y);
    }
  }

  /** With unique parents, a part lies in the subtree of at most one part of
      each generation. */
  lemma {:induction false} SubUniqueRoot(f: Forest, x1: nat, x2: nat, g: int, y: nat)
    requires Valid(f) && UniqueParents(f)
    requires f.gen(x1) == f.gen(x2) && y in Sub(f, x1, g) && y in Sub(f, x2, g)
    ensures x1 == x2
    decreases f.gen(y) - f.gen(x1)
  {
    SubLater(f, x1, g, y);
    SubLater(f, x2, g, y);
    if y != x1 {
      assert y != x2;
      SubSound(f, x1, g, y);
      SubSound(f, x2, g, y);
      var p1, i1 :| 0 <= i1 < |f.kids(p1)| && f.kids(p1)[i1] == y && f.gen(p1) < g && p1 in Sub(f, x1, g);
      var p2, i2 :| 0 <= i2 < |f.kids(p2)| && f.kids(p2)[i2] == y && f.gen(p2) < g && p2 in Sub(f, x2, g);
      assert p1 == p2;
      SubLater(f, x1, g, p1);
      SubUniqueRoot(f, x1, x2, g, p1);
    }
  }

  /** With unique parents, a subtree lists each part at most once. */
  lemma {:induction false} SubNoDups(f: Forest, x: nat, g: int)
    requires Valid(f) && UniqueParents(f)
    ensures NoDups(Sub(f, x, g))
    decreases Measure(g, f.gen(x)), 1
  {
    if f.gen(x) < g {
      var kids := Reverse(f.kids(x));
      ReverseKids(f, x);
      forall i, j | 0 <= i < j < |kids| ensures kids[i] != kids[j] {
        assert kids[i] == f.kids(x)[|kids| - 1 - i] && kids[j] == f.kids(x)[|kids| - 1 - j];
      }
      SubsNoDups(f, kids, f.gen(x) + 1, g);
      forall y | y in [x] ensures y !in Subs(f, kids, f.gen(x) + 1, g) {
        SubsMembers(f, kids, f.gen(x) + 1, g, x);
        if x in Subs(f, kids, f.gen(x) + 1, g) {
          var j :| 0 <= j < |kids| && x in Sub(f, kids[j], g);
          SubLater(f, kids[j], g, x);
        }
      }
      NoDupsAppend([x], Subs(f, kids, f.gen(x) + 1, g));
    }
  }

  /** Distinct parts of one generation have disjoint subtrees. */
  lemma {:induction false} SubsNoDups(f: Forest, xs: seq<nat>, level: int, g: int)
    requires Valid(f) && UniqueParents(f) && level <= g && NoDups(xs)
    requires forall i :: 0 <= i < |xs| ==> f.gen(xs[i]) == level
    ensures NoDups(Subs(f, xs, level, g))
    decreases Measure(g + 1, level), 0, |xs|
  {
    if |xs| > 0 {
      SubNoDups(f, xs[0], g);
      NoDupsSplit([xs[0]], xs[1..]);
      assert [xs[0]] + xs[1..] == xs;
      SubsNoDups(f, xs[1..], level, g);
      forall y | y in Sub(f, xs[0], g) ensures y !in Subs(f, xs[1..], level, g) {
        SubsMembers(f, xs[1..], level, g, y);
        if y in Subs(f, xs[1..], level, g) {
          var j :| 0 <= j < |xs[1..]| && y in Sub(f, xs[1..][j], g);
          SubUniqueRoot(f, xs[0], xs[1..][j], g, y);
        }
      }
      NoDupsAppend(Sub(f, xs[0], g), Subs(f, xs[1..], level, g));
    }
  }

  /** With unique parents and distinct roots of generation 1, the tree list
      holds each part at most once. */
  lemma TreeListNoDups(f: Forest, roots: seq<nat>)
    requires Valid(f) && UniqueParents(f) && NoDups(roots)
    requires forall j :: 0 <= j < |roots| ==> f.gen(roots[j]) == 1
    ensures NoDups(Passes(f, roots, 1))
  {
    TreeIsPreOrder(f, roots);
    SubtreesNoDups(f, roots, LastGeneration);
  }

  lemma {:induction false} SubtreesNoDups(f: Forest, s: seq<nat>, g: int)
    requires Valid(f) && UniqueParents(f) && NoDups(s) && 1 <= g
    requires forall j :: 0 <= j < |s| ==> f.gen(s[j]) == 1
    ensures NoDups(Subtrees(f, s, g))
    decreases |s|
  {
    if |s| > 0 {
      assert Subtrees(f, s, g) == Subs(f, s, 1, g) by {
        SubtreesAreSubs(f, s, g);
      }
      SubsNoDups(f, s, 1, g);
    }
  }

  lemma {:induction false} SubtreesAreSubs(f: Forest, s: seq<nat>, g: int)
    requires Valid(f) && 1 <= g
    requires forall j :: 0 <= j < |s| ==> f.gen(s[j]) == 1
    ensures Subtrees(f, s, g) == Subs(f, s, 1, g)
    decreases |s|
  {
    if |s| > 0 {
      SubtreesAreSubs(f, s[1..], g);
    }
  }
}

=== FILE: treelist.dfy ===
/** The tree list of a part list (`get_sub_bom` / `create_bom_tree_list` in
    web_app/functions/processor.py, `_get_sub_bom` / `set_tree_sorting` in
    web_app/models/bom_processor_methods.py, `_get_sub_bom` /
    `_create_bom_tree_list` in web_app/models.py).

    The three versions read the same four things from each part: the split of
    its position, the length of its parent-id list, its (type, number) sort
    key and its number.  Those readings form a `View`; the parts themselves
    are referred to by their index in the part list, which stands for Python's
    object identity.  The generation of a part is its segment count, its
    children (its "sub-BOM") are the parts one parent id deeper whose leading
    segments are its own, sorted descending, and the tree list is the result
    of the generation passes of module Tree started from the single-segment
    parts sorted by number.
 */
module TreeList {
  import opened Wrappers
  import opened Sorting
  import opened Tree

  /** What the ordering reads from one part: its position segments, the
      number of its parent ids, its sort key and its number (as code points). */
  datatype View = View(segs: seq<string>, depth: nat, key: Key, number: seq<int>)

  /** Python's `segs[:n]`. */
  function Take(segs: seq<string>, n: nat): (r: seq<string>)
    ensures |r| == if n <= |segs| then n else |segs|
    ensures r <= segs
  {
    if n <= |segs| then segs[..n] else segs
  }

  /** Part `y` belongs to the sub-BOM of part `x`: one parent id more, and
      its first `depth(x) + 1` segments are the segments of `x`. */
  predicate IsSub(vs: seq<View>, x: nat, y: nat) {
    && x < |vs| && y < |vs|
    && vs[y].depth == vs[x].depth + 1
    && Take(vs[y].segs, vs[x].depth + 1) == vs[x].segs
  }

  /** A top-level part: its position is one segment. */
  predicate IsRoot(vs: seq<View>, y: nat) {
    y < |vs| && |vs[y].segs| == 1
  }

  predicate Increasing(s: seq<nat>) {
    forall i, j :: 0 <= i < j < |s| ==> s[i] < s[j]
  }

  /** A list comprehension over the part list: the indices from `from` on
      that satisfy `p`, in list order. */
  function Indices(n: nat, from: nat, p: nat -> bool): (r: seq<nat>)
    ensures Increasing(r)
    ensures forall i :: 0 <= i < |r| ==> from <= r[i] < n && p(r[i])
    ensures forall y :: from <= y < n && p(y) ==> y in r
    decreases n - from
  {
    if from >= n then []
    else
      var rest := Indices(n, from + 1, p);
      assert forall i :: 0 <= i < |rest| ==> from < rest[i];
      if p(from) then [from] + rest else rest
  }

  /** The sort key of `get_sub_bom`: (type key, number). */
  function ByKey(vs: seq<View>): nat -> Key {
    (k: nat) => if k < |vs| then vs[k].key else Key([], [])
  }

  /** The sort key of the roots: the number alone. */
  function ByNumber(vs: seq<View>): nat -> Key {
    (k: nat) => if k < |vs| then Key([], vs[k].number) else Key([], [])
  }

  /** The sub-BOM of `x` in list order, before sorting. */
  function Members(vs: seq<View>, x: nat): (r: seq<nat>)
    ensures Increasing(r)
    ensures forall y: nat :: y in r <==> IsSub(vs, x, y)
  {
    var p := (y: nat) => IsSub(vs, x, y);
    var r := Indices(|vs|, 0, p);
    assert forall i :: 0 <= i < |r| ==> p(r[i]);
    r
  }

  /** The single-segment parts in list order, before sorting. */
  function RootMembers(vs: seq<View>): (r: seq<nat>)
    ensures Increasing(r)
    ensures forall y: nat :: y in r <==> IsRoot(vs, y)
  {
    var p := (y: nat) => IsRoot(vs, y);
    var r := Indices(|vs|, 0, p);
    assert forall i :: 0 <= i < |r| ==> p(r[i]);
    r
  }

  /** `get_sub_bom`: the sub-BOM of `x`, sorted descending by (type, number). */
  function SubBom(vs: seq<View>, x: nat): (r: seq<nat>)
    ensures forall y: nat :: y in r <==> IsSub(vs, x, y)
    ensures Sorted(r, ByKey(vs), true)
    ensures multiset(r) == multiset(Members(vs, x))
  {
    var m := Members(vs, x);
    SortSorted(m, ByKey(vs), true);
    var r := Sort(m, ByKey(vs), true);
    assert forall y: nat :: y in r <==> y in multiset(m);
    r
  }

  /** The single-segment parts, sorted ascending by number. */
  function Roots(vs: seq<View>): (r: seq<nat>)
    ensures forall y: nat :: y in r <==> IsRoot(vs, y)
    ensures Sorted(r, ByNumber(vs), false)
    ensures multiset(r) == multiset(RootMembers(vs))
  {
    var m := RootMembers(vs);
    SortSorted(m, ByNumber(vs), false);
    var r := Sort(m, ByNumber(vs), false);
    assert forall y: nat :: y in r <==> y in multiset(m);
    r
  }

  /** The forest the generation passes walk: generation = segment count,
      children = sub-BOM. */
  function ForestOf(vs: seq<View>): Forest {
    Forest((x: nat) => if x < |vs| then |vs[x].segs| else 0,
           (x: nat) => if x < |vs| then SubBom(vs, x) else [])
  }

  /** The tree list, as indices into the part list. */
  function Order(vs: seq<View>): seq<nat> {
    Passes(ForestOf(vs), Roots(vs), 1)
  }

  /** The tree list only holds indices of the part list. */
  lemma OrderBounded(vs: seq<View>)
    ensures forall i :: 0 <= i < |Order(vs)| ==> Order(vs)[i] < |vs|
  {
    KidsBounded(vs);
    RootsBounded(vs);
    PassesBounded(ForestOf(vs), Roots(vs), 1, |vs|);
  }

  /** Every sub-BOM holds indices of the part list. */
  lemma KidsBounded(vs: seq<View>)
    ensures Bounded(ForestOf(vs), |vs|)
  {
    var f := ForestOf(vs);
    forall x: nat, i | 0 <= i < |f.kids(x)| ensures f.kids(x)[i] < |vs| {
      assert IsSub(vs, x, f.kids(x)[i]);
    }
  }

  /** So do the roots. */
  lemma RootsBounded(vs: seq<View>)
    ensures forall i :: 0 <= i < |Roots(vs)| ==> Roots(vs)[i] < |vs|
  {
    var roots := Roots(vs);
    forall i | 0 <= i < |roots| ensures roots[i] < |vs| {
      assert IsRoot(vs, roots[i]);
    }
  }

  /** Every part's parent-id count is one less than its segment count, as
      the parent-id stage leaves it. */
  predicate Consistent(vs: seq<View>) {
    forall x :: 0 <= x < |vs| ==> vs[x].depth + 1 == |vs[x].segs|
  }

  /** No two parts share a position split. */
  predicate Distinct(vs: seq<View>) {
    forall a, b :: 0 <= a < b < |vs| ==> vs[a].segs != vs[b].segs
  }

  /** Part `y` hangs under a chain of present parents reaching a root. */
  ghost predicate Placed(vs: seq<View>, y: nat)
    decreases if y < |vs| then vs[y].depth else 0
  {
    y < |vs| && (|vs[y].segs| == 1 || exists x: nat :: x < |vs| && IsSub(vs, x, y) && Placed(vs, x))
  }

  // ---- the forest is well formed -------------------------------------------

  lemma ForestValid(vs: seq<View>)
    requires Consistent(vs)
    ensures Valid(ForestOf(vs))
  {
    var f := ForestOf(vs);
    forall x, i | 0 <= i < |f.kids(x)| ensures f.gen(f.kids(x)[i]) == f.gen(x) + 1 {
      var y := f.kids(x)[i];
      assert y in SubBom(vs, x);
    }
  }

  lemma RootsGen(vs: seq<View>)
    ensures forall j :: 0 <= j < |Roots(vs)| ==> ForestOf(vs).gen(Roots(vs)[j]) == 1
  {
    var r := Roots(vs);
    forall j | 0 <= j < |r| ensures ForestOf(vs).gen(r[j]) == 1 {
      assert r[j] in r;
    }
  }

  /** A duplicate-free list is one whose multiset counts are at most one. */
  lemma {:induction false} NoDupsCount(s: seq<nat>)
    ensures NoDups(s) <==> forall v :: multiset(s)[v] <= 1
    decreases |s|
  {
    if |s| > 0 {
      NoDupsCount(s[1..]);
      assert s == [s[0]] + s[1..];
      assert multiset(s) == multiset{s[0]} + multiset(s[1..]);
      if NoDups(s) {
        assert NoDups(s[1..]) by {
          forall i, j | 0 <= i < j < |s[1..]| ensures s[1..][i] != s[1..][j] {
            assert s[1..][i] == s[i + 1] && s[1..][j] == s[j + 1];
          }
        }
        forall j | 0 <= j < |s[1..]| ensures s[1..][j] != s[0] {
          assert s[1..][j] == s[j + 1];
        }
      } else {
        var i, j :| 0 <= i < j < |s| && s[i] == s[j];
        if i == 0 {
          assert s[1..][j - 1] == s[0];
          assert multiset(s)[s[0]] >= 2;
        } else {
          assert s[1..][i - 1] == s[1..][j - 1];
          assert !NoDups(s[1..]);
          var v :| multiset(s[1..])[v] > 1;
          assert multiset(s)[v] > 1;
        }
      }
    }
  }

  lemma NoDupsPermutation(a: seq<nat>, b: seq<nat>)
    requires NoDups(a) && multiset(a) == multiset(b)
    ensures NoDups(b)
  {
    NoDupsCount(a);
    NoDupsCount(b);
  }

  lemma IncreasingNoDups(s: seq<nat>)
    requires Increasing(s)
    ensures NoDups(s)
  {
  }

  /** With distinct positions, no part has two parents and no sub-BOM lists a
      part twice. */
  lemma ForestUniqueParents(vs: seq<View>)
    requires Distinct(vs)
    ensures UniqueParents(ForestOf(vs))
  {
    var f := ForestOf(vs);
    forall x: nat, i, j | 0 <= i < j < |f.kids(x)| ensures f.kids(x)[i] != f.kids(x)[j] {
      SubBomNoDups(vs, x);
    }
    forall x1: nat, x2: nat, i, j | 0 <= i < |f.kids(x1)| && 0 <= j < |f.kids(x2)| && f.kids(x1)[i] == f.kids(x2)[j]
      ensures x1 == x2
    {
      SubBomOneParent(vs, x1, x2, f.kids(x1)[i]);
    }
  }

  /** A sub-BOM lists each part at most once. */
  lemma SubBomNoDups(vs: seq<View>, x: nat)
    ensures NoDups(SubBom(vs, x))
  {
    IncreasingNoDups(Members(vs, x));
    NoDupsPermutation(Members(vs, x), SubBom(vs, x));
  }

  /** With distinct positions, a part sits in the sub-BOM of one part only:
      the parent's segments are the child's leading segments. */
  lemma SubBomOneParent(vs: seq<View>, x1: nat, x2: nat, y: nat)
    requires Distinct(vs)
    requires y in SubBom(vs, x1) && y in SubBom(vs, x2)
    ensures x1 == x2
  {
    assert IsSub(vs, x1, y) && IsSub(vs, x2, y);
    assert vs[x1].segs == vs[x2].segs;
  }

  // ---- the ordering ----------------------------------------------------------

  /** The generation passes as the source runs them: a loop over generations
      1 to 19 that inserts each part's sub-BOM right after it.  When every
      pass ends (always, with distinct positions: `OrderHalts`), the result
      is `Order`. */
  method OrderInPlace(vs: seq<View>) returns (s: seq<nat>)
    requires Consistent(vs) && HaltsFrom(ForestOf(vs), Roots(vs), 1)
    ensures s == Order(vs)
  {
    ForestValid(vs);
    s := TreeInPlace(ForestOf(vs), Roots(vs));
  }

  /** The tree list is the pre-order flattening of the forest: each root in
      turn, each followed by the flattened subtrees of its children. */
  lemma OrderIsPreOrder(vs: seq<View>)
    requires Consistent(vs)
    ensures Valid(ForestOf(vs)) && Order(vs) == Subtrees(ForestOf(vs), Roots(vs), LastGeneration)
  {
    ForestValid(vs);
    RootsGen(vs);
    TreeIsPreOrder(ForestOf(vs), Roots(vs));
  }

  /** A listed part is a root, or the child of a listed part with fewer than
      20 segments; its segment count is between 1 and 20. */
  lemma OrderSound(vs: seq<View>, y: nat)
    requires Consistent(vs) && y in Order(vs)
    ensures IsRoot(vs, y) || exists x: nat :: IsSub(vs, x, y) && x in Order(vs) && |vs[x].segs| < LastGeneration
    ensures y < |vs| && 1 <= |vs[y].segs| <= LastGeneration
  {
    var f := ForestOf(vs);
    ForestValid(vs);
    RootsGen(vs);
    TreeListSound(f, Roots(vs), y);
    TreeListDepth(f, Roots(vs), y);
    if y !in Roots(vs) {
      var x, i :| 0 <= i < |f.kids(x)| && f.kids(x)[i] == y && f.gen(x) < LastGeneration && x in Passes(f, Roots(vs), 1);
      assert y in SubBom(vs, x);
    }
  }

  /** Every part whose chain of parents reaches a root and which has at most
      20 segments is listed. */
  lemma {:induction false} OrderComplete(vs: seq<View>, y: nat)
    requires Consistent(vs) && Placed(vs, y) && |vs[y].segs| <= LastGeneration
    ensures y in Order(vs)
    decreases vs[y].depth
  {
    if |vs[y].segs| == 1 {
      RootListed(vs, y);
    } else {
      var x: nat :| x < |vs| && IsSub(vs, x, y) && Placed(vs, x);
      OrderComplete(vs, x);
      ChildListed(vs, x, y);
    }
  }

  /** Every single-segment part is listed. */
  lemma RootListed(vs: seq<View>, y: nat)
    requires Consistent(vs) && IsRoot(vs, y)
    ensures y in Order(vs)
  {
    var f := ForestOf(vs);
    ForestValid(vs);
    RootsGen(vs);
    assert y in Roots(vs);
    TreeListComplete(f, Roots(vs), y, 0);
  }

  /** A child of a listed part is listed when it has at most 20 segments. */
  lemma ChildListed(vs: seq<View>, x: nat, y: nat)
    requires Consistent(vs) && IsSub(vs, x, y) && x in Order(vs) && |vs[y].segs| <= LastGeneration
    ensures y in Order(vs)
  {
    var f := ForestOf(vs);
    ForestValid(vs);
    RootsGen(vs);
    assert y in SubBom(vs, x);
    var i :| 0 <= i < |f.kids(x)| && f.kids(x)[i] == y;
    assert f.gen(x) < LastGeneration;
    TreeListComplete(f, Roots(vs), x, i);
  }

  /** With distinct positions, the tree list holds each part at most once. */
  lemma OrderNoDups(vs: seq<View>)
    requires Consistent(vs) && Distinct(vs)
    ensures NoDups(Order(vs))
  {
    ForestValid(vs);
    ForestUniqueParents(vs);
    RootsGen(vs);
    var m := RootMembers(vs);
    IncreasingNoDups(m);
    NoDupsPermutation(m, Roots(vs));
    TreeListNoDups(ForestOf(vs), Roots(vs));
  }

  /** With distinct positions, every pass of the source's loop ends. */
  lemma OrderHalts(vs: seq<View>)
    requires Consistent(vs) && Distinct(vs)
    ensures HaltsFrom(ForestOf(vs), Roots(vs), 1)
  {
    OrderNoDups(vs);
    NoDupsHalts(ForestOf(vs), Roots(vs), 1);
  }

  /** With distinct positions, every parent present and at most 20 segments,
      the tree list is a permutation of the part list: every part exactly
      once, nothing else. */
  lemma OrderPermutation(vs: seq<View>)
    requires Consistent(vs) && Distinct(vs)
    requires forall y :: 0 <= y < |vs| ==> Placed(vs, y) && |vs[y].segs| <= LastGeneration
    ensures NoDups(Order(vs))
    ensures forall y: nat :: y in Order(vs) <==> y < |vs|
  {
    OrderNoDups(vs);
    forall y: nat ensures y in Order(vs) <==> y < |vs| {
      if y in Order(vs) {
        OrderSound(vs, y);
      }
      if y < |vs| {
        OrderComplete(vs, y);
      }
    }
  }

  /** The children of a part follow it in ascending (type, number) order, and
      children with equal keys in the reverse of their list order: the
      descending sort is stable and the insertion loop reverses it. */
  lemma ChildrenOrder(vs: seq<View>, x: nat, k: Key)
    requires x < |vs|
    ensures Sorted(Reverse(SubBom(vs, x)), ByKey(vs), false)
    ensures multiset(Reverse(SubBom(vs, x))) == multiset(Members(vs, x))
    ensures WithKey(Reverse(SubBom(vs, x)), ByKey(vs), k) == Reverse(WithKey(Members(vs, x), ByKey(vs), k))
  {
    var m := Members(vs, x);
    var r := SubBom(vs, x);
    ReverseSorted(r, ByKey(vs), true);
    ReverseMultiset(r);
    ReverseWithKey(r, ByKey(vs), k);
    SortStable(m, ByKey(vs), true, k);
  }

  /** Roots come in ascending number order, equal numbers in list order. */
  lemma RootsOrder(vs: seq<View>, k: Key)
    ensures Sorted(Roots(vs), ByNumber(vs), false)
    ensures WithKey(Roots(vs), ByNumber(vs), k) == WithKey(RootMembers(vs), ByNumber(vs), k)
  {
    SortStable(RootMembers(vs), ByNumber(vs), false, k);
  }
}

=== FILE: validator.dfy ===
/** The part-list validator (`AbstractPartListValidator.validate_with`,
    `finish_validation` and `PartListValidator.run` in
    web_app/models/processor_validator.py, with the checks and messages of
    web_app/functions/part_list_validator.py).

    `run` checks every quantity, then every position, and never stops early.
    The position check carries the collection-wide delimiter from part to
    part: the first unambiguous delimiter found becomes the established one.
    Each error message is built before its check runs, so the count it
    reports is the length of the list as it was before that check.
 */
module Validator {
  import opened Wrappers
  import opened Text
  import opened Parts
  import opened PositionDelimiter

  /** An error message: its kind and the invalid-part count it reports. */
  datatype Message = QuantityMessage(count: nat) | PositionMessage(count: nat)

  /** The validator's state. */
  datatype Validator = Validator(
    invalidPosition: seq<Part>,
    invalidQuantity: seq<Part>,
    succeeded: bool,
    messages: seq<Message>,
    delimiter: Option<char>)

  /** A freshly constructed validator. */
  const Fresh := Validator([], [], false, [], None)

  /** Strictly increasing indices. */
  predicate Increasing(idx: seq<nat>) {
    forall a, b :: 0 <= a < b < |idx| ==> idx[a] < idx[b]
  }

  /** The parts at the given indices, in that order. */
  function Pick(parts: seq<Part>, idx: seq<nat>): (r: seq<Part>)
    requires forall k :: 0 <= k < |idx| ==> idx[k] < |parts|
    ensures |r| == |idx|
    ensures forall k :: 0 <= k < |idx| ==> r[k] == parts[idx[k]]
  {
    seq(|idx|, k requires 0 <= k < |idx| => parts[idx[k]])
  }

  // ---- the quantity check ---------------------------------------------

  /** The indices, from `offset` on, of the quantities `is_quantity_a_number`
      rejects. */
  function QuantityScan(quantities: seq<string>, offset: nat): (r: seq<nat>)
    ensures forall k :: 0 <= k < |r| ==> offset <= r[k] < offset + |quantities|
    ensures Increasing(r)
    ensures forall i :: 0 <= i < |quantities| ==> (offset + i in r <==> !IsQuantityANumber(quantities[i]))
    decreases |quantities|
  {
    if |quantities| == 0 then []
    else
      var rest := QuantityScan(quantities[1..], offset + 1);
      assert forall i :: 1 <= i < |quantities| ==> quantities[i] == quantities[1..][i - 1];
      (if IsQuantityANumber(quantities[0]) then [] else [offset]) + rest
  }

  /** `validate_with(is_quantity_a_number, 'invalid_quantity_parts', message)`. */
  function ValidateQuantities(v: Validator, parts: seq<Part>, quantityColumn: string): (r: Result<Validator>)
    ensures r.Err? <==> exists i :: 0 <= i < |parts| && Column(parts[i], quantityColumn).Err?
    ensures r.Ok? ==> var qs := Columns(parts, quantityColumn).value;
                      var bad := QuantityScan(qs, 0);
                      && r.value.invalidQuantity == Pick(parts, bad)
                      && r.value.messages == v.messages + (if bad == [] then [] else [QuantityMessage(|v.invalidQuantity|)])
                      && r.value.(invalidQuantity := v.invalidQuantity, messages := v.messages) == v
  {
    var message := QuantityMessage(|v.invalidQuantity|);
    var qs :- Columns(parts, quantityColumn);
    var bad := QuantityScan(qs, 0);
    Ok(v.(invalidQuantity := Pick(parts, bad),
          messages := v.messages + (if bad == [] then [] else [message])))
  }

  // ---- the position check ---------------------------------------------

  /** The delimiter of the first position that has exactly one distinct
      non-digit character. */
  function FirstDelimiter(positions: seq<string>): (r: Option<char>)
    decreases |positions|
  {
    if |positions| == 0 then None
    else if !Ambiguous(positions[0]) && !AllDigits(positions[0]) then Some(FirstNonDigit(positions[0]))
    else FirstDelimiter(positions[1..])
  }

  /** The established delimiter after scanning `positions` from `start`. */
  function EstablishedAfter(positions: seq<string>, start: Option<char>): Option<char> {
    if start.Some? then start else FirstDelimiter(positions)
  }

  /** The fold of `is_position_delimiter_unique` over the positions: the
      indices (from `offset` on) of rejected parts, and the final delimiter. */
  function PositionScan(positions: seq<string>, established: Option<char>, offset: nat): (r: (seq<nat>, Option<char>))
    ensures forall k :: 0 <= k < |r.0| ==> offset <= r.0[k] < offset + |positions|
    ensures Increasing(r.0)
    decreases |positions|
  {
    if |positions| == 0 then ([], established)
    else
      var c := IsPositionDelimiterUnique(established, positions[0]);
      var rest := PositionScan(positions[1..], c.established, offset + 1);
      ((if c.ok then [] else [offset]) + rest.0, rest.1)
  }

  /** One step of the scan moves the established delimiter as
      `EstablishedAfter` says. */
  lemma StepEstablished(established: Option<char>, p: string)
    ensures IsPositionDelimiterUnique(established, p).established == EstablishedAfter([p], established)
  {
    assert [p][1..] == [];
    assert [p][0] == p;
    assert FirstDelimiter([p][1..]) == None;
    if established.None? {
      var c := IsPositionDelimiterUnique(established, p);
      if Ambiguous(p) || AllDigits(p) {
        assert FirstDelimiter([p]) == None;
      } else {
        assert c.ok;
        assert FirstDelimiter([p]) == Some(FirstNonDigit(p));
      }
    }
  }

  /** The final delimiter of the scan is the first delimiter found (or the
      one established before it): once set it never changes. */
  lemma {:induction false} PositionScanDelimiter(positions: seq<string>, established: Option<char>, offset: nat)
    ensures PositionScan(positions, established, offset).1 == EstablishedAfter(positions, established)
    decreases |positions|
  {
    if |positions| > 0 {
      var p := positions[0];
      var c := IsPositionDelimiterUnique(established, p);
      StepEstablished(established, p);
      PositionScanDelimiter(positions[1..], c.established, offset + 1);
    }
  }

  /** A part is rejected exactly when its position disagrees with the
      delimiter established by the parts before it: the position is
      ambiguous, or it has a delimiter different from the first one found. */
  lemma {:induction false} PositionScanRejects(positions: seq<string>, established: Option<char>, offset: nat, i: nat)
    requires i < |positions|
    ensures offset + i in PositionScan(positions, established, offset).0 <==>
            !ValidatorAgrees(EstablishedAfter(positions[..i], established), positions[i])
    decreases |positions|
  {
    var p := positions[0];
    var c := IsPositionDelimiterUnique(established, p);
    if i == 0 {
      ScanHeadMember(positions, established, offset);
      assert positions[..0] == [];
      assert EstablishedAfter([], established) == established;
    } else {
      ScanTailMember(positions, established, offset, i);
      PositionScanRejects(positions[1..], c.established, offset + 1, i - 1);
      assert positions[1..][i - 1] == positions[i];
      assert positions[..i] == [p] + positions[1..][..i - 1];
      EstablishedAfterCons(p, positions[1..][..i - 1], established);
    }
  }

  /** The first position is rejected exactly when its own check fails. */
  lemma ScanHeadMember(positions: seq<string>, established: Option<char>, offset: nat)
    requires |positions| > 0
    ensures offset in PositionScan(positions, established, offset).0 <==>
            !IsPositionDelimiterUnique(established, positions[0]).ok
  {
    var c := IsPositionDelimiterUnique(established, positions[0]);
    var rest := PositionScan(positions[1..], c.established, offset + 1);
    assert offset !in rest.0;
  }

  /** A later position is rejected exactly when the scan of the rest,
      started from the delimiter the first position leaves, rejects it. */
  lemma ScanTailMember(positions: seq<string>, established: Option<char>, offset: nat, j: nat)
    requires 0 < j < |positions|
    ensures offset + j in PositionScan(positions, established, offset).0 <==>
            offset + j in PositionScan(positions[1..], IsPositionDelimiterUnique(established, positions[0]).established, offset + 1).0
  {
    var c := IsPositionDelimiterUnique(established, positions[0]);
    var rest := PositionScan(positions[1..], c.established, offset + 1);
    var head: seq<nat> := if c.ok then [] else [offset];
    assert PositionScan(positions, established, offset).0 == head + rest.0;
    assert offset + j !in head;
  }

  /** Scanning one more position in front moves the established delimiter
      by one step of `is_position_delimiter_unique`. */
  lemma EstablishedAfterCons(p: string, tail: seq<string>, established: Option<char>)
    ensures EstablishedAfter([p] + tail, established) ==
            EstablishedAfter(tail, IsPositionDelimiterUnique(established, p).established)
  {
    var ps := [p] + tail;
    assert ps[0] == p && ps[1..] == tail;
    StepEstablished(established, p);
  }

  /** `validate_with(is_position_delimiter_unique, 'invalid_position_parts', message)`. */
  function ValidatePositions(v: Validator, parts: seq<Part>, positionColumn: string): (r: Result<Validator>)
    ensures r.Err? <==> exists i :: 0 <= i < |parts| && Column(parts[i], positionColumn).Err?
    ensures r.Ok? ==> var ps := Columns(parts, positionColumn).value;
                      var scan := PositionScan(ps, v.delimiter, 0);
                      && r.value.invalidPosition == Pick(parts, scan.0)
                      && r.value.delimiter == EstablishedAfter(ps, v.delimiter)
                      && r.value.messages == v.messages + (if scan.0 == [] then [] else [PositionMessage(|v.invalidPosition|)])
                      && r.value.(invalidPosition := v.invalidPosition, messages := v.messages, delimiter := v.delimiter) == v
  {
    var message := PositionMessage(|v.invalidPosition|);
    var ps :- Columns(parts, positionColumn);
    var scan := PositionScan(ps, v.delimiter, 0);
    PositionScanDelimiter(ps, v.delimiter, 0);
    Ok(v.(invalidPosition := Pick(parts, scan.0), delimiter := scan.1,
          messages := v.messages + (if scan.0 == [] then [] else [message])))
  }

  // ---- run ------------------------------------------------------------

  /** `finish_validation`: succeeded iff both failure lists are empty. */
  function FinishValidation(v: Validator): (r: Validator)
    ensures r.succeeded <==> v.invalidPosition == [] && v.invalidQuantity == []
    ensures r.(succeeded := v.succeeded) == v
  {
    v.(succeeded := v.invalidPosition == [] && v.invalidQuantity == [])
  }

  /** `PartListValidator.run`: the quantity check, then the position check,
      then `finish_validation`. */
  function Run(v: Validator, parts: seq<Part>, positionColumn: string, quantityColumn: string): (r: Result<Validator>)
    ensures r.Err? <==> exists i :: 0 <= i < |parts| &&
                          (Column(parts[i], quantityColumn).Err? || Column(parts[i], positionColumn).Err?)
    ensures r.Ok? ==> (r.value.succeeded <==> r.value.invalidPosition == [] && r.value.invalidQuantity == [])
  {
    var q :- ValidateQuantities(v, parts, quantityColumn);
    var p :- ValidatePositions(q, parts, positionColumn);
    Ok(FinishValidation(p))
  }

  /** Both checks always run: a batch with a bad quantity and a bad position
      yields both failure lists, both messages (quantity first), and no
      success. */
  lemma RunNoShortCircuit(v: Validator, parts: seq<Part>, positionColumn: string, quantityColumn: string)
    requires Run(v, parts, positionColumn, quantityColumn).Ok?
    ensures var r := Run(v, parts, positionColumn, quantityColumn).value;
            var qs := Columns(parts, quantityColumn).value;
            var ps := Columns(parts, positionColumn).value;
            var badQ := QuantityScan(qs, 0);
            var badP := PositionScan(ps, v.delimiter, 0).0;
            && r.invalidQuantity == Pick(parts, badQ)
            && r.invalidPosition == Pick(parts, badP)
            && r.delimiter == EstablishedAfter(ps, v.delimiter)
            && r.messages == v.messages
                             + (if badQ == [] then [] else [QuantityMessage(|v.invalidQuantity|)])
                             + (if badP == [] then [] else [PositionMessage(|v.invalidPosition|)])
            && (r.succeeded <==> badQ == [] && badP == [])
  {
  }

  /** On a fresh validator every message reports 0 invalid parts, however many
      parts failed: the count is taken before the check fills its list. */
  lemma FreshRunReportsZero(parts: seq<Part>, positionColumn: string, quantityColumn: string)
    requires Run(Fresh, parts, positionColumn, quantityColumn).Ok?
    ensures var r := Run(Fresh, parts, positionColumn, quantityColumn).value;
            forall k :: 0 <= k < |r.messages| ==> r.messages[k].count == 0
  {
    RunNoShortCircuit(Fresh, parts, positionColumn, quantityColumn);
  }

  /** A concrete witness: one part whose quantity "x" fails gets a message
      that counts zero invalid parts while the list holds one. */
  lemma StaleCountWitness()
    ensures var part := Part([("Pos.", "1"), ("Qty.", "x")], Unset);
            var r := Run(Fresh, [part], "Pos.", "Qty.");
            && r.Ok?
            && |r.value.invalidQuantity| == 1
            && r.value.messages == [QuantityMessage(0)]
  {
    var part := Part([("Pos.", "1"), ("Qty.", "x")], Unset);
    WitnessColumns(part);
    StaleCountFromColumns(part);
  }

  /** The run over any one part whose columns read "1" and "x". */
  lemma StaleCountFromColumns(part: Part)
    requires Columns([part], "Qty.") == Ok(["x"])
    requires Columns([part], "Pos.") == Ok(["1"])
    ensures var r := Run(Fresh, [part], "Pos.", "Qty.");
            && r.Ok?
            && |r.value.invalidQuantity| == 1
            && r.value.messages == [QuantityMessage(0)]
  {
    WitnessScans();
    RunNoShortCircuit(Fresh, [part], "Pos.", "Qty.");
  }

  /** The witness part's two columns read as "1" and "x". */
  lemma WitnessColumns(part: Part)
    requires part == Part([("Pos.", "1"), ("Qty.", "x")], Unset)
    ensures Columns([part], "Qty.") == Ok(["x"])
    ensures Columns([part], "Pos.") == Ok(["1"])
  {
    assert [part][0] == part;
    assert Column(part, "Qty.") == Ok("x");
    assert Columns([part], "Qty.").Ok?;
    assert Columns([part], "Qty.").value == ["x"];
    assert Column(part, "Pos.") == Ok("1");
    assert Columns([part], "Pos.").Ok?;
    assert Columns([part], "Pos.").value == ["1"];
  }

  /** "x" is rejected as a quantity; "1" is accepted as a position. */
  lemma WitnessScans()
    ensures QuantityScan(["x"], 0) == [0]
    ensures PositionScan(["1"], None, 0).0 == []
  {
    assert "x"[0] == 'x';
    assert !IsQuantityANumber("x");
    assert AllDigits("1");
    assert IsPositionDelimiterUnique(None, "1").ok;
  }

  /** The evidently intended run: each message is built after its check, so
      it counts the parts that check rejected. */
  function RunCorrected(v: Validator, parts: seq<Part>, positionColumn: string, quantityColumn: string): (r: Result<Validator>)
    ensures r.Ok? ==> (r.value.succeeded <==> r.value.invalidPosition == [] && r.value.invalidQuantity == [])
    ensures r.Ok? ==> forall k :: 0 <= k < |r.value.messages| ==>
                        k < |v.messages| ||
                        (r.value.messages[k].QuantityMessage? && r.value.messages[k].count == |r.value.invalidQuantity| > 0) ||
                        (r.value.messages[k].PositionMessage? && r.value.messages[k].count == |r.value.invalidPosition| > 0)
  {
    var qs :- Columns(parts, quantityColumn);
    var q := CountedQuantities(v, parts, qs);
    var ps :- Columns(parts, positionColumn);
    Ok(FinishValidation(CountedPositions(q, parts, ps)))
  }

  /** The quantity check of the corrected run: the rejected parts, then a
      message counting them when there are any.  A separate function only so
      that the proofs about `RunCorrected` stay small. */
  function CountedQuantities(v: Validator, parts: seq<Part>, qs: seq<string>): (q: Validator)
    requires |qs| == |parts|
    ensures q.messages == v.messages + (if q.invalidQuantity == [] then [] else [QuantityMessage(|q.invalidQuantity|)])
    ensures q.invalidPosition == v.invalidPosition
    ensures q.(messages := v.messages) == v.(invalidQuantity := Pick(parts, QuantityScan(qs, 0)))
  {
    var bad := QuantityScan(qs, 0);
    var q := v.(invalidQuantity := Pick(parts, bad));
    q.(messages := q.messages + (if bad == [] then [] else [QuantityMessage(|q.invalidQuantity|)]))
  }

  /** The position check of the corrected run: the rejected parts and the
      delimiter, then a message counting the parts when there are any.  A
      separate function only so that the proofs about `RunCorrected` stay
      small. */
  function CountedPositions(q: Validator, parts: seq<Part>, ps: seq<string>): (p: Validator)
    requires |ps| == |parts|
    ensures p.messages == q.messages + (if p.invalidPosition == [] then [] else [PositionMessage(|p.invalidPosition|)])
    ensures p.invalidQuantity == q.invalidQuantity
    ensures var scan := PositionScan(ps, q.delimiter, 0);
            p.(messages := q.messages) == q.(invalidPosition := Pick(parts, scan.0), delimiter := scan.1)
  {
    var scan := PositionScan(ps, q.delimiter, 0);
    var p := q.(invalidPosition := Pick(parts, scan.0), delimiter := scan.1);
    p.(messages := p.messages + (if scan.0 == [] then [] else [PositionMessage(|p.invalidPosition|)]))
  }

  /** The corrected run agrees with the run as written on everything but the
      message counts. */
  lemma RunCorrectedAgrees(v: Validator, parts: seq<Part>, positionColumn: string, quantityColumn: string)
    ensures RunCorrected(v, parts, positionColumn, quantityColumn).Ok? <==> Run(v, parts, positionColumn, quantityColumn).Ok?
    ensures Run(v, parts, positionColumn, quantityColumn).Ok? ==>
              var a := Run(v, parts, positionColumn, quantityColumn).value;
              var b := RunCorrected(v, parts, positionColumn, quantityColumn).value;
              && a.(messages := []) == b.(messages := [])
              && |a.messages| == |b.messages|
  {
    if Run(v, parts, positionColumn, quantityColumn).Ok? {
      RunNoShortCircuit(v, parts, positionColumn, quantityColumn);
    }
  }
}

=== FILE: wrappers.dfy ===
/** Failure-compatible wrappers shared by every module of the BOM model.

    The Python code signals failure with exceptions; here each exception class
    the core raises (or lets escape from the runtime) becomes one constructor of
    `Error`, and every operation that can raise returns a `Result`.
 */
module Wrappers {

  /** The conventional Some/None datatype, standing for Python's `None`. */
  datatype Option<+T> = None | Some(value: T) {
    predicate IsFailure() {
      None?
    }

    function PropagateFailure<U>(): Option<U>
      requires None?
    {
      None
    }

    function Extract(): T
      requires Some?
    {
      value
    }

    function GetOr(default: T): T {
      match this
      case Some(v) => v
      case None => default
    }
  }

  /** The exceptions the core raises or lets escape. */
  datatype Error =
    | ValueError          // int() on a non-number, list.remove of a missing item, a bad argument
    | IndexError          // `[...][0]` on an empty list
    | TypeError           // iterating over None
    | AttributeError      // getattr of a column the part does not have
    | DelimiterNotUnique  // web_app/exceptions.py: a position with an ambiguous delimiter
    | AttrNotSet          // web_app/exceptions.py: a column-role name left empty
    | QuantityNotDigit    // web_app/exceptions.py: a quantity int() rejects
    | ObjectNotFound      // web_app/exceptions.py: a BOM missing from its manager
    | StopIteration       // the end of an iteration

  /** Either a value or the exception that stopped the computation. */
  datatype Result<+T> = Ok(value: T) | Err(error: Error) {
    predicate IsFailure() {
      Err?
    }

    function PropagateFailure<U>(): Result<U>
      requires Err?
    {
      Err(error)
    }

    function Extract(): T
      requires Ok?
    {
      value
    }
  }

  /** `[f(x) for x in xs]` where `f` may raise: the first exception in list
      order stops the comprehension. */
  function MapAll<T, U>(xs: seq<T>, f: T -> Result<U>): (r: Result<seq<U>>)
    ensures r.Ok? <==> forall j :: 0 <= j < |xs| ==> f(xs[j]).Ok?
    ensures r.Ok? ==> |r.value| == |xs| && forall j :: 0 <= j < |xs| ==> f(xs[j]) == Ok(r.value[j])
    decreases |xs|
  {
    if |xs| == 0 then Ok([])
    else
      match f(xs[0])
      case Err(e) => Err(e)
      case Ok(v) =>
        assert forall j :: 1 <= j < |xs| ==> xs[j] == xs[1..][j - 1];
        match MapAll(xs[1..], f)
        case Err(e) => Err(e)
        case Ok(vs) => Ok([v] + vs)
  }
}
